=== FILE: README.md ===
# IA_Relexion core, modelled in Dafny

This project models the core of IA_Relexion, a console tool that walks a folder
of source files and sends each file to an OpenAI chat model with a configured
prompt. It saves the first part of each answer beside a target file. It also
keeps a per-folder ledger (`.index.json`) of which files were processed, with a
fingerprint of the payload each was processed with. A rerun skips the call when
that fingerprint has not changed. The configuration library the tool uses is
modelled with it: a connection-string parser, the git settings built on top of
it, and the loader that picks configuration files by name and environment.

The model is pure Dafny. Values are immutable datatypes. Every .NET exception
becomes a `Failure` of a `Result`. Mutable objects such as the ledger, the
registry, the prompt builder (`TaskIA`) and the memoised message are state records threaded through
functions. The file system, the CRC-32 routine, file-type detection
and the chat transport are parameters.

Modules, one per component of the source:

- `Wrappers`, `Text`, `Paths`: `Option`/`Result`, the .NET string helpers, and
  `System.IO.Path` on Windows separators.
- `Documents`: `Document` and the multi-source emptiness test.
- `Ledger`, `Registry`, `Traversal`, `Commands`: `FolderIndexDocument`,
  `FolderIndex`, `IndexStore`, `FolderParser.Parse`, and the per-item loop and
  gate of `Commands.Execute`/`Work`.
- `Checksum`: the XOR-folded payload fingerprints.
- `ContentSaving`: `SaveContent` and the file name it derives.
- `Contexts`: the `Context` constructor.
- `IoClassification`: `IOExtension.EvaluateDocument`.
- `Images`: `ImageExtensions`.
- `Chat`, `Messages`, `Options`, `Tasks`: the chat values, `Message`,
  `OpenAIOption`/`OpenAIOptions` and `TaskIA`.
- `Connection`, `GitConfig`: `ConnexionReaderExtension` and `GitConfiguration`.
- `ConfigLoader`, `ConfigExtension`: `FolderConfigurationLoader` and
  `ConfigurationExtension`.

Source cells below are paths inside the IA_Relexion repository.

## Model

| member | source | states |
|---|---|---|
| Documents.Create | src/AILib/Document.cs:10-22 | the fingerprint is taken only when the source has a non-empty full name, and then equals the hasher's answer for it; a hasher failure makes the constructor fail; source and target are kept as given |
| Documents.SourceName | src/AILib/Document.cs:28 | the source's full name, or "" when there is no source |
| Documents.SourceContent | src/AILib/Document.cs:30 | the text read from the source's full name, or "" when there is no source |
| Documents.ToInt32 | src/AILib/Document.cs:32 | the unchecked cast keeps the value modulo 2^32 in the signed 32-bit range, and keeps every value already in that range |
| Documents.SourceLength | src/AILib/Document.cs:32 | 0 without a source; the file length when it fits in 31 bits; always a signed 32-bit value |
| Documents.SourceLengthWraps | src/AILib/Document.cs:32 | a source between 2 GiB and 4 GiB reports a negative length |
| Documents.SourceNameLength | src/AILib/Document.cs:34 | the length of SourceName, so 0 without a source |
| Documents.IsEmpty | src/AILib/Document.cs:48-51 | a document with neither source nor target reports an empty source name and zero lengths |
| Documents.EmptyDocument | src/AILib/Document.cs:8 | Document.Empty is empty and reports an empty name and zero lengths |
| Documents.TargetOnlyNotEmpty | src/AILib/Document.cs:48-51 | a document with a target and no source is not empty under the struct's own IsEmpty |
| Documents.CreatedNotEmpty | src/AILib/Document.cs:10-22 | a document constructed with a source is never empty |
| Documents.SourceSetIsEmpty | src/AILib/Helpers/DocumentExtensions.cs:7-10 | the multi-source IsEmpty is false exactly when there is a non-empty source list and a target |
| Documents.IsEmptyDefinitionsDisagree | src/AILib/Helpers/DocumentExtensions.cs:9 | a target-only document is empty under the extension method and not empty under Document.cs:48-51 |
| Ledger.Map | src/AILib/FolderIndexDocument.cs:11-15 | the entry takes the document's name and length from GetName/GetLength and keeps its hash |
| Ledger.MapIdempotent | src/AILib/FolderIndexDocument.cs:11-15 | mapping the same document twice is mapping it once |
| Ledger.MapForgetsIdentity | src/AILib/FolderIndexDocument.cs:11-15 | after Map, an entry depends on its previous contents only through the hash |
| Ledger.SetHash | src/AILib/FolderIndexDocument.cs:19 | assigning Hash changes the hash and keeps name and length |
| Ledger.MapSetHashCommute | src/AILib/FolderIndexDocument.cs:11-19 | Map and the Hash assignment touch disjoint fields, so either order gives the same entry |
| Ledger.FreshIsBlank | src/AILib/FolderIndexDocument.cs:6-21 | a new entry has no name, hash 0 and no length, and Map keeps hash 0 |
| Ledger.Get | src/AILib/FolderIndex.cs:23-41 | fails exactly when the source file's name is null or empty; otherwise returns the first entry with that name unchanged, or appends one fresh entry and returns it; flag and file are untouched |
| Ledger.GetTwiceAppendsTwice | src/AILib/FolderIndex.cs:29-36 | an appended entry keeps a null name, so asking twice for an unknown document before Map appends two entries |
| Ledger.GetAbsent | src/AILib/FolderIndex.cs:33-36 | a document no entry is named after gets a fresh entry at the end |
| Ledger.GetFindsMapped | src/AILib/FolderIndex.cs:29-31 | once the handed-out entry carries the source name, Get returns that position again and changes nothing |
| Ledger.SetChanged | src/AILib/FolderIndex.cs:47-51 | the flag becomes true on true and is left alone on false; entries and file are untouched |
| Ledger.SetChangedMonotone | src/AILib/FolderIndex.cs:47-51 | over any sequence of calls the flag never goes back to false, and ends true exactly when it started true or some call passed true |
| Ledger.Save | src/AILib/FolderIndex.cs:53-57 | fails (null File) exactly when no file is bound; otherwise clears the flag and keeps entries and file |
| Ledger.SaveIdempotent | src/AILib/FolderIndex.cs:53-57 | saving a bound ledger twice is saving it once |
| Ledger.EmptyIndexIsClean | src/AILib/FolderIndex.cs:59 | FolderIndex.Empty has no entries, a clear flag and no file |
| Registry.SidecarPath | src/AILib/IndexStore.cs:19 | the sidecar path exists exactly when the target file has a directory |
| Registry.SidecarInTargetDirectory | src/AILib/IndexStore.cs:19 | the sidecar is named ".index.json" and lies under the target file's directory |
| Registry.Open | src/AILib/IndexStore.cs:23-27 | a new ledger is clean; with no sidecar on disk it is empty and bound to the sidecar; with one it holds the loaded entries and is bound only when binding is asked for |
| Registry.Key | src/AILib/IndexStore.cs:12 | the dictionary key of a sidecar path has its length and upper-cases each of its characters, as an OrdinalIgnoreCase comparer compares |
| Registry.SameKeyIff | src/AILib/IndexStore.cs:12 | two sidecar paths share a key exactly when they have the same length and agree character by character after upper-casing |
| Registry.Register | src/AILib/IndexStore.cs:21-33 | the handed-out key is the case-folded sidecar path; an already registered key leaves the store unchanged; a new key adds exactly that ledger at the end of the enumeration order; other ledgers and the disposed flag are untouched |
| Registry.RegisterWf | src/AILib/IndexStore.cs:21-31 | registering keeps the enumeration order listing every key exactly once |
| Registry.RegisterGrows | src/AILib/IndexStore.cs:21-31 | registering only adds keys and extends the enumeration order |
| Registry.Resolve | src/AILib/IndexStore.cs:16-35 | fails exactly when the target has no directory (the null Directory dereference); otherwise registers the sidecar |
| Registry.GetOrCreateAsWritten | src/AILib/IndexStore.cs:16-35 | as written: a ledger newly loaded from an existing sidecar is handed out with no file |
| Registry.GetOrCreate | src/AILib/IndexStore.cs:16-35 | corrected: every newly registered ledger is bound to its sidecar; the disposed flag is kept |
| Registry.ResolveRepeat | src/AILib/IndexStore.cs:21 | asking again for the same target returns the same ledger and changes nothing |
| Registry.ResolveIgnoresCase | src/AILib/IndexStore.cs:12 | targets whose sidecar paths differ only in case share one ledger |
| Registry.GetOrCreateKeepsBound | src/AILib/IndexStore.cs:23-27 | with the correction, a store whose ledgers are all bound stays so |
| Registry.FailAt | src/AILib/IndexStore.cs:41-43 | the first position in enumeration order whose ledger is dirty and has no file, or the end |
| Registry.DirtyKeys | src/AILib/IndexStore.cs:41-43 | exactly the dirty keys between two positions of the enumeration order |
| Registry.SaveAll | src/AILib/IndexStore.cs:38-45 | fails exactly when some dirty ledger has no file; every ledger keeps entries and file; a ledger ends dirty exactly when it was dirty and was not written; only dirty, savable ledgers are written |
| Registry.SaveAllStopsAtFailure | src/AILib/IndexStore.cs:41-43 | a dirty ledger is written (and ends clean) exactly when it comes before the first stuck one in enumeration order |
| Registry.SaveAllSucceeds | src/AILib/IndexStore.cs:38-45 | saving succeeds exactly when no ledger is stuck, and then writes exactly the dirty ledgers and leaves all clean |
| Registry.SaveAllBound | src/AILib/IndexStore.cs:38-45 | a store whose ledgers are all bound always saves |
| Registry.SaveAllTwice | src/AILib/IndexStore.cs:38-45 | after a successful save, saving again writes nothing and changes nothing |
| Registry.CleanSavesNothing | src/AILib/IndexStore.cs:41-43 | saving a store with no dirty ledger writes nothing and changes nothing |
| Registry.Dispose | src/AILib/IndexStore.cs:51-70 | the first call flushes and marks the store disposed only if the flush succeeds, keeping the saves made before a throw; a disposed store is left alone |
| Registry.DisposeIdempotent | src/AILib/IndexStore.cs:53-61 | after a successful dispose, disposing again does nothing |
| Registry.LoadedLedgerCannotBeSaved | src/AILib/IndexStore.cs:24-25 | as written, a ledger loaded from an existing sidecar that becomes dirty makes the store's save fail |
| Registry.LoadedLedgerSaves | src/AILib/IndexStore.cs:24-27 | with the correction, the same calls save |
| Traversal.EffectivePattern | src/AILib/FolderParser.cs:21-22 | a null or empty pattern becomes "*.*"; any other pattern is kept |
| Traversal.EffectiveGenerator | src/AILib/FolderParser.cs:18-19 | a missing generator appends ".txt" to the name; a given one is used as is |
| Traversal.RelativeFolder | src/AILib/FolderParser.cs:40 | no directory gives ""; the Substring fails exactly when the root is longer than the directory; otherwise the rest of the directory with '\\' trimmed from both ends |
| Traversal.TargetPath | src/AILib/FolderParser.cs:40-46 | fails exactly when the relative folder does; otherwise target root, relative folder and generated name combined |
| Traversal.TargetPathName | src/AILib/FolderParser.cs:43-46 | a plain generated name is the file name of the target path |
| Traversal.TargetPathUnderRoot | src/AILib/FolderParser.cs:40-46 | with relative parts, the target path lies under the target root |
| Traversal.TargetFile | src/AILib/FolderParser.cs:46-47 | the target FileInfo has the derived target path as its full name |
| Traversal.Build | src/AILib/FolderParser.cs:50-64 | the document is Document.Empty (constructor threw an IOException) or has the file as source and the target as target |
| Traversal.Contribution | src/AILib/FolderParser.cs:50-67 | fails exactly when the target has no directory; a yielded item has the source, the target, the key of the target's ledger and is not empty |
| Traversal.Plan | src/AILib/FolderParser.cs:36-67 | a missing or hidden file contributes nothing; a contribution comes from an accepted file with a derivable target |
| Traversal.PlannedDocument | src/AILib/FolderParser.cs:43-67 | a yielded document comes from the source file, points at the derived target path and is not empty |
| Traversal.FingerprintFailureDrops | src/AILib/FolderParser.cs:57-67 | a file whose fingerprint raises an IOException is dropped, not yielded |
| Traversal.Expected | src/AILib/FolderParser.cs:33-71 | each enumerated file contributes at most one document, so a walk yields no more documents than files |
| Traversal.FlushPrevious | src/AILib/FolderParser.cs:53-55 | only the previous ledger can change, and only when the walk moved to another ledger and it was dirty; it then ends clean with its entries; fails exactly when that ledger has no file |
| Traversal.Step | src/AILib/FolderParser.cs:50-67 | a step without exception yields exactly the file's contribution and remembers a registered ledger; the store only grows |
| Traversal.StepFlush | src/AILib/FolderParser.cs:53-54 | moving to another ledger saves the previous dirty one with its entries; staying keeps its flag |
| Traversal.StepStuck | src/AILib/FolderParser.cs:51-54 | as written, moving on from a dirty ledger loaded from an existing sidecar throws (null File) |
| Traversal.Advance | src/AILib/FolderParser.cs:36-67 | a missing or hidden file changes nothing; without exception the item is the file's planned contribution; the store only grows |
| Traversal.Walk | src/AILib/FolderParser.cs:32-73 | the documents yielded are a prefix of the expected ones, all of them when the walk runs to the end; a consumer that stops early stops the walk before the final save |
| Traversal.WalkStore | src/AILib/FolderParser.cs:32-73 | the walk only registers ledgers; a complete walk without exception leaves every ledger clean; an exception from the final save is an unbound dirty ledger |
| Traversal.WalkEndStuck | src/AILib/FolderParser.cs:73 | as written, a walk that ends with a dirty ledger loaded from an existing sidecar throws from the final save and leaves it dirty |
| Traversal.Parse | src/AILib/FolderParser.cs:11-75 | a null target folder throws ArgumentNull; otherwise the yielded documents are a prefix of the expected ones for the effective pattern and generator, all of them on a complete walk |
| Traversal.ParseStore | src/AILib/FolderParser.cs:11-75 | a parse only registers ledgers, leaves every ledger clean when it completes without exception, and a failure after the end is the unbound-ledger NullReferenceException |
| Commands.SourceFiles | src/ConsoleAI/Commands.cs:184-185 | the files attached for a document: its source, when it has one |
| Commands.Attachments | src/ConsoleAI/Commands.cs:184-185 | one attached-document message per source file, in order; fails with FileNotFound exactly when some file is missing |
| Commands.Payload | src/ConsoleAI/Commands.cs:180-187 | the messages sent are the service's pre messages, the prompt, the attachments and the service's post messages, in that order; fails exactly when an attachment does |
| Commands.Work | src/ConsoleAI/Commands.cs:166-221 | a document without target gives false; the model is called only when the payload fingerprint differs from the reference; on success the entry is mapped and records the payload fingerprint; otherwise the entry is unchanged |
| Commands.WorkRecordsText | src/ConsoleAI/Commands.cs:191-206 | a text answer to a changed payload is saved and the entry then records the payload fingerprint |
| Commands.ProcessItem | src/ConsoleAI/Commands.cs:145-155 | an item without target is passed over; otherwise the entry Get hands out gives the gate's reference and the outcome is Work's; on success Work's entry is written back at its position and the ledger becomes dirty exactly when it was or the answer was saved; when Work raises, the ledger keeps what Get did to it, an appended blank entry included, with its flag unchanged |
| Commands.FailedItemKeepsBlankEntry | src/AILib/FolderIndex.cs:33-36 | a document the ledger does not know, whose attached file is missing, raises FileNotFound and leaves the ledger with one blank entry appended |
| Commands.RerunSkips | src/ConsoleAI/Commands.cs:134-155 | a document processed successfully is skipped on the next run with an unchanged payload: the gate stays closed and the ledger is unchanged |
| Commands.ZeroPayloadSkipsNewEntry | src/ConsoleAI/Commands.cs:133-149 | with no special case for 0, a new document whose payload fingerprint is 0 is never sent |
| Commands.Visit | src/ConsoleAI/Commands.cs:144-160 | the loop body only updates the item's own ledger, storing it as ProcessItem left it whether Work succeeded or raised, logs the run or the exception, and asks for the next item exactly when nothing was raised |
| Commands.FailedVisitKeepsBlankEntry | src/ConsoleAI/Commands.cs:148-155 | a failed item on an already dirty ledger stops the loop and leaves that ledger dirty with Get's blank entry appended, ready for the store's flush |
| Commands.ProcessedUnboundLedgerIsStuck | src/ConsoleAI/Commands.cs:148-155 | as written, a successful item on a ledger loaded from an existing sidecar leaves that ledger dirty with no file |
| Commands.Service | src/ConsoleAI/Commands.cs:104 | the service is looked up by name in the Azure service list; no name finds nothing |
| Commands.Walked | src/ConsoleAI/Commands.cs:111-160 | the walk only registers ledgers, and leaves them clean when it completes without exception |
| Commands.RunLoop | src/ConsoleAI/Commands.cs:111-162 | the store is flushed on every path out of the using block, with every ledger's entries as the walk left them, blank entries of failed items included: when it can be flushed it ends disposed and clean and the walk's own exception (or the loop's) is raised; otherwise Dispose throws the unbound-ledger exception and the store stays undisposed |
| Commands.Execute | src/ConsoleAI/Commands.cs:98-164 | no Azure options, an unknown service and an empty endpoint each throw; the All strategy processes and saves nothing; a run that raises nothing leaves the store disposed and every ledger saved; any other run is the using block of RunLoop, so a raised run flushes the entries the loop left |
| Contexts.FirstToken | src/ConsoleAI/Context.cs:84 | the first space-separated token holds no space |
| Contexts.FirstTokenPrefix | src/ConsoleAI/Context.cs:84 | the first token is a prefix of the pattern, and the whole pattern when it holds no space |
| Contexts.ParsePattern | src/ConsoleAI/Context.cs:75-91 | a null or blank pattern gives "*.*" and FileByFile; the normalised pattern ending in "-folder" gives ByFolder, else ending in "-all" gives All, both with its first token as pattern; otherwise the pattern is kept verbatim with FileByFile |
| Contexts.NormalizedPlain | src/ConsoleAI/Context.cs:80 | lower-case printable ASCII is unchanged by lower-casing and trimming |
| Contexts.GluedSuffixStays | src/ConsoleAI/Context.cs:80-85 | "*.cs-folder" selects ByFolder and keeps the suffix in the pattern |
| Contexts.SpacedSuffixDropped | src/ConsoleAI/Context.cs:80-85 | "*.cs -folder" selects ByFolder with pattern "*.cs" |
| Contexts.ClassifyTarget | src/ConsoleAI/Context.cs:18-39 | a file target sets the target file (its full name from the current directory) and its directory; a folder target sets only the directory; anything else sets neither; it fails (null Directory) exactly for a file whose full name has no separator |
| Contexts.FileTargetInItsDirectory | src/ConsoleAI/Context.cs:21-26 | the target directory is the target file's parent: directory, separator and file name give the file back |
| Contexts.BareFileTargetInCurrentDirectory | src/ConsoleAI/Context.cs:21-26 | a bare file name such as "out.md" names a file of the current directory, which becomes the target directory |
| Contexts.PromptPath | src/ConsoleAI/Context.cs:66-68 | a prompt starting with "file:" in lower case names the trimmed rest in the prompts folder; no other prompt does |
| Contexts.ResolvePrompt | src/ConsoleAI/Context.cs:66-71 | a "file:" prompt whose file exists is replaced by its text; any other prompt is kept; a null prompt throws |
| Contexts.NewContext | src/ConsoleAI/Context.cs:15-96 | succeeds exactly when the target classifies and the prompt is not null; then sets every property: config folder (or the current directory), "Prompts" under it, empty source lists for null, ".txt", the service name, the resolved prompt and its CRC-32, and pattern and strategy as ParsePattern |
| Contexts.HashFollowsPrompt | src/ConsoleAI/Context.cs:73 | two runs with the same final prompt have the same prompt fingerprint |
| IoClassification.EvaluateDocument | src/AILib/Helpers/IOExtension.cs:7-34 | a file exactly when the path exists as a file, or exists as neither, has no trailing separator and has an extension; a folder exactly when it is not a file and exists as a folder or ends with a separator; nothing for null, "" or a probe that throws |
| IoClassification.ClassifyByShape | src/AILib/Helpers/IOExtension.cs:22-26 | a path that exists as neither is classified by its trailing separator, then by its extension |
| IoClassification.SameAnswersSameKind | src/AILib/Helpers/IOExtension.cs:16-19 | only the path itself is probed: two filesystems that answer alike for it classify it alike |
| IoClassification.SeparatorMeansNoExtension | src/AILib/Helpers/IOExtension.cs:22-26 | a path ending in a separator has no extension, so the two shape rules never compete |
| Checksum.XorFold | src/AILib/Configurations/ChatMessages.cs:28-31 | the XOR fold starting from 0: 0 for no items, the item's own hash for one |
| Checksum.XorFoldAppend | src/AILib/Configurations/ChatMessages.cs:28-31 | the fold of a concatenation is the XOR of the folds |
| Checksum.XorFoldPermutation | src/AILib/Configurations/ChatMessages.cs:28-31 | the fold does not depend on the order of the items |
| Checksum.XorFoldUpdate | src/AILib/Configurations/ChatMessages.cs:28-31 | replacing one item changes the fold by exactly the XOR of the old and new item hashes |
| Checksum.PartHash | src/AILib/Helpers/ChatMessageContentPartExtension.cs:24-40 | non-empty text hashes to its CRC-32; otherwise image bytes hash to theirs; otherwise 0 |
| Checksum.PartHashTextOnly | src/AILib/Helpers/ChatMessageContentPartExtension.cs:27-28 | a part with non-empty text hashes by its text alone |
| Checksum.PartHashBlank | src/AILib/Helpers/ChatMessageContentPartExtension.cs:33-38 | a part with neither text nor image bytes hashes to 0 |
| Checksum.ContentHash | src/AILib/Helpers/ChatMessageContentPartExtension.cs:13-22 | an empty content hashes to 0 and a one-part content to that part's hash |
| Checksum.MessagesHash | src/AILib/Configurations/ChatMessages.cs:26-33 | no messages hash to 0 and one message to its content's hash |
| Checksum.GetContentHash | src/AILib/Helpers/ChatMessageContentPartExtension.cs:13-22 | the loop as written computes the XOR of the part hashes |
| Checksum.GetMessagesHash | src/AILib/Configurations/ChatMessages.cs:26-33 | the loop as written computes the XOR of the content hashes |
| Checksum.MessagesHashReorder | src/AILib/Configurations/ChatMessages.cs:28-31 | reordering the messages leaves the payload fingerprint unchanged |
| Checksum.MessagesHashConcat | src/AILib/Configurations/ChatMessages.cs:28-31 | the fingerprint of two lists put together is the XOR of their fingerprints |
| Checksum.ContentHashReorder | src/AILib/Helpers/ChatMessageContentPartExtension.cs:16-18 | reordering the parts of a content leaves its hash unchanged |
| Checksum.ContentHashConcat | src/AILib/Helpers/ChatMessageContentPartExtension.cs:16-18 | the hash of two contents put together is the XOR of their hashes |
| Checksum.MessagesHashIgnoresRoles | src/AILib/Configurations/ChatMessages.cs:29-30 | only message contents count: lists with the same contents in order hash alike whatever the roles |
| Checksum.MessagesHashDuplicateCancels | src/AILib/Configurations/ChatMessages.cs:29-30 | a message added twice cancels out of the fingerprint |
| Checksum.MessagesHashUpdate | src/AILib/Configurations/ChatMessages.cs:29-30 | changing one message changes the fingerprint by exactly the XOR of its old and new content hashes |
| ContentSaving.ImageExtension | src/AILib/Helpers/ChatMessageContentPartExtension.cs:99 | a missing media type dereferences null; a resolved extension is one of the supported ones |
| ContentSaving.SaveInDirectory | src/AILib/Helpers/ChatMessageContentPartExtension.cs:74-110 | the result is true exactly for a text part, which is written with its text; a part without text is written exactly when it has image bytes |
| ContentSaving.EffectiveName | src/AILib/Helpers/ChatMessageContentPartExtension.cs:66-72 | the given name, else the image URI's local path, else ArgumentNull |
| ContentSaving.SaveToDirectoryAsWritten | src/AILib/Helpers/ChatMessageContentPartExtension.cs:57-112 | as written: a null part or directory throws ArgumentNull; the result is true exactly for a text part |
| ContentSaving.SaveToDirectory | src/AILib/Helpers/ChatMessageContentPartExtension.cs:57-112 | corrected: the same checks, a missing name without image URI throws ArgumentNull, and the result is true exactly for a text part |
| ContentSaving.SaveToPath | src/AILib/Helpers/ChatMessageContentPartExtension.cs:44-55 | a null part or a null or empty path throws ArgumentNull; otherwise it is the directory overload as written |
| ContentSaving.PathDropsExtension | src/AILib/Helpers/ChatMessageContentPartExtension.cs:53 | through the path overload too, text saved as "a.md" in "out" goes to "out\\a" |
| ContentSaving.DirectoryTextWithoutExtension | src/AILib/Helpers/ChatMessageContentPartExtension.cs:84-92 | text saved under a plain name without extension goes to dir\\name.txt |
| ContentSaving.DirectoryDropsExtension | src/AILib/Helpers/ChatMessageContentPartExtension.cs:74-92 | as written, text saved as "a.md" in "out" goes to "out\\a": the extension is lost |
| ContentSaving.DirectoryKeepsExtension | src/AILib/Helpers/ChatMessageContentPartExtension.cs:74-104 | corrected: a part saved under a name with an extension is written to dir\\name |
| ContentSaving.SaveWithExtension | src/AILib/Helpers/ChatMessageContentPartExtension.cs:74-104 | corrected: a name with an extension is written as stem plus that extension in the directory |
| ContentSaving.SaveToFile | src/AILib/Helpers/ChatMessageContentPartExtension.cs:114-175 | a null part throws; a target without directory fails; the result is true exactly for a text part, which is always written when the target has a directory |
| ContentSaving.FileTextWithoutExtension | src/AILib/Helpers/ChatMessageContentPartExtension.cs:120-143 | text for a target without extension is written to dir\\name.txt and that path is reported |
| ContentSaving.FileTextWithExtension | src/AILib/Helpers/ChatMessageContentPartExtension.cs:120-147 | text for a target with an extension is written to the target itself, while the reported name lacks the extension |
| ContentSaving.ImageNotReported | src/AILib/Helpers/ChatMessageContentPartExtension.cs:152-173 | an image part is written as bytes yet reported as not saved |
| Images.MediaTypeOfExtension | src/AILib/Helpers/ImageExtensions.cs:19-30 | succeeds exactly for the six supported extensions after lower-casing, with a supported media type; anything else is NotSupported |
| Images.ExtensionOfMediaType | src/AILib/Helpers/ImageExtensions.cs:32-43 | succeeds exactly for the five supported media types after lower-casing, with a supported extension other than ".jpeg"; anything else is NotSupported |
| Images.SupportedAreLower | src/AILib/Helpers/ImageExtensions.cs:23-40 | the supported names are unchanged by lower-casing |
| Images.MediaTypeRoundTrip | src/AILib/Helpers/ImageExtensions.cs:19-43 | media type to extension and back gives the media type |
| Images.ExtensionRoundTrip | src/AILib/Helpers/ImageExtensions.cs:19-43 | extension to media type and back gives the extension, except ".jpeg", which comes back as ".jpg" |
| Images.LookupsIgnoreCase | src/AILib/Helpers/ImageExtensions.cs:21-34 | inputs equal after lower-casing resolve alike |
| Images.LoadImage | src/AILib/Helpers/ImageExtensions.cs:7-17 | a missing file throws FileNotFound; otherwise it succeeds exactly when the extension is supported, with the file's bytes and a supported media type |
| Messages.NewMessageDefaults | src/AILib/Configurations/Message.cs:13-22 | a new message is a Pre, system message with no lines and an empty text |
| Messages.SetTexts | src/AILib/Configurations/Message.cs:22 | replacing the lines keeps position, kind and the cached text |
| Messages.ReadText | src/AILib/Configurations/Message.cs:38-46 | the first read joins the lines with the newline separator and caches the result; a later read returns the cache and changes nothing |
| Messages.ReadTextStable | src/AILib/Configurations/Message.cs:42-44 | a second read returns what the first returned |
| Messages.FreshText | src/AILib/Configurations/Message.cs:43 | a fresh message reads as its lines joined by the newline separator; a single line reads as itself |
| Messages.TextIsStale | src/AILib/Configurations/Message.cs:42-44 | once read, the text no longer follows later changes to the lines |
| Messages.StaleExample | src/AILib/Configurations/Message.cs:42-44 | a message read with lines ["a"] still reads "a" after its lines become ["b"] |
| Messages.CreateUserMessage | src/AILib/Configurations/Message.cs:48-51 | a user message with the text as its single part |
| Messages.CreateSystemMessage | src/AILib/Configurations/Message.cs:152-155 | a system message with the text as its single part |
| Messages.CreateUserImageFromUri | src/AILib/Configurations/Message.cs:108-111 | a user message whose single part refers to the image by its URI |
| Messages.CreateUserImage | src/AILib/Configurations/Message.cs:118-122 | fails exactly when loading "images/diagramme.png" fails; otherwise a user message with that file's bytes and a supported media type |
| Messages.CreateUserImageIgnoresPath | src/AILib/Configurations/Message.cs:118-122 | the path argument plays no part: every path gives the same message |
| Messages.RoleOf | src/AILib/Configurations/Message.cs:27-34 | user and assistant kinds keep their roles; every other kind becomes a system message, never a tool or function one |
| Messages.GetMessage | src/AILib/Configurations/Message.cs:24-36 | the text read (and cached) becomes the single part; user gives a user message, assistant an assistant message, anything else a system message |
| Messages.GetMessageContentIgnoresKind | src/AILib/Configurations/Message.cs:27-34 | the converted content does not depend on the message's kind |
| Messages.CreateUserMessageFromFile | src/AILib/Configurations/Message.cs:53-73 | a null or empty path throws ArgumentNull, a missing file FileNotFound; otherwise the file's text as a user message |
| Messages.AttachedText | src/AILib/Configurations/Message.cs:83-87 | the framed text is the header line, the content and the closing lines, with nothing added |
| Messages.AttachedTextFrames | src/AILib/Configurations/Message.cs:83-87 | the framing starts with "```  -- file : " and the name, ends with the closing fence and a blank line, and the content is recovered between them |
| Messages.CreateUserTextAttachedDocument | src/AILib/Configurations/Message.cs:75-91 | fails with FileNotFound exactly for a missing file; otherwise the fenced text of the file as a user message |
| Messages.DocumentText | src/AILib/Configurations/Message.cs:98-102 | the framed text is the header line, the content and the end lines, with nothing added |
| Messages.DocumentTextFrames | src/AILib/Configurations/Message.cs:98-102 | the framing starts with "-- file : " and the name, ends with "-- end file : ", the name and a blank line, and the content is recovered between them |
| Messages.CreateUserTextDocument | src/AILib/Configurations/Message.cs:93-106 | fails with FileNotFound exactly for a missing file; otherwise the framed text of the file as a user message |
| Messages.SlideTextSplits | src/AILib/Configurations/Message.cs:132 | the item is what follows the first line feed of "Slide {i+1}:\n" and the item |
| Messages.Slides | src/AILib/Configurations/Message.cs:129-134 | one user message per item, in order, the i-th prefixed with slide number i+1 |
| Messages.CreatePptx | src/AILib/Configurations/Message.cs:124-136 | one user message per extracted slide text, in order, numbered from 1 |
| Messages.CreateWord | src/AILib/Configurations/Message.cs:138-150 | one user message per extracted Word item, in order, numbered from 1 |
| Options.NewOptionDefaults | src/AILib/Configurations/OpenAIOption.cs:17-35 | a new option has an empty name and endpoint, model "gpt-4o" and no messages |
| Options.Collect | src/AILib/Configurations/OpenAIOption.cs:114-125 | one pass sends at most one message per configured message; every message at the position has its text read and cached, the others are untouched |
| Options.CollectOne | src/AILib/Configurations/OpenAIOption.cs:116-117 | a configured message is sent, as its SDK message, exactly when it is at the position and its text is not blank |
| Options.CollectConcat | src/AILib/Configurations/OpenAIOption.cs:114-118 | the pass keeps configuration order: collecting a concatenation concatenates |
| Options.CollectRepeat | src/AILib/Configurations/OpenAIOption.cs:114-125 | reading texts never changes what a later pass sends |
| Options.Sent | src/AILib/Configurations/OpenAIOption.cs:116-124 | no more configured messages are sent than there are |
| Options.CollectCount | src/AILib/Configurations/OpenAIOption.cs:114-125 | every configured message that qualifies is sent exactly once |
| Options.GetChatMessages | src/AILib/Configurations/OpenAIOption.cs:109-129 | the pre messages in configuration order, then what the action leaves, then the post messages; without an action, pre then post; name, endpoint and model are untouched |
| Options.AppendingAction | src/AILib/Configurations/OpenAIOption.cs:120-121 | an action that appends puts its messages between the pre and the post messages |
| Options.NoActionSendsConfigured | src/AILib/Configurations/OpenAIOption.cs:114-127 | without an action the output holds exactly the qualifying configured messages, each once |
| Options.GetChatMessagesRepeat | src/AILib/Configurations/OpenAIOption.cs:109-129 | building the messages twice gives the same list |
| Options.FirstNamed | src/AILib/Configurations/OpenAIOptions.cs:19 | the first position whose option carries the name, or the end |
| Options.Get | src/AILib/Configurations/OpenAIOptions.cs:19 | the first option with the name, or null exactly when no option has it |
| Options.SetAsWritten | src/AILib/Configurations/OpenAIOptions.cs:20-39 | as written: an absent key ignores null and appends any other value whatever its name; a present key removes the first match on null and otherwise changes nothing |
| Options.Set | src/AILib/Configurations/OpenAIOptions.cs:20-39 | corrected: as written, except that a value for a present key replaces the first match |
| Options.SetThenGet | src/AILib/Configurations/OpenAIOptions.cs:19-39 | corrected: an option stored under its own name is read back |
| Options.RemoveUnique | src/AILib/Configurations/OpenAIOptions.cs:29-34 | removing a key named once leaves no option of that name |
| Options.SetDoesNotReplace | src/AILib/Configurations/OpenAIOptions.cs:29-37 | as written, storing another option under a present key is lost: the getter still returns the old one |
| Options.SetUnderOtherName | src/AILib/Configurations/OpenAIOptions.cs:24-27 | as written, an option appended under a key other than its name is not found under that key |
| Connection.KeyName | src/Black.Beard.Configurations/Gits/ConnexionReaderExtension.cs:445-453 | a key name is the buffer's characters lower-cased up to its trailing white space, with no white space left at its end |
| Connection.KeyValue | src/Black.Beard.Configurations/Gits/ConnexionReaderExtension.cs:455-471 | an untrimmed value is the buffer itself; a trimmed value of a buffer starting with a visible character is a non-empty prefix of it ending in a visible character |
| Connection.AtKeyEnd | src/Black.Beard.Configurations/Gits/ConnexionReaderExtension.cs:549-571 | after the '=' white space is skipped; an opening quote (or ODBC brace) starts a quoted value; ';' or NUL ends the pair with no value; any other control character is a syntax error at the pair's start; any other character starts an unquoted value; the key and start are kept |
| Connection.AtQuotedValueEnd | src/Black.Beard.Configurations/Gits/ConnexionReaderExtension.cs:622-629 | after a closing quote, white space is skipped, NUL moves to the null-termination state and ';' ends the pair with the scan unchanged; any other character is a syntax error at the pair's start |
| Connection.Next | src/Black.Beard.Configurations/Gits/ConnexionReaderExtension.cs:505-641 | reading one character ends the pair only after a key was started and only at ';', NUL or a control character |
| Connection.Finish | src/Black.Beard.Configurations/Gits/ConnexionReaderExtension.cs:643-692 | at the loop's exit a key still being read, an open quote or an open brace is a syntax error at the pair's start; a key ending at '=' fails exactly when its name is empty; an unquoted value is trimmed and, outside ODBC rules, fails exactly when the trimmed value ends in a quote; a closed quoted value is kept as read; the next position is just past a ';' |
| Connection.RunFacts | src/Black.Beard.Configurations/Gits/ConnexionReaderExtension.cs:491-693 | a pair read from a position moves forward, stops at the end, after a ';' or at NUL or a control character, and reads no key only when the rest is junk (';', NUL, white space) |
| Connection.GetKeyValuePair | src/Black.Beard.Configurations/Gits/ConnexionReaderExtension.cs:491-693 | the next position lies within the string and past the start; a key read is never empty; no key is read only when the rest of the string is separators and white space |
| Connection.Pairs | src/Black.Beard.Configurations/Gits/ConnexionReaderExtension.cs:843-884 | the chain read spans no more than the string; every pair spans at least one character and carries a valid key name; an invalid key name is KeywordNotSupported |
| Connection.Put | src/Black.Beard.Configurations/Gits/ConnexionReaderExtension.cs:870-873 | storing a pair adds its key and leaves every other key as it was; under ODBC rules a key already present keeps its value, otherwise the key takes the pair's value |
| Connection.Load | src/Black.Beard.Configurations/Gits/ConnexionReaderExtension.cs:870-873 | the table holds exactly the keys named by the chain, plus the ones it started with |
| Connection.LoadUntouched | src/Black.Beard.Configurations/Gits/ConnexionReaderExtension.cs:870-873 | a key no later pair names keeps its value; with first-key rules every key already present keeps its value |
| Connection.LastWins | src/Black.Beard.Configurations/Gits/ConnexionReaderExtension.cs:870-873 | OLE DB rules: a key ends with the value of the last pair naming it |
| Connection.FirstWins | src/Black.Beard.Configurations/Gits/ConnexionReaderExtension.cs:870-873 | ODBC rules: a key ends with the value of the first pair naming it |
| Connection.NewOptions | src/Black.Beard.Configurations/Gits/ConnexionReaderExtension.cs:90-103 | an empty string parses nothing; otherwise the chain is what the tokenizer reads, the table its load, and the password flag is set exactly when some pair is named password or pwd |
| Connection.GetKeyValues | src/Black.Beard.Configurations/Gits/ConnexionReaderExtension.cs:49-61 | an empty payload is ArgumentNull; otherwise it fails exactly when the options parser fails and gives its table |
| Connection.ReplacePasswordPwd | src/Black.Beard.Configurations/Gits/ConnexionReaderExtension.cs:897-943 | the returned string copies every non-password pair's span, replaces each password pair by name=*; when faking and drops it otherwise; the chain is returned only when faking |
| Connection.Masked | src/Black.Beard.Configurations/Gits/ConnexionReaderExtension.cs:903-939 | without faking, the text built is shorter than the span of the pairs walked by exactly the password pairs' lengths; a chain without password pairs is copied unchanged as the prefix of the string it spans |
| Connection.FakedChainSpansResult | src/Black.Beard.Configurations/Gits/ConnexionReaderExtension.cs:913-938 | when faking, the returned chain's lengths add up to the returned string's length |
| Connection.ReadQuotedPair | src/Black.Beard.Configurations/Gits/ConnexionReaderExtension.cs:530-547 | a key="value"; pair with doubled '=' in the key and doubled '"' in the value is read back as the lower-cased key and the original value, ending just past its ';' |
| Connection.UnclosedQuoteFails | src/Black.Beard.Configurations/Gits/ConnexionReaderExtension.cs:530-651 | a pair whose value opens a double quote that is never closed before the end is a syntax error at the pair's start |
| Connection.ReadUnquotedPair | src/Black.Beard.Configurations/Gits/ConnexionReaderExtension.cs:549-692 | an unquoted value surrounded by white space and not ending in a quote is read trimmed, under the lower-cased key, ending just past its ';' |
| Connection.UnquotedEndsInQuoteFails | src/Black.Beard.Configurations/Gits/ConnexionReaderExtension.cs:660-668 | outside ODBC rules, an unquoted value whose trimmed text ends in a quote is a syntax error at the pair's start |
| Connection.UnclosedQuoteExample | src/Black.Beard.Configurations/Gits/ConnexionReaderExtension.cs:530-651 | "k=\"abc" is a syntax error at position 0 |
| Connection.UnquotedPairExample | src/Black.Beard.Configurations/Gits/ConnexionReaderExtension.cs:549-692 | "k= v ;" reads key "k" with value "v" and the next position 6 |
| Connection.EncodedParses | src/Black.Beard.Configurations/Gits/ConnexionReaderExtension.cs:49-61 | a payload written from settings as quoted pairs parses to the table of those settings |
| Connection.GetKeyValuesKeys | src/Black.Beard.Configurations/Gits/ConnexionReaderExtension.cs:57-58 | the table of a written payload holds exactly the lower-cased keys written |
| Connection.GetKeyValuesValue | src/Black.Beard.Configurations/Gits/ConnexionReaderExtension.cs:57-58 | each key of a written payload reads back with the value written last under it |
| Connection.LoadedKeys | src/Black.Beard.Configurations/Gits/ConnexionReaderExtension.cs:57-58 | loading the decoded settings gives exactly their lower-cased keys |
| GitConfig.FromTable | src/Black.Beard.Configurations/Gits/GitConfiguration.cs:25-51 | the url is required and trimmed; the user is trimmed or ""; email and password are copied or left null; the branch is copied or "" |
| GitConfig.FromPayload | src/Black.Beard.Configurations/Gits/GitConfiguration.cs:19-25 | an empty payload is refused; a payload the parser refuses fails with its error; otherwise the table decides |
| GitConfig.FromValues | src/Black.Beard.Configurations/Gits/GitConfiguration.cs:70-104 | the four values are stored as given, the branch keeps "main", and a password is set exactly when the given one is non-empty |
| GitConfig.HasPasswordIff | src/Black.Beard.Configurations/Gits/GitConfiguration.cs:42-45 | a payload configuration has a password exactly when pwd is named with a non-empty value; without pwd the password is null |
| GitConfig.MissingBranchIsEmpty | src/Black.Beard.Configurations/Gits/GitConfiguration.cs:47-50 | a payload without a branch leaves the branch "" rather than the "main" default |
| GitConfig.PayloadRoundTrip | src/Black.Beard.Configurations/Gits/GitConfiguration.cs:19-51 | a payload written from url, user, email, pwd and branch constructs the configuration holding them, url and user trimmed |
| GitConfig.SettingsTable | src/Black.Beard.Configurations/Gits/GitConfiguration.cs:25 | the five settings read as written load into a table holding each under its key |
| GitConfig.PayloadWithoutUrl | src/Black.Beard.Configurations/Gits/GitConfiguration.cs:27-30 | a payload that never names url is refused with UrlRequired, whatever else it sets |
| GitConfig.IsValid | src/Black.Beard.Configurations/Gits/GitConfiguration.cs:131-144 | no url is invalid; valid only when the url is well formed; a url Uri cannot read is an error |
| GitConfig.Convert | src/Black.Beard.Configurations/Gits/GitConfiguration.cs:186-199 | an empty string gives a blank configuration; otherwise the payload must construct and be valid, and an invalid one is refused |
| GitConfig.BlankIsInvalid | src/Black.Beard.Configurations/Gits/GitConfiguration.cs:57-60 | the configuration an empty string converts to keeps the "main" branch, has no password and is itself invalid |
| GitConfig.Status | src/Black.Beard.Configurations/Gits/GitConfiguration.cs:161-183 | FolderNotCreated exactly when the folder is missing; Initialized exactly when it has .git; FolderNotEmpty exactly when it lacks .git and holds a file or more than one subdirectory |
| GitConfig.NotInitializedIff | src/Black.Beard.Configurations/Gits/GitConfiguration.cs:161-183 | NotInitialized exactly for an existing folder without .git holding no file and at most one subdirectory |
| ConfigLoader.NewLoader | src/Black.Beard.Configurations/Configurations/FolderConfigurationLoader.cs:40-49 | a null or empty pattern becomes "*.json", any other is kept; the filter is kept and nothing is stored |
| ConfigLoader.ComputeName | src/Black.Beard.Configurations/Configurations/FolderConfigurationLoader.cs:217-221 | the group name is the first element of the name split on '.': a prefix of the name holding no '.', followed in the name by '.' when shorter |
| ConfigLoader.ComputeEnvironmentName | src/Black.Beard.Configurations/Configurations/FolderConfigurationLoader.cs:231-237 | the environment is the second element of the name split on '.' when that split has more than two elements, and null otherwise |
| ConfigLoader.SplitSegments | src/Black.Beard.Configurations/Configurations/FolderConfigurationLoader.cs:219-233 | splitting on '.' gives one segment more than the name has dots |
| ConfigLoader.EnvironmentIff | src/Black.Beard.Configurations/Configurations/FolderConfigurationLoader.cs:231-237 | a file name has an environment exactly when it holds at least two dots |
| ConfigLoader.EnvironmentBetweenDots | src/Black.Beard.Configurations/Configurations/FolderConfigurationLoader.cs:231-237 | the group name, '.', the environment and '.' begin the file name |
| ConfigLoader.Describe | src/Black.Beard.Configurations/Configurations/FolderConfigurationLoader.cs:73 | a listed file is described by its group name and environment computed from its file name |
| ConfigLoader.Selected | src/Black.Beard.Configurations/Configurations/FolderConfigurationLoader.cs:69-76 | no more files are kept than listed; every file kept is a listed file, described from its name, that passes the filter and the environment test; every listed file that passes both is kept |
| ConfigLoader.AcceptsByName | src/Black.Beard.Configurations/Configurations/FolderConfigurationLoader.cs:71-74 | a listed file is accepted exactly when the filter is absent or accepts it and its name splits on '.' into at most two parts or into parts whose second is the process environment |
| ConfigLoader.GetFilesBy | src/Black.Beard.Configurations/Configurations/FolderConfigurationLoader.cs:66-77 | the loop keeps, in listing order, exactly the files the filter and the environment test accept |
| ConfigLoader.GetFiles | src/Black.Beard.Configurations/Configurations/FolderConfigurationLoader.cs:64-77 | a missing directory is DirectoryNotFound; otherwise the result is the accepted part of the listing, in order |
| ConfigLoader.Add | src/Black.Beard.Configurations/Configurations/FolderConfigurationLoader.cs:139 | adding a full path already stored fails with DuplicateKey; otherwise the entry is appended and paths stay unique |
| ConfigLoader.Store | src/Black.Beard.Configurations/Configurations/FolderConfigurationLoader.cs:137-139 | storing keeps what was there, keeps full paths unique and only adds kept files under their full path |
| ConfigLoader.StoreFirst | src/Black.Beard.Configurations/Configurations/FolderConfigurationLoader.cs:137-139 | the first kept file is stored under its full path when its group name is not a stored key |
| ConfigLoader.AddPaths | src/Black.Beard.Configurations/Configurations/FolderConfigurationLoader.cs:193-202 | adding folders keeps the pattern, the filter and what was stored, keeps full paths unique, and stores only files the filter and environment accept |
| ConfigLoader.AddFolders | src/Black.Beard.Configurations/Configurations/FolderConfigurationLoader.cs:188-205 | null paths leave the loader as it is; otherwise as for each folder in turn |
| ConfigLoader.AddFolder | src/Black.Beard.Configurations/Configurations/FolderConfigurationLoader.cs:195-201 | a missing folder is DirectoryNotFound; a folder's files are appended, keeping paths unique |
| ConfigLoader.SameFolderTwiceFails | src/Black.Beard.Configurations/Configurations/FolderConfigurationLoader.cs:199-201 | as written, adding the same folder twice throws on the first file, because the guard compares the group name with full paths |
| ConfigLoader.StoreTwiceFails | src/Black.Beard.Configurations/Configurations/FolderConfigurationLoader.cs:199-201 | storing the same kept files twice fails with DuplicateKey on the first one's full path |
| ConfigLoader.AddEntry | src/Black.Beard.Configurations/Configurations/FolderConfigurationLoader.cs:157-166 | a root file whose file name is already a key is passed over; otherwise it is stored under its full path with no pattern, filter or environment test, failing exactly when that full path is already stored; a directory is added as a folder; other entries change nothing; the pattern and filter are kept and stored entries only grow |
| ConfigLoader.AddFromBuilder | src/Black.Beard.Configurations/Configurations/FolderConfigurationLoader.cs:146-172 | no builder leaves the loader as it is; otherwise root files and subfolders are appended, keeping what was stored and paths unique |
| ConfigLoader.RootFileUnfiltered | src/Black.Beard.Configurations/Configurations/FolderConfigurationLoader.cs:157-163 | a root file is stored under its full path whatever the filter, the pattern and its environment |
| ConfigLoader.GroupKeys | src/Black.Beard.Configurations/Configurations/FolderConfigurationLoader.cs:102 | the group names are distinct, cover every stored file's name and come from stored files |
| ConfigLoader.Group | src/Black.Beard.Configurations/Configurations/FolderConfigurationLoader.cs:102 | a group holds exactly the stored files of its name |
| ConfigLoader.GroupNonEmpty | src/Black.Beard.Configurations/Configurations/FolderConfigurationLoader.cs:102 | a name some stored file carries has a non-empty group headed by a file of that name |
| ConfigLoader.Groups | src/Black.Beard.Configurations/Configurations/FolderConfigurationLoader.cs:100-104 | the enumeration gives non-empty groups of one name each, of stored files, with distinct names |
| ConfigLoader.GroupsCover | src/Black.Beard.Configurations/Configurations/FolderConfigurationLoader.cs:100-104 | every stored file is enumerated in some group |
| ConfigExtension.Load | src/Black.Beard.Configurations/Configurations/ConfigurationExtension.cs:97-129 | a file of detected type JSON, XML, INI or PerKey adds the provider of that type for its full path; any other type adds nothing |
| ConfigExtension.LoadInjective | src/Black.Beard.Configurations/Configurations/ConfigurationExtension.cs:97-129 | two files given the same provider have the same full path and detected type |
| ConfigExtension.Loads | src/Black.Beard.Configurations/Configurations/ConfigurationExtension.cs:97-129 | no more providers are added than files given; every provider added is the load of one of the files; every file of a recognised type has its provider added |
| ConfigExtension.FirstWhere | src/Black.Beard.Configurations/Configurations/ConfigurationExtension.cs:78-82 | the first file of the group that is (or is not) environment-less, or none when no file is |
| ConfigExtension.Picked | src/Black.Beard.Configurations/Configurations/ConfigurationExtension.cs:70-89 | the files a group loads are files of that group, at most as many as it holds |
| ConfigExtension.PickedPair | src/Black.Beard.Configurations/Configurations/ConfigurationExtension.cs:75-86 | a two-file group loads its environment-less file first and then the other, whatever their order; two files of the same kind load only the first |
| ConfigExtension.LargeGroupLoadsNothing | src/Black.Beard.Configurations/Configurations/ConfigurationExtension.cs:70-75 | a group of three files or more loads none of them |
| ConfigExtension.LoadGroup | src/Black.Beard.Configurations/Configurations/ConfigurationExtension.cs:67-91 | a group adds at most two providers |
| ConfigExtension.LoadGroups | src/Black.Beard.Configurations/Configurations/ConfigurationExtension.cs:67-91 | the providers added for a list of groups are exactly those some group adds |
| ConfigExtension.GroupedIsStored | src/Black.Beard.Configurations/Configurations/ConfigurationExtension.cs:67 | a file of an enumerated group is a stored file |
| ConfigExtension.LoadedFromGroups | src/Black.Beard.Configurations/Configurations/ConfigurationExtension.cs:67-91 | every provider added is a file of some group read by its detected type |
| ConfigExtension.LoadedAreStored | src/Black.Beard.Configurations/Configurations/ConfigurationExtension.cs:63-95 | every provider added for the stored groups is the load of one stored file |
| ConfigExtension.LoadFiles | src/Black.Beard.Configurations/Configurations/ConfigurationExtension.cs:63-95 | every provider added is a stored file read by its detected type, under that file's full path |
| ConfigExtension.GroupSingle | src/Black.Beard.Configurations/Configurations/ConfigurationExtension.cs:72-73 | a file whose name no other stored file carries forms a group of its own |
| ConfigExtension.GroupNone | src/Black.Beard.Configurations/Configurations/ConfigurationExtension.cs:67 | a name no stored file carries has no files |
| ConfigExtension.LoneFileLoaded | src/Black.Beard.Configurations/Configurations/ConfigurationExtension.cs:72-89 | a stored file alone under its name and of a recognised type is loaded |
| ConfigExtension.EffectiveFilter | src/Black.Beard.Configurations/Configurations/ConfigurationExtension.cs:29-30 | a given filter is used as it is; without one a file is kept exactly when it has content |
| ConfigExtension.LoadConfiguration | src/Black.Beard.Configurations/Configurations/ConfigurationExtension.cs:23-37 | the loader uses the pattern (or "*.json") and the effective filter, the providers are those of its groups, no builder listing loads nothing, and it fails exactly when adding the builder's folders fails |
| ConfigExtension.LoadConfigurationIn | src/Black.Beard.Configurations/Configurations/ConfigurationExtension.cs:47-61 | the same steps: the effective filter and the providers of the loader's groups |
| ConfigExtension.PathIgnored | src/Black.Beard.Configurations/Configurations/ConfigurationExtension.cs:47-57 | the folder given plays no part: any two folders give the same result |
| ConfigExtension.DefaultFilterDropsEmpty | src/Black.Beard.Configurations/Configurations/ConfigurationExtension.cs:29-54 | without a filter an empty file found in a folder is not selected |
| Tasks.LinesAppend | src/AILib/TaskIA.cs:55-56 | rendering two lists of strings one line each is rendering the first, then the second |
| Tasks.Width | src/AILib/TaskIA.cs:124-128 | the counted width of a non-empty section is at least one newline per string |
| Tasks.WidthIsLength | src/AILib/TaskIA.cs:122-129 | the width the length loop adds up is the length of the rendered section |
| Tasks.Kept | src/AILib/TaskIA.cs:42-82 | no more strings are kept than were given |
| Tasks.KeptSound | src/AILib/TaskIA.cs:42-44 | every kept string is a given non-blank string, trimmed |
| Tasks.KeptNonEmpty | src/AILib/TaskIA.cs:43-44 | no kept string is empty |
| Tasks.KeptComplete | src/AILib/TaskIA.cs:42-44 | every non-blank string given is kept, trimmed |
| Tasks.KeptAppend | src/AILib/TaskIA.cs:42-44 | keeping goes string by string: two lists keep what each keeps, in order |
| Tasks.Extend | src/AILib/TaskIA.cs:37-44 | a null or empty argument list throws; otherwise the cached text is dropped and the section only grows, by at most one string per argument |
| Tasks.ExtendTwice | src/AILib/TaskIA.cs:34-47 | two calls append what one call with both argument lists appends |
| Tasks.Render | src/AILib/TaskIA.cs:49-60 | a cached text is returned as it is; otherwise the section's strings are rendered one per line and cached; a current cache renders the section's strings |
| Tasks.RenderTwice | src/AILib/TaskIA.cs:52-59 | asking twice gives the same text and leaves the section as the first call left it |
| Tasks.ClearPrePrompt | src/AILib/TaskIA.cs:26-32 | the pre strings are emptied and the length reset; the rest is unchanged and current caches stay current |
| Tasks.ClearPostPrompt | src/AILib/TaskIA.cs:64-70 | the post strings are emptied and the length reset; the rest is unchanged and current caches stay current |
| Tasks.WithPrePromptAsWritten | src/AILib/TaskIA.cs:34-47 | as written, a null or empty list throws; otherwise the pre section is extended and everything else, the length cache included, is left as it was |
| Tasks.WithPostPromptAsWritten | src/AILib/TaskIA.cs:72-85 | as written, a null or empty list throws; otherwise the post section is extended and everything else, the length cache included, is left as it was |
| Tasks.WithPrePrompt | src/AILib/TaskIA.cs:30-47 | the pre section is extended and the length reset as every other mutator does, so current caches stay current |
| Tasks.WithPostPrompt | src/AILib/TaskIA.cs:68-85 | the post section is extended and the length reset, so current caches stay current |
| Tasks.GetPrePrompt | src/AILib/TaskIA.cs:49-60 | the pre-prompt text is the pre strings one per line whenever the caches are current, and they stay current |
| Tasks.GetPostPrompt | src/AILib/TaskIA.cs:87-98 | the post-prompt text is the post strings one per line whenever the caches are current, and they stay current |
| Tasks.ClearDocuments | src/AILib/TaskIA.cs:102-107 | no documents remain, the length is reset and the sections are unchanged |
| Tasks.AddDocument | src/AILib/TaskIA.cs:109-117 | a null or empty list throws; otherwise the documents are appended in order after the existing ones and the length is reset |
| Tasks.ComputeDocumentLenght | src/AILib/TaskIA.cs:119-133 | a set length is returned unchanged; with current caches the length is the pre and post strings' lengths each with a newline, and it is cached |
| Tasks.LengthOfPromptTexts | src/AILib/TaskIA.cs:119-133 | with current caches the computed length is the length of the pre-prompt text plus that of the post-prompt text |
| Tasks.PrePromptLeavesLengthStale | src/AILib/TaskIA.cs:119-133 | as written, a length computed before a later WithPrePrompt is returned unchanged (3) although the strings now add up to 6 |
| Tasks.Block | src/AILib/TaskIA.cs:151-171 | a document block starts with "> item : ", the source name and a newline, ends with the "> eof" line, and its length is the overhead plus the name and content lengths |
| Tasks.Blocks | src/AILib/TaskIA.cs:151-157 | the blocks of a document list are at least a block's fixed overhead per document long, and for a non-empty list start with the first "> item : " header and end with the "> eof" line |
| Tasks.BlocksAppend | src/AILib/TaskIA.cs:151-157 | the blocks of two document lists are the first list's blocks then the second's |
| Tasks.PromptText | src/AILib/TaskIA.cs:137-164 | the prompt text starts with the pre-prompt lines, the document blocks and an empty line, and ends with the post-prompt lines; without documents it is exactly those lines around an empty line |
| Tasks.Capacity | src/AILib/TaskIA.cs:140-146 | without documents the capacity is the cached length plus one newline; with documents whose lengths are not negative it is at least that plus a block's fixed overhead per document |
| Tasks.CreatePrompt | src/AILib/TaskIA.cs:137-164 | the builder allocation throws exactly when the capacity summed in a 32-bit int is negative; otherwise the prompt starts with the pre strings, the document blocks and an empty line, and ends with the post strings |
| Tasks.CreatePromptSucceeds | src/AILib/TaskIA.cs:140-146 | a capacity between 0 and 2^31 - 1 lets the builder be allocated and the prompt text returned |
| Tasks.LargeSourceFailsPrompt | src/AILib/TaskIA.cs:140-146 | a new task given one document of 2 GiB or more (with the sum still above -2^31) throws from the builder allocation, its SourceLength having wrapped negative |
| Tasks.PromptFromSectionTexts | src/AILib/TaskIA.cs:137-164 | with current caches the prompt text is the pre-prompt text, the blocks, an empty line and the post-prompt text |
| Tasks.AddDocumentAppendsBlocks | src/AILib/TaskIA.cs:109-117 | after adding documents the prompt text holds their blocks after the existing ones, before the empty line |
| Tasks.CapacityIsPromptLength | src/AILib/TaskIA.cs:137-146 | the builder's capacity equals the prompt text's length when the length cache is right and every document's length counts its content's characters |
| Tasks.BlocksCapacity | src/AILib/TaskIA.cs:141-144 | the documents' part of the capacity equals the blocks' length under the same condition |

## Left out

- Character classification (`char.IsWhiteSpace`, `char.IsControl`, `ToLowerInvariant`, the ordinal-ignore-case fold) is a `CharClasses` parameter, not Unicode tables. `Text.Sane` states the few ASCII facts some lemmas need.
- `CalculateCrc32` (called at src/AILib/Helpers/ChatMessageContentPartExtension.cs lines 28 and 31), `ComputeFileHash` (src/AILib/Document.cs line 18), and `GetName`/`GetLength` (src/AILib/FolderIndexDocument.cs lines 13-14) are defined outside the modelled files. They are function parameters, and no CRC-32 algorithm is claimed.
- `Environment.NewLine` is fixed to "\r\n", the Windows value. The code trims '\\' and targets Windows.
- Paths are text. `FileInfo.FullName` normalisation (resolving "..", casing, relative roots) is not modelled; `Paths` works on Windows separators only.
- `Context` uses the culture-sensitive `StartsWith`/`EndsWith` at src/ConsoleAI/Context.cs lines 66, 81 and 86. The model compares ordinally.
- `Document.SourceLength` and `SourceContent` throw for a source file that is missing on disk (src/AILib/Document.cs lines 30-32). Here the file record and the reader are parameters, so that failure is not modelled.
- src/AILib/Configurations/ChatSession.cs defines no `MustExecute` or `Hash`, though src/ConsoleAI/Commands.cs line 134 assigns the gate. The model assumes the session's hash is `Checksum.MessagesHash` of the payload, and that a closed gate gives a null response. `Ask` (ChatSession.cs lines 31-55) is modelled by the `complete` field of `Commands.Env`, which gives the completion's content or null.
- An exception out of `Ask` cannot be expressed: `CompleteChatAsync` failures are rethrown (ChatSession.cs lines 40-47), a missing client throws `InvalidOperationException` (line 53), and `taskMessage.Wait()` (src/ConsoleAI/Commands.cs line 190) would propagate both out of `Work`. `complete` returns an `Option`, so the model has no transport failure.
- src/AILib/FolderParser.cs line 59 calls a three-argument `Document` constructor that src/AILib/Document.cs does not define. It is modelled as the two-argument constructor of src/AILib/Document.cs line 10, paired with the ledger key it was resolved to (`Traversal.Item`).
- Commands.RerunSkips: assumes `GetName` of a document equals the name its ledger entry is looked up by; both are oracles in the source.
- `Commands` passes a name to an `IndexStore` constructor that takes none (src/ConsoleAI/Commands.cs line 111). The name is ignored.
- src/ConsoleAI/Commands.cs line 240 calls the `Context` constructor with six arguments, while the one at src/ConsoleAI/Context.cs line 15 takes seven. The model follows Context.cs.
- `ParseFileByFile` and `ParseByFolder` (called at src/ConsoleAI/Commands.cs lines 117 and 120) are defined outside the modelled files. `FolderParser.Parse` (src/AILib/FolderParser.cs) stands for both, and the commented-out All strategy processes nothing.
- Ledger JSON serialisation (`SerializesAndSave` at src/AILib/FolderIndex.cs line 55, `LoadFromFileAndDeserializes` at src/AILib/IndexStore.cs line 25) is defined outside the modelled files. A save is modelled by its effect on the dirty flag, and a loaded ledger's entries come from the disk parameter.
- Directory creation is a side effect and is not modelled: in `SaveContent`, in the ledger save, and in the `Context` constructor for the target file's directory, the target folder and the configuration folder (src/ConsoleAI/Context.cs lines 23-24, 31-32 and 45-46), and in `FolderParser.Parse` for the target folder (`targetFolderPath.Create()`, src/AILib/FolderParser.cs lines 26-27). Writes are returned as values.
- `SchemaGenerator.Initialize`, called by the `Context` constructor (src/ConsoleAI/Context.cs line 58), is not part of this model; it sets up JSON schema generation and touches none of the modelled state.
- Dictionary enumeration order is taken to be insertion order, for `IndexStore.Save` and for the configuration loader's groups. .NET documents no order for either.
- `AppendKeyValuePairBuilder` and `ExpandKeyword` are not modelled. `ADP.CheckArgumentLength` always throws `NotImplementedException`, so the builder never returns. The `Connection.Doubled`/`QuotedPair` encoder used by the round-trip lemmas is a test-side writer, not a model of that builder.
- The DEBUG-only parts of the connection-string reader are not modelled: the regex cross-check (`SplitConnectionString`, `ParseComparison`) and the key/value tracing.
- Connection synonyms are not modelled. `GetKeyValues` passes none, so every key maps to itself.
- `DbConnectionOptions.UsersConnectionString`, `HasPersistablePassword`, `ConvertValueToBoolean` and the `_hasUserIdKeyword` flag are not used by the core and are not modelled beyond the recorded fields.
- GitConfig.IsValid: whether `System.Uri` accepts a url and finds it well formed is the `uri` parameter.
- Git and network plumbing (clone, pull, credentials, the HTTP probe) is not modelled.
- The configuration builder's file-provider internals are not modelled: its root listing is a parameter, and so is `FileContentTypeDetector.DetectFileType`.
- The `ASPNETCORE_ENVIRONMENT` variable read by the loader's static constructor is a parameter.
- The OpenAI transport (`ChatSession`, `OpenAIOption.GetClient`, `GetChatCompletionOptions`) is not modelled. Neither are the tuning options (floating point).
- Messages.CreateUserImage: the image detail level the source passes is not modelled; only the bytes and media type are.
- `CreatePptx`/`CreateWord` take the extracted slides and paragraphs as a parameter; the OpenXML and PDF extraction is not modelled.
- Tasks.ComputeDocumentLenght: the 32-bit wrap-around of the cached `int` length is not modelled; the length is an unbounded integer.
- Tasks.CapacityIsPromptLength: `SourceLength` counts bytes on disk while the prompt counts characters, so the lemma requires that the two agree. The capacity is otherwise observable only through its sign: a negative capacity makes `CreatePrompt` throw, see `Tasks.LargeSourceFailsPrompt`.
- `Debugger.Break` is not modelled: in `ChatMessageContentPartExtension`, in `Commands.Execute` for the All strategy (src/ConsoleAI/Commands.cs line 127) and in `Commands.Work` when the answer has more than one part (line 213). Neither are console output, logging, timing or the entry point.
- The gate has no zero case (src/ConsoleAI/Commands.cs lines 133-137): a never-run entry, whose hash is 0, is skipped when the payload fingerprint is 0; see `Commands.ZeroPayloadSkipsNewEntry`.

## Findings

| source | as written | input that shows it | evidently intended | confidence | as-written member | corrected member |
|---|---|---|---|---|---|---|
| src/AILib/IndexStore.cs:24-25 | a ledger loaded from an existing `.index.json` is never given its `File`, so saving it once dirty dereferences null | a rerun over a folder whose `.index.json` exists, with one changed file | the loaded ledger bound to `file1`, as the new one is on line 27 | not executed | Registry.GetOrCreateAsWritten, Registry.LoadedLedgerCannotBeSaved | Registry.GetOrCreate, Registry.LoadedLedgerSaves |
| src/AILib/Helpers/ChatMessageContentPartExtension.cs:74-92 | the name's extension is stripped before combining and only ".txt" is ever added back, so a name with an extension loses it | a text part saved in "out" as "a.md" is written to "out\\a" | the text written to "out\\a.md" | not executed | ContentSaving.SaveToDirectoryAsWritten, ContentSaving.DirectoryDropsExtension | ContentSaving.SaveToDirectory, ContentSaving.DirectoryKeepsExtension |
| src/AILib/Configurations/OpenAIOptions.cs:29-37 | the replacement branch sits under `value == null`, so a non-null value for a present key is dropped | options holding one option named "a", then `options["a"] = b` with `b.Name == "a"` | the option at that index replaced by `b` | not executed | Options.SetAsWritten, Options.SetDoesNotReplace | Options.Set, Options.SetThenGet |
| src/AILib/TaskIA.cs:34-47 | `WithPrePrompt`/`WithPostPrompt` drop the text caches but not the cached length, so `ComputeDocumentLenght` returns a stale value | `WithPrePrompt("a")`, `ComputeDocumentLenght()` (3), `WithPrePrompt("b")`, `ComputeDocumentLenght()` still 3 where the strings add up to 6 | the length reset to 0, as every other mutator does (lines 30, 68, 105, 115) | not executed | Tasks.WithPrePromptAsWritten, Tasks.PrePromptLeavesLengthStale | Tasks.WithPrePrompt, Tasks.ComputeDocumentLenght |

The traversal, the command loop and the path overload of `SaveContent` call the
as-written halves, because they model what the program does. The corrected halves
state the intended behaviour next to them.

=== FILE: chat.dfy ===
/** The OpenAI chat values the model handles: a content part is text or image
    bytes (with a media type and an optional image URI); a message carries a role and
    a sequence of parts. Only the fields the repository reads are kept. */
module Chat {
  import opened Wrappers

  type Bytes = seq<bv8>

  datatype ContentPart = ContentPart(
    text: Option<string>,
    imageBytes: Option<Bytes>,
    imageMediaType: Option<string>,
    imageUri: Option<string>)

  /** The SDK's message classes: `SystemChatMessage`, `UserChatMessage`,
      `AssistantChatMessage`, `ToolChatMessage`, `FunctionChatMessage`. */
  datatype Role = SystemRole | UserRole | AssistantRole | ToolRole | FunctionRole

  datatype ChatMessage = ChatMessage(role: Role, content: seq<ContentPart>)

  /** A part holding only text, as `ChatMessageContentPart.CreateTextPart` builds it. */
  function TextPart(s: string): ContentPart {
    ContentPart(Some(s), None, None, None)
  }

  /** A message with one text part, as the SDK's string constructors build it. */
  function TextMessage(role: Role, s: string): ChatMessage {
    ChatMessage(role, [TextPart(s)])
  }
}

=== FILE: commands.dfy ===
/** `Commands.Execute` and `Commands.Work`: the run that walks the source files, asks
    the model about each document whose payload changed since the last run, saves the
    first part of the answer to the document's target, and records in the ledger what
    was processed with which payload fingerprint. The chat session's gate compares the
    payload fingerprint with the fingerprint recorded for the document; a closed gate
    means no answer. */
module Commands {
  import opened Wrappers
  import opened Text
  import opened Chat
  import Checksum
  import opened Documents
  import Ledger
  import Registry
  import Traversal
  import Messages
  import Options
  import ContentSaving
  import Contexts

  /** The gate `Execute` installs on the chat session: call the model only when the
      payload fingerprint differs from the reference fingerprint. There is no special
      case for a reference of 0. */
  predicate MustExecute(payloadHash: bv32, reference: bv32) {
    payloadHash != reference
  }

  /** What a run depends on besides its arguments: character classes, the CRC-32
      routine, `Document.GetName`/`GetLength`, the files attached to the prompt, and
      the model call (the content of the completion, or null). */
  datatype Env = Env(
    cc: CharClasses,
    crc: Checksum.Crc,
    id: Ledger.Identity,
    files: Messages.Files,
    complete: seq<ChatMessage> -> Option<seq<ContentPart>>)

  datatype CommandError =
    | NoAzureOptions                           // InvalidOperationException
    | ServiceNotFound                          // InvalidOperationException
    | NoEndpoint                               // InvalidOperationException
    | InLedger(ledger: Ledger.LedgerError)
    | InMessage(message: Messages.MessageError)
    | InSave(save: ContentSaving.SaveError)
    | InWalk(walk: Traversal.TraversalError)
    | InStore(store: Registry.RegistryError)
    | MissingLedger                            // an item whose ledger is not registered

  /** The source files of a document: its source, when it has one. */
  function SourceFiles(d: Document): (r: seq<FileRef>)
    ensures |r| <= 1 && (d.source.Some? <==> |r| == 1)
  {
    if d.source.Some? then [d.source.value] else []
  }

  /** One attached-document message per source file, in order; a missing file fails. */
  function Attachments(files: Messages.Files, sources: seq<FileRef>): (r: Result<seq<ChatMessage>, CommandError>)
    ensures r.Success? <==> forall i :: 0 <= i < |sources| ==> files.fileExists(sources[i].fullName)
    ensures r.Failure? ==> r.error == InMessage(Messages.FileNotFound)
    ensures r.Success? ==> |r.value| == |sources|
    ensures r.Success? ==> forall i :: 0 <= i < |sources| ==>
              r.value[i] == Messages.CreateUserTextAttachedDocument(files, sources[i].fullName).value
  {
    if |sources| == 0 then Success([])
    else
      match Messages.CreateUserTextAttachedDocument(files, sources[0].fullName)
      case Failure(e) => Failure(InMessage(e))
      case Success(m) =>
        match Attachments(files, sources[1..])
        case Failure(e) => Failure(e)
        case Success(rest) => Success([m] + rest)
  }

  /** What the request callback adds to the configured pre messages: the prompt, then
      the attached documents. */
  function Request(prompt: string, attachments: seq<ChatMessage>): seq<ChatMessage> -> seq<ChatMessage> {
    l => l + [Messages.CreateUserMessage(prompt)] + attachments
  }

  /** The messages sent for a document: the service's pre messages, the prompt, the
      document's files, the service's post messages. */
  function Payload(env: Env, prompt: string, service: Options.OpenAIOption, d: Document)
    : (r: Result<seq<ChatMessage>, CommandError>)
    ensures r.Failure? <==> Attachments(env.files, SourceFiles(d)).Failure?
    ensures r.Success? ==>
              r.value == Options.Collect(env.cc, service.messages, Messages.Pre).0
                         + [Messages.CreateUserMessage(prompt)]
                         + Attachments(env.files, SourceFiles(d)).value
                         + Options.Collect(env.cc, service.messages, Messages.Post).0
  {
    var extra :- Attachments(env.files, SourceFiles(d));
    Options.AppendingAction(env.cc, service, Request(prompt, extra), [Messages.CreateUserMessage(prompt)] + extra);
    Success(Options.GetChatMessages(env.cc, service, Some(Request(prompt, extra))).0)
  }

  /** The outcome of `Work` for one document: the ledger entry afterwards, whether the
      gate let the model be called, whether the answer was saved, and what was
      written. */
  datatype Worked = Worked(entry: Ledger.Entry, ran: bool, ok: bool, write: Option<ContentSaving.Write>)

  /** `Commands.Work` for a document whose entry is `e`, with the gate's reference
      fingerprint `reference`. */
  function Work(env: Env, prompt: string, service: Options.OpenAIOption, d: Document, e: Ledger.Entry, reference: bv32)
    : (r: Result<Worked, CommandError>)
    ensures d.target.None? ==> r == Success(Worked(e, false, false, None))
    ensures r.Success? && !r.value.ok ==> r.value.entry == e
    ensures r.Success? && r.value.ran ==>
              && Payload(env, prompt, service, d).Success?
              && MustExecute(Checksum.MessagesHash(env.crc, Payload(env, prompt, service, d).value), reference)
    ensures r.Success? && r.value.ok ==>
              && r.value.ran && d.target.Some?
              && r.value.entry == Ledger.SetHash(Ledger.Map(env.id, e, d),
                                                 Checksum.MessagesHash(env.crc, Payload(env, prompt, service, d).value))
    ensures d.target.Some? && Payload(env, prompt, service, d).Success?
            && !MustExecute(Checksum.MessagesHash(env.crc, Payload(env, prompt, service, d).value), reference)
            ==> r == Success(Worked(e, false, false, None))
  {
    if d.target.None? then Success(Worked(e, false, false, None))
    else
      var payload :- Payload(env, prompt, service, d);
      var hash := Checksum.MessagesHash(env.crc, payload);
      if !MustExecute(hash, reference) then Success(Worked(e, false, false, None))
      else
        match env.complete(payload)
        case None => Success(Worked(e, true, false, None))
        case Some(parts) =>
          if |parts| == 0 then Success(Worked(e, true, false, None))
          else
            match ContentSaving.SaveToFile(env.cc, Some(parts[0]), d.target.value)
            case Failure(err) => Failure(InSave(err))
            case Success(saved) =>
              if saved.ok then Success(Worked(Ledger.SetHash(Ledger.Map(env.id, e, d), hash), true, true, saved.write))
              else Success(Worked(e, true, false, saved.write))
  }

  /** A document whose model answer comes back as text is saved, and its entry then
      records the document and the payload fingerprint. */
  lemma WorkRecordsText(env: Env, prompt: string, service: Options.OpenAIOption, d: Document, e: Ledger.Entry, reference: bv32)
    requires d.target.Some? && Payload(env, prompt, service, d).Success?
    requires var h := Checksum.MessagesHash(env.crc, Payload(env, prompt, service, d).value); MustExecute(h, reference)
    requires var c := env.complete(Payload(env, prompt, service, d).value);
             c.Some? && |c.value| > 0 && ContentSaving.HasText(c.value[0])
    requires Paths.DirectoryName(d.target.value.fullName).Some?
    ensures Work(env, prompt, service, d, e, reference).Success?
    ensures Work(env, prompt, service, d, e, reference).value.ok
    ensures Work(env, prompt, service, d, e, reference).value.entry.hash
            == Checksum.MessagesHash(env.crc, Payload(env, prompt, service, d).value)
  {
    var payload := Payload(env, prompt, service, d).value;
    var parts := env.complete(payload).value;
    var saved := ContentSaving.SaveToFile(env.cc, Some(parts[0]), d.target.value);
    assert saved.Success? && saved.value.ok;
    var hash := Checksum.MessagesHash(env.crc, payload);
    assert Work(env, prompt, service, d, e, reference)
           == Success(Worked(Ledger.SetHash(Ledger.Map(env.id, e, d), hash), true, true, saved.value.write));
  }

  /** The per-item step of `Execute`: an item without target is passed over;
      otherwise the ledger hands out the document's entry, appending a blank one for a
      document it does not know, and that entry's fingerprint becomes the gate's
      reference. `Work` runs; when it succeeds its entry is written back and the
      ledger is marked changed if the answer was saved. `FolderIndex.Get` changes the
      ledger in place, so when `Work` raises the ledger keeps what `Get` did to it.
      The result pairs the ledger afterwards with the outcome of `Work`. */
  function ProcessItem(env: Env, prompt: string, service: Options.OpenAIOption, ix: Ledger.Index, d: Document)
    : (r: (Ledger.Index, Result<Worked, CommandError>))
    ensures d.target.None? ==> r.0 == ix && r.1.Success? && !r.1.value.ran
    ensures r.0.file == ix.file
    ensures r.1.Success? ==> (r.0.changed <==> ix.changed || r.1.value.ok)
    ensures r.1.Failure? ==> r.0.changed == ix.changed
    ensures d.target.Some? && Ledger.Get(ix, d).Failure? ==> r == (ix, Failure(InLedger(Ledger.Get(ix, d).error)))
    ensures d.target.Some? && Ledger.Get(ix, d).Success? ==>
              var (ix1, k) := Ledger.Get(ix, d).value;
              && r.1 == Work(env, prompt, service, d, ix1.entries[k], ix1.entries[k].hash)
              && (r.1.Success? ==> r.0.entries == ix1.entries[k := r.1.value.entry])
              && (r.1.Failure? ==> r.0 == ix1)
  {
    if d.target.None? then (ix, Success(Worked(Ledger.Fresh, false, false, None)))
    else
      match Ledger.Get(ix, d)
      case Failure(e) => (ix, Failure(InLedger(e)))
      case Success((ix1, k)) =>
        var entry := ix1.entries[k];
        match Work(env, prompt, service, d, entry, entry.hash)
        case Failure(e) => (ix1, Failure(e))
        case Success(w) => (Ledger.SetChanged(ix1.(entries := ix1.entries[k := w.entry]), w.ok), Success(w))
  }

  /** A document the ledger does not know, whose attached file is missing, raises
      and leaves behind the blank entry `Get` appended for it; the ledger's flag is
      untouched, so a later flush writes that entry when the ledger was already
      dirty. */
  lemma FailedItemKeepsBlankEntry(env: Env, prompt: string, service: Options.OpenAIOption, ix: Ledger.Index, d: Document)
    requires d.target.Some? && Ledger.SourceKey(d).Some? && Ledger.SourceKey(d).value != ""
    requires Ledger.Unnamed(ix.entries, Ledger.SourceKey(d))
    requires Attachments(env.files, SourceFiles(d)).Failure?
    ensures ProcessItem(env, prompt, service, ix, d).1 == Failure(InMessage(Messages.FileNotFound))
    ensures ProcessItem(env, prompt, service, ix, d).0 == ix.(entries := ix.entries + [Ledger.Fresh])
  {
    Ledger.GetAbsent(ix, d, ix.(entries := ix.entries + [Ledger.Fresh]));
  }

  /** A document processed successfully is skipped on the next run: the ledger finds
      the entry it recorded, whose fingerprint equals the unchanged payload's, so the
      gate stays closed and the ledger is left as it is. `GetName` has to return the
      source file's name for the entry to be found again. */
  lemma RerunSkips(env: Env, prompt: string, service: Options.OpenAIOption, ix: Ledger.Index, d: Document)
    requires d.target.Some?
    requires env.id.getName(d) == Ledger.SourceKey(d)
    requires ProcessItem(env, prompt, service, ix, d).1.Success?
    requires ProcessItem(env, prompt, service, ix, d).1.value.ok
    ensures var ix1 := ProcessItem(env, prompt, service, ix, d).0;
            && ProcessItem(env, prompt, service, ix1, d).1.Success?
            && ProcessItem(env, prompt, service, ix1, d).0 == ix1
            && !ProcessItem(env, prompt, service, ix1, d).1.value.ran
  {
    var (ixg, k) := Ledger.Get(ix, d).value;
    var w := ProcessItem(env, prompt, service, ix, d).1.value;
    var ix1 := ProcessItem(env, prompt, service, ix, d).0;
    var payload := Payload(env, prompt, service, d).value;
    assert w.entry.name == Ledger.SourceKey(d);
    var base := ix1.(entries := ixg.entries);
    Ledger.GetFindsMapped(base, d, k, w.entry);
    assert base.(entries := base.entries[k := w.entry]) == ix1;
    assert ix1.entries[k].hash == Checksum.MessagesHash(env.crc, payload);
  }

  /** With no special case for 0, a document never processed before is skipped when
      its payload fingerprint happens to be 0: the new entry's fingerprint is 0 too. */
  lemma ZeroPayloadSkipsNewEntry(env: Env, prompt: string, service: Options.OpenAIOption, ix: Ledger.Index, d: Document)
    requires d.target.Some? && Ledger.Get(ix, d).Success?
    requires forall j :: 0 <= j < |ix.entries| ==> ix.entries[j].name != Ledger.SourceKey(d)
    requires Payload(env, prompt, service, d).Success?
    requires Checksum.MessagesHash(env.crc, Payload(env, prompt, service, d).value) == 0
    ensures ProcessItem(env, prompt, service, ix, d).1.Success?
    ensures !ProcessItem(env, prompt, service, ix, d).1.value.ran
  {
    var (ix1, k) := Ledger.Get(ix, d).value;
    var e := ix1.entries[k];
    assert e == Ledger.Fresh;
    GateClosedAtZero(env, prompt, service, d, e);
  }

  /** The gate stays closed for an entry and a payload that both fingerprint to 0. */
  lemma GateClosedAtZero(env: Env, prompt: string, service: Options.OpenAIOption, d: Document, e: Ledger.Entry)
    requires d.target.Some? && e.hash == 0
    requires Payload(env, prompt, service, d).Success?
    requires Checksum.MessagesHash(env.crc, Payload(env, prompt, service, d).value) == 0
    ensures Work(env, prompt, service, d, e, e.hash) == Success(Worked(e, false, false, None))
  {
  }

  /** The record of a run: what `Work` did for each processed item, and the exception
      that ended the loop, if any. */
  datatype Log = Log(runs: seq<Worked>, raised: Option<CommandError>)

  /** The loop body of `Execute` as the walk's consumer: processes the item against its
      ledger, stores the ledger as processing left it, and asks for the next item
      unless processing raised. */
  function Visit(env: Env, prompt: string, service: Options.OpenAIOption, st: Registry.Store, log: Log, it: Traversal.Item)
    : (r: (Registry.Store, Log, bool))
    ensures r.2 <==> r.1.raised.None?
    ensures r.0.ledgers.Keys == st.ledgers.Keys && r.0.order == st.order && r.0.disposed == st.disposed
    ensures forall k :: k in st.ledgers && k != it.key ==> r.0.ledgers[k] == st.ledgers[k]
    ensures log.raised.Some? ==> r == (st, log, false)
    ensures log.raised.None? && it.key !in st.ledgers ==> r.1 == Log(log.runs, Some(MissingLedger))
    ensures log.raised.None? && it.key in st.ledgers ==>
              var (ix, o) := ProcessItem(env, prompt, service, st.ledgers[it.key], it.doc);
              && r.0.ledgers[it.key] == ix
              && (o.Success? ==> r.1 == Log(log.runs + [o.value], None))
              && (o.Failure? ==> r.1 == Log(log.runs, Some(o.error)))
  {
    if log.raised.Some? then (st, log, false)
    else if it.key !in st.ledgers then (st, Log(log.runs, Some(MissingLedger)), false)
    else
      var (ix, o) := ProcessItem(env, prompt, service, st.ledgers[it.key], it.doc);
      var st' := st.(ledgers := st.ledgers[it.key := ix]);
      match o
      case Failure(e) => (st', Log(log.runs, Some(e)), false)
      case Success(w) => (st', Log(log.runs + [w], None), true)
  }

  /** A failed item whose ledger was already dirty leaves that ledger dirty with the
      blank entry appended, so the store's flush writes it. */
  lemma FailedVisitKeepsBlankEntry(env: Env, prompt: string, service: Options.OpenAIOption,
                                   st: Registry.Store, it: Traversal.Item)
    requires it.key in st.ledgers && st.ledgers[it.key].changed
    requires it.doc.target.Some? && Ledger.SourceKey(it.doc).Some? && Ledger.SourceKey(it.doc).value != ""
    requires Ledger.Unnamed(st.ledgers[it.key].entries, Ledger.SourceKey(it.doc))
    requires Attachments(env.files, SourceFiles(it.doc)).Failure?
    ensures var r := Visit(env, prompt, service, st, Log([], None), it);
            && !r.2
            && r.0.ledgers[it.key].changed
            && r.0.ledgers[it.key].entries == st.ledgers[it.key].entries + [Ledger.Fresh]
  {
    FailedItemKeepsBlankEntry(env, prompt, service, st.ledgers[it.key], it.doc);
  }

  /** A document processed against a ledger read from an existing sidecar (which has
      no file, as written) leaves that ledger dirty and unbound, so the next flush of
      the store throws. */
  lemma ProcessedUnboundLedgerIsStuck(env: Env, prompt: string, service: Options.OpenAIOption,
                                      st: Registry.Store, it: Traversal.Item)
    requires it.key in st.ledgers && st.ledgers[it.key].file.None?
    requires Visit(env, prompt, service, st, Log([], None), it).2
    requires Visit(env, prompt, service, st, Log([], None), it).1.runs[0].ok
    ensures Registry.Stuck(Visit(env, prompt, service, st, Log([], None), it).0, it.key)
  {
  }

  /** The result of `Execute`: the store after its disposal, the per-item log, the
      keys of the ledgers written, in order, and the exception that ended the run, if
      any. */
  datatype Executed = Executed(store: Registry.Store, runs: seq<Worked>, saved: seq<string>, raised: Option<CommandError>)

  /** The service named by the run, or null. */
  function Service(azure: seq<Options.OpenAIOption>, name: Option<string>): (r: Option<Options.OpenAIOption>)
    ensures name.None? ==> r.None?
    ensures name.Some? ==> r == Options.Get(azure, name.value)
  {
    if name.None? then None else Options.Get(azure, name.value)
  }

  /** The walk of `Execute` with `Visit` as the consumer, from a new store. */
  function Walked(env: Env, fs: Traversal.FileSystem, ctx: Contexts.Context, sourceRoot: string,
                  service: Options.OpenAIOption)
    : (r: Traversal.Outcome<Log>)
    ensures Registry.Grows(Registry.NewStore, r.store)
    ensures r.exhausted && r.error.None? ==> Registry.Clean(r.store)
  {
    var visit: Traversal.Visitor<Log> :=
      (st: Registry.Store, log: Log, it: Traversal.Item) => Visit(env, ctx.prompt, service, st, log, it);
    assert Traversal.Keeps(visit);
    Traversal.ParseStore(env.cc, fs, Registry.NewStore, |sourceRoot|, ctx.targetDirectory,
                         Some(name => name + ctx.outName), Some(ctx.patternSource), visit, Log([], None));
    Traversal.Parse(env.cc, fs, Registry.NewStore, |sourceRoot|, ctx.targetDirectory,
                    Some(name => name + ctx.outName), Some(ctx.patternSource), visit, Log([], None))
  }

  /** The `using` block of `Execute`: the walk, then the store's disposal, which runs
      whether the walk ended normally or by an exception. An exception raised by the
      disposal replaces the one in flight. */
  function RunLoop(env: Env, fs: Traversal.FileSystem, ctx: Contexts.Context, sourceRoot: string,
                   service: Options.OpenAIOption)
    : (r: Executed)
    ensures r.raised.None? ==> r.store.disposed && Registry.Clean(r.store)
    ensures var out := Walked(env, fs, ctx, sourceRoot, service);
            && r.store.ledgers.Keys == out.store.ledgers.Keys
            && forall k :: k in out.store.ledgers ==> r.store.ledgers[k].entries == out.store.ledgers[k].entries
    ensures var out := Walked(env, fs, ctx, sourceRoot, service);
            Registry.Flushable(out.store) ==>
              && r.store.disposed && Registry.Clean(r.store)
              && (out.error.Some? ==> r.raised == Some(InWalk(out.error.value)))
              && (out.error.None? ==> r.raised == out.acc.raised)
    ensures var out := Walked(env, fs, ctx, sourceRoot, service);
            !Registry.Flushable(out.store) ==>
              && !r.store.disposed
              && r.raised == Some(InStore(Registry.Ledger(Ledger.UnboundFile)))
  {
    var out := Walked(env, fs, ctx, sourceRoot, service);
    var f := Registry.Dispose(out.store);
    Registry.SaveAllSucceeds(out.store);
    var raised := if f.error.Some? then Some(InStore(f.error.value))
                  else if out.error.Some? then Some(InWalk(out.error.value))
                  else out.acc.raised;
    Executed(f.store, out.acc.runs, out.finalSave + f.saved, raised)
  }

  /** `Commands.Execute`. `azure` is the bound Azure configuration's service list (null
      when there is none), `sourceRoot` the full name of the source folder. The
      file-by-file and by-folder producers `ParseFileByFile`/`ParseByFolder` are defined
      outside the modelled files; `FolderParser.Parse` (`Traversal.Parse`) stands for
      both, and the All strategy produces nothing. The store is disposed on every path out of the
      `using` block; a run that raised nothing leaves every ledger saved. */
  function Execute(env: Env, fs: Traversal.FileSystem, ctx: Contexts.Context, sourceRoot: string,
                   azure: Option<seq<Options.OpenAIOption>>)
    : (r: Result<Executed, CommandError>)
    ensures azure.None? ==> r == Failure(NoAzureOptions)
    ensures azure.Some? && Service(azure.value, ctx.azureServiceName).None? ==> r == Failure(ServiceNotFound)
    ensures azure.Some? ==>
              var service := Service(azure.value, ctx.azureServiceName);
              service.Some? && service.value.endpoint == "" ==> r == Failure(NoEndpoint)
    ensures r.Success? ==> azure.Some? && Service(azure.value, ctx.azureServiceName).Some?
    ensures r.Success? && ctx.strategy == Contexts.All ==> r.value.runs == [] && r.value.saved == []
    ensures r.Success? && r.value.raised.None? ==> r.value.store.disposed && Registry.Clean(r.value.store)
    ensures r.Success? && ctx.strategy != Contexts.All ==>
              r.value == RunLoop(env, fs, ctx, sourceRoot, Service(azure.value, ctx.azureServiceName).value)
  {
    if azure.None? then Failure(NoAzureOptions)
    else
      var service := Service(azure.value, ctx.azureServiceName);
      if service.None? then Failure(ServiceNotFound)
      else if service.value.endpoint == "" then Failure(NoEndpoint)
      else if ctx.strategy == Contexts.All then
        Success(Executed(Registry.NewStore.(disposed := true), [], [], None))
      else
        Success(RunLoop(env, fs, ctx, sourceRoot, service.value))
  }
}

=== FILE: configextension.dfy ===
/** `ConfigurationExtension.LoadConfiguration`: builds a folder loader over the
    builder's file provider, then loads the stored files group by group. A group of
    one file loads it; a group of two loads its environment-less file, then its file
    with an environment; a larger group loads nothing. Each file becomes a JSON, XML,
    INI or key-per-file provider according to the detected content type, or is
    skipped when the type is not recognised. */
module ConfigExtension {
  import opened Wrappers
  import opened Text
  import opened Documents
  import opened ConfigLoader

  /** `FileContentTypeDetector.DetectFileType`: the content type name it gives a file. */
  type Detector = FileRef -> string

  /** A configuration source added to the builder, by full path. */
  datatype Provider = JsonFile(path: string) | XmlFile(path: string) | IniFile(path: string) | KeyPerFile(path: string)

  /** The detected type name each provider is added for. */
  function TypeName(p: Provider): string {
    match p
    case JsonFile(_) => "JSON"
    case XmlFile(_) => "XML"
    case IniFile(_) => "INI"
    case KeyPerFile(_) => "PerKey"
  }

  predicate Recognized(typeName: string) {
    typeName == "JSON" || typeName == "XML" || typeName == "INI" || typeName == "PerKey"
  }

  /** `Load`: the provider for the detected type; an unrecognised type adds nothing. */
  function Load(detect: Detector, f: FileRef): (r: Option<Provider>)
    ensures r.None? <==> !Recognized(detect(f))
    ensures r.Some? ==> TypeName(r.value) == detect(f) && r.value.path == f.fullName
  {
    match detect(f)
    case "JSON" => Some(JsonFile(f.fullName))
    case "XML" => Some(XmlFile(f.fullName))
    case "INI" => Some(IniFile(f.fullName))
    case "PerKey" => Some(KeyPerFile(f.fullName))
    case _ => None
  }

  /** Two files given the same provider are the same path read the same way. */
  lemma LoadInjective(detect: Detector, f: FileRef, g: FileRef)
    requires Load(detect, f).Some? && Load(detect, f) == Load(detect, g)
    ensures f.fullName == g.fullName && detect(f) == detect(g)
  {
  }

  /** The providers added for some files, in order: each comes from one of the files,
      and every file of a recognised type has its provider added. */
  function Loads(detect: Detector, files: seq<ConfigurationFile>): (r: seq<Provider>)
    ensures |r| <= |files|
    ensures forall p :: p in r ==> exists i :: 0 <= i < |files| && Load(detect, files[i].file) == Some(p)
    ensures forall i :: 0 <= i < |files| && Recognized(detect(files[i].file)) ==> Load(detect, files[i].file).value in r
    decreases |files|
  {
    if files == [] then []
    else
      var rest := Loads(detect, files[1..]);
      assert forall k :: 0 <= k < |files| - 1 ==> files[1..][k] == files[k + 1];
      (match Load(detect, files[0].file) case Some(p) => [p] case None => []) + rest
  }

  /** Whether a file belongs to no environment (a null or empty environment). */
  predicate EnvironmentLess(c: ConfigurationFile) {
    IsNullOrEmpty(c.environment)
  }

  /** `FirstOrDefault` over a group: its first file that is (or is not) environment-less. */
  function FirstWhere(g: seq<ConfigurationFile>, environmentLess: bool): (r: Option<ConfigurationFile>)
    ensures r.None? <==> forall i :: 0 <= i < |g| ==> EnvironmentLess(g[i]) != environmentLess
    ensures r.Some? ==> exists i :: && 0 <= i < |g| && g[i] == r.value && EnvironmentLess(g[i]) == environmentLess
                                    && forall j :: 0 <= j < i ==> EnvironmentLess(g[j]) != environmentLess
    decreases |g|
  {
    if g == [] then None
    else if EnvironmentLess(g[0]) == environmentLess then Some(g[0])
    else
      var r := FirstWhere(g[1..], environmentLess);
      assert forall i :: 0 < i < |g| ==> g[i] == g[1..][i - 1];
      r
  }

  /** The files of one group that are loaded, in loading order (lines 67-91 of the
      loop body). */
  function Picked(g: seq<ConfigurationFile>): (r: seq<ConfigurationFile>)
    ensures |r| <= |g|
    ensures forall i :: 0 <= i < |r| ==> r[i] in g
  {
    if |g| == 1 then [g[0]]
    else if |g| == 2 then
      (match FirstWhere(g, true) case Some(a) => [a] case None => [])
      + (match FirstWhere(g, false) case Some(b) => [b] case None => [])
    else []
  }

  /** A pair is loaded environment-less file first, whatever its order in the group;
      of two files on the same side of that line, only the first is loaded. */
  lemma PickedPair(x: ConfigurationFile, y: ConfigurationFile)
    ensures EnvironmentLess(x) && !EnvironmentLess(y) ==> Picked([x, y]) == [x, y]
    ensures !EnvironmentLess(x) && EnvironmentLess(y) ==> Picked([x, y]) == [y, x]
    ensures EnvironmentLess(x) == EnvironmentLess(y) ==> Picked([x, y]) == [x]
  {
    var g := [x, y];
    assert g[1..] == [y];
    assert [y][1..] == [];
    var less := FirstWhere(g, true);
    var more := FirstWhere(g, false);
    if EnvironmentLess(x) {
      assert less == Some(x);
      assert more == FirstWhere([y], false);
    } else {
      assert more == Some(x);
      assert less == FirstWhere([y], true);
    }
  }

  /** A group of three files or more loads none of them. */
  lemma LargeGroupLoadsNothing(g: seq<ConfigurationFile>)
    requires |g| >= 3
    ensures Picked(g) == []
  {
  }

  /** The providers one group adds. */
  function LoadGroup(detect: Detector, g: seq<ConfigurationFile>): (r: seq<Provider>)
    ensures |r| <= 2
  {
    Loads(detect, Picked(g))
  }

  /** The providers added for each group, in group order: a provider is added
      exactly when one of the groups adds it. */
  function LoadGroups(detect: Detector, groups: seq<seq<ConfigurationFile>>): (r: seq<Provider>)
    ensures forall p :: p in r ==> exists j :: 0 <= j < |groups| && p in LoadGroup(detect, groups[j])
    ensures forall j, p :: 0 <= j < |groups| && p in LoadGroup(detect, groups[j]) ==> p in r
    decreases |groups|
  {
    if groups == [] then []
    else
      var rest := LoadGroups(detect, groups[1..]);
      assert forall k :: 0 <= k < |groups| - 1 ==> groups[1..][k] == groups[k + 1];
      LoadGroup(detect, groups[0]) + rest
  }

  /** `LoadConfiguration(self, files)`: the providers added for the loader's groups;
      each is a stored file read by its detected type, under its full path. */
  function LoadFiles(detect: Detector, loader: Loader): (r: seq<Provider>)
    ensures forall p :: p in r ==> exists i :: && 0 <= i < |loader.entries|
                                               && Load(detect, loader.entries[i].1.file) == Some(p)
                                               && p.path == loader.entries[i].1.file.fullName
  {
    LoadedAreStored(detect, loader.entries);
    LoadGroups(detect, Groups(loader.entries))
  }

  /** A file of an enumerated group is a stored file. */
  lemma GroupedIsStored(entries: seq<(string, ConfigurationFile)>, j: nat, c: ConfigurationFile)
    requires j < |Groups(entries)| && c in Groups(entries)[j]
    ensures exists i :: 0 <= i < |entries| && entries[i].1 == c
  {
    assert c in Values(entries);
    var i :| 0 <= i < |Values(entries)| && Values(entries)[i] == c;
  }

  /** Every provider added for some groups is a file of one of them, read by its
      detected type. */
  lemma LoadedFromGroups(detect: Detector, groups: seq<seq<ConfigurationFile>>, p: Provider)
    requires p in LoadGroups(detect, groups)
    ensures exists j, c :: 0 <= j < |groups| && c in groups[j] && Load(detect, c.file) == Some(p)
  {
    var j :| 0 <= j < |groups| && p in LoadGroup(detect, groups[j]);
    var picked := Picked(groups[j]);
    var k :| 0 <= k < |picked| && Load(detect, picked[k].file) == Some(p);
    assert picked[k] in groups[j];
  }

  /** Every provider added for the groups of the stored files is a stored file, read
      by its detected type. */
  lemma LoadedAreStored(detect: Detector, entries: seq<(string, ConfigurationFile)>)
    ensures forall p :: p in LoadGroups(detect, Groups(entries)) ==>
              exists i :: 0 <= i < |entries| && Load(detect, entries[i].1.file) == Some(p)
  {
    forall p | p in LoadGroups(detect, Groups(entries))
      ensures exists i :: 0 <= i < |entries| && Load(detect, entries[i].1.file) == Some(p)
    {
      LoadedFromGroups(detect, Groups(entries), p);
      var j, c :| 0 <= j < |Groups(entries)| && c in Groups(entries)[j] && Load(detect, c.file) == Some(p);
      GroupedIsStored(entries, j, c);
    }
  }

  /** A group is the one file of its name when no other stored file carries that name. */
  lemma {:induction false} GroupSingle(values: seq<ConfigurationFile>, i: nat)
    requires i < |values|
    requires forall j :: 0 <= j < |values| && j != i ==> values[j].name != values[i].name
    ensures Group(values, values[i].name) == [values[i]]
    decreases |values|
  {
    var init := values[..|values| - 1];
    assert forall j :: 0 <= j < |init| ==> init[j] == values[j];
    if i < |values| - 1 {
      GroupSingle(init, i);
    } else {
      GroupNone(init, values[i].name);
    }
  }

  lemma {:induction false} GroupNone(values: seq<ConfigurationFile>, k: string)
    requires forall j :: 0 <= j < |values| ==> values[j].name != k
    ensures Group(values, k) == []
    decreases |values|
  {
    if |values| > 0 {
      var init := values[..|values| - 1];
      assert forall j :: 0 <= j < |init| ==> init[j] == values[j];
      GroupNone(init, k);
    }
  }

  /** A stored file alone under its name, of a recognised type, is loaded. */
  lemma LoneFileLoaded(detect: Detector, loader: Loader, i: nat)
    requires i < |loader.entries|
    requires forall j :: 0 <= j < |loader.entries| && j != i ==> loader.entries[j].1.name != loader.entries[i].1.name
    requires Recognized(detect(loader.entries[i].1.file))
    ensures Load(detect, loader.entries[i].1.file).value in LoadFiles(detect, loader)
  {
    var values := Values(loader.entries);
    var keys := GroupKeys(values);
    var c := values[i];
    GroupSingle(values, i);
    assert c.name in keys;
    var j :| 0 <= j < |keys| && keys[j] == c.name;
    assert Groups(loader.entries)[j] == [c];
    assert Picked([c]) == [c];
    assert Load(detect, c.file).value in LoadGroup(detect, Groups(loader.entries)[j]);
  }

  /** The filter `LoadConfiguration` uses: the one given, or "has content" when none is. */
  function EffectiveFilter(filter: Option<FileRef -> bool>): (r: FileRef -> bool)
    ensures filter.Some? ==> r == filter.value
    ensures filter.None? ==> forall f :: r(f) <==> f.length > 0
  {
    if filter.Some? then filter.value else (f: FileRef) => f.length > 0
  }

  /** What `LoadConfiguration` leaves: the loader it built and the providers it added. */
  datatype Loaded = Loaded(loader: Loader, providers: seq<Provider>)

  /** `LoadConfiguration(self, pattern, filter)`. `contents` is the root listing of the
      builder's file provider (null when the builder is null); `listing` and
      `environmentName` are as for the folder loader. */
  function LoadConfiguration(listing: Listing, environmentName: Option<string>, detect: Detector,
                             contents: Option<seq<ProviderEntry>>, pattern: Option<string>,
                             filter: Option<FileRef -> bool>)
    : (r: Result<Loaded, LoaderError>)
    ensures r.Success? ==> r.value.loader.filter == Some(EffectiveFilter(filter))
    ensures r.Success? ==> r.value.loader.pattern == NewLoader(pattern, None).pattern
    ensures r.Success? ==> r.value.providers == LoadFiles(detect, r.value.loader)
    ensures contents.None? ==> r.Success? && r.value.loader.entries == [] && r.value.providers == []
    ensures r.Failure? <==> AddFromBuilder(listing, environmentName, NewLoader(pattern, Some(EffectiveFilter(filter))), contents).Failure?
  {
    var loader := NewLoader(pattern, Some(EffectiveFilter(filter)));
    var worker :- AddFromBuilder(listing, environmentName, loader, contents);
    Success(Loaded(worker, LoadFiles(detect, worker)))
  }

  /** `LoadConfiguration(self, path, pattern, filter)`: the same steps; `path` is not used. */
  function LoadConfigurationIn(listing: Listing, environmentName: Option<string>, detect: Detector,
                               contents: Option<seq<ProviderEntry>>, path: string, pattern: Option<string>,
                               filter: Option<FileRef -> bool>)
    : (r: Result<Loaded, LoaderError>)
    ensures r.Success? ==> r.value.loader.filter == Some(EffectiveFilter(filter))
    ensures r.Success? ==> r.value.providers == LoadFiles(detect, r.value.loader)
  {
    LoadConfiguration(listing, environmentName, detect, contents, pattern, filter)
  }

  /** The folder given to the `DirectoryInfo` overload plays no part: any two folders
      give the same result. */
  lemma PathIgnored(listing: Listing, environmentName: Option<string>, detect: Detector,
                    contents: Option<seq<ProviderEntry>>, path1: string, path2: string,
                    pattern: Option<string>, filter: Option<FileRef -> bool>)
    ensures LoadConfigurationIn(listing, environmentName, detect, contents, path1, pattern, filter)
            == LoadConfigurationIn(listing, environmentName, detect, contents, path2, pattern, filter)
  {
  }

  /** Without a filter, an empty file found in a folder is not selected. */
  lemma DefaultFilterDropsEmpty(environmentName: Option<string>, c: ConfigurationFile)
    requires c.file.length == 0
    ensures !Accepts(Some(EffectiveFilter(None)), environmentName, c)
  {
  }
}

=== FILE: configloader.dfy ===
/** `FolderConfigurationLoader`: configuration files found in folders, described by
    the name before their first '.' and an optional environment segment, stored under
    their full path and enumerated in groups that share a name. The file system is a
    listing oracle; the `ASPNETCORE_ENVIRONMENT` variable read by the static
    constructor is a parameter. */
module ConfigLoader {
  import opened Wrappers
  import opened Text
  import opened Paths
  import opened Documents

  const DefaultPattern: string := "*.json"

  /** `ConfigurationFile`: a file, its group name and its environment (null when the
      file name has fewer than three segments). */
  datatype ConfigurationFile = ConfigurationFile(name: string, file: FileRef, environment: Option<string>)

  /** `FileInfo.GetFiles(pattern)` on a directory path: the files in enumeration
      order, `None` when the directory does not exist. */
  type Listing = (string, string) -> Option<seq<FileRef>>

  /** What the loader throws: a missing directory (`DirectoryNotFoundException`) or
      a second value under a full path already stored (`ArgumentException`). */
  datatype LoaderError = DirectoryNotFound(path: string) | DuplicateKey(key: string)

  /** The loader: its pattern, its optional filter, and the files stored so far,
      keyed by full path, in insertion order. */
  datatype Loader = Loader(pattern: string, filter: Option<FileRef -> bool>, entries: seq<(string, ConfigurationFile)>)

  /** The constructor: a null or empty pattern becomes "*.json". */
  function NewLoader(pattern: Option<string>, filter: Option<FileRef -> bool>): (l: Loader)
    ensures IsNullOrEmpty(pattern) ==> l.pattern == DefaultPattern
    ensures !IsNullOrEmpty(pattern) ==> l.pattern == pattern.value
    ensures l.filter == filter && l.entries == []
  {
    Loader(if IsNullOrEmpty(pattern) then DefaultPattern else pattern.value, filter, [])
  }

  /** The index of the first '.' of `s` at or after `i`, `|s|` when there is none. */
  function DotFrom(s: string, i: nat): (k: nat)
    requires i <= |s|
    ensures i <= k <= |s|
    decreases |s| - i
  {
    if i == |s| || s[i] == '.' then i else DotFrom(s, i + 1)
  }

  /** `DotFrom` stops at the first '.' and skips none. */
  lemma {:induction false} DotFromShape(s: string, i: nat)
    requires i <= |s|
    ensures var k := DotFrom(s, i);
            (forall j :: i <= j < k ==> s[j] != '.') && (k < |s| ==> s[k] == '.')
    decreases |s| - i
  {
    if i < |s| && s[i] != '.' {
      DotFromShape(s, i + 1);
    }
  }

  /** The text of `s` before its first '.', all of `s` when it has none. */
  function Before(s: string): (r: string)
    ensures |r| <= |s|
  {
    s[..DotFrom(s, 0)]
  }

  /** `Before(s)` is the longest prefix of `s` without a '.'. */
  lemma BeforeShape(s: string)
    ensures Before(s) <= s && '.' !in Before(s)
    ensures |Before(s)| < |s| ==> s[|Before(s)|] == '.'
  {
    DotFromShape(s, 0);
  }

  /** `ComputeName`: `name.Split('.')[0]`, the text before the first '.'. */
  function ComputeName(name: string): (r: string)
    ensures r == Split(name, '.')[0]
    ensures r <= name && '.' !in r
    ensures |r| < |name| ==> name[|r|] == '.'
  {
    SplitHead(name);
    BeforeShape(name);
    Before(name)
  }

  /** The text between the first and the second '.', when there are two. */
  function SecondSegment(name: string): Option<string> {
    var n := Before(name);
    if |n| == |name| then None
    else
      var rest := name[|n| + 1..];
      var e := Before(rest);
      if |e| == |rest| then None else Some(e)
  }

  /** `ComputeEnvironmentName`: the second element of `name.Split('.')` when that has
      more than two elements, and null otherwise. */
  function ComputeEnvironmentName(name: string): (r: Option<string>)
    ensures var n := Split(name, '.');
            r == if |n| > 2 then Some(n[1]) else None
  {
    SecondSegmentSplit(name);
    SecondSegment(name)
  }

  /** The first segment is the text before the first '.'. */
  lemma {:induction false} SplitHead(s: string)
    ensures Split(s, '.')[0] == Before(s)
    ensures '.' in s ==> |Before(s)| < |s| && Split(s, '.') == [Before(s)] + Split(s[|Before(s)| + 1..], '.')
  {
    BeforeShape(s);
    var b := Before(s);
    if |b| < |s| {
      assert IndexOf(s, '.') == |b|;
    } else {
      assert b == s;
      assert IndexOf(s, '.') == -1;
    }
  }

  /** The segment between the first two dots is the second element of the split when
      that has more than two elements. */
  lemma SecondSegmentSplit(name: string)
    ensures var n := Split(name, '.');
            SecondSegment(name) == if |n| > 2 then Some(n[1]) else None
  {
    var n := Split(name, '.');
    SplitHead(name);
    var b := Before(name);
    if |b| < |name| {
      var rest := name[|b| + 1..];
      SplitHead(rest);
      assert n == [b] + Split(rest, '.');
      if |Before(rest)| < |rest| {
        assert |Split(rest, '.')| >= 2;
      } else {
        assert Before(rest) == rest;
        assert Split(rest, '.') == [rest] by {
          assert IndexOf(rest, '.') == -1;
        }
      }
    } else {
      assert n == [name] by {
        assert IndexOf(name, '.') == -1;
      }
    }
  }

  /** The number of '.' in a name. */
  function Dots(s: string): (n: nat)
    ensures n <= |s|
  {
    if |s| == 0 then 0 else Dots(s[..|s| - 1]) + (if s[|s| - 1] == '.' then 1 else 0)
  }

  lemma {:induction false} DotsAppend(a: string, b: string)
    ensures Dots(a + b) == Dots(a) + Dots(b)
    decreases |b|
  {
    if |b| == 0 {
      assert a + b == a;
    } else {
      var b' := b[..|b| - 1];
      assert (a + b)[..|a + b| - 1] == a + b';
      DotsAppend(a, b');
    }
  }

  lemma DotsNone(s: string)
    requires '.' !in s
    ensures Dots(s) == 0
  {
    if |s| > 0 {
      assert '.' !in s[..|s| - 1];
      DotsNone(s[..|s| - 1]);
    }
  }

  /** The dots of a name are its first dot and the dots after it. */
  lemma DotsAtFirst(s: string, k: nat)
    requires k < |s| && s[k] == '.' && '.' !in s[..k]
    ensures Dots(s) == Dots(s[k + 1..]) + 1
  {
    var tail := s[k + 1..];
    assert s == s[..k] + ([s[k]] + tail);
    DotsAppend(s[..k], [s[k]] + tail);
    DotsAppend([s[k]], tail);
    DotsNone(s[..k]);
    assert Dots([s[k]]) == 1 by {
      assert [s[k]][..0] == [];
    }
  }

  /** Splitting on '.' gives one segment more than there are dots. */
  lemma {:induction false} SplitSegments(s: string)
    ensures |Split(s, '.')| == Dots(s) + 1
    decreases |s|
  {
    var k := IndexOf(s, '.');
    if k < 0 {
      DotsNone(s);
    } else {
      var tail := s[k + 1..];
      assert |Split(s, '.')| == 1 + |Split(tail, '.')|;
      SplitSegments(tail);
      assert '.' !in s[..k];
      DotsAtFirst(s, k);
    }
  }

  /** A file name has an environment exactly when it holds at least two dots. */
  lemma EnvironmentIff(name: string)
    ensures ComputeEnvironmentName(name).Some? <==> Dots(name) >= 2
  {
    SplitSegments(name);
  }

  /** The environment is what lies between the first two dots. */
  lemma EnvironmentBetweenDots(name: string)
    requires ComputeEnvironmentName(name).Some?
    ensures ComputeName(name) + "." + ComputeEnvironmentName(name).value + "." <= name
  {
    var b := Before(name);
    var rest := name[|b| + 1..];
    var e := Before(rest);
    BeforeShape(name);
    BeforeShape(rest);
    assert name[..|b| + 1 + |e| + 1] == b + "." + e + ".";
  }

  /** A file as `GetFiles` describes it. */
  function Describe(f: FileRef): (c: ConfigurationFile)
    ensures c.file == f && c.name == ComputeName(Name(f)) && c.environment == ComputeEnvironmentName(Name(f))
  {
    ConfigurationFile(ComputeName(Name(f)), f, ComputeEnvironmentName(Name(f)))
  }

  /** The test `GetFiles` applies: the filter, when given, accepts the file, and its
      environment is null or the process environment. */
  predicate Accepts(filter: Option<FileRef -> bool>, environmentName: Option<string>, c: ConfigurationFile) {
    && (filter.None? || filter.value(c.file))
    && (c.environment == environmentName || c.environment.None?)
  }

  /** The kept part of a listing, in order, for any way of describing a file; the
      lemmas about it hold whatever the description, so they are stated here once. */
  function SelectedBy(describe: FileRef -> ConfigurationFile, filter: Option<FileRef -> bool>,
                      environmentName: Option<string>, files: seq<FileRef>)
    : (r: seq<ConfigurationFile>)
    ensures |r| <= |files|
    decreases |files|
  {
    if |files| == 0 then []
    else
      var rest := SelectedBy(describe, filter, environmentName, files[..|files| - 1]);
      var c := describe(files[|files| - 1]);
      if Accepts(filter, environmentName, c) then rest + [c] else rest
  }

  /** The kept part of a listing as `GetFiles` describes it: every kept file comes
      from the listing, described from its name, and is accepted; every accepted file
      of the listing is kept. */
  function Selected(filter: Option<FileRef -> bool>, environmentName: Option<string>, files: seq<FileRef>)
    : (r: seq<ConfigurationFile>)
    ensures |r| <= |files|
    ensures forall c :: c in r ==> c.file in files && c == Describe(c.file) && Accepts(filter, environmentName, c)
    ensures forall i :: 0 <= i < |files| && Accepts(filter, environmentName, Describe(files[i])) ==> Describe(files[i]) in r
  {
    DescribedSelection(filter, environmentName, files);
    SelectedBy(Describe, filter, environmentName, files)
  }

  /** A described file is accepted when the filter, if any, accepts it, and its name
      splits on '.' into at most two parts or into parts whose second is the process
      environment. */
  lemma AcceptsByName(filter: Option<FileRef -> bool>, environmentName: Option<string>, f: FileRef)
    ensures var n := Split(Name(f), '.');
            Accepts(filter, environmentName, Describe(f))
            <==> (filter.None? || filter.value(f)) && (|n| <= 2 || environmentName == Some(n[1]))
  {
  }

  /** One step of `SelectedBy`: the last file of the listing is kept or dropped. */
  lemma SelectedStep(describe: FileRef -> ConfigurationFile, filter: Option<FileRef -> bool>,
                     environmentName: Option<string>, files: seq<FileRef>)
    requires |files| > 0
    ensures var rest := SelectedBy(describe, filter, environmentName, files[..|files| - 1]);
            var c := describe(files[|files| - 1]);
            SelectedBy(describe, filter, environmentName, files) == if Accepts(filter, environmentName, c) then rest + [c] else rest
  {
  }

  /** Every kept file is the description of a file of the listing, and accepted. */
  lemma {:induction false} SelectedBySound(describe: FileRef -> ConfigurationFile, filter: Option<FileRef -> bool>,
                                           environmentName: Option<string>, files: seq<FileRef>, j: nat)
    requires j < |SelectedBy(describe, filter, environmentName, files)|
    ensures var c := SelectedBy(describe, filter, environmentName, files)[j];
            Accepts(filter, environmentName, c) && exists i :: 0 <= i < |files| && c == describe(files[i])
    decreases |files|
  {
    assert |files| > 0;
    var init := files[..|files| - 1];
    var rest := SelectedBy(describe, filter, environmentName, init);
    var r := SelectedBy(describe, filter, environmentName, files);
    SelectedStep(describe, filter, environmentName, files);
    if j < |rest| {
      assert r[j] == rest[j];
      SelectedBySound(describe, filter, environmentName, init, j);
      var i :| 0 <= i < |init| && rest[j] == describe(init[i]);
      assert init[i] == files[i];
    } else {
      assert r[j] == describe(files[|files| - 1]);
    }
  }

  /** Every accepted file of the listing is kept. */
  lemma {:induction false} SelectedByKeeps(describe: FileRef -> ConfigurationFile, filter: Option<FileRef -> bool>,
                                           environmentName: Option<string>, files: seq<FileRef>, i: nat)
    requires i < |files| && Accepts(filter, environmentName, describe(files[i]))
    ensures describe(files[i]) in SelectedBy(describe, filter, environmentName, files)
    decreases |files|
  {
    var init := files[..|files| - 1];
    var rest := SelectedBy(describe, filter, environmentName, init);
    var c := describe(files[|files| - 1]);
    var r := SelectedBy(describe, filter, environmentName, files);
    SelectedStep(describe, filter, environmentName, files);
    if i < |files| - 1 {
      assert init[i] == files[i];
      SelectedByKeeps(describe, filter, environmentName, init, i);
      assert describe(files[i]) in rest;
    } else {
      assert r == rest + [c];
    }
  }

  /** The selection as `Describe` makes it keeps exactly the accepted files of the
      listing. */
  lemma DescribedSelection(filter: Option<FileRef -> bool>, environmentName: Option<string>, files: seq<FileRef>)
    ensures forall c :: c in SelectedBy(Describe, filter, environmentName, files) ==>
              c.file in files && c == Describe(c.file) && Accepts(filter, environmentName, c)
    ensures forall i :: 0 <= i < |files| && Accepts(filter, environmentName, Describe(files[i])) ==>
              Describe(files[i]) in SelectedBy(Describe, filter, environmentName, files)
  {
    var s := SelectedBy(Describe, filter, environmentName, files);
    forall c | c in s
      ensures c.file in files && c == Describe(c.file) && Accepts(filter, environmentName, c)
    {
      var j :| 0 <= j < |s| && s[j] == c;
      SelectedBySound(Describe, filter, environmentName, files, j);
      var i :| 0 <= i < |files| && c == Describe(files[i]);
      assert c.file == files[i];
    }
    forall i | 0 <= i < |files| && Accepts(filter, environmentName, Describe(files[i]))
      ensures Describe(files[i]) in s
    {
      SelectedByKeeps(Describe, filter, environmentName, files, i);
    }
  }

  /** The loop of `GetFiles`, for any way of describing a file. */
  method GetFilesBy(describe: FileRef -> ConfigurationFile, filter: Option<FileRef -> bool>,
                    environmentName: Option<string>, fs: seq<FileRef>)
    returns (items: seq<ConfigurationFile>)
    ensures items == SelectedBy(describe, filter, environmentName, fs)
  {
    items := [];
    var i := 0;
    while i < |fs|
      invariant i <= |fs|
      invariant items == SelectedBy(describe, filter, environmentName, fs[..i])
    {
      var a := describe(fs[i]);
      assert fs[..i + 1][..i] == fs[..i];
      SelectedStep(describe, filter, environmentName, fs[..i + 1]);
      if Accepts(filter, environmentName, a) {
        items := items + [a];
      }
      i := i + 1;
    }
    assert fs[..|fs|] == fs;
  }

  /** `GetFiles(filter, item, pattern)`: the listing of the folder, each file
      described and kept when accepted. */
  method GetFiles(listing: Listing, filter: Option<FileRef -> bool>, environmentName: Option<string>, dir: string, pattern: string)
    returns (r: Result<seq<ConfigurationFile>, LoaderError>)
    ensures listing(dir, pattern).None? ==> r == Failure(DirectoryNotFound(dir))
    ensures listing(dir, pattern).Some? ==> r == Success(Selected(filter, environmentName, listing(dir, pattern).value))
  {
    var files := listing(dir, pattern);
    if files.None? {
      return Failure(DirectoryNotFound(dir));
    }
    var items := GetFilesBy(Describe, filter, environmentName, files.value);
    return Success(items);
  }

  /** The full paths stored. */
  function Keys(entries: seq<(string, ConfigurationFile)>): set<string> {
    set i | 0 <= i < |entries| :: entries[i].0
  }

  /** No full path is stored twice. */
  predicate Unique(entries: seq<(string, ConfigurationFile)>) {
    forall i, j :: 0 <= i < j < |entries| ==> entries[i].0 != entries[j].0
  }

  /** `Dictionary.Add`: a key already present throws. */
  function Add(entries: seq<(string, ConfigurationFile)>, key: string, c: ConfigurationFile)
    : (r: Result<seq<(string, ConfigurationFile)>, LoaderError>)
    ensures key in Keys(entries) <==> r == Failure(DuplicateKey(key))
    ensures r.Success? ==> r.value == entries + [(key, c)] && Keys(r.value) == Keys(entries) + {key}
    ensures r.Success? && Unique(entries) ==> Unique(r.value)
  {
    if key in Keys(entries) then Failure(DuplicateKey(key))
    else
      var r := entries + [(key, c)];
      assert Keys(r) == Keys(entries) + {key} by {
        assert forall i :: 0 <= i < |entries| ==> r[i] == entries[i];
        assert r[|entries|].0 == key;
      }
      Success(r)
  }

  /** The inner loop of `AddFolders`: each file whose group name is not a stored key
      is added under its full path. */
  function Store(entries: seq<(string, ConfigurationFile)>, items: seq<ConfigurationFile>)
    : (r: Result<seq<(string, ConfigurationFile)>, LoaderError>)
    ensures r.Success? ==> entries <= r.value
    ensures r.Success? && Unique(entries) ==> Unique(r.value)
    ensures r.Success? ==> forall j :: |entries| <= j < |r.value| ==>
              r.value[j].1 in items && r.value[j].0 == r.value[j].1.file.fullName
    decreases |items|
  {
    if |items| == 0 then Success(entries)
    else
      var item := items[0];
      var next :- if item.name !in Keys(entries) then Add(entries, item.file.fullName, item) else Success(entries);
      var r :- Store(next, items[1..]);
      assert forall j :: |next| <= j < |r| ==> r[j].1 in items;
      Success(r)
  }

  /** The first file of a pass is stored when its group name is not a key. */
  lemma StoreFirst(entries: seq<(string, ConfigurationFile)>, items: seq<ConfigurationFile>)
    requires |items| > 0 && items[0].name !in Keys(entries) && Store(entries, items).Success?
    ensures |Store(entries, items).value| > |entries|
    ensures Store(entries, items).value[|entries|] == (items[0].file.fullName, items[0])
  {
  }

  /** The outer loop of `AddFolders(params string[])`. */
  method AddPaths(listing: Listing, environmentName: Option<string>, loader: Loader, paths: seq<string>)
    returns (r: Result<Loader, LoaderError>)
    ensures r.Success? ==> r.value.pattern == loader.pattern && r.value.filter == loader.filter
    ensures r.Success? ==> loader.entries <= r.value.entries
    ensures r.Success? && Unique(loader.entries) ==> Unique(r.value.entries)
    ensures r.Success? ==> forall j :: |loader.entries| <= j < |r.value.entries| ==>
              Accepts(loader.filter, environmentName, r.value.entries[j].1)
  {
    var entries := loader.entries;
    var i := 0;
    while i < |paths|
      invariant i <= |paths|
      invariant loader.entries <= entries
      invariant Unique(loader.entries) ==> Unique(entries)
      invariant forall j :: |loader.entries| <= j < |entries| ==> Accepts(loader.filter, environmentName, entries[j].1)
    {
      var f := GetFiles(listing, loader.filter, environmentName, paths[i], loader.pattern);
      if f.Failure? {
        return Failure(f.error);
      }
      var next := Store(entries, f.value);
      if next.Failure? {
        return Failure(next.error);
      }
      entries := next.value;
      i := i + 1;
    }
    return Success(loader.(entries := entries));
  }

  /** `AddFolders(params string[] paths)`: null leaves the loader as it is. */
  method AddFolders(listing: Listing, environmentName: Option<string>, loader: Loader, paths: Option<seq<string>>)
    returns (r: Result<Loader, LoaderError>)
    ensures paths.None? ==> r == Success(loader)
    ensures r.Success? ==> r.value.pattern == loader.pattern && r.value.filter == loader.filter
    ensures r.Success? ==> loader.entries <= r.value.entries
    ensures r.Success? && Unique(loader.entries) ==> Unique(r.value.entries)
    ensures r.Success? ==> forall j :: |loader.entries| <= j < |r.value.entries| ==>
              Accepts(loader.filter, environmentName, r.value.entries[j].1)
  {
    if paths.None? {
      return Success(loader);
    }
    r := AddPaths(listing, environmentName, loader, paths.value);
  }

  /** One folder added as a single path: its kept files stored in order. */
  function AddFolder(listing: Listing, environmentName: Option<string>, loader: Loader, path: string)
    : (r: Result<Loader, LoaderError>)
    ensures listing(path, loader.pattern).None? ==> r == Failure(DirectoryNotFound(path))
    ensures r.Success? ==> r.value.pattern == loader.pattern && r.value.filter == loader.filter
    ensures r.Success? ==> loader.entries <= r.value.entries
    ensures r.Success? && Unique(loader.entries) ==> Unique(r.value.entries)
  {
    match listing(path, loader.pattern)
    case None => Failure(DirectoryNotFound(path))
    case Some(files) =>
      var entries :- Store(loader.entries, Selected(loader.filter, environmentName, files));
      Success(loader.(entries := entries))
  }

  /** The duplicate guard looks up the group name among full paths, so a folder
      added a second time stores its first kept file again under the same full path,
      and the dictionary throws. */
  lemma SameFolderTwiceFails(listing: Listing, environmentName: Option<string>, loader: Loader, path: string)
    requires AddFolder(listing, environmentName, loader, path).Success?
    requires var files := listing(path, loader.pattern).value;
             |Selected(loader.filter, environmentName, files)| > 0
    requires var item := Selected(loader.filter, environmentName, listing(path, loader.pattern).value)[0];
             item.name !in Keys(AddFolder(listing, environmentName, loader, path).value.entries)
    ensures var l1 := AddFolder(listing, environmentName, loader, path).value;
            var item := Selected(loader.filter, environmentName, listing(path, loader.pattern).value)[0];
            AddFolder(listing, environmentName, l1, path) == Failure(DuplicateKey(item.file.fullName))
  {
    var items := Selected(loader.filter, environmentName, listing(path, loader.pattern).value);
    StoreTwiceFails(loader.entries, items, Store(loader.entries, items).value);
  }

  /** Storing the same kept files twice: the first one's full path is already a key
      the second time, unless its group name is. */
  lemma StoreTwiceFails(entries: seq<(string, ConfigurationFile)>, items: seq<ConfigurationFile>,
                        stored: seq<(string, ConfigurationFile)>)
    requires |items| > 0 && Store(entries, items) == Success(stored)
    requires items[0].name !in Keys(stored)
    ensures Store(stored, items) == Failure(DuplicateKey(items[0].file.fullName))
  {
    assert Keys(entries) <= Keys(stored) by {
      forall k | k in Keys(entries) ensures k in Keys(stored) {
        var i :| 0 <= i < |entries| && entries[i].0 == k;
        assert stored[i] == entries[i];
      }
    }
    StoreFirst(entries, items);
    assert items[0].file.fullName in Keys(stored) by {
      assert stored[|entries|].0 == items[0].file.fullName;
    }
  }

  /** An entry the builder's file provider lists at its root. */
  datatype ProviderEntry = PhysicalFile(file: FileRef) | PhysicalDirectory(path: string) | OtherEntry

  /** One root entry of the builder's provider: a file is stored unless its file name
      is a key, with no pattern, filter or environment test; a directory is added as a
      folder; anything else is passed over. */
  function AddEntry(listing: Listing, environmentName: Option<string>, loader: Loader, e: ProviderEntry)
    : (r: Result<Loader, LoaderError>)
    ensures e.OtherEntry? ==> r == Success(loader)
    ensures e.PhysicalFile? && Name(e.file) in Keys(loader.entries) ==> r == Success(loader)
    ensures e.PhysicalFile? && Name(e.file) !in Keys(loader.entries) ==>
              (r.Failure? <==> e.file.fullName in Keys(loader.entries)) &&
              (r.Success? ==> r.value == loader.(entries := loader.entries + [(e.file.fullName, Describe(e.file))]))
    ensures r.Success? ==> r.value.pattern == loader.pattern && r.value.filter == loader.filter
    ensures r.Success? ==> loader.entries <= r.value.entries
    ensures r.Success? && Unique(loader.entries) ==> Unique(r.value.entries)
  {
    match e
    case PhysicalFile(f) =>
      if Name(f) !in Keys(loader.entries) then
        var entries :- Add(loader.entries, f.fullName, Describe(f));
        Success(loader.(entries := entries))
      else Success(loader)
    case PhysicalDirectory(p) => AddFolder(listing, environmentName, loader, p)
    case OtherEntry => Success(loader)
  }

  /** `AddFolders(IConfigurationBuilder)`: the root entries are added in order; a
      null builder leaves the loader as it is. */
  function AddFromBuilder(listing: Listing, environmentName: Option<string>, loader: Loader, contents: Option<seq<ProviderEntry>>)
    : (r: Result<Loader, LoaderError>)
    ensures contents.None? ==> r == Success(loader)
    ensures r.Success? ==> r.value.pattern == loader.pattern && r.value.filter == loader.filter
    ensures r.Success? ==> loader.entries <= r.value.entries
    ensures r.Success? && Unique(loader.entries) ==> Unique(r.value.entries)
    decreases if contents.Some? then |contents.value| else 0
  {
    match contents
    case None => Success(loader)
    case Some(es) =>
      if |es| == 0 then Success(loader)
      else
        var next :- AddEntry(listing, environmentName, loader, es[0]);
        AddFromBuilder(listing, environmentName, next, Some(es[1..]))
  }

  /** A root file is stored whatever the filter, the pattern and its environment. */
  lemma RootFileUnfiltered(listing: Listing, environmentName: Option<string>, loader: Loader, f: FileRef)
    requires Name(f) !in Keys(loader.entries) && f.fullName !in Keys(loader.entries)
    ensures AddFromBuilder(listing, environmentName, loader, Some([PhysicalFile(f)]))
            == Success(loader.(entries := loader.entries + [(f.fullName, Describe(f))]))
  {
    assert [PhysicalFile(f)][1..] == [];
  }

  /** The stored files, in insertion order (`_files.Values`). */
  function Values(entries: seq<(string, ConfigurationFile)>): (r: seq<ConfigurationFile>)
    ensures |r| == |entries| && forall i :: 0 <= i < |entries| ==> r[i] == entries[i].1
  {
    seq(|entries|, i requires 0 <= i < |entries| => entries[i].1)
  }

  /** The group names in order of first appearance. */
  function GroupKeys(values: seq<ConfigurationFile>): (r: seq<string>)
    ensures forall i, j :: 0 <= i < j < |r| ==> r[i] != r[j]
    ensures forall i :: 0 <= i < |values| ==> values[i].name in r
    ensures forall k :: k in r ==> exists i :: 0 <= i < |values| && values[i].name == k
    decreases |values|
  {
    if |values| == 0 then []
    else
      var init := values[..|values| - 1];
      var rest := GroupKeys(init);
      var n := values[|values| - 1].name;
      assert forall i :: 0 <= i < |init| ==> init[i] == values[i];
      if n in rest then rest else rest + [n]
  }

  /** The files of group `k`, in insertion order. */
  function Group(values: seq<ConfigurationFile>, k: string): (r: seq<ConfigurationFile>)
    ensures forall c :: c in r ==> c in values && c.name == k
    ensures forall i :: 0 <= i < |values| && values[i].name == k ==> values[i] in r
    decreases |values|
  {
    if |values| == 0 then []
    else
      var init := values[..|values| - 1];
      var rest := Group(init, k);
      var c := values[|values| - 1];
      assert forall i :: 0 <= i < |init| ==> init[i] == values[i];
      if c.name == k then rest + [c] else rest
  }

  /** A name that some file carries has a non-empty group. */
  lemma GroupNonEmpty(values: seq<ConfigurationFile>, k: string, j: nat)
    requires j < |values| && values[j].name == k
    ensures |Group(values, k)| > 0 && Group(values, k)[0].name == k
  {
    assert values[j] in Group(values, k);
  }

  /** `GetEnumerator`: the stored files grouped by name. */
  function Groups(entries: seq<(string, ConfigurationFile)>): (r: seq<seq<ConfigurationFile>>)
    ensures forall i :: 0 <= i < |r| ==> |r[i]| > 0 && forall c :: c in r[i] ==> c.name == r[i][0].name
    ensures forall i :: 0 <= i < |r| ==> forall c :: c in r[i] ==> c in Values(entries)
    ensures forall i, j :: 0 <= i < j < |r| ==> r[i][0].name != r[j][0].name
  {
    var values := Values(entries);
    var keys := GroupKeys(values);
    var r := seq(|keys|, i requires 0 <= i < |keys| => Group(values, keys[i]));
    forall i | 0 <= i < |keys| ensures |r[i]| > 0 && r[i][0].name == keys[i] {
      assert keys[i] in keys;
      var j :| 0 <= j < |values| && values[j].name == keys[i];
      GroupNonEmpty(values, keys[i], j);
    }
    r
  }

  /** Every stored file is enumerated, in the group of its name. */
  lemma GroupsCover(entries: seq<(string, ConfigurationFile)>, i: nat)
    requires i < |entries|
    ensures exists j :: 0 <= j < |Groups(entries)| && entries[i].1 in Groups(entries)[j]
  {
    var values := Values(entries);
    var keys := GroupKeys(values);
    var k := values[i].name;
    var j :| 0 <= j < |keys| && keys[j] == k;
    assert Groups(entries)[j] == Group(values, k);
    assert values[i] in Group(values, k);
  }
}

=== FILE: connection.dfy ===
/** The connection-string reader (`ConnexionReaderExtension.GetKeyValues` and the
    `DbConnectionOptions` tokenizer behind it): a state machine that reads one
    `key=value;` pair at a time, in OLE DB rules (doubled '=' in keys, values quoted
    with '"' or '\'', last duplicate wins) or ODBC rules (values quoted with braces,
    first duplicate wins). Exceptions become `ConnectionError` values. */
module Connection {
  import opened Wrappers
  import opened Text

  /** The tokenizer's states, in the order the source declares them. */
  datatype ParserState =
    | NothingYet | Key | KeyEqual | KeyEnd | UnquotedValue
    | DoubleQuoteValue | DoubleQuoteValueQuote | SingleQuoteValue | SingleQuoteValueQuote
    | BraceQuoteValue | BraceQuoteValueQuote | QuotedValueEnd | NullTermination

  datatype ConnectionError =
    | ArgumentNull
    | Syntax(position: nat)
    | KeywordNotSupported(keyword: string)

  /** The tokenizer's variables between two characters: the state, the position of
      the pair's first significant character, the buffer, and the key and value found
      so far. */
  datatype Scan = Scan(state: ParserState, start: nat, buffer: string, keyname: Option<string>, keyvalue: Option<string>)

  /** What reading one character does: go on to the next one, leave the loop at this
      one (`goto ParserExit`), or throw a syntax error at a position. */
  datatype Move = Go(scan: Scan) | Exit(scan: Scan) | Fail(position: nat)

  /** The result of `GetKeyValuePair`: the position to resume from and the key and
      value read (either may be null). */
  datatype KeyValuePair = KeyValuePair(next: nat, keyname: Option<string>, keyvalue: Option<string>)

  /** `GetKeyName`: the buffer without its trailing white space, lower-cased. */
  function KeyName(cc: CharClasses, buffer: string): (r: string)
    ensures |r| <= |buffer|
    ensures forall i :: 0 <= i < |r| ==> r[i] == cc.toLower(buffer[i])
    ensures forall i :: |r| <= i < |buffer| ==> cc.isWhiteSpace(buffer[i])
    ensures |r| > 0 ==> !cc.isWhiteSpace(buffer[|r| - 1])
  {
    Lower(cc, TrimEnd(cc, buffer))
  }

  /** `GetKeyValue(buffer, trimWhitespace)`. */
  function KeyValue(cc: CharClasses, buffer: string, trimWhitespace: bool): (r: string)
    ensures !trimWhitespace ==> r == buffer
    ensures trimWhitespace && |buffer| > 0 && !cc.isWhiteSpace(buffer[0]) ==>
              |r| > 0 && r <= buffer && !cc.isWhiteSpace(r[|r| - 1])
  {
    if trimWhitespace then
      var r := Trim(cc, buffer);
      assert |buffer| > 0 && !cc.isWhiteSpace(buffer[0]) ==> SkipForward(cc.isWhiteSpace, buffer, 0) == 0;
      r
    else buffer
  }

  /** A character that opens a quoted value after '=': '{' in ODBC rules, '\'' or
      '"' in OLE DB rules. */
  predicate OpensQuote(odbc: bool, c: char) {
    if odbc then c == '{' else c == '\'' || c == '"'
  }

  /** The `KeyEnd` case: white space is skipped, an opening quote starts a quoted
      value, ';' or NUL ends the pair with no value, any other control character is
      an error, and anything else starts an unquoted value. */
  function AtKeyEnd(cc: CharClasses, odbc: bool, sc: Scan, c: char): (r: Move)
    ensures r.Go? ==> r.scan.keyname == sc.keyname && r.scan.start == sc.start
    ensures cc.isWhiteSpace(c) ==> r == Go(sc)
    ensures !cc.isWhiteSpace(c) && !odbc && c == '"' ==> r == Go(sc.(state := DoubleQuoteValue))
    ensures !cc.isWhiteSpace(c) && !odbc && c == '\'' ==> r == Go(sc.(state := SingleQuoteValue))
    ensures !cc.isWhiteSpace(c) && odbc && c == '{' ==> r == Go(sc.(state := BraceQuoteValue, buffer := sc.buffer + [c]))
    ensures r.Exit? <==> !cc.isWhiteSpace(c) && (c == ';' || c == '\0')
    ensures r.Exit? ==> r.scan == sc
    ensures r.Fail? <==> !cc.isWhiteSpace(c) && !OpensQuote(odbc, c) && c != ';' && c != '\0' && cc.isControl(c)
    ensures r.Fail? ==> r.position == sc.start
    ensures r.Go? && !cc.isWhiteSpace(c) && !OpensQuote(odbc, c) ==>
              r.scan == sc.(state := UnquotedValue, buffer := sc.buffer + [c])
  {
    if cc.isWhiteSpace(c) then Go(sc)
    else if odbc && c == '{' then Go(sc.(state := BraceQuoteValue, buffer := sc.buffer + [c]))
    else if !odbc && c == '\'' then Go(sc.(state := SingleQuoteValue))
    else if !odbc && c == '"' then Go(sc.(state := DoubleQuoteValue))
    else if c == ';' || c == '\0' then Exit(sc)
    else if cc.isControl(c) then Fail(sc.start)
    else Go(sc.(state := UnquotedValue, buffer := sc.buffer + [c]))
  }

  /** The `QuotedValueEnd` case: only white space, then ';' or NUL, may follow a
      closing quote. */
  function AtQuotedValueEnd(cc: CharClasses, sc: Scan, c: char): (r: Move)
    ensures r.Go? ==> r.scan.keyname == sc.keyname && r.scan.start == sc.start
    ensures r.Go? ==> r.scan.state == sc.state || (r.scan.state == NullTermination && c == '\0')
    ensures r.Exit? ==> r.scan == sc && c == ';'
    ensures r.Exit? <==> !cc.isWhiteSpace(c) && c == ';'
    ensures r.Fail? <==> !cc.isWhiteSpace(c) && c != ';' && c != '\0'
    ensures r.Fail? ==> r.position == sc.start
  {
    if cc.isWhiteSpace(c) then Go(sc)
    else if c == ';' then Exit(sc)
    else if c == '\0' then Go(sc.(state := NullTermination))
    else Fail(sc.start)
  }

  /** The body of the `for` loop of `GetKeyValuePair` for the character `c` at `pos`:
      `continue` keeps the buffer, `break` appends `c` to it. */
  function Next(cc: CharClasses, odbc: bool, sc: Scan, pos: nat, c: char): (r: Move)
    ensures r.Exit? ==> sc.state != NothingYet && sc.state != NullTermination
    ensures r.Exit? ==> c == ';' || c == '\0' || cc.isControl(c)
  {
    match sc.state
    case NothingYet =>
      if c == ';' || cc.isWhiteSpace(c) then Go(sc)
      else if c == '\0' then Go(sc.(state := NullTermination))
      else if cc.isControl(c) then Fail(sc.start)
      else if c != '=' then Go(sc.(start := pos, state := Key, buffer := sc.buffer + [c]))
      else Go(sc.(start := pos, state := KeyEqual))
    case Key =>
      if c == '=' then Go(sc.(state := KeyEqual))
      else if cc.isWhiteSpace(c) then Go(sc.(buffer := sc.buffer + [c]))
      else if cc.isControl(c) then Fail(sc.start)
      else Go(sc.(buffer := sc.buffer + [c]))
    case KeyEqual =>
      if !odbc && c == '=' then Go(sc.(state := Key, buffer := sc.buffer + [c]))
      else
        var name := KeyName(cc, sc.buffer);
        if name == "" then Fail(sc.start)
        else AtKeyEnd(cc, odbc, sc.(keyname := Some(name), buffer := [], state := KeyEnd), c)
    case KeyEnd => AtKeyEnd(cc, odbc, sc, c)
    case UnquotedValue =>
      if cc.isWhiteSpace(c) then Go(sc.(buffer := sc.buffer + [c]))
      else if cc.isControl(c) || c == ';' then Exit(sc)
      else Go(sc.(buffer := sc.buffer + [c]))
    case DoubleQuoteValue =>
      if c == '"' then Go(sc.(state := DoubleQuoteValueQuote))
      else if c == '\0' then Fail(sc.start)
      else Go(sc.(buffer := sc.buffer + [c]))
    case DoubleQuoteValueQuote =>
      if c == '"' then Go(sc.(state := DoubleQuoteValue, buffer := sc.buffer + [c]))
      else AtQuotedValueEnd(cc, sc.(keyvalue := Some(KeyValue(cc, sc.buffer, false)), state := QuotedValueEnd), c)
    case SingleQuoteValue =>
      if c == '\'' then Go(sc.(state := SingleQuoteValueQuote))
      else if c == '\0' then Fail(sc.start)
      else Go(sc.(buffer := sc.buffer + [c]))
    case SingleQuoteValueQuote =>
      if c == '\'' then Go(sc.(state := SingleQuoteValue, buffer := sc.buffer + [c]))
      else AtQuotedValueEnd(cc, sc.(keyvalue := Some(KeyValue(cc, sc.buffer, false)), state := QuotedValueEnd), c)
    case BraceQuoteValue =>
      if c == '}' then Go(sc.(state := BraceQuoteValueQuote, buffer := sc.buffer + [c]))
      else if c == '\0' then Fail(sc.start)
      else Go(sc.(buffer := sc.buffer + [c]))
    case BraceQuoteValueQuote =>
      if c == '}' then Go(sc.(state := BraceQuoteValue, buffer := sc.buffer + [c]))
      else AtQuotedValueEnd(cc, sc.(keyvalue := Some(KeyValue(cc, sc.buffer, false)), state := QuotedValueEnd), c)
    case QuotedValueEnd => AtQuotedValueEnd(cc, sc, c)
    case NullTermination =>
      if c == '\0' || cc.isWhiteSpace(c) then Go(sc)
      else Fail(pos)
  }

  /** A character `GetKeyValuePair` may skip without reading a pair. */
  predicate Junk(cc: CharClasses, c: char) {
    c == ';' || c == '\0' || cc.isWhiteSpace(c)
  }

  /** The states in which a key has been read. */
  predicate AfterKey(state: ParserState) {
    !(state == NothingYet || state == Key || state == KeyEqual || state == NullTermination)
  }

  /** What the exit of the loop relies on: a finished key leaves the buffer empty,
      and an unquoted value starts with a character that is not white space (so the
      trimmed value has a last character). */
  predicate Shape(cc: CharClasses, sc: Scan) {
    && (sc.state == KeyEnd ==> sc.buffer == [])
    && (sc.state == UnquotedValue ==> |sc.buffer| > 0 && !cc.isWhiteSpace(sc.buffer[0]))
  }

  /** Reading a character keeps `Shape`. */
  lemma NextShape(cc: CharClasses, odbc: bool, sc: Scan, pos: nat, c: char)
    requires Shape(cc, sc)
    ensures (Next(cc, odbc, sc, pos, c).Go? || Next(cc, odbc, sc, pos, c).Exit?) ==> Shape(cc, Next(cc, odbc, sc, pos, c).scan)
  {
  }

  /** What holds of the tokenizer's variables while it reads `s` from `from`, before
      the character at `pos`. */
  ghost predicate Good(cc: CharClasses, s: string, from: nat, pos: nat, sc: Scan)
    requires from <= pos <= |s|
  {
    && (sc.state == NothingYet ==> sc.buffer == [] && sc.keyname.None?)
    && (sc.state != NothingYet ==> from < pos)
    && (sc.state == KeyEnd ==> sc.buffer == [])
    && (sc.state == UnquotedValue ==> |sc.buffer| > 0 && !cc.isWhiteSpace(sc.buffer[0]))
    && (sc.keyname.Some? ==> sc.keyname.value != "")
    && (AfterKey(sc.state) ==> sc.keyname.Some?)
    && (sc.keyname.None? && (sc.state == NothingYet || sc.state == NullTermination) ==>
          forall i :: from <= i < pos ==> Junk(cc, s[i]))
  }

  /** Reading one more character keeps `Good`; the loop is left only in a state where
      a key has been read. */
  lemma NextGood(cc: CharClasses, odbc: bool, s: string, from: nat, pos: nat, sc: Scan)
    requires from <= pos < |s| && Good(cc, s, from, pos, sc)
    ensures Next(cc, odbc, sc, pos, s[pos]).Go? ==> Good(cc, s, from, pos + 1, Next(cc, odbc, sc, pos, s[pos]).scan)
    ensures Next(cc, odbc, sc, pos, s[pos]).Exit? ==>
              var x := Next(cc, odbc, sc, pos, s[pos]).scan;
              && from < pos && AfterKey(x.state) && Good(cc, s, from, pos, x)
  {
    if AfterKey(sc.state) {
      NextGoodAfterKey(cc, odbc, s, from, pos, sc);
    } else {
      NextGoodBeforeKey(cc, odbc, s, from, pos, sc);
    }
  }

  lemma NextGoodAfterKey(cc: CharClasses, odbc: bool, s: string, from: nat, pos: nat, sc: Scan)
    requires from <= pos < |s| && Good(cc, s, from, pos, sc) && AfterKey(sc.state)
    ensures Next(cc, odbc, sc, pos, s[pos]).Go? ==> Good(cc, s, from, pos + 1, Next(cc, odbc, sc, pos, s[pos]).scan)
    ensures Next(cc, odbc, sc, pos, s[pos]).Exit? ==>
              var x := Next(cc, odbc, sc, pos, s[pos]).scan;
              && from < pos && AfterKey(x.state) && Good(cc, s, from, pos, x)
  {
  }

  lemma NextGoodBeforeKey(cc: CharClasses, odbc: bool, s: string, from: nat, pos: nat, sc: Scan)
    requires from <= pos < |s| && Good(cc, s, from, pos, sc) && !AfterKey(sc.state)
    ensures Next(cc, odbc, sc, pos, s[pos]).Go? ==> Good(cc, s, from, pos + 1, Next(cc, odbc, sc, pos, s[pos]).scan)
    ensures Next(cc, odbc, sc, pos, s[pos]).Exit? ==>
              var x := Next(cc, odbc, sc, pos, s[pos]).scan;
              && from < pos && AfterKey(x.state) && Good(cc, s, from, pos, x)
  {
    if sc.state == NothingYet || sc.state == NullTermination {
      NextGoodBetweenPairs(cc, odbc, s, from, pos, sc);
    } else {
      NextGoodInKey(cc, odbc, s, from, pos, sc);
    }
  }

  /** Before a pair, and after the NUL that ended one. */
  lemma NextGoodBetweenPairs(cc: CharClasses, odbc: bool, s: string, from: nat, pos: nat, sc: Scan)
    requires from <= pos < |s| && Good(cc, s, from, pos, sc) && (sc.state == NothingYet || sc.state == NullTermination)
    ensures Next(cc, odbc, sc, pos, s[pos]).Go? ==> Good(cc, s, from, pos + 1, Next(cc, odbc, sc, pos, s[pos]).scan)
    ensures Next(cc, odbc, sc, pos, s[pos]).Exit? ==>
              var x := Next(cc, odbc, sc, pos, s[pos]).scan;
              && from < pos && AfterKey(x.state) && Good(cc, s, from, pos, x)
  {
  }

  /** Inside a key, before and after a '='. */
  lemma NextGoodInKey(cc: CharClasses, odbc: bool, s: string, from: nat, pos: nat, sc: Scan)
    requires from <= pos < |s| && Good(cc, s, from, pos, sc) && (sc.state == Key || sc.state == KeyEqual)
    ensures Next(cc, odbc, sc, pos, s[pos]).Go? ==> Good(cc, s, from, pos + 1, Next(cc, odbc, sc, pos, s[pos]).scan)
    ensures Next(cc, odbc, sc, pos, s[pos]).Exit? ==>
              var x := Next(cc, odbc, sc, pos, s[pos]).scan;
              && from < pos && AfterKey(x.state) && Good(cc, s, from, pos, x)
  {
    if sc.state == KeyEqual && (odbc || s[pos] != '=') {
      var name := KeyName(cc, sc.buffer);
      if name != "" {
        AtKeyEndGood(cc, odbc, s, from, pos, sc.(keyname := Some(name), buffer := [], state := KeyEnd));
      }
    }
  }

  /** The first character after a key name. */
  lemma AtKeyEndGood(cc: CharClasses, odbc: bool, s: string, from: nat, pos: nat, sc: Scan)
    requires from < pos < |s| && sc.state == KeyEnd && sc.buffer == [] && sc.keyname.Some? && sc.keyname.value != ""
    ensures AtKeyEnd(cc, odbc, sc, s[pos]).Go? ==> Good(cc, s, from, pos + 1, AtKeyEnd(cc, odbc, sc, s[pos]).scan)
    ensures AtKeyEnd(cc, odbc, sc, s[pos]).Exit? ==>
              var x := AtKeyEnd(cc, odbc, sc, s[pos]).scan;
              AfterKey(x.state) && Good(cc, s, from, pos, x)
  {
  }

  /** The states in which the string ended inside a key or inside a quoted value. */
  predicate Unfinished(state: ParserState) {
    state == Key || state == DoubleQuoteValue || state == SingleQuoteValue || state == BraceQuoteValue
  }

  /** The states reached once a quoted value's closing quote has been read. */
  predicate QuoteClosed(state: ParserState) {
    state == DoubleQuoteValueQuote || state == SingleQuoteValueQuote || state == BraceQuoteValueQuote
    || state == QuotedValueEnd
  }

  /** A value whose last character is a quote. */
  predicate EndsInQuote(v: string) {
    |v| > 0 && (v[|v| - 1] == '\'' || v[|v| - 1] == '"')
  }

  /** `ParserExit`: the states that still wait for a key name or a closing quote are
      errors; the others yield the key and value read; a ';' that stopped the loop is
      consumed. */
  function Finish(cc: CharClasses, odbc: bool, s: string, pos: nat, sc: Scan): (r: Result<KeyValuePair, ConnectionError>)
    requires pos <= |s|
    requires sc.state == UnquotedValue ==> |sc.buffer| > 0 && !cc.isWhiteSpace(sc.buffer[0])
    ensures r.Success? ==> r.value.next == (if pos < |s| && s[pos] == ';' then pos + 1 else pos)
    ensures r.Success? && (sc.state == KeyEnd || AfterKey(sc.state)) ==> r.value.keyname == sc.keyname
    ensures r.Success? && sc.state == KeyEqual ==> r.value.keyname.Some? && r.value.keyname.value != ""
    ensures r.Success? && r.value.keyname.None? ==> sc.keyname.None? && sc.state != KeyEqual
    ensures r.Failure? ==> r.error == Syntax(sc.start)
    ensures Unfinished(sc.state) ==> r.Failure?
    ensures sc.state == KeyEqual ==> (r.Failure? <==> KeyName(cc, sc.buffer) == "")
    ensures sc.state == UnquotedValue ==> (r.Failure? <==> !odbc && EndsInQuote(Trim(cc, sc.buffer)))
    ensures sc.state == UnquotedValue && r.Success? ==> r.value.keyvalue == Some(Trim(cc, sc.buffer))
    ensures QuoteClosed(sc.state) ==> r.Success? && r.value.keyvalue == Some(sc.buffer)
    ensures sc.state == NothingYet || sc.state == KeyEnd || sc.state == NullTermination ==>
              r.Success? && r.value.keyvalue == sc.keyvalue
  {
    var next := if pos < |s| && s[pos] == ';' then pos + 1 else pos;
    match sc.state
    case Key => Failure(Syntax(sc.start))
    case DoubleQuoteValue => Failure(Syntax(sc.start))
    case SingleQuoteValue => Failure(Syntax(sc.start))
    case BraceQuoteValue => Failure(Syntax(sc.start))
    case KeyEqual =>
      var name := KeyName(cc, sc.buffer);
      if name == "" then Failure(Syntax(sc.start))
      else Success(KeyValuePair(next, Some(name), sc.keyvalue))
    case UnquotedValue =>
      var value := KeyValue(cc, sc.buffer, true);
      assert value == Trim(cc, sc.buffer);
      var last := value[|value| - 1];
      assert EndsInQuote(value) <==> last == '\'' || last == '"';
      if !odbc && (last == '\'' || last == '"') then Failure(Syntax(sc.start))
      else Success(KeyValuePair(next, sc.keyname, Some(value)))
    case DoubleQuoteValueQuote => Success(KeyValuePair(next, sc.keyname, Some(KeyValue(cc, sc.buffer, false))))
    case SingleQuoteValueQuote => Success(KeyValuePair(next, sc.keyname, Some(KeyValue(cc, sc.buffer, false))))
    case BraceQuoteValueQuote => Success(KeyValuePair(next, sc.keyname, Some(KeyValue(cc, sc.buffer, false))))
    case QuotedValueEnd => Success(KeyValuePair(next, sc.keyname, Some(KeyValue(cc, sc.buffer, false))))
    case NothingYet => Success(KeyValuePair(next, sc.keyname, sc.keyvalue))
    case KeyEnd => Success(KeyValuePair(next, sc.keyname, sc.keyvalue))
    case NullTermination => Success(KeyValuePair(next, sc.keyname, sc.keyvalue))
  }

  /** The `for` loop of `GetKeyValuePair` from `pos` on: its iteration at `pos`. */
  function Run(cc: CharClasses, odbc: bool, s: string, pos: nat, sc: Scan): (r: Result<KeyValuePair, ConnectionError>)
    requires pos <= |s| && Shape(cc, sc)
    ensures r.Success? ==> pos <= r.value.next <= |s|
    decreases |s| - pos, 1
  {
    Iteration(cc, odbc, s, pos, sc)
  }

  /** One iteration: at the end of the string the loop is left; otherwise the
      character at `pos` is read, and the loop goes on from the next one unless the
      character ended the pair or was rejected. */
  function Iteration(cc: CharClasses, odbc: bool, s: string, pos: nat, sc: Scan): (r: Result<KeyValuePair, ConnectionError>)
    requires pos <= |s| && Shape(cc, sc)
    ensures r.Success? ==> pos <= r.value.next <= |s|
    decreases |s| - pos, 0
  {
    if pos == |s| then Finish(cc, odbc, s, pos, sc)
    else
      NextShape(cc, odbc, sc, pos, s[pos]);
      match Next(cc, odbc, sc, pos, s[pos])
      case Fail(p) => Failure(Syntax(p))
      case Exit(x) => Finish(cc, odbc, s, pos, x)
      case Go(x) => Run(cc, odbc, s, pos + 1, x)
  }

  /** A pair read by a call that started at `from` ends after `from` and names a
      non-empty key, if any. */
  lemma {:induction false} RunAdvances(cc: CharClasses, odbc: bool, s: string, from: nat, pos: nat, sc: Scan)
    requires from <= pos <= |s| && Good(cc, s, from, pos, sc)
    requires Run(cc, odbc, s, pos, sc).Success?
    ensures from < |s| ==> from < Run(cc, odbc, s, pos, sc).value.next
    ensures Run(cc, odbc, s, pos, sc).value.keyname.Some? ==> Run(cc, odbc, s, pos, sc).value.keyname.value != ""
    decreases |s| - pos
  {
    if pos < |s| {
      NextGood(cc, odbc, s, from, pos, sc);
      match Next(cc, odbc, sc, pos, s[pos])
      case Exit(x) =>
        assert Run(cc, odbc, s, pos, sc) == Finish(cc, odbc, s, pos, x);
      case Go(x) =>
        assert Run(cc, odbc, s, pos, sc) == Run(cc, odbc, s, pos + 1, x);
        RunAdvances(cc, odbc, s, from, pos + 1, x);
    } else {
      assert Run(cc, odbc, s, pos, sc) == Finish(cc, odbc, s, pos, sc);
    }
  }

  /** A pair read without a key name is only possible at the end of the string, after
      nothing but ';', white space and NUL. */
  lemma {:induction false} RunWithoutKey(cc: CharClasses, odbc: bool, s: string, from: nat, pos: nat, sc: Scan)
    requires from <= pos <= |s| && Good(cc, s, from, pos, sc)
    requires Run(cc, odbc, s, pos, sc).Success? && Run(cc, odbc, s, pos, sc).value.keyname.None?
    ensures Run(cc, odbc, s, pos, sc).value.next == |s|
    ensures forall i :: from <= i < |s| ==> Junk(cc, s[i])
    decreases |s| - pos
  {
    if pos < |s| {
      NextGood(cc, odbc, s, from, pos, sc);
      match Next(cc, odbc, sc, pos, s[pos])
      case Exit(x) =>
      case Go(x) => RunWithoutKey(cc, odbc, s, from, pos + 1, x);
    }
  }

  /** A pair ends at the end of the string, just after a ';', or just before a NUL or
      another control character, which the next call then reads. */
  lemma {:induction false} RunEnds(cc: CharClasses, odbc: bool, s: string, pos: nat, sc: Scan)
    requires pos <= |s| && Shape(cc, sc)
    requires Run(cc, odbc, s, pos, sc).Success?
    ensures var next := Run(cc, odbc, s, pos, sc).value.next;
            next == |s| || (0 < next && s[next - 1] == ';') || (next < |s| && (s[next] == '\0' || cc.isControl(s[next])))
    decreases |s| - pos
  {
    if pos < |s| {
      NextShape(cc, odbc, sc, pos, s[pos]);
      match Next(cc, odbc, sc, pos, s[pos])
      case Exit(x) =>
      case Go(x) => RunEnds(cc, odbc, s, pos + 1, x);
    }
  }

  /** The facts above for a whole run. */
  lemma RunFacts(cc: CharClasses, odbc: bool, s: string, from: nat, sc: Scan)
    requires from <= |s| && Good(cc, s, from, from, sc)
    ensures var r := Run(cc, odbc, s, from, sc);
            && (r.Success? && from < |s| ==> from < r.value.next)
            && (r.Success? && r.value.keyname.Some? ==> r.value.keyname.value != "")
            && (r.Success? ==>
                  var next := r.value.next;
                  next == |s| || (0 < next && s[next - 1] == ';') || (next < |s| && (s[next] == '\0' || cc.isControl(s[next]))))
            && (r.Success? && r.value.keyname.None? ==> r.value.next == |s| && forall i :: from <= i < |s| ==> Junk(cc, s[i]))
  {
    if Run(cc, odbc, s, from, sc).Success? {
      RunEnds(cc, odbc, s, from, sc);
      RunAdvances(cc, odbc, s, from, from, sc);
      if Run(cc, odbc, s, from, sc).value.keyname.None? {
        RunWithoutKey(cc, odbc, s, from, from, sc);
      }
    }
  }

  /** `GetKeyValuePair(connectionString, currentPosition, ...)`. */
  function GetKeyValuePair(cc: CharClasses, odbc: bool, s: string, from: nat): (r: Result<KeyValuePair, ConnectionError>)
    requires from <= |s|
    ensures r.Success? ==> r.value.next <= |s|
    ensures r.Success? && from < |s| ==> from < r.value.next
    ensures r.Success? ==>
              var next := r.value.next;
              next == |s| || (0 < next && s[next - 1] == ';') || (next < |s| && (s[next] == '\0' || cc.isControl(s[next])))
    ensures r.Success? && r.value.keyname.Some? ==> r.value.keyname.value != ""
    ensures r.Success? && r.value.keyname.None? ==>
              r.value.next == |s| && forall i :: from <= i < |s| ==> Junk(cc, s[i])
  {
    var sc := Scan(NothingYet, from, [], None, None);
    RunFacts(cc, odbc, s, from, sc);
    Run(cc, odbc, s, from, sc)
  }

  /** `NameValuePair`: a key, its value (null when none was given) and the number of
      characters of the string the pair spans, leading separators included. */
  datatype NameValuePair = NameValuePair(name: string, value: Option<string>, length: nat)

  /** `IsKeyNameValid`: not null, not empty, not starting with ';' or white space, and
      without NUL. */
  predicate IsKeyNameValid(cc: CharClasses, keyname: Option<string>) {
    && keyname.Some? && |keyname.value| > 0
    && keyname.value[0] != ';' && !cc.isWhiteSpace(keyname.value[0])
    && '\0' !in keyname.value
  }

  /** The number of characters a chain spans. */
  function Total(chain: seq<NameValuePair>): nat {
    if |chain| == 0 then 0 else Total(chain[..|chain| - 1]) + chain[|chain| - 1].length
  }

  lemma {:induction false} TotalCons(p: NameValuePair, chain: seq<NameValuePair>)
    ensures Total([p] + chain) == p.length + Total(chain)
    decreases |chain|
  {
    if |chain| > 0 {
      var c := [p] + chain;
      assert c[..|c| - 1] == [p] + chain[..|chain| - 1];
      TotalCons(p, chain[..|chain| - 1]);
    }
  }

  /** A prefix of a chain spans no more than the chain. */
  lemma {:induction false} TotalPrefix(chain: seq<NameValuePair>, i: nat)
    requires i <= |chain|
    ensures Total(chain[..i]) <= Total(chain)
    decreases |chain|
  {
    if i < |chain| {
      var c := chain[..|chain| - 1];
      assert chain[..i] == c[..i];
      TotalPrefix(c, i);
    } else {
      assert chain[..i] == chain;
    }
  }

  /** The loop of `ParseInternal` from `pos` on: the chain of pairs read until the end
      of the string or a read without a key. */
  function Pairs(cc: CharClasses, firstKey: bool, s: string, pos: nat): (r: Result<seq<NameValuePair>, ConnectionError>)
    requires pos <= |s|
    ensures r.Success? ==> pos + Total(r.value) <= |s|
    ensures r.Success? ==> forall i :: 0 <= i < |r.value| ==> r.value[i].length > 0 && IsKeyNameValid(cc, Some(r.value[i].name))
    decreases |s| - pos
  {
    if pos == |s| then Success([])
    else
      var p :- GetKeyValuePair(cc, firstKey, s, pos);
      if IsNullOrEmpty(p.keyname) then Success([])
      else if !IsKeyNameValid(cc, p.keyname) then Failure(KeywordNotSupported(p.keyname.value))
      else
        var rest :- Pairs(cc, firstKey, s, p.next);
        var pair := NameValuePair(p.keyname.value, p.keyvalue, p.next - pos);
        TotalCons(pair, rest);
        Success([pair] + rest)
  }

  /** `chain` tiles `s` from `pos`: each pair is what `GetKeyValuePair` reads where
      the previous one stopped, its length the distance it advanced. */
  ghost predicate Tiles(cc: CharClasses, firstKey: bool, s: string, pos: nat, chain: seq<NameValuePair>)
    decreases |chain|
  {
    && pos <= |s|
    && (|chain| > 0 ==>
          && GetKeyValuePair(cc, firstKey, s, pos)
             == Success(KeyValuePair(pos + chain[0].length, Some(chain[0].name), chain[0].value))
          && Tiles(cc, firstKey, s, pos + chain[0].length, chain[1..]))
  }

  /** The chain `ParseInternal` builds tiles the string it read. */
  lemma {:induction false} PairsTile(cc: CharClasses, firstKey: bool, s: string, pos: nat)
    requires pos <= |s| && Pairs(cc, firstKey, s, pos).Success?
    ensures Tiles(cc, firstKey, s, pos, Pairs(cc, firstKey, s, pos).value)
    decreases |s| - pos
  {
    if pos < |s| {
      var p := GetKeyValuePair(cc, firstKey, s, pos).value;
      if !IsNullOrEmpty(p.keyname) {
        var chain := Pairs(cc, firstKey, s, pos).value;
        PairsTile(cc, firstKey, s, p.next);
        assert chain[1..] == Pairs(cc, firstKey, s, p.next).value;
      }
    }
  }

  /** What follows the last pair of the chain is only ';', white space and NUL. */
  lemma {:induction false} PairsTail(cc: CharClasses, firstKey: bool, s: string, pos: nat)
    requires pos <= |s| && Pairs(cc, firstKey, s, pos).Success?
    ensures forall i :: pos + Total(Pairs(cc, firstKey, s, pos).value) <= i < |s| ==> Junk(cc, s[i])
    decreases |s| - pos
  {
    if pos < |s| {
      var p := GetKeyValuePair(cc, firstKey, s, pos).value;
      if IsNullOrEmpty(p.keyname) {
        assert Pairs(cc, firstKey, s, pos).value == [];
      } else {
        var rest := Pairs(cc, firstKey, s, p.next).value;
        var pair := NameValuePair(p.keyname.value, p.keyvalue, p.next - pos);
        PairsTail(cc, firstKey, s, p.next);
        TotalCons(pair, rest);
        assert Pairs(cc, firstKey, s, pos).value == [pair] + rest;
      }
    }
  }

  /** One step of the table update: in ODBC rules a key already present keeps its
      value (first wins), otherwise the pair's value is stored (last wins). */
  function Put(firstKey: bool, table: map<string, Option<string>>, p: NameValuePair): (r: map<string, Option<string>>)
    ensures r.Keys == table.Keys + {p.name}
    ensures forall k :: k in table && k != p.name ==> r[k] == table[k]
    ensures firstKey && p.name in table ==> r[p.name] == table[p.name]
    ensures !(firstKey && p.name in table) ==> r[p.name] == p.value
  {
    if !firstKey || p.name !in table then table[p.name := p.value] else table
  }

  /** The parse table after the pairs of `chain` were stored in order. */
  function Load(firstKey: bool, table: map<string, Option<string>>, chain: seq<NameValuePair>): (r: map<string, Option<string>>)
    ensures forall k :: k in r <==> k in table || exists i :: 0 <= i < |chain| && chain[i].name == k
    decreases |chain|
  {
    if |chain| == 0 then table
    else
      var r := Load(firstKey, Put(firstKey, table, chain[0]), chain[1..]);
      assert forall i :: 1 <= i < |chain| ==> chain[i] == chain[1..][i - 1];
      r
  }

  /** A key no pair names keeps its value, and so does, in ODBC rules, every key
      already present. */
  lemma {:induction false} LoadUntouched(firstKey: bool, table: map<string, Option<string>>, chain: seq<NameValuePair>, k: string)
    requires k in table
    requires firstKey || forall i :: 0 <= i < |chain| ==> chain[i].name != k
    ensures Load(firstKey, table, chain)[k] == table[k]
    decreases |chain|
  {
    if |chain| > 0 {
      LoadUntouched(firstKey, Put(firstKey, table, chain[0]), chain[1..], k);
    }
  }

  /** OLE DB rules: a key gets the value of the last pair that names it. */
  lemma {:induction false} LastWins(table: map<string, Option<string>>, chain: seq<NameValuePair>, j: nat)
    requires j < |chain|
    requires forall i :: j < i < |chain| ==> chain[i].name != chain[j].name
    ensures Load(false, table, chain)[chain[j].name] == chain[j].value
    decreases |chain|
  {
    var t := Put(false, table, chain[0]);
    if j == 0 {
      LoadUntouched(false, t, chain[1..], chain[0].name);
    } else {
      LastWins(t, chain[1..], j - 1);
    }
  }

  /** ODBC rules: a key gets the value of the first pair that names it. */
  lemma {:induction false} FirstWins(table: map<string, Option<string>>, chain: seq<NameValuePair>, j: nat)
    requires j < |chain| && chain[j].name !in table
    requires forall i :: 0 <= i < j ==> chain[i].name != chain[j].name
    ensures Load(true, table, chain)[chain[j].name] == chain[j].value
    decreases |chain|
  {
    var t := Put(true, table, chain[0]);
    if j == 0 {
      LoadUntouched(true, t, chain[1..], chain[0].name);
    } else {
      LastOrFirstShift(chain, j);
      FirstWins(t, chain[1..], j - 1);
    }
  }

  lemma LastOrFirstShift(chain: seq<NameValuePair>, j: nat)
    requires 0 < j < |chain|
    ensures chain[1..][j - 1] == chain[j]
    ensures forall i :: 0 <= i < j - 1 ==> chain[1..][i] == chain[i + 1]
  {
  }

  const Password: string := "password"
  const Pwd: string := "pwd"
  const UserId: string := "user id"
  const Uid: string := "uid"

  /** `DbConnectionOptions` once constructed: the rules used, the string as given
      (null read as ""), the parse table, the chain of pairs read, and whether a
      password or user id keyword was seen. */
  datatype ConnectionOptions = ConnectionOptions(
    useOdbcRules: bool,
    usersConnectionString: string,
    parsetable: map<string, Option<string>>,
    keyChain: seq<NameValuePair>,
    hasPasswordKeyword: bool,
    hasUserIdKeyword: bool)

  /** The `DbConnectionOptions` constructor, without synonyms: an empty string is not
      parsed; any other is read pair by pair into the chain and the table. */
  function NewOptions(cc: CharClasses, connectionString: Option<string>, useOdbcRules: bool)
    : (r: Result<ConnectionOptions, ConnectionError>)
    ensures IsNullOrEmpty(connectionString) ==>
              r == Success(ConnectionOptions(useOdbcRules, "", map[], [], false, false))
    ensures r.Success? ==> Total(r.value.keyChain) <= |r.value.usersConnectionString|
    ensures r.Success? ==> forall k :: k in r.value.parsetable <==>
              exists i :: 0 <= i < |r.value.keyChain| && r.value.keyChain[i].name == k
    ensures r.Success? ==> (r.value.hasPasswordKeyword <==>
              exists i :: 0 <= i < |r.value.keyChain| && IsPassword(r.value.keyChain[i]))
    ensures r.Success? && !IsNullOrEmpty(connectionString) ==>
              && r.value.usersConnectionString == connectionString.value
              && Pairs(cc, useOdbcRules, connectionString.value, 0) == Success(r.value.keyChain)
              && r.value.parsetable == Load(useOdbcRules, map[], r.value.keyChain)
  {
    var s := if connectionString.Some? then connectionString.value else "";
    if 0 < |s| then
      var chain :- Pairs(cc, useOdbcRules, s, 0);
      var table := Load(useOdbcRules, map[], chain);
      Success(ConnectionOptions(useOdbcRules, s, table, chain, Password in table || Pwd in table, UserId in table || Uid in table))
    else Success(ConnectionOptions(useOdbcRules, s, map[], [], false, false))
  }

  /** `GetKeyValues(payload)`: a null or empty payload is refused; otherwise the pairs
      are read in OLE DB rules and copied into a dictionary, the last duplicate
      winning, which is the parse table itself. */
  function GetKeyValues(cc: CharClasses, payload: Option<string>): (r: Result<map<string, Option<string>>, ConnectionError>)
    ensures IsNullOrEmpty(payload) ==> r == Failure(ArgumentNull)
    ensures !IsNullOrEmpty(payload) ==> (r.Failure? <==> NewOptions(cc, payload, false).Failure?)
    ensures r.Success? ==> r.value == NewOptions(cc, payload, false).value.parsetable
  {
    if IsNullOrEmpty(payload) then Failure(ArgumentNull)
    else
      var o :- NewOptions(cc, payload, false);
      Success(Load(false, map[], o.keyChain))
  }

  /** The password keywords `ReplacePasswordPwd` hides. */
  predicate IsPassword(p: NameValuePair) {
    p.name == Password || p.name == Pwd
  }

  const EqualStar: string := "=*;"

  /** What `ReplacePasswordPwd` writes for the `i`-th pair: the characters it spans,
      or for a password `name=*;` when faking and nothing otherwise. */
  function Piece(s: string, chain: seq<NameValuePair>, i: nat, fakePassword: bool): string
    requires i < |chain| && Total(chain) <= |s|
  {
    if !IsPassword(chain[i]) then
      TotalStep(chain, i);
      s[Total(chain[..i])..Total(chain[..i]) + chain[i].length]
    else if fakePassword then chain[i].name + EqualStar
    else ""
  }

  /** The last of the first `n` pieces: it extends the span of the pairs before it,
      by the pair's length less what a dropped password takes away, and a pair that
      is not a password copies the next characters of the string. */
  lemma LastPiece(s: string, chain: seq<NameValuePair>, n: nat, fakePassword: bool)
    requires 0 < n <= |chain| && Total(chain) <= |s|
    ensures Total(chain[..n - 1]) <= Total(chain[..n]) <= |s|
    ensures !fakePassword ==>
              |Piece(s, chain, n - 1, fakePassword)| + PasswordSpan(chain[..n])
              == PasswordSpan(chain[..n - 1]) + Total(chain[..n]) - Total(chain[..n - 1])
    ensures !IsPassword(chain[n - 1]) ==>
              s[..Total(chain[..n - 1])] + Piece(s, chain, n - 1, fakePassword) == s[..Total(chain[..n])]
  {
    PieceAt(s, chain, n - 1, fakePassword);
    PasswordSpanStep(chain, n - 1);
    var a := Total(chain[..n - 1]);
    var b := Total(chain[..n]);
    assert s[..a] + s[a..b] == s[..b];
  }

  /** The first `i + 1` pairs span the first `i` and the `i`-th. */
  lemma TotalStep(chain: seq<NameValuePair>, i: nat)
    requires i < |chain|
    ensures Total(chain[..i + 1]) == Total(chain[..i]) + chain[i].length <= Total(chain)
  {
    var c := chain[..i + 1];
    assert c[..|c| - 1] == chain[..i] && c[|c| - 1] == chain[i];
    TotalPrefix(chain, i + 1);
  }

  /** Where the `i`-th piece comes from, measured by the pairs before it. */
  lemma PieceAt(s: string, chain: seq<NameValuePair>, i: nat, fakePassword: bool)
    requires i < |chain| && Total(chain) <= |s|
    ensures Total(chain[..i + 1]) == Total(chain[..i]) + chain[i].length <= |s|
    ensures Piece(s, chain, i, fakePassword)
            == if !IsPassword(chain[i]) then s[Total(chain[..i])..Total(chain[..i]) + chain[i].length]
               else if fakePassword then chain[i].name + EqualStar
               else ""
  {
    TotalStep(chain, i);
  }

  /** One round of `ReplacePasswordPwd`: from the copy position and text of the first
      `i` pairs to those of the first `i + 1`. */
  lemma MaskedStep(s: string, chain: seq<NameValuePair>, i: nat, fakePassword: bool, copyPosition: nat, builder: string)
    requires i < |chain| && Total(chain) <= |s|
    requires copyPosition == Total(chain[..i]) && builder == Masked(s, chain, i, fakePassword)
    ensures copyPosition + chain[i].length == Total(chain[..i + 1]) <= |s|
    ensures builder + Piece(s, chain, i, fakePassword) == Masked(s, chain, i + 1, fakePassword)
    ensures Piece(s, chain, i, fakePassword)
            == if !IsPassword(chain[i]) then s[copyPosition..copyPosition + chain[i].length]
               else if fakePassword then chain[i].name + EqualStar
               else ""
  {
    PieceAt(s, chain, i, fakePassword);
  }

  /** The pieces of the first `n` pairs, in order. Without faking, every password pair
      is dropped, so the result is shorter than the text the pairs span by exactly the
      password pairs' lengths; a chain without passwords is copied as it is. */
  function Masked(s: string, chain: seq<NameValuePair>, n: nat, fakePassword: bool): (r: string)
    requires n <= |chain| && Total(chain) <= |s|
    ensures Total(chain[..n]) <= |s|
    ensures !fakePassword ==> |r| + PasswordSpan(chain[..n]) == Total(chain[..n])
    ensures (forall i :: 0 <= i < n ==> !IsPassword(chain[i])) ==> r == s[..Total(chain[..n])]
    decreases n
  {
    if n == 0 then
      assert chain[..0] == [];
      ""
    else
      LastPiece(s, chain, n, fakePassword);
      Masked(s, chain, n - 1, fakePassword) + Piece(s, chain, n - 1, fakePassword)
  }

  /** The pair `ReplacePasswordPwd` chains when faking. */
  function Faked(p: NameValuePair): NameValuePair {
    if IsPassword(p) then NameValuePair(p.name, Some("*"), |p.name| + |EqualStar|) else p
  }

  function FakedChain(chain: seq<NameValuePair>): (r: seq<NameValuePair>)
    ensures |r| == |chain| && forall i :: 0 <= i < |chain| ==> r[i] == Faked(chain[i])
  {
    seq(|chain|, i requires 0 <= i < |chain| => Faked(chain[i]))
  }

  lemma FakedChainStep(chain: seq<NameValuePair>, i: nat)
    requires i < |chain|
    ensures FakedChain(chain)[..i + 1] == FakedChain(chain)[..i] + [Faked(chain[i])]
  {
    var f := FakedChain(chain);
    assert f[..i + 1] == f[..i] + [f[i]];
  }

  /** `ReplacePasswordPwd(out constr, fakePassword)` on options `o`: walks the chain,
      copying the span of every pair that is not a password and dropping (or, when
      faking, replacing by `name=*;`) the others; when faking, the returned chain
      describes the new string. */
  method ReplacePasswordPwd(o: ConnectionOptions, fakePassword: bool) returns (constr: string, head: seq<NameValuePair>)
    requires Total(o.keyChain) <= |o.usersConnectionString|
    ensures constr == Masked(o.usersConnectionString, o.keyChain, |o.keyChain|, fakePassword)
    ensures !fakePassword ==> head == []
    ensures fakePassword ==> head == FakedChain(o.keyChain)
  {
    var s := o.usersConnectionString;
    var chain := o.keyChain;
    var copyPosition := 0;
    var builder := "";
    head := [];
    var i := 0;
    while i < |chain|
      invariant i <= |chain|
      invariant copyPosition == Total(chain[..i])
      invariant builder == Masked(s, chain, i, fakePassword)
      invariant !fakePassword ==> head == []
      invariant fakePassword ==> head == FakedChain(chain)[..i]
    {
      var current := chain[i];
      var next := current;
      var piece := "";
      MaskedStep(s, chain, i, fakePassword, copyPosition, builder);
      if !IsPassword(current) {
        piece := s[copyPosition..copyPosition + current.length];
      } else if fakePassword {
        piece := current.name + EqualStar;
        next := NameValuePair(current.name, Some("*"), |current.name| + |EqualStar|);
      }
      assert piece == Piece(s, chain, i, fakePassword);
      builder := builder + piece;
      if fakePassword {
        FakedChainStep(chain, i);
        head := head + [next];
      }
      copyPosition := copyPosition + current.length;
      i := i + 1;
    }
    constr := builder;
    assert fakePassword ==> head == FakedChain(chain)[..|chain|] == FakedChain(chain);
  }

  /** When faking, the returned chain tiles the returned string. */
  lemma {:induction false} FakedChainSpansResult(s: string, chain: seq<NameValuePair>, n: nat)
    requires n <= |chain| && Total(chain) <= |s|
    ensures Total(FakedChain(chain)[..n]) == |Masked(s, chain, n, true)|
  {
    if n == 0 {
      assert FakedChain(chain)[..0] == [];
    } else {
      var f := FakedChain(chain);
      var piece := Piece(s, chain, n - 1, true);
      FakedChainSpansResult(s, chain, n - 1);
      assert Total(f[..n]) == Total(f[..n - 1]) + |piece| by {
        TotalStep(f, n - 1);
        FakedPieceLength(s, chain, n - 1);
      }
    }
  }

  /** A faked pair spans exactly the piece written for it. */
  lemma FakedPieceLength(s: string, chain: seq<NameValuePair>, i: nat)
    requires i < |chain| && Total(chain) <= |s|
    ensures |Piece(s, chain, i, true)| == Faked(chain[i]).length == FakedChain(chain)[i].length
  {
    PieceAt(s, chain, i, true);
  }

  /** The total length of the password pairs of a chain. */
  function PasswordSpan(chain: seq<NameValuePair>): nat {
    if |chain| == 0 then 0
    else PasswordSpan(chain[..|chain| - 1]) + (if IsPassword(chain[|chain| - 1]) then chain[|chain| - 1].length else 0)
  }

  lemma PasswordSpanStep(chain: seq<NameValuePair>, i: nat)
    requires i < |chain|
    ensures PasswordSpan(chain[..i + 1]) == PasswordSpan(chain[..i]) + (if IsPassword(chain[i]) then chain[i].length else 0)
  {
    var c := chain[..i + 1];
    assert c[..|c| - 1] == chain[..i] && c[|c| - 1] == chain[i];
  }

  lemma KeyEqualStep(cc: CharClasses, sc: Scan, pos: nat)
    requires sc.state == KeyEqual
    ensures Next(cc, false, sc, pos, '=') == Go(sc.(state := Key, buffer := sc.buffer + ['=']))
  {
  }

  lemma KeyCharStep(cc: CharClasses, sc: Scan, pos: nat, c: char)
    requires sc.state == Key
    ensures c == '=' ==> Next(cc, false, sc, pos, c) == Go(sc.(state := KeyEqual))
    ensures c != '=' && Visible(cc, c) ==> Next(cc, false, sc, pos, c) == Go(sc.(buffer := sc.buffer + [c]))
  {
  }

  lemma ConsBuffer(b: string, k: string)
    requires |k| > 0
    ensures (b + [k[0]]) + k[1..] == b + k
  {
    assert k == [k[0]] + k[1..];
  }

  /** One character read without leaving the loop. */
  lemma RunStep(cc: CharClasses, odbc: bool, s: string, pos: nat, sc: Scan, sc': Scan)
    requires pos < |s| && Shape(cc, sc)
    requires Next(cc, odbc, sc, pos, s[pos]) == Go(sc')
    ensures Shape(cc, sc')
    ensures Run(cc, odbc, s, pos, sc) == Run(cc, odbc, s, pos + 1, sc')
  {
    NextShape(cc, odbc, sc, pos, s[pos]);
  }

  /** `w` occurs in `s` at `pos`. */
  predicate At(s: string, pos: nat, w: string) {
    pos + |w| <= |s| && s[pos..pos + |w|] == w
  }

  lemma AtSplit(s: string, pos: nat, a: string, b: string)
    requires At(s, pos, a + b)
    ensures At(s, pos, a) && At(s, pos + |a|, b)
  {
    assert s[pos..pos + |a|] == (a + b)[..|a|];
    assert s[pos + |a|..pos + |a| + |b|] == (a + b)[|a|..];
  }

  lemma AtHead(s: string, pos: nat, w: string)
    requires At(s, pos, w) && |w| > 0
    ensures s[pos] == w[0]
  {
    assert s[pos..pos + |w|][0] == s[pos];
  }

  /** The encoder the round-trip lemmas read back. The repository's own writer,
      `AppendKeyValuePairBuilder`, cannot produce a connection string: the argument
      check it calls first (`CheckArgumentLength`) always throws. These functions
      therefore spell pairs by the OLE DB quoting rules the parser reads, and stand
      in for a writer only in the lemmas.

      `Doubled(c, s)`: `s` with every `c` written twice. A key is spelt with every '='
      doubled, and a value quoted between '"' with every '"' doubled. */
  function Doubled(c: char, s: string): (r: string)
    ensures |r| >= |s|
  {
    if s == "" then "" else (if s[0] == c then [c, c] else [s[0]]) + Doubled(c, s[1..])
  }

  /** One `key="value";` pair, spelt by OLE DB rules for the round-trip lemmas. */
  function QuotedPair(k: string, v: string): string {
    Doubled('=', k) + "=\"" + Doubled('"', v) + "\";"
  }

  /** A key of printable ASCII characters not starting with ';'. */
  predicate PlainKey(k: string) {
    |k| > 0 && k[0] != ';' && forall i :: 0 <= i < |k| ==> '!' <= k[i] <= '~'
  }

  /** Inside a double-quoted value, the quoted characters up to the closing quote
      are read into the buffer with every doubled '"' read as one: the loop reaches
      `end`, just after the closing quote, with the scan `last`. */
  lemma {:induction false} ScanQuoted(cc: CharClasses, s: string, pos: nat, sc: Scan, v: string, end: nat, last: Scan)
    requires pos <= |s| && sc.state == DoubleQuoteValue && Shape(cc, sc)
    requires '\0' !in v && At(s, pos, Doubled('"', v) + "\"")
    requires end == pos + |Doubled('"', v)| + 1
    requires last == sc.(state := DoubleQuoteValueQuote, buffer := sc.buffer + v)
    ensures end <= |s| && Shape(cc, last)
    ensures Run(cc, false, s, pos, sc) == Run(cc, false, s, end, last)
    decreases |v|, 1
  {
    if v == "" {
      AtHead(s, pos, "\"");
      assert sc.buffer + v == sc.buffer;
      RunStep(cc, false, s, pos, sc, last);
    } else {
      var head := if v[0] == '"' then "\"\"" else [v[0]];
      assert Doubled('"', v) + "\"" == head + (Doubled('"', v[1..]) + "\"");
      AtSplit(s, pos, head, Doubled('"', v[1..]) + "\"");
      assert v[0] in v && forall c :: c in v[1..] ==> c in v;
      ConsBuffer(sc.buffer, v);
      if v[0] == '"' {
        ScanQuotedDoubled(cc, s, pos, sc, v, end, last);
      } else {
        ScanQuotedPlain(cc, s, pos, sc, v, end, last);
      }
    }
  }

  /** A doubled '"' inside the value: the tokenizer passes through
      `DoubleQuoteValueQuote` and back, keeping one '"'. */
  lemma {:induction false} ScanQuotedDoubled(cc: CharClasses, s: string, pos: nat, sc: Scan, v: string, end: nat, last: Scan)
    requires pos <= |s| && sc.state == DoubleQuoteValue && Shape(cc, sc)
    requires |v| > 0 && v[0] == '"' && '\0' !in v[1..]
    requires At(s, pos, "\"\"") && At(s, pos + 2, Doubled('"', v[1..]) + "\"")
    requires end == pos + |Doubled('"', v)| + 1
    requires last == sc.(state := DoubleQuoteValueQuote, buffer := (sc.buffer + [v[0]]) + v[1..])
    ensures end <= |s| && Shape(cc, last)
    ensures Run(cc, false, s, pos, sc) == Run(cc, false, s, end, last)
    decreases |v|, 0
  {
    var sc2 := sc.(buffer := sc.buffer + ['"']);
    QuoteDoubledStep(cc, s, pos, sc, sc2);
    ScanQuoted(cc, s, pos + 2, sc2, v[1..], end, last);
  }

  /** Any other character inside the value is appended to the buffer. */
  lemma {:induction false} ScanQuotedPlain(cc: CharClasses, s: string, pos: nat, sc: Scan, v: string, end: nat, last: Scan)
    requires pos <= |s| && sc.state == DoubleQuoteValue && Shape(cc, sc)
    requires |v| > 0 && v[0] != '"' && v[0] != '\0' && '\0' !in v[1..]
    requires At(s, pos, [v[0]]) && At(s, pos + 1, Doubled('"', v[1..]) + "\"")
    requires end == pos + |Doubled('"', v)| + 1
    requires last == sc.(state := DoubleQuoteValueQuote, buffer := (sc.buffer + [v[0]]) + v[1..])
    ensures end <= |s| && Shape(cc, last)
    ensures Run(cc, false, s, pos, sc) == Run(cc, false, s, end, last)
    decreases |v|, 0
  {
    AtHead(s, pos, [v[0]]);
    var sc1 := sc.(buffer := sc.buffer + [v[0]]);
    QuotePlainStep(cc, s, pos, sc, sc1);
    ScanQuoted(cc, s, pos + 1, sc1, v[1..], end, last);
  }

  /** Two '"' in a row inside a double-quoted value read as one. */
  lemma QuoteDoubledStep(cc: CharClasses, s: string, pos: nat, sc: Scan, sc2: Scan)
    requires pos <= |s| && sc.state == DoubleQuoteValue && Shape(cc, sc)
    requires At(s, pos, "\"\"") && sc2 == sc.(buffer := sc.buffer + ['"'])
    ensures pos + 2 <= |s| && Shape(cc, sc2)
    ensures Run(cc, false, s, pos, sc) == Run(cc, false, s, pos + 2, sc2)
  {
    AtSplit(s, pos, "\"", "\"");
    AtHead(s, pos, "\"");
    AtHead(s, pos + 1, "\"");
    var sc1 := sc.(state := DoubleQuoteValueQuote);
    RunStep(cc, false, s, pos, sc, sc1);
    RunStep(cc, false, s, pos + 1, sc1, sc2);
  }

  /** Any other character inside the value is appended to the buffer. */
  lemma QuotePlainStep(cc: CharClasses, s: string, pos: nat, sc: Scan, sc1: Scan)
    requires pos < |s| && sc.state == DoubleQuoteValue && Shape(cc, sc)
    requires s[pos] != '"' && s[pos] != '\0' && sc1 == sc.(buffer := sc.buffer + [s[pos]])
    ensures Shape(cc, sc1)
    ensures Run(cc, false, s, pos, sc) == Run(cc, false, s, pos + 1, sc1)
  {
    RunStep(cc, false, s, pos, sc, sc1);
  }

  /** A character the tokenizer neither skips nor rejects inside a key. */
  predicate Visible(cc: CharClasses, c: char) {
    !cc.isWhiteSpace(c) && !cc.isControl(c)
  }

  lemma VisibleTail(cc: CharClasses, k: string)
    requires |k| > 0 && forall i :: 0 <= i < |k| ==> Visible(cc, k[i])
    ensures forall i :: 0 <= i < |k[1..]| ==> Visible(cc, k[1..][i])
  {
    assert forall i :: 0 <= i < |k[1..]| ==> k[1..][i] == k[i + 1];
  }

  /** Inside a key, the escaped key up to the '=' that ends it is read into the
      buffer with every doubled '=' read as one: the loop reaches `end`, just after
      the '=', in `KeyEqual` with the scan `last`. */
  lemma {:induction false} ScanKey(cc: CharClasses, s: string, pos: nat, sc: Scan, k: string, end: nat, last: Scan)
    requires pos <= |s| && sc.state == Key && Shape(cc, sc)
    requires forall i :: 0 <= i < |k| ==> Visible(cc, k[i])
    requires At(s, pos, Doubled('=', k) + "=")
    requires end == pos + |Doubled('=', k)| + 1
    requires last == sc.(state := KeyEqual, buffer := sc.buffer + k)
    ensures end <= |s| && Shape(cc, last)
    ensures Run(cc, false, s, pos, sc) == Run(cc, false, s, end, last)
    decreases |k|, 1
  {
    if k == "" {
      assert sc.buffer + k == sc.buffer;
      ScanKeyEnd(cc, s, pos, sc, last);
    } else {
      var head := if k[0] == '=' then "==" else [k[0]];
      assert At(s, pos, head) && At(s, pos + |head|, Doubled('=', k[1..]) + "=") by {
        assert Doubled('=', k) + "=" == head + (Doubled('=', k[1..]) + "=");
        AtSplit(s, pos, head, Doubled('=', k[1..]) + "=");
      }
      VisibleTail(cc, k);
      ConsBuffer(sc.buffer, k);
      if k[0] == '=' {
        ScanKeyDoubled(cc, s, pos, sc, k, end, last);
      } else {
        ScanKeyPlain(cc, s, pos, sc, k, end, last);
      }
    }
  }

  /** The '=' that ends a key. */
  lemma ScanKeyEnd(cc: CharClasses, s: string, pos: nat, sc: Scan, last: Scan)
    requires pos <= |s| && sc.state == Key && Shape(cc, sc)
    requires At(s, pos, "=") && last == sc.(state := KeyEqual)
    ensures pos + 1 <= |s| && Shape(cc, last)
    ensures Run(cc, false, s, pos, sc) == Run(cc, false, s, pos + 1, last)
  {
    AtHead(s, pos, "=");
    KeyCharStep(cc, sc, pos, s[pos]);
    RunStep(cc, false, s, pos, sc, last);
  }

  /** A doubled '=' in the key: the tokenizer passes through `KeyEqual` and back. */
  lemma {:induction false} ScanKeyDoubled(cc: CharClasses, s: string, pos: nat, sc: Scan, k: string, end: nat, last: Scan)
    requires pos <= |s| && sc.state == Key && Shape(cc, sc)
    requires |k| > 0 && k[0] == '=' && forall i :: 0 <= i < |k[1..]| ==> Visible(cc, k[1..][i])
    requires At(s, pos, "==") && At(s, pos + 2, Doubled('=', k[1..]) + "=")
    requires end == pos + |Doubled('=', k)| + 1
    requires last == sc.(state := KeyEqual, buffer := (sc.buffer + [k[0]]) + k[1..])
    ensures end <= |s| && Shape(cc, last)
    ensures Run(cc, false, s, pos, sc) == Run(cc, false, s, end, last)
    decreases |k|, 0
  {
    var sc2 := sc.(buffer := sc.buffer + ['=']);
    KeyDoubledStep(cc, s, pos, sc, sc2);
    ScanKey(cc, s, pos + 2, sc2, k[1..], end, last);
  }

  /** Two '=' in a row inside a key read as one. */
  lemma KeyDoubledStep(cc: CharClasses, s: string, pos: nat, sc: Scan, sc2: Scan)
    requires pos <= |s| && sc.state == Key && Shape(cc, sc)
    requires At(s, pos, "==") && sc2 == sc.(buffer := sc.buffer + ['='])
    ensures pos + 2 <= |s| && Shape(cc, sc2)
    ensures Run(cc, false, s, pos, sc) == Run(cc, false, s, pos + 2, sc2)
  {
    AtSplit(s, pos, "=", "=");
    AtHead(s, pos, "=");
    AtHead(s, pos + 1, "=");
    KeyCharStep(cc, sc, pos, s[pos]);
    var sc1 := sc.(state := KeyEqual);
    KeyEqualStep(cc, sc1, pos + 1);
    RunStep(cc, false, s, pos, sc, sc1);
    RunStep(cc, false, s, pos + 1, sc1, sc2);
  }

  /** Any other key character is appended to the buffer. */
  lemma {:induction false} ScanKeyPlain(cc: CharClasses, s: string, pos: nat, sc: Scan, k: string, end: nat, last: Scan)
    requires pos <= |s| && sc.state == Key && Shape(cc, sc)
    requires |k| > 0 && k[0] != '=' && Visible(cc, k[0]) && forall i :: 0 <= i < |k[1..]| ==> Visible(cc, k[1..][i])
    requires At(s, pos, [k[0]]) && At(s, pos + 1, Doubled('=', k[1..]) + "=")
    requires end == pos + |Doubled('=', k)| + 1
    requires last == sc.(state := KeyEqual, buffer := (sc.buffer + [k[0]]) + k[1..])
    ensures end <= |s| && Shape(cc, last)
    ensures Run(cc, false, s, pos, sc) == Run(cc, false, s, end, last)
    decreases |k|, 0
  {
    AtHead(s, pos, [k[0]]);
    KeyCharStep(cc, sc, pos, s[pos]);
    var sc1 := sc.(buffer := sc.buffer + [k[0]]);
    RunStep(cc, false, s, pos, sc, sc1);
    ScanKey(cc, s, pos + 1, sc1, k[1..], end, last);
  }

  /** The first character of a key starts it: after it the tokenizer is in `Key` with
      the unescaped first character in its buffer. */
  lemma ScanKeyStart(cc: CharClasses, s: string, pos: nat, k: string, n: nat, sc0: Scan, sc: Scan)
    requires |k| > 0 && k[0] != ';' && Visible(cc, k[0]) && k[0] != '\0'
    requires At(s, pos, Doubled('=', k) + "=")
    requires n == |Doubled('=', k)| - |Doubled('=', k[1..])|
    requires sc0 == Scan(NothingYet, pos, [], None, None) && sc == Scan(Key, pos, [k[0]], None, None)
    ensures pos + n <= |s| && Shape(cc, sc)
    ensures Run(cc, false, s, pos, sc0) == Run(cc, false, s, pos + n, sc)
  {
    var head := if k[0] == '=' then "==" else [k[0]];
    assert Doubled('=', k) + "=" == head + (Doubled('=', k[1..]) + "=");
    AtSplit(s, pos, head, Doubled('=', k[1..]) + "=");
    if k[0] == '=' {
      KeyStartDoubled(cc, s, pos, sc0, sc);
    } else {
      AtHead(s, pos, head);
      KeyStartPlain(cc, s, pos, sc0, sc);
    }
  }

  /** A key starting with a doubled '=' passes through `KeyEqual` and back. */
  lemma KeyStartDoubled(cc: CharClasses, s: string, pos: nat, sc0: Scan, sc: Scan)
    requires At(s, pos, "==") && Visible(cc, '=')
    requires sc0 == Scan(NothingYet, pos, [], None, None) && sc == Scan(Key, pos, ['='], None, None)
    ensures pos + 2 <= |s| && Shape(cc, sc)
    ensures Run(cc, false, s, pos, sc0) == Run(cc, false, s, pos + 2, sc)
  {
    AtSplit(s, pos, "=", "=");
    AtHead(s, pos, "=");
    AtHead(s, pos + 1, "=");
    var sc1 := Scan(KeyEqual, pos, [], None, None);
    RunStep(cc, false, s, pos, sc0, sc1);
    RunStep(cc, false, s, pos + 1, sc1, sc);
  }

  /** Any other first character of a key starts it on its own. */
  lemma KeyStartPlain(cc: CharClasses, s: string, pos: nat, sc0: Scan, sc: Scan)
    requires pos < |s| && s[pos] != ';' && s[pos] != '=' && s[pos] != '\0' && Visible(cc, s[pos])
    requires sc0 == Scan(NothingYet, pos, [], None, None) && sc == Scan(Key, pos, [s[pos]], None, None)
    ensures Shape(cc, sc)
    ensures Run(cc, false, s, pos, sc0) == Run(cc, false, s, pos + 1, sc)
  {
    RunStep(cc, false, s, pos, sc0, sc);
  }

  /** The first character of a pair starts its key. */
  lemma StartPair(cc: CharClasses, s: string, pos: nat, k: string, n: nat, scK: Scan)
    requires |k| > 0 && k[0] != ';' && k[0] != '\0' && Visible(cc, k[0])
    requires At(s, pos, Doubled('=', k) + "=")
    requires n == |Doubled('=', k)| - |Doubled('=', k[1..])| && scK == Scan(Key, pos, [k[0]], None, None)
    ensures pos + n <= |s| && Shape(cc, scK)
    ensures GetKeyValuePair(cc, false, s, pos) == Run(cc, false, s, pos + n, scK)
  {
    var sc0 := Scan(NothingYet, pos, [], None, None);
    assert GetKeyValuePair(cc, false, s, pos) == Run(cc, false, s, pos, sc0);
    ScanKeyStart(cc, s, pos, k, n, sc0, scK);
  }

  /** A whole escaped key and its '=' read from the start of a pair: the tokenizer
      waits at `q` in `KeyEqual` with the unescaped key in its buffer. */
  lemma ReadKey(cc: CharClasses, s: string, pos: nat, k: string, q: nat, sc: Scan)
    requires |k| > 0 && k[0] != ';' && k[0] != '\0' && forall i :: 0 <= i < |k| ==> Visible(cc, k[i])
    requires At(s, pos, Doubled('=', k) + "=")
    requires q == pos + |Doubled('=', k)| + 1 && sc == Scan(KeyEqual, pos, k, None, None)
    ensures q <= |s| && Shape(cc, sc)
    ensures GetKeyValuePair(cc, false, s, pos) == Run(cc, false, s, q, sc)
  {
    var n := |Doubled('=', k)| - |Doubled('=', k[1..])|;
    var scK := Scan(Key, pos, [k[0]], None, None);
    StartPair(cc, s, pos, k, n, scK);
    KeyLayout(s, pos, k);
    VisibleTail(cc, k);
    assert [k[0]] + k[1..] == k;
    ScanKey(cc, s, pos + n, scK, k[1..], q, sc);
  }

  /** The rest of an escaped key follows its first, possibly doubled, character. */
  lemma KeyLayout(s: string, pos: nat, k: string)
    requires |k| > 0 && At(s, pos, Doubled('=', k) + "=")
    ensures At(s, pos + |Doubled('=', k)| - |Doubled('=', k[1..])|, Doubled('=', k[1..]) + "=")
  {
    var head := if k[0] == '=' then "==" else [k[0]];
    assert Doubled('=', k) + "=" == head + (Doubled('=', k[1..]) + "=");
    AtSplit(s, pos, head, Doubled('=', k[1..]) + "=");
  }

  /** Where the quotes and the ';' of a quoted value sit. */
  lemma ValueLayout(s: string, q: nat, ev: string)
    requires At(s, q, "\"" + ev + "\";")
    ensures At(s, q + 1, ev + "\"") && s[q] == '"' && q + 2 + |ev| < |s| && s[q + 2 + |ev|] == ';'
  {
    assert "\"" + ev + "\";" == "\"" + ((ev + "\"") + ";");
    AtSplit(s, q, "\"", (ev + "\"") + ";");
    AtSplit(s, q + 1, ev + "\"", ";");
    AtHead(s, q, "\"");
    AtHead(s, q + 2 + |ev|, ";");
  }

  /** Where the key and the quoted value of a pair sit. */
  lemma PairLayout(s: string, pos: nat, k: string, v: string)
    requires At(s, pos, QuotedPair(k, v))
    ensures At(s, pos, Doubled('=', k) + "=")
    ensures At(s, pos + |Doubled('=', k)| + 1, "\"" + Doubled('"', v) + "\";")
    ensures |QuotedPair(k, v)| == |Doubled('=', k)| + |Doubled('"', v)| + 4
  {
    var e := Doubled('=', k);
    var ev := Doubled('"', v);
    assert QuotedPair(k, v) == (e + "=") + ("\"" + ev + "\";");
    AtSplit(s, pos, e + "=", "\"" + ev + "\";");
  }

  /** After the key, a double-quoted value closed by '"' and ended by ';' completes
      the pair at `next`: the key is lower-cased, the value unescaped, and the ';'
      consumed. */
  lemma ReadValue(cc: CharClasses, s: string, pos: nat, q: nat, k: string, v: string, next: nat, sc: Scan)
    requires sc == Scan(KeyEqual, pos, k, None, None)
    requires pos < q <= |s| && Shape(cc, sc)
    requires |k| > 0 && !cc.isWhiteSpace(k[|k| - 1])
    requires !cc.isWhiteSpace('"') && !cc.isWhiteSpace(';') && '\0' !in v
    requires At(s, q, "\"" + Doubled('"', v) + "\";") && next == q + |Doubled('"', v)| + 3
    ensures Run(cc, false, s, q, sc) == Success(KeyValuePair(next, Some(Lower(cc, k)), Some(v)))
  {
    var ev := Doubled('"', v);
    var sc1 := Scan(DoubleQuoteValue, pos, [], Some(Lower(cc, k)), None);
    var q1 := q + 1;
    assert q1 <= |s| && Shape(cc, sc1) && Run(cc, false, s, q, sc) == Run(cc, false, s, q1, sc1) by {
      ValueLayout(s, q, ev);
      ReadOpen(cc, s, pos, q, k, sc1);
    }
    assert Run(cc, false, s, q1, sc1) == Success(KeyValuePair(next, Some(Lower(cc, k)), Some(v))) by {
      ValueLayout(s, q, ev);
      assert sc1.buffer + v == v;
      assert q1 + 1 + |ev| == q + 2 + |ev| && next == q1 + |ev| + 2;
      assert At(s, q1, ev + "\"") && q1 + 1 + |ev| < |s| && s[q1 + 1 + |ev|] == ';';
      ReadQuotedValue(cc, s, q1, sc1, v, next);
    }
  }

  /** From just after the opening quote: the value, its closing quote and the ';'. */
  lemma ReadQuotedValue(cc: CharClasses, s: string, q: nat, sc: Scan, v: string, next: nat)
    requires q <= |s| && sc.state == DoubleQuoteValue && Shape(cc, sc)
    requires !cc.isWhiteSpace(';') && '\0' !in v
    requires At(s, q, Doubled('"', v) + "\"") && q + 1 + |Doubled('"', v)| < |s| && s[q + 1 + |Doubled('"', v)|] == ';'
    requires next == q + |Doubled('"', v)| + 2
    ensures Run(cc, false, s, q, sc) == Success(KeyValuePair(next, sc.keyname, Some(sc.buffer + v)))
  {
    var end := next - 1;
    var last := sc.(state := DoubleQuoteValueQuote, buffer := sc.buffer + v);
    assert end <= |s| && Shape(cc, last) && Run(cc, false, s, q, sc) == Run(cc, false, s, end, last) by {
      ScanQuoted(cc, s, q, sc, v, end, last);
    }
    assert Run(cc, false, s, end, last) == Success(KeyValuePair(next, last.keyname, Some(last.buffer))) by {
      ReadClose(cc, s, end, last);
    }
  }

  /** An opening '"' after the '=' names the key and starts a double-quoted value. */
  lemma ReadOpen(cc: CharClasses, s: string, pos: nat, q: nat, k: string, sc1: Scan)
    requires pos < q < |s| && Shape(cc, Scan(KeyEqual, pos, k, None, None))
    requires |k| > 0 && !cc.isWhiteSpace(k[|k| - 1])
    requires s[q] == '"' && !cc.isWhiteSpace('"')
    requires sc1 == Scan(DoubleQuoteValue, pos, [], Some(Lower(cc, k)), None)
    ensures Shape(cc, sc1)
    ensures Run(cc, false, s, q, Scan(KeyEqual, pos, k, None, None)) == Run(cc, false, s, q + 1, sc1)
  {
    var sc := Scan(KeyEqual, pos, k, None, None);
    assert TrimEnd(cc, k) == k;
    assert Next(cc, false, sc, q, s[q]) == Go(sc1);
    RunStep(cc, false, s, q, sc, sc1);
  }

  /** A ';' after the closing quote ends the pair and is consumed. */
  lemma ReadClose(cc: CharClasses, s: string, r: nat, sc: Scan)
    requires r < |s| && Shape(cc, sc) && s[r] == ';' && !cc.isWhiteSpace(';')
    requires sc.state == DoubleQuoteValueQuote
    ensures Run(cc, false, s, r, sc) == Success(KeyValuePair(r + 1, sc.keyname, Some(sc.buffer)))
  {
    assert Next(cc, false, sc, r, s[r]) == Exit(sc.(keyvalue := Some(sc.buffer), state := QuotedValueEnd));
  }

  /** What the character classes guarantee about a plain key and the delimiters. */
  lemma SaneKey(cc: CharClasses, k: string)
    requires Sane(cc) && PlainKey(k)
    ensures forall i :: 0 <= i < |k| ==> Visible(cc, k[i])
    ensures k[0] != '\0' && !cc.isWhiteSpace('"') && !cc.isWhiteSpace(';')
  {
  }

  /** `GetKeyValuePair` reads back one `key="value";` pair written in OLE DB rules. */
  lemma ReadQuotedPair(cc: CharClasses, s: string, pos: nat, k: string, v: string)
    requires Sane(cc) && PlainKey(k) && '\0' !in v
    requires At(s, pos, QuotedPair(k, v))
    ensures GetKeyValuePair(cc, false, s, pos)
            == Success(KeyValuePair(pos + |QuotedPair(k, v)|, Some(Lower(cc, k)), Some(v)))
  {
    SaneKey(cc, k);
    ReadVisiblePair(cc, s, pos, k, v);
  }

  lemma ReadVisiblePair(cc: CharClasses, s: string, pos: nat, k: string, v: string)
    requires |k| > 0 && k[0] != ';' && k[0] != '\0' && forall i :: 0 <= i < |k| ==> Visible(cc, k[i])
    requires !cc.isWhiteSpace('"') && !cc.isWhiteSpace(';') && '\0' !in v
    requires At(s, pos, QuotedPair(k, v))
    ensures GetKeyValuePair(cc, false, s, pos)
            == Success(KeyValuePair(pos + |QuotedPair(k, v)|, Some(Lower(cc, k)), Some(v)))
  {
    var q := pos + |Doubled('=', k)| + 1;
    var sc := Scan(KeyEqual, pos, k, None, None);
    assert q <= |s| && Shape(cc, sc) && GetKeyValuePair(cc, false, s, pos) == Run(cc, false, s, q, sc) by {
      PairLayout(s, pos, k, v);
      ReadKey(cc, s, pos, k, q, sc);
    }
    assert Run(cc, false, s, q, sc) == Success(KeyValuePair(pos + |QuotedPair(k, v)|, Some(Lower(cc, k)), Some(v))) by {
      PairLayout(s, pos, k, v);
      assert Visible(cc, k[|k| - 1]);
      ReadValue(cc, s, pos, q, k, v, pos + |QuotedPair(k, v)|, sc);
    }
  }

  /** Inside a double-quoted value that is never closed, the loop reads to the end
      of the string and `ParserExit` rejects the pair at its start. */
  lemma {:induction false} RunUnclosed(cc: CharClasses, s: string, p: nat, sc: Scan)
    requires p <= |s| && sc.state == DoubleQuoteValue && Shape(cc, sc)
    requires forall i :: p <= i < |s| ==> s[i] != '"' && s[i] != '\0'
    ensures Run(cc, false, s, p, sc) == Failure(Syntax(sc.start))
    decreases |s| - p
  {
    if p < |s| {
      var sc1 := sc.(buffer := sc.buffer + [s[p]]);
      RunStep(cc, false, s, p, sc, sc1);
      RunUnclosed(cc, s, p + 1, sc1);
    } else {
      assert Run(cc, false, s, p, sc) == Finish(cc, false, s, p, sc);
    }
  }

  /** `key="…` whose quote is never closed is a syntax error at the start of the
      pair: `k="abc` is rejected. */
  lemma UnclosedQuoteFails(cc: CharClasses, s: string, pos: nat, k: string)
    requires Sane(cc) && PlainKey(k)
    requires At(s, pos, Doubled('=', k) + "=\"")
    requires forall i :: pos + |Doubled('=', k)| + 2 <= i < |s| ==> s[i] != '"' && s[i] != '\0'
    ensures GetKeyValuePair(cc, false, s, pos) == Failure(Syntax(pos))
  {
    var q := pos + |Doubled('=', k)| + 1;
    var sc := Scan(KeyEqual, pos, k, None, None);
    var sc1 := Scan(DoubleQuoteValue, pos, [], Some(Lower(cc, k)), None);
    assert q < |s| && s[q] == '"' && At(s, pos, Doubled('=', k) + "=") by {
      assert Doubled('=', k) + "=\"" == (Doubled('=', k) + "=") + "\"";
      AtSplit(s, pos, Doubled('=', k) + "=", "\"");
      AtHead(s, q, "\"");
    }
    assert Shape(cc, sc) && GetKeyValuePair(cc, false, s, pos) == Run(cc, false, s, q, sc) by {
      SaneKey(cc, k);
      ReadKey(cc, s, pos, k, q, sc);
    }
    assert Shape(cc, sc1) && Run(cc, false, s, q, sc) == Run(cc, false, s, q + 1, sc1) by {
      SaneKey(cc, k);
      assert Visible(cc, k[|k| - 1]);
      ReadOpen(cc, s, pos, q, k, sc1);
    }
    assert Run(cc, false, s, q + 1, sc1) == Failure(Syntax(pos)) by {
      RunUnclosed(cc, s, q + 1, sc1);
    }
  }

  /** A value written without quotes: it does not open a quote, and every character
      is visible and not ';'. */
  predicate PlainValue(cc: CharClasses, u: string) {
    |u| > 0 && !OpensQuote(false, u[0]) && forall i :: 0 <= i < |u| ==> Visible(cc, u[i]) && u[i] != ';'
  }

  /** `key= value ;` in OLE DB rules at `pos`: the escaped key and '=', white space
      `w1`, the value `u`, white space `w2`, and at `e` a ';' or the end of `s`. */
  predicate UnquotedLayout(cc: CharClasses, s: string, pos: nat, k: string, w1: string, u: string, w2: string, e: nat) {
    && At(s, pos, Doubled('=', k) + "=")
    && At(s, pos + |Doubled('=', k)| + 1, w1 + u + w2)
    && e == pos + |Doubled('=', k)| + 1 + |w1 + u + w2|
    && (e == |s| || s[e] == ';')
    && AllWhiteSpace(cc, w1) && AllWhiteSpace(cc, w2)
    && PlainValue(cc, u) && (w1 == "" ==> u[0] != '=')
  }

  /** After a non-empty key and its '=', a character other than '=' is read as if
      the key had already ended. */
  lemma KeyEqualAsKeyEnd(cc: CharClasses, s: string, q: nat, sc: Scan)
    requires q < |s| && sc.state == KeyEqual && Shape(cc, sc) && s[q] != '='
    requires KeyName(cc, sc.buffer) != ""
    ensures Run(cc, false, s, q, sc)
            == Run(cc, false, s, q, sc.(keyname := Some(KeyName(cc, sc.buffer)), buffer := [], state := KeyEnd))
  {
    var sc' := sc.(keyname := Some(KeyName(cc, sc.buffer)), buffer := [], state := KeyEnd);
    assert Next(cc, false, sc, q, s[q]) == Next(cc, false, sc', q, s[q]);
  }

  /** Between the '=' and the value, white space is skipped. */
  lemma {:induction false} SkipWhite(cc: CharClasses, s: string, p: nat, e: nat, sc: Scan)
    requires p <= e <= |s| && sc.state == KeyEnd && Shape(cc, sc)
    requires forall i :: p <= i < e ==> cc.isWhiteSpace(s[i])
    ensures Run(cc, false, s, p, sc) == Run(cc, false, s, e, sc)
    decreases e - p
  {
    if p < e {
      RunStep(cc, false, s, p, sc, sc);
      SkipWhite(cc, s, p + 1, e, sc);
    }
  }

  /** Inside an unquoted value, white space and visible characters other than ';'
      are appended to the buffer. */
  lemma {:induction false} ScanUnquoted(cc: CharClasses, s: string, p: nat, e: nat, sc: Scan)
    requires p <= e <= |s| && sc.state == UnquotedValue && Shape(cc, sc)
    requires forall i :: p <= i < e ==> cc.isWhiteSpace(s[i]) || (Visible(cc, s[i]) && s[i] != ';')
    ensures Shape(cc, sc.(buffer := sc.buffer + s[p..e]))
    ensures Run(cc, false, s, p, sc) == Run(cc, false, s, e, sc.(buffer := sc.buffer + s[p..e]))
    decreases e - p
  {
    if p < e {
      var sc1 := sc.(buffer := sc.buffer + [s[p]]);
      RunStep(cc, false, s, p, sc, sc1);
      assert sc1.buffer + s[p + 1..e] == sc.buffer + s[p..e];
      ScanUnquoted(cc, s, p + 1, e, sc1);
    } else {
      assert sc.buffer + s[p..e] == sc.buffer;
    }
  }

  /** A key and its '=' followed by a character other than '=': the tokenizer
      waits at that character in `KeyEnd` with the lower-cased key as its name. */
  lemma ReadKeyEnd(cc: CharClasses, s: string, pos: nat, k: string, q: nat)
    requires Sane(cc) && PlainKey(k) && At(s, pos, Doubled('=', k) + "=")
    requires q == pos + |Doubled('=', k)| + 1 && q < |s| && s[q] != '='
    ensures GetKeyValuePair(cc, false, s, pos) == Run(cc, false, s, q, Scan(KeyEnd, pos, [], Some(Lower(cc, k)), None))
  {
    var sc := Scan(KeyEqual, pos, k, None, None);
    assert Shape(cc, sc) && GetKeyValuePair(cc, false, s, pos) == Run(cc, false, s, q, sc) by {
      SaneKey(cc, k);
      ReadKey(cc, s, pos, k, q, sc);
    }
    assert KeyName(cc, k) == Lower(cc, k) by {
      SaneKey(cc, k);
      assert Visible(cc, k[|k| - 1]);
      assert TrimEnd(cc, k) == k;
    }
    KeyEqualAsKeyEnd(cc, s, q, sc);
  }

  /** Every character of an all-white-space `w` occurring at `q` is white space. */
  lemma AtWhite(cc: CharClasses, s: string, q: nat, w: string)
    requires At(s, q, w) && AllWhiteSpace(cc, w)
    ensures forall i :: q <= i < q + |w| ==> cc.isWhiteSpace(s[i])
  {
    assert forall i :: q <= i < q + |w| ==> s[i] == s[q..q + |w|][i - q];
  }

  /** The first character of an unquoted value starts it. */
  lemma ValueStart(cc: CharClasses, s: string, p: nat, scE: Scan)
    requires p < |s| && scE.state == KeyEnd && scE.buffer == []
    requires Visible(cc, s[p]) && !OpensQuote(false, s[p]) && s[p] != ';' && cc.isControl('\0')
    ensures Shape(cc, scE.(state := UnquotedValue, buffer := [s[p]]))
    ensures Run(cc, false, s, p, scE) == Run(cc, false, s, p + 1, scE.(state := UnquotedValue, buffer := [s[p]]))
  {
    RunStep(cc, false, s, p, scE, scE.(state := UnquotedValue, buffer := [s[p]]));
  }

  /** An unquoted value stops at a ';' or at the end of the string. */
  lemma ValueStop(cc: CharClasses, s: string, e: nat, sc: Scan)
    requires e <= |s| && sc.state == UnquotedValue && Shape(cc, sc)
    requires (e == |s| || s[e] == ';') && !cc.isWhiteSpace(';')
    ensures Run(cc, false, s, e, sc) == Finish(cc, false, s, e, sc)
  {
    if e < |s| {
      assert Next(cc, false, sc, e, s[e]) == Exit(sc);
    }
  }

  /** From the value's first character, `u` and the white space `w2` after it are
      read into the buffer, and the loop stops at `e`. */
  lemma ReadValueText(cc: CharClasses, s: string, p: nat, u: string, w2: string, e: nat, scE: Scan)
    requires !cc.isWhiteSpace(';') && cc.isControl('\0')
    requires At(s, p, u + w2) && e == p + |u + w2| && (e == |s| || s[e] == ';')
    requires PlainValue(cc, u) && AllWhiteSpace(cc, w2)
    requires scE.state == KeyEnd && scE.buffer == []
    ensures Run(cc, false, s, p, scE) == Finish(cc, false, s, e, scE.(state := UnquotedValue, buffer := u + w2))
  {
    var scU := scE.(state := UnquotedValue, buffer := [u[0]]);
    var scF := scE.(state := UnquotedValue, buffer := u + w2);
    var t := u[1..] + w2;
    assert u + w2 == [u[0]] + t;
    assert At(s, p + 1, t) && s[p] == u[0] by {
      AtSplit(s, p, [u[0]], t);
      AtHead(s, p, [u[0]]);
    }
    assert Shape(cc, scU) && Run(cc, false, s, p, scE) == Run(cc, false, s, p + 1, scU) by {
      ValueStart(cc, s, p, scE);
    }
    assert Run(cc, false, s, p + 1, scU) == Run(cc, false, s, e, scF) by {
      assert forall i :: 0 <= i < |t| ==> cc.isWhiteSpace(t[i]) || (Visible(cc, t[i]) && t[i] != ';');
      ScanValueText(cc, s, p + 1, t, scU, e, scF);
    }
    assert Run(cc, false, s, e, scF) == Finish(cc, false, s, e, scF) by {
      ValueStop(cc, s, e, scF);
    }
  }

  /** `ScanUnquoted` for a text `t` found at `p`. */
  lemma ScanValueText(cc: CharClasses, s: string, p: nat, t: string, sc: Scan, end: nat, last: Scan)
    requires At(s, p, t) && sc.state == UnquotedValue && Shape(cc, sc)
    requires forall i :: 0 <= i < |t| ==> cc.isWhiteSpace(t[i]) || (Visible(cc, t[i]) && t[i] != ';')
    requires end == p + |t| && last == sc.(buffer := sc.buffer + t)
    ensures Shape(cc, last)
    ensures Run(cc, false, s, p, sc) == Run(cc, false, s, end, last)
  {
    assert forall i :: p <= i < p + |t| ==> s[i] == t[i - p] by {
      assert forall i :: p <= i < p + |t| ==> s[i] == s[p..p + |t|][i - p];
    }
    ScanUnquoted(cc, s, p, p + |t|, sc);
  }

  /** An unquoted pair is read up to its ';' (or the end of the string) with the
      value's buffer holding `u` and the white space after it. */
  lemma ReadUnquoted(cc: CharClasses, s: string, pos: nat, k: string, w1: string, u: string, w2: string, e: nat)
    requires Sane(cc) && PlainKey(k) && UnquotedLayout(cc, s, pos, k, w1, u, w2, e)
    ensures Trim(cc, u + w2) == u
    ensures GetKeyValuePair(cc, false, s, pos)
            == Finish(cc, false, s, e, Scan(UnquotedValue, pos, u + w2, Some(Lower(cc, k)), None))
  {
    var q := pos + |Doubled('=', k)| + 1;
    var p := q + |w1|;
    var scE := Scan(KeyEnd, pos, [], Some(Lower(cc, k)), None);
    var scF := scE.(state := UnquotedValue, buffer := u + w2);
    assert At(s, q, w1) && At(s, p, u + w2) && q < |s| && s[q] != '=' by {
      assert w1 + u + w2 == w1 + (u + w2);
      AtSplit(s, q, w1, u + w2);
      if |w1| > 0 { AtHead(s, q, w1); } else { AtHead(s, p, u + w2); }
    }
    assert GetKeyValuePair(cc, false, s, pos) == Run(cc, false, s, q, scE) by {
      ReadKeyEnd(cc, s, pos, k, q);
    }
    assert Run(cc, false, s, q, scE) == Run(cc, false, s, p, scE) by {
      AtWhite(cc, s, q, w1);
      SkipWhite(cc, s, q, p, scE);
    }
    assert Run(cc, false, s, p, scE) == Finish(cc, false, s, e, scF) by {
      ReadValueText(cc, s, p, u, w2, e, scE);
    }
    TrimTrailing(cc, u, w2);
  }

  /** `key= value ;` reads the value with the white space around it trimmed, and
      consumes the ';'. */
  lemma ReadUnquotedPair(cc: CharClasses, s: string, pos: nat, k: string, w1: string, u: string, w2: string, e: nat)
    requires Sane(cc) && PlainKey(k) && UnquotedLayout(cc, s, pos, k, w1, u, w2, e)
    requires !EndsInQuote(u)
    ensures GetKeyValuePair(cc, false, s, pos)
            == Success(KeyValuePair(if e < |s| then e + 1 else e, Some(Lower(cc, k)), Some(u)))
  {
    ReadUnquoted(cc, s, pos, k, w1, u, w2, e);
  }

  /** An unquoted value that ends in a quote character is a syntax error at the start
      of the pair in OLE DB rules: `k=ab"` is rejected. */
  lemma UnquotedEndsInQuoteFails(cc: CharClasses, s: string, pos: nat, k: string, w1: string, u: string, w2: string, e: nat)
    requires Sane(cc) && PlainKey(k) && UnquotedLayout(cc, s, pos, k, w1, u, w2, e)
    requires EndsInQuote(u)
    ensures GetKeyValuePair(cc, false, s, pos) == Failure(Syntax(pos))
  {
    ReadUnquoted(cc, s, pos, k, w1, u, w2, e);
  }

  /** `k="abc` is rejected at its start. */
  lemma UnclosedQuoteExample(cc: CharClasses)
    requires Sane(cc)
    ensures GetKeyValuePair(cc, false, "k=\"abc", 0) == Failure(Syntax(0))
  {
    assert Doubled('=', "k") + "=\"" == "k=\"" by {
      assert Doubled('=', "k") == "k";
    }
    UnclosedQuoteFails(cc, "k=\"abc", 0, "k");
  }

  /** `k= v ;` reads the key `k` with the value `v` and resumes after the ';'. */
  lemma UnquotedPairExample(cc: CharClasses)
    requires Sane(cc)
    ensures GetKeyValuePair(cc, false, "k= v ;", 0) == Success(KeyValuePair(6, Some("k"), Some("v")))
  {
    assert UnquotedLayout(cc, "k= v ;", 0, "k", " ", "v", " ", 5) by {
      assert Doubled('=', "k") == "k";
    }
    assert Lower(cc, "k") == "k";
    ReadUnquotedPair(cc, "k= v ;", 0, "k", " ", "v", " ", 5);
  }

  /** A setting the round-trip encoder can quote: a plain key and a value without NUL. */
  predicate Quotable(setting: (string, string)) {
    PlainKey(setting.0) && '\0' !in setting.1
  }

  /** A connection string written from `settings`, one quoted pair after another. */
  function Encode(settings: seq<(string, string)>): (r: string)
    ensures |settings| > 0 ==> |r| > 0
  {
    if |settings| == 0 then "" else QuotedPair(settings[0].0, settings[0].1) + Encode(settings[1..])
  }

  /** The chain the parser should read back from `Encode(settings)`: every key
      lower-cased, every value present, every pair spanning what was written for it. */
  function Decoded(cc: CharClasses, settings: seq<(string, string)>): (r: seq<NameValuePair>)
    ensures |r| == |settings|
    ensures forall i :: 0 <= i < |settings| ==>
              r[i] == NameValuePair(Lower(cc, settings[i].0), Some(settings[i].1), |QuotedPair(settings[i].0, settings[i].1)|)
  {
    seq(|settings|, i requires 0 <= i < |settings| =>
      NameValuePair(Lower(cc, settings[i].0), Some(settings[i].1), |QuotedPair(settings[i].0, settings[i].1)|))
  }

  lemma DecodedCons(cc: CharClasses, settings: seq<(string, string)>)
    requires |settings| > 0
    ensures Decoded(cc, settings)
            == [NameValuePair(Lower(cc, settings[0].0), Some(settings[0].1), |QuotedPair(settings[0].0, settings[0].1)|)]
               + Decoded(cc, settings[1..])
  {
    var r := Decoded(cc, settings);
    assert r[1..] == Decoded(cc, settings[1..]);
    assert r == [r[0]] + r[1..];
  }

  /** A lower-cased plain key is still a key the parser accepts. */
  lemma LowerKeyValid(cc: CharClasses, k: string)
    requires Sane(cc) && PlainKey(k)
    ensures IsKeyNameValid(cc, Some(Lower(cc, k)))
  {
    var l := Lower(cc, k);
    forall i | 0 <= i < |l|
      ensures '!' <= l[i] <= '~'
    {
      assert '!' <= k[i] <= '~';
    }
    assert l[0] != ';';
  }

  lemma AtEncoded(s: string, pos: nat, settings: seq<(string, string)>)
    requires |settings| > 0 && pos <= |s| && s[pos..] == Encode(settings)
    ensures var w := QuotedPair(settings[0].0, settings[0].1);
            && At(s, pos, w) && s[pos + |w|..] == Encode(settings[1..])
  {
    var w := QuotedPair(settings[0].0, settings[0].1);
    assert s[pos..][..|w|] == w;
    assert s[pos..][|w|..] == Encode(settings[1..]);
  }

  /** `s` holds, from `pos` to its end, what was written for `settings`, all of
      which can be quoted. */
  predicate EncodedAt(s: string, pos: nat, settings: seq<(string, string)>) {
    && pos <= |s| && s[pos..] == Encode(settings)
    && forall i :: 0 <= i < |settings| ==> Quotable(settings[i])
  }

  /** The first setting is read at `pos` as a pair with a valid, lower-cased key that
      ends at `next`, just after what was written for it. */
  predicate HeadRead(cc: CharClasses, s: string, pos: nat, next: nat, settings: seq<(string, string)>)
    requires |settings| > 0 && pos <= |s|
  {
    && pos < next <= |s| && next == pos + |QuotedPair(settings[0].0, settings[0].1)|
    && GetKeyValuePair(cc, false, s, pos)
       == Success(KeyValuePair(next, Some(Lower(cc, settings[0].0)), Some(settings[0].1)))
    && IsKeyNameValid(cc, Some(Lower(cc, settings[0].0)))
  }

  /** The loop of `ParseInternal`, in OLE DB rules, reads back every written pair. */
  lemma {:induction false} PairsOfEncoded(cc: CharClasses, s: string, pos: nat, settings: seq<(string, string)>)
    requires Sane(cc) && EncodedAt(s, pos, settings)
    ensures Pairs(cc, false, s, pos) == Success(Decoded(cc, settings))
    decreases |settings|
  {
    if |settings| == 0 {
      assert pos == |s|;
    } else {
      var next := pos + |QuotedPair(settings[0].0, settings[0].1)|;
      EncodedHead(cc, s, pos, next, settings);
      EncodedRest(s, pos, next, settings);
      PairsOfEncoded(cc, s, next, settings[1..]);
      PairsDecoded(cc, s, pos, next, settings);
    }
  }

  /** The first written pair is read back with its key lower-cased. */
  lemma EncodedHead(cc: CharClasses, s: string, pos: nat, next: nat, settings: seq<(string, string)>)
    requires Sane(cc) && |settings| > 0 && EncodedAt(s, pos, settings)
    requires next == pos + |QuotedPair(settings[0].0, settings[0].1)|
    ensures HeadRead(cc, s, pos, next, settings)
  {
    assert Quotable(settings[0]);
    AtEncoded(s, pos, settings);
    ReadQuotedPair(cc, s, pos, settings[0].0, settings[0].1);
    LowerKeyValid(cc, settings[0].0);
  }

  /** After the first written pair comes what was written for the other settings. */
  lemma EncodedRest(s: string, pos: nat, next: nat, settings: seq<(string, string)>)
    requires |settings| > 0 && EncodedAt(s, pos, settings)
    requires next == pos + |QuotedPair(settings[0].0, settings[0].1)|
    ensures EncodedAt(s, next, settings[1..])
  {
    AtEncoded(s, pos, settings);
    assert forall i :: 0 <= i < |settings[1..]| ==> settings[1..][i] == settings[i + 1];
  }

  /** The chain read from `pos` is the decoded settings once the first pair and the
      chain after it are. */
  lemma PairsDecoded(cc: CharClasses, s: string, pos: nat, next: nat, settings: seq<(string, string)>)
    requires |settings| > 0 && pos <= |s| && HeadRead(cc, s, pos, next, settings)
    requires Pairs(cc, false, s, next) == Success(Decoded(cc, settings[1..]))
    ensures Pairs(cc, false, s, pos) == Success(Decoded(cc, settings))
  {
    var p := KeyValuePair(next, Some(Lower(cc, settings[0].0)), Some(settings[0].1));
    PairsStep(cc, s, pos, p, Decoded(cc, settings[1..]));
    DecodedCons(cc, settings);
  }

  /** One round of the `ParseInternal` loop after a pair with a valid key was read. */
  lemma PairsStep(cc: CharClasses, s: string, pos: nat, p: KeyValuePair, rest: seq<NameValuePair>)
    requires pos < |s| && GetKeyValuePair(cc, false, s, pos) == Success(p)
    requires p.next <= |s| && IsKeyNameValid(cc, p.keyname)
    requires Pairs(cc, false, s, p.next) == Success(rest)
    ensures Pairs(cc, false, s, pos) == Success([NameValuePair(p.keyname.value, p.keyvalue, p.next - pos)] + rest)
  {
  }

  /** Reading a written connection string gives the table of its settings, each
      key lower-cased. */
  lemma EncodedParses(cc: CharClasses, settings: seq<(string, string)>)
    requires Sane(cc) && |settings| > 0 && forall i :: 0 <= i < |settings| ==> Quotable(settings[i])
    ensures GetKeyValues(cc, Some(Encode(settings))) == Success(Load(false, map[], Decoded(cc, settings)))
  {
    var s := Encode(settings);
    var chain := Decoded(cc, settings);
    assert Pairs(cc, false, s, 0) == Success(chain) by {
      assert s[0..] == s;
      assert EncodedAt(s, 0, settings);
      PairsOfEncoded(cc, s, 0, settings);
    }
    GetKeyValuesOfPairs(cc, s, chain);
  }

  /** A non-empty string read in OLE DB rules as `chain` gives the table of `chain`. */
  lemma GetKeyValuesOfPairs(cc: CharClasses, s: string, chain: seq<NameValuePair>)
    requires |s| > 0 && Pairs(cc, false, s, 0) == Success(chain)
    ensures GetKeyValues(cc, Some(s)) == Success(Load(false, map[], chain))
  {
  }

  /** `GetKeyValues` round trip, keys: the keys read are the lower-cased keys
      written. */
  lemma GetKeyValuesKeys(cc: CharClasses, settings: seq<(string, string)>)
    requires Sane(cc) && |settings| > 0 && forall i :: 0 <= i < |settings| ==> Quotable(settings[i])
    ensures var r := GetKeyValues(cc, Some(Encode(settings)));
            && r.Success?
            && forall k :: k in r.value <==> exists i :: 0 <= i < |settings| && Lower(cc, settings[i].0) == k
  {
    EncodedParses(cc, settings);
    LoadedKeys(cc, settings);
  }

  /** `GetKeyValues` round trip, values: a key written once (after lower-casing) is
      read with the value written for it; a key written more than once, with the
      value written last. */
  lemma GetKeyValuesValue(cc: CharClasses, settings: seq<(string, string)>, j: nat)
    requires Sane(cc) && forall i :: 0 <= i < |settings| ==> Quotable(settings[i])
    requires j < |settings| && forall i :: j < i < |settings| ==> Lower(cc, settings[i].0) != Lower(cc, settings[j].0)
    ensures var r := GetKeyValues(cc, Some(Encode(settings)));
            r.Success? && Lower(cc, settings[j].0) in r.value && r.value[Lower(cc, settings[j].0)] == Some(settings[j].1)
  {
    EncodedParses(cc, settings);
    LastWins(map[], Decoded(cc, settings), j);
  }

  lemma LoadedKeys(cc: CharClasses, settings: seq<(string, string)>)
    ensures var t := Load(false, map[], Decoded(cc, settings));
            forall k :: k in t <==> exists i :: 0 <= i < |settings| && Lower(cc, settings[i].0) == k
  {
    var chain := Decoded(cc, settings);
    var t := Load(false, map[], chain);
    forall k
      ensures k in t <==> exists i :: 0 <= i < |settings| && Lower(cc, settings[i].0) == k
    {
      if k in t {
        var i :| 0 <= i < |chain| && chain[i].name == k;
        assert Lower(cc, settings[i].0) == k;
      }
      if exists i :: 0 <= i < |settings| && Lower(cc, settings[i].0) == k {
        var i :| 0 <= i < |settings| && Lower(cc, settings[i].0) == k;
        assert chain[i].name == k;
      }
    }
  }
}

=== FILE: contentparts.dfy ===
/** `ChatMessageContentPartExtension.SaveContent`: writes a response part to disk and
    says whether it was text. Writes are returned as values instead of performed;
    creating the target directory is not modelled. */
module ContentSaving {
  import opened Wrappers
  import opened Text
  import opened Paths
  import opened Chat
  import opened Images
  import opened Documents

  datatype Write = WriteText(path: string, text: string) | WriteBytes(path: string, bytes: Bytes)

  datatype SaveError =
    | ArgumentNull     // null message, directory or name
    | NullReference    // an image part without a media type
    | Unsupported      // NotSupportedException from the media-type lookup

  datatype Saved = Saved(ok: bool, write: Option<Write>)

  predicate HasText(p: ContentPart) {
    p.text.Some? && p.text.value != ""
  }

  /** `ResolveExtensionFromMediaType` on the part's (nullable) media type. */
  function ImageExtension(cc: CharClasses, p: ContentPart): (r: Result<string, SaveError>)
    ensures p.imageMediaType.None? ==> r == Failure(NullReference)
    ensures r.Success? ==> r.value in SupportedExtensions
  {
    match p.imageMediaType
    case None => Failure(NullReference)
    case Some(m) =>
      match ExtensionOfMediaType(cc, m)
      case Failure(_) => Failure(Unsupported)
      case Success(e) => Success(e)
  }

  /** The body of the directory overload after its argument checks. `keepExtension`
      false is the code as written: a name that has an extension is written without
      it. */
  function SaveInDirectory(cc: CharClasses, p: ContentPart, dir: string, name: string, keepExtension: bool)
    : (r: Result<Saved, SaveError>)
    ensures r.Success? ==> (r.value.ok <==> HasText(p))
    ensures r.Success? && HasText(p) ==> r.value.write.Some? && r.value.write.value.WriteText?
                                         && r.value.write.value.text == p.text.value
    ensures r.Success? && !HasText(p) ==> (r.value.write.Some? <==> p.imageBytes.Some?)
  {
    var stem := NameWithoutExtension(name);
    var plain := stem == name;
    var n := if plain || !keepExtension then Combine(dir, stem) else Combine(dir, stem + Extension(name));
    if HasText(p) then
      Success(Saved(true, Some(WriteText(if plain then n + ".txt" else n, p.text.value))))
    else if p.imageBytes.Some? then
      if plain then
        var ext :- ImageExtension(cc, p);
        Success(Saved(false, Some(WriteBytes(n + ext, p.imageBytes.value))))
      else Success(Saved(false, Some(WriteBytes(n, p.imageBytes.value))))
    else Success(Saved(false, None))
  }

  /** The name a part is saved under: the given one, else the image URI's local path. */
  function EffectiveName(p: ContentPart, name: Option<string>): (r: Result<string, SaveError>)
    ensures name.Some? ==> r == Success(name.value)
    ensures name.None? ==> (r.Success? <==> p.imageUri.Some?)
    ensures name.None? && p.imageUri.Some? ==> r == Success(p.imageUri.value)
  {
    if name.Some? then Success(name.value)
    else if p.imageUri.Some? then Success(p.imageUri.value)
    else Failure(ArgumentNull)
  }

  /** `SaveContent(part, DirectoryInfo, name)` as written. */
  function SaveToDirectoryAsWritten(cc: CharClasses, message: Option<ContentPart>, dir: Option<string>, name: Option<string>)
    : (r: Result<Saved, SaveError>)
    ensures message.None? || dir.None? ==> r == Failure(ArgumentNull)
    ensures r.Success? ==> message.Some? && (r.value.ok <==> HasText(message.value))
  {
    if message.None? || dir.None? then Failure(ArgumentNull)
    else
      var n :- EffectiveName(message.value, name);
      SaveInDirectory(cc, message.value, dir.value, n, false)
  }

  /** `SaveContent(part, DirectoryInfo, name)` with the name's extension kept. */
  function SaveToDirectory(cc: CharClasses, message: Option<ContentPart>, dir: Option<string>, name: Option<string>)
    : (r: Result<Saved, SaveError>)
    ensures message.None? || dir.None? ==> r == Failure(ArgumentNull)
    ensures message.Some? && dir.Some? && name.None? && message.value.imageUri.None? ==> r == Failure(ArgumentNull)
    ensures r.Success? ==> message.Some? && (r.value.ok <==> HasText(message.value))
  {
    if message.None? || dir.None? then Failure(ArgumentNull)
    else
      var n :- EffectiveName(message.value, name);
      SaveInDirectory(cc, message.value, dir.value, n, true)
  }

  /** `SaveContent(part, directoryPath, name)`: checks the path, then saves in that
      directory through the directory overload as written. */
  function SaveToPath(cc: CharClasses, message: Option<ContentPart>, directoryPath: Option<string>, name: Option<string>)
    : (r: Result<Saved, SaveError>)
    ensures message.None? || IsNullOrEmpty(directoryPath) ==> r == Failure(ArgumentNull)
    ensures !IsNullOrEmpty(directoryPath) ==> r == SaveToDirectoryAsWritten(cc, message, directoryPath, name)
    ensures r.Success? ==> message.Some? && (r.value.ok <==> HasText(message.value))
  {
    if message.None? || IsNullOrEmpty(directoryPath) then Failure(ArgumentNull)
    else SaveToDirectoryAsWritten(cc, message, directoryPath, name)
  }

  /** Through the path overload too, a text part saved as "a.md" in "out" is written
      to "out\\a". */
  lemma PathDropsExtension(cc: CharClasses, text: string)
    requires text != ""
    ensures SaveToPath(cc, Some(TextPart(text)), Some("out"), Some("a.md"))
            == Success(Saved(true, Some(WriteText("out\\a", text))))
  {
    DirectoryDropsExtension(cc, text);
  }

  /** A text part saved under a plain name without extension goes to dir/name.txt. */
  lemma DirectoryTextWithoutExtension(cc: CharClasses, p: ContentPart, dir: string, name: string)
    requires HasText(p)
    requires '.' !in FileName(name) && forall j :: 0 <= j < |name| ==> !IsSeparator(name[j])
    ensures SaveToDirectory(cc, Some(p), Some(dir), Some(name))
            == Success(Saved(true, Some(WriteText(Combine(dir, name) + ".txt", p.text.value))))
  {
    assert NameStart(name) == 0;
  }

  /** As written, a text part saved as "a.md" in "out" is written to "out\\a": the
      extension is lost. */
  lemma DirectoryDropsExtension(cc: CharClasses, text: string)
    requires text != ""
    ensures SaveToDirectoryAsWritten(cc, Some(TextPart(text)), Some("out"), Some("a.md"))
            == Success(Saved(true, Some(WriteText("out\\a", text))))
  {
    StemOfSample();
    assert SaveToDirectoryAsWritten(cc, Some(TextPart(text)), Some("out"), Some("a.md"))
           == SaveInDirectory(cc, TextPart(text), "out", "a.md", false);
  }

  /** "a.md" has stem "a", which goes to "out\\a" in "out". */
  lemma StemOfSample()
    ensures NameWithoutExtension("a.md") == "a" && Combine("out", "a") == "out\\a"
  {
    var name := "a.md";
    assert forall j :: 0 <= j < |name| ==> !IsSeparator(name[j]);
    assert FileName(name) == name;
    assert name[1] == '.' && name[2] != '.' && name[3] != '.';
    assert LastIndexOf(name, '.') == 1;
    assert name[..1] == "a";
  }

  /** With the extension kept, a part saved under a plain name that has an extension is
      written to dir/name. */
  lemma DirectoryKeepsExtension(cc: CharClasses, p: ContentPart, dir: string, name: string)
    requires HasText(p) || p.imageBytes.Some?
    requires Extension(name) != ""
    requires forall j :: 0 <= j < |name| ==> !IsSeparator(name[j])
    ensures var r := SaveToDirectory(cc, Some(p), Some(dir), Some(name));
            r.Success? && r.value.write.Some? && r.value.write.value.path == Combine(dir, name)
  {
    var stem := NameWithoutExtension(name);
    assert stem + Extension(name) == name && stem != name by {
      assert NameStart(name) == 0;
      assert FileName(name) == name;
      NameAndExtension(name);
    }
    SaveWithExtension(cc, p, dir, name);
  }

  /** A part that is written, saved with the extension kept under a name that has
      one, is written to dir/stem+extension. */
  lemma SaveWithExtension(cc: CharClasses, p: ContentPart, dir: string, name: string)
    requires HasText(p) || p.imageBytes.Some?
    requires NameWithoutExtension(name) != name
    ensures var r := SaveToDirectory(cc, Some(p), Some(dir), Some(name));
            && r.Success? && r.value.write.Some?
            && r.value.write.value.path == Combine(dir, NameWithoutExtension(name) + Extension(name))
  {
    assert SaveToDirectory(cc, Some(p), Some(dir), Some(name)) == SaveInDirectory(cc, p, dir, name, true);
  }

  /** The outcome of `SaveContent(part, FileInfo, out filename)`: the return value, the
      reported file name and the write. */
  datatype SavedFile = SavedFile(ok: bool, filename: string, write: Option<Write>)

  /** `SaveContent(part, FileInfo, out filename)`. */
  function SaveToFile(cc: CharClasses, message: Option<ContentPart>, file: FileRef): (r: Result<SavedFile, SaveError>)
    ensures message.None? ==> r == Failure(ArgumentNull)
    ensures DirectoryName(file.fullName).None? ==> r.Failure?
    ensures r.Success? ==> message.Some? && (r.value.ok <==> HasText(message.value))
    ensures r.Success? && HasText(message.value) ==> r.value.write.Some? && r.value.write.value.WriteText?
    ensures message.Some? && HasText(message.value) && DirectoryName(file.fullName).Some? ==> r.Success?
  {
    if message.None? then Failure(ArgumentNull)
    else
      var p := message.value;
      var stem := NameWithoutExtension(Name(file));
      var plain := stem == Name(file);
      match DirectoryName(file.fullName)
      case None => Failure(ArgumentNull)
      case Some(dir) =>
        var filename := Combine(dir, stem);
        if HasText(p) then
          if plain then Success(SavedFile(true, filename + ".txt", Some(WriteText(filename + ".txt", p.text.value))))
          else Success(SavedFile(true, filename, Some(WriteText(file.fullName, p.text.value))))
        else if p.imageBytes.Some? then
          var ext :- ImageExtension(cc, p);
          var target := if plain then filename + ext else filename;
          Success(SavedFile(false, target, Some(WriteBytes(target, p.imageBytes.value))))
        else Success(SavedFile(false, filename, None))
  }

  /** A text part for a target without extension is written to dir/name.txt, and that
      path is reported. */
  lemma FileTextWithoutExtension(cc: CharClasses, p: ContentPart, file: FileRef)
    requires HasText(p)
    requires DirectoryName(file.fullName).Some?
    requires '.' !in Name(file)
    ensures var dir := DirectoryName(file.fullName).value;
            var path := Combine(dir, Name(file)) + ".txt";
            SaveToFile(cc, Some(p), file) == Success(SavedFile(true, path, Some(WriteText(path, p.text.value))))
  {
  }

  /** A text part for a target with an extension is written to the target itself, but
      the reported name is dir/name without the extension. */
  lemma FileTextWithExtension(cc: CharClasses, p: ContentPart, file: FileRef)
    requires HasText(p)
    requires DirectoryName(file.fullName).Some?
    requires '.' in Name(file)
    ensures var dir := DirectoryName(file.fullName).value;
            var reported := Combine(dir, NameWithoutExtension(Name(file)));
            SaveToFile(cc, Some(p), file) == Success(SavedFile(true, reported, Some(WriteText(file.fullName, p.text.value))))
  {
  }

  /** An image part is written but reported as not saved. */
  lemma ImageNotReported(cc: CharClasses, p: ContentPart, file: FileRef)
    requires !HasText(p) && p.imageBytes.Some?
    requires SaveToFile(cc, Some(p), file).Success?
    ensures !SaveToFile(cc, Some(p), file).value.ok
    ensures SaveToFile(cc, Some(p), file).value.write.Some?
    ensures SaveToFile(cc, Some(p), file).value.write.value.WriteBytes?
  {
  }
}

=== FILE: context.dfy ===
/** `Context`: the settled command-line arguments of a run. It classifies the target
    path, resolves a "file:" prompt against the prompts folder, fingerprints the
    prompt, and reads the processing strategy off a suffix of the source pattern. */
module Contexts {
  import opened Wrappers
  import opened Text
  import opened Paths
  import opened Checksum
  import opened IoClassification

  /** How the source files are grouped into work items. */
  datatype ParseStrategy = FileByFile | ByFolder | All

  const DefaultPattern: string := "*.*"
  const FolderSuffix: string := "-folder"
  const AllSuffix: string := "-all"
  const FilePrefix: string := "file:"
  const PromptsFolder: string := "Prompts"
  const DefaultOutName: string := ".txt"

  datatype ContextError =
    | NullReference      // NullReferenceException: a null prompt, or a target file without directory

  /** The pattern the strategy is read from: trimmed and lower-cased. */
  function Normalized(cc: CharClasses, pattern: string): string {
    Trim(cc, Lower(cc, pattern))
  }

  /** The first space-separated token of a string. */
  function FirstToken(s: string): (r: string)
    ensures ' ' !in r
  {
    Split(s, ' ')[0]
  }

  /** The first token is a prefix. */
  lemma FirstTokenPrefix(s: string)
    ensures FirstToken(s) <= s
    ensures ' ' !in s ==> FirstToken(s) == s
  {
    var k := IndexOf(s, ' ');
    if k >= 0 {
      assert FirstToken(s) == s[..k];
    }
  }

  /** The `PatternSource` and `Strategy` the constructor settles on for a pattern. */
  function ParsePattern(cc: CharClasses, pattern: Option<string>): (r: (string, ParseStrategy))
    ensures pattern.None? ==> r == (DefaultPattern, FileByFile)
    ensures pattern.Some? && AllWhiteSpace(cc, pattern.value) ==> r == (DefaultPattern, FileByFile)
    ensures r.1 != FileByFile ==> pattern.Some? && r.0 == FirstToken(Normalized(cc, pattern.value))
    ensures r.1 == ByFolder <==> pattern.Some? && !AllWhiteSpace(cc, pattern.value)
                                 && EndsWith(Normalized(cc, pattern.value), FolderSuffix)
    ensures r.1 == All <==> pattern.Some? && !AllWhiteSpace(cc, pattern.value)
                            && !EndsWith(Normalized(cc, pattern.value), FolderSuffix)
                            && EndsWith(Normalized(cc, pattern.value), AllSuffix)
    ensures r.1 == FileByFile && pattern.Some? && !AllWhiteSpace(cc, pattern.value) ==> r.0 == pattern.value
  {
    match pattern
    case None => (DefaultPattern, FileByFile)
    case Some(p) =>
      TrimEmpty(cc, p);
      if Trim(cc, p) == "" then (DefaultPattern, FileByFile)
      else
        var n := Normalized(cc, p);
        if EndsWith(n, FolderSuffix) then (FirstToken(n), ByFolder)
        else if EndsWith(n, AllSuffix) then (FirstToken(n), All)
        else (p, FileByFile)
  }

  /** Printable ASCII without upper-case letters. */
  predicate PlainLower(s: string) {
    forall i :: 0 <= i < |s| ==> '!' <= s[i] <= '~' && !('A' <= s[i] <= 'Z')
  }

  /** A string of such characters is its own normal form. */
  lemma NormalizedPlain(cc: CharClasses, s: string)
    requires Sane(cc) && PlainLower(s)
    ensures Normalized(cc, s) == s
  {
    LowerOfLowerAscii(cc, s);
    if |s| > 0 {
      assert '!' <= s[0] <= '~' && '!' <= s[|s| - 1] <= '~';
    }
    TrimUntouched(cc, s);
  }

  /** A suffix glued to the pattern without a space selects the strategy but stays in
      the pattern: "*.cs-folder" gives pattern "*.cs-folder" and `ByFolder`. */
  lemma GluedSuffixStays(cc: CharClasses, p: string)
    requires Sane(cc) && PlainLower(p) && EndsWith(p, FolderSuffix)
    ensures ParsePattern(cc, Some(p)) == (p, ByFolder)
  {
    NormalizedPlain(cc, p);
    assert ' ' !in p;
    FirstTokenPrefix(p);
    assert !AllWhiteSpace(cc, p) by {
      assert !cc.isWhiteSpace(p[0]);
    }
  }

  /** A pattern with a spaced suffix is already normalised. */
  lemma SpacedNormalized(cc: CharClasses, token: string, suffix: string)
    requires Sane(cc) && PlainLower(token) && PlainLower(suffix) && |token| > 0 && |suffix| > 0
    ensures Normalized(cc, token + " " + suffix) == token + " " + suffix
  {
    var p := token + " " + suffix;
    assert forall i :: 0 <= i < |p| ==> '\0' <= p[i] <= '~' && !('A' <= p[i] <= 'Z') by {
      forall i | 0 <= i < |p| ensures '\0' <= p[i] <= '~' && !('A' <= p[i] <= 'Z') {
        if i < |token| { assert p[i] == token[i]; }
        else if i > |token| { assert p[i] == suffix[i - |token| - 1]; }
      }
    }
    LowerOfLowerAscii(cc, p);
    assert p[0] == token[0] && p[|p| - 1] == suffix[|suffix| - 1];
    TrimUntouched(cc, p);
  }

  /** The first token of a spaced pattern is the part before the space. */
  lemma SpacedToken(token: string, suffix: string)
    requires ' ' !in token
    ensures FirstToken(token + " " + suffix) == token
    ensures EndsWith(token + " " + suffix, suffix)
  {
    var p := token + " " + suffix;
    assert p == token + [' '] + suffix;
    IndexOfAfter(token, suffix, ' ');
    assert p[..|token|] == token;
    assert p[|p| - |suffix|..] == suffix;
  }

  /** A suffix after a space is dropped: "*.cs -folder" gives pattern "*.cs". */
  lemma SpacedSuffixDropped(cc: CharClasses, token: string)
    requires Sane(cc) && PlainLower(token) && |token| > 0
    ensures ParsePattern(cc, Some(token + " " + FolderSuffix)) == (token, ByFolder)
  {
    var p := token + " " + FolderSuffix;
    SpacedNormalized(cc, token, FolderSuffix);
    assert ' ' !in token by {
      forall i | 0 <= i < |token| ensures token[i] != ' ' {
        assert '!' <= token[i];
      }
    }
    SpacedToken(token, FolderSuffix);
    assert !AllWhiteSpace(cc, p) by {
      assert p[0] == token[0];
    }
  }

  /** What the constructor learns about the target path: the target directory and,
      when the path names a file, that file. */
  datatype Target = Target(directory: Option<string>, file: Option<string>)

  /** Classifies the target path. The target file and folder are taken by their full
      name, a relative path being read from `currentDirectory`; a full name without
      any separator has no directory, and the constructor then dereferences null. */
  function ClassifyTarget(probe: Probe, currentDirectory: string, targetPath: Option<string>)
    : (r: Result<Target, ContextError>)
    ensures EvaluateDocument(probe, targetPath) == NoKind ==> r == Success(Target(None, None))
    ensures EvaluateDocument(probe, targetPath) == FolderKind ==>
              r == Success(Target(Some(Combine(currentDirectory, targetPath.value)), None))
    ensures r.Success? && r.value.file.Some? ==>
              && EvaluateDocument(probe, targetPath) == FileKind
              && r.value.file == Some(Combine(currentDirectory, targetPath.value))
              && r.value.directory == DirectoryName(r.value.file.value)
    ensures r.Failure? <==> EvaluateDocument(probe, targetPath) == FileKind
                            && DirectoryName(Combine(currentDirectory, targetPath.value)).None?
  {
    var kind := EvaluateDocument(probe, targetPath);
    if kind == FileKind then
      var full := Combine(currentDirectory, targetPath.value);
      match DirectoryName(full)
      case None => Failure(NullReference)
      case Some(dir) => Success(Target(Some(dir), Some(full)))
    else if kind == FolderKind then Success(Target(Some(Combine(currentDirectory, targetPath.value)), None))
    else Success(Target(None, None))
  }

  /** A file target's directory is the folder that contains it. */
  lemma FileTargetInItsDirectory(probe: Probe, currentDirectory: string, targetPath: Option<string>)
    requires ClassifyTarget(probe, currentDirectory, targetPath).Success?
    requires ClassifyTarget(probe, currentDirectory, targetPath).value.file.Some?
    ensures var t := ClassifyTarget(probe, currentDirectory, targetPath).value;
            t.directory.Some? && t.directory.value + [t.file.value[|t.directory.value|]] + FileName(t.file.value) == t.file.value
  {
    var full := Combine(currentDirectory, targetPath.value);
    DirectoryNameSplit(full);
  }

  /** A bare file name ("out.md") names a file of the current directory. */
  lemma BareFileTargetInCurrentDirectory(probe: Probe, currentDirectory: string, name: string)
    requires EvaluateDocument(probe, Some(name)) == FileKind
    requires forall j :: 0 <= j < |name| ==> !IsSeparator(name[j])
    requires !IsRooted(name)
    requires currentDirectory != "" && !IsSeparator(currentDirectory[|currentDirectory| - 1])
    ensures ClassifyTarget(probe, currentDirectory, Some(name))
            == Success(Target(Some(currentDirectory), Some(currentDirectory + [DirectorySeparator] + name)))
  {
    var full := Combine(currentDirectory, name);
    assert name != "";
    assert full == currentDirectory + [DirectorySeparator] + name;
    FileNameOfCombine(currentDirectory, name);
    assert FileName(full) != full;
    assert full[..|currentDirectory|] == currentDirectory;
  }

  /** What the constructor reads from the filesystem for a "file:" prompt. */
  datatype PromptFiles = PromptFiles(fileExists: string -> bool, load: string -> string)

  /** The prompt a "file:" prompt refers to: the rest of the prompt, trimmed, in the
      prompts folder. */
  function PromptPath(cc: CharClasses, promptsFolder: string, prompt: string): (r: Option<string>)
    ensures r.Some? <==> StartsWith(Lower(cc, prompt), FilePrefix)
    ensures r.Some? ==> |prompt| >= |FilePrefix| && r.value == Combine(promptsFolder, Trim(cc, prompt[|FilePrefix|..]))
  {
    if StartsWith(Lower(cc, prompt), FilePrefix) then
      Some(Combine(promptsFolder, Trim(cc, prompt[|FilePrefix|..])))
    else None
  }

  /** The final prompt: a "file:" prompt whose file exists is replaced by the file's
      text; any other prompt is kept. A null prompt fails on the case conversion,
      before the constructor's own null check. */
  function ResolvePrompt(cc: CharClasses, files: PromptFiles, promptsFolder: string, prompt: Option<string>)
    : (r: Result<string, ContextError>)
    ensures prompt.None? ==> r == Failure(NullReference)
    ensures prompt.Some? ==> r.Success?
    ensures prompt.Some? && PromptPath(cc, promptsFolder, prompt.value).None? ==> r == Success(prompt.value)
    ensures prompt.Some? && PromptPath(cc, promptsFolder, prompt.value).Some? ==>
              var path := PromptPath(cc, promptsFolder, prompt.value).value;
              r == Success(if files.fileExists(path) then files.load(path) else prompt.value)
  {
    match prompt
    case None => Failure(NullReference)
    case Some(p) =>
      match PromptPath(cc, promptsFolder, p)
      case None => Success(p)
      case Some(path) => Success(if files.fileExists(path) then files.load(path) else p)
  }

  datatype Context = Context(
    targetDirectory: Option<string>,
    targetFile: Option<string>,
    directoryConfig: string,
    directoryPrompts: string,
    directorySources: seq<string>,
    fileSources: seq<string>,
    outName: string,
    azureServiceName: Option<string>,
    hashPrompt: bv32,
    patternSource: string,
    strategy: ParseStrategy,
    prompt: string)

  /** The constructor's inputs, as given on the command line. */
  datatype Arguments = Arguments(
    configFolder: Option<string>,
    directorySources: Option<seq<string>>,
    fileSources: Option<seq<string>>,
    targetPath: Option<string>,
    prompt: Option<string>,
    azureService: Option<string>,
    patternSource: Option<string>)

  /** `new Context(...)`. `currentDirectory` is the process's working directory. */
  function NewContext(cc: CharClasses, crc: Crc, probe: Probe, files: PromptFiles, currentDirectory: string, args: Arguments)
    : (r: Result<Context, ContextError>)
    ensures r.Success? <==> ClassifyTarget(probe, currentDirectory, args.targetPath).Success? && args.prompt.Some?
    ensures r.Success? ==>
              var c := r.value;
              var t := ClassifyTarget(probe, currentDirectory, args.targetPath).value;
              && c.targetDirectory == t.directory && c.targetFile == t.file
              && c.directoryConfig == args.configFolder.GetOr(currentDirectory)
              && c.directoryPrompts == Combine(c.directoryConfig, PromptsFolder)
              && c.directorySources == args.directorySources.GetOr([])
              && c.fileSources == args.fileSources.GetOr([])
              && c.outName == DefaultOutName
              && c.azureServiceName == args.azureService
              && c.prompt == ResolvePrompt(cc, files, c.directoryPrompts, args.prompt).value
              && c.hashPrompt == crc.ofText(c.prompt)
              && (c.patternSource, c.strategy) == ParsePattern(cc, args.patternSource)
  {
    var target :- ClassifyTarget(probe, currentDirectory, args.targetPath);
    var config := args.configFolder.GetOr(currentDirectory);
    var prompts := Combine(config, PromptsFolder);
    var prompt :- ResolvePrompt(cc, files, prompts, args.prompt);
    var (pattern, strategy) := ParsePattern(cc, args.patternSource);
    Success(Context(target.directory, target.file, config, prompts,
                    args.directorySources.GetOr([]), args.fileSources.GetOr([]),
                    DefaultOutName, args.azureService, crc.ofText(prompt), pattern, strategy, prompt))
  }

  /** The prompt fingerprint follows the prompt's content: two runs whose final
      prompts are equal share a fingerprint, whatever path led to them. */
  lemma HashFollowsPrompt(cc: CharClasses, crc: Crc, probe: Probe, files: PromptFiles, cwd: string,
                          a1: Arguments, a2: Arguments)
    requires NewContext(cc, crc, probe, files, cwd, a1).Success?
    requires NewContext(cc, crc, probe, files, cwd, a2).Success?
    requires NewContext(cc, crc, probe, files, cwd, a1).value.prompt == NewContext(cc, crc, probe, files, cwd, a2).value.prompt
    ensures NewContext(cc, crc, probe, files, cwd, a1).value.hashPrompt == NewContext(cc, crc, probe, files, cwd, a2).value.hashPrompt
  {
  }
}

=== FILE: documents.dfy ===
/** Work units: the `Document` struct of Document.cs (one optional source file, one
    optional target file, the source's content fingerprint) and the multi-source view
    that DocumentExtensions.cs tests for emptiness. Files are records of what
    `FileInfo` reports; reading and fingerprinting them are parameters. */
module Documents {
  import opened Wrappers
  import opened Paths

  /** What a refreshed `FileInfo` reports. `length` is the 64-bit `FileInfo.Length`,
      `present` is `FileInfo.Exists`, `hidden` the Hidden attribute. */
  datatype FileRef = FileRef(fullName: string, length: int, present: bool, hidden: bool)

  /** `FileInfo.Name`. */
  function Name(f: FileRef): string {
    FileName(f.fullName)
  }

  /** `ComputeFileHash(path)`: the fingerprint of a file's bytes, `None` when reading
      the file raises an `IOException`. */
  type FileHasher = string -> Option<string>

  datatype Document = Document(source: Option<FileRef>, target: Option<FileRef>, hashSource: string)

  /** `Document.Empty`. */
  const Empty: Document := Document(None, None, "")

  /** The constructor: the fingerprint is taken only when the source has a non-empty
      full name; an `IOException` from it escapes (`None`). */
  function Create(hasher: FileHasher, source: Option<FileRef>, target: Option<FileRef>): (r: Option<Document>)
    ensures r.Some? ==> r.value.source == source && r.value.target == target
    ensures source.None? || source.value.fullName == "" ==> r == Some(Document(source, target, ""))
    ensures source.Some? && source.value.fullName != "" ==>
              (r.None? <==> hasher(source.value.fullName).None?)
              && (r.Some? ==> r.value.hashSource == hasher(source.value.fullName).value)
  {
    if source.Some? && source.value.fullName != "" then
      match hasher(source.value.fullName)
      case None => None
      case Some(h) => Some(Document(source, target, h))
    else Some(Document(source, target, ""))
  }

  /** `SourceName`: the source's full name, or "". */
  function SourceName(d: Document): (r: string)
    ensures d.source.None? ==> r == ""
    ensures d.source.Some? ==> r == d.source.value.fullName
  {
    if d.source.Some? then d.source.value.fullName else ""
  }

  /** `SourceContent`, with `File.ReadAllText` as the parameter `read`. */
  function SourceContent(read: string -> string, d: Document): (r: string)
    ensures d.source.None? ==> r == ""
    ensures d.source.Some? ==> r == read(d.source.value.fullName)
  {
    if d.source.Some? then read(d.source.value.fullName) else ""
  }

  const TwoTo32: int := 0x1_0000_0000
  const TwoTo31: int := 0x8000_0000

  /** The unchecked C# cast `(int)` of a 64-bit value: keeps the low 32 bits, read as
      two's complement. */
  function ToInt32(x: int): (r: int)
    ensures -TwoTo31 <= r < TwoTo31
    ensures (r - x) % TwoTo32 == 0
    ensures -TwoTo31 <= x < TwoTo31 ==> r == x
  {
    var low := x % TwoTo32;
    if low < TwoTo31 then low else low - TwoTo32
  }

  /** `SourceLength`: the source's length cast to `int`, or 0. */
  function SourceLength(d: Document): (r: int)
    ensures d.source.None? ==> r == 0
    ensures d.source.Some? && 0 <= d.source.value.length < TwoTo31 ==> r == d.source.value.length
    ensures -TwoTo31 <= r < TwoTo31
  {
    if d.source.Some? then ToInt32(d.source.value.length) else 0
  }

  /** A source of 2 GiB or more reports a negative `SourceLength`. */
  lemma SourceLengthWraps(d: Document)
    requires d.source.Some? && TwoTo31 <= d.source.value.length < TwoTo32
    ensures SourceLength(d) < 0
  {
  }

  /** `SourceNameLength`: the length of the source's full name, or 0. */
  function SourceNameLength(d: Document): (r: nat)
    ensures r == |SourceName(d)|
  {
    if d.source.Some? then |d.source.value.fullName| else 0
  }

  /** `IsEmpty` as Document.cs defines it: neither a source nor a target. An empty
      document reports no source name, length or name length. */
  predicate IsEmpty(d: Document)
    ensures IsEmpty(d) ==> SourceName(d) == "" && SourceLength(d) == 0 && SourceNameLength(d) == 0
  {
    d.source.None? && d.target.None?
  }

  /** `Document.Empty` has no file, is empty, and reports no source. */
  lemma EmptyDocument()
    ensures IsEmpty(Empty)
    ensures SourceName(Empty) == "" && SourceLength(Empty) == 0 && SourceNameLength(Empty) == 0
  {
  }

  /** A document with a target and no source is not empty under this definition. */
  lemma TargetOnlyNotEmpty(d: Document)
    requires d.source.None? && d.target.Some?
    ensures !IsEmpty(d)
  {
  }

  /** A document built from an existing source never is `Document.Empty`. */
  lemma CreatedNotEmpty(hasher: FileHasher, source: FileRef, target: Option<FileRef>)
    requires Create(hasher, Some(source), target).Some?
    ensures !IsEmpty(Create(hasher, Some(source), target).value)
  {
  }

  /** The multi-source document shape that DocumentExtensions.cs inspects: a nullable
      sequence of source files and a nullable target. */
  datatype SourceSet = SourceSet(sourceFiles: Option<seq<FileRef>>, target: Option<FileRef>)

  /** `IsEmpty` as DocumentExtensions.cs defines it: a source set is usable exactly
      when it has at least one source and a target. */
  predicate SourceSetIsEmpty(d: SourceSet)
    ensures !SourceSetIsEmpty(d) <==> d.sourceFiles.Some? && |d.sourceFiles.value| > 0 && d.target.Some?
  {
    d.sourceFiles.None? || |d.sourceFiles.value| == 0 || d.target.None?
  }

  /** The two `IsEmpty` definitions disagree: a target-only document is empty in the
      multi-source view and not empty in Document.cs. */
  lemma IsEmptyDefinitionsDisagree(t: FileRef)
    ensures SourceSetIsEmpty(SourceSet(None, Some(t)))
    ensures !IsEmpty(Document(None, Some(t), ""))
  {
  }
}

=== FILE: gitconfig.dfy ===
/** `GitConfiguration`: the settings of a remote git repository read from a
    `key=value;` payload, and the status decision for a local clone folder. */
module GitConfig {
  import opened Wrappers
  import opened Text
  import opened Paths
  import opened Connection

  const UrlKey: string := "url"
  const UserKey: string := "user"
  const EmailKey: string := "email"
  const PwdKey: string := "pwd"
  const BranchKey: string := "branch"
  const DefaultBranch: string := "main"

  /** The properties of a configuration; `None` is null. `GitBranch` is declared
      non-nullable, but a payload can still store null in it. */
  datatype GitConfiguration = GitConfiguration(
    remoteUrl: Option<string>,
    userName: Option<string>,
    email: Option<string>,
    password: Option<string>,
    branch: Option<string>)

  /** What the constructors and the conversion throw: an empty payload or a missing
      url (`ArgumentException`), a null value trimmed (`NullReferenceException`), a
      payload the parser refuses, a url `Uri` cannot read, or an invalid
      configuration. */
  datatype GitError =
    | EmptyPayload
    | UrlRequired
    | NullValue(key: string)
    | Parse(error: ConnectionError)
    | UriFormat
    | InvalidConfiguration

  /** `new GitConfiguration()`: nothing set but the default branch. */
  const Blank: GitConfiguration := GitConfiguration(None, None, None, None, Some(DefaultBranch))

  /** `HasPassword`. */
  predicate HasPassword(g: GitConfiguration) {
    !IsNullOrEmpty(g.password)
  }

  /** The payload constructor once the payload was read into `datas`: the url is
      required and trimmed, the user trimmed or "", email and password copied when
      present (and left null otherwise), the branch copied or set to "". */
  function FromTable(cc: CharClasses, datas: map<string, Option<string>>): (r: Result<GitConfiguration, GitError>)
    ensures UrlKey !in datas ==> r == Failure(UrlRequired)
    ensures r.Failure? <==> UrlKey !in datas || datas[UrlKey].None? || (UserKey in datas && datas[UserKey].None?)
    ensures r.Success? ==>
              && r.value.remoteUrl.Some?
              && IsTrimmed(cc.isWhiteSpace, datas[UrlKey].value, r.value.remoteUrl.value)
    ensures r.Success? && UserKey in datas ==>
              r.value.userName.Some? && IsTrimmed(cc.isWhiteSpace, datas[UserKey].value, r.value.userName.value)
    ensures r.Success? && UserKey !in datas ==> r.value.userName == Some("")
    ensures r.Success? ==> r.value.email == (if EmailKey in datas then datas[EmailKey] else None)
    ensures r.Success? ==> r.value.password == (if PwdKey in datas then datas[PwdKey] else None)
    ensures r.Success? ==> r.value.branch == (if BranchKey in datas then datas[BranchKey] else Some(""))
  {
    if UrlKey !in datas then Failure(UrlRequired)
    else if datas[UrlKey].None? then Failure(NullValue(UrlKey))
    else if UserKey in datas && datas[UserKey].None? then Failure(NullValue(UserKey))
    else
      var user := if UserKey in datas then Trim(cc, datas[UserKey].value) else "";
      Success(GitConfiguration(
        Some(Trim(cc, datas[UrlKey].value)),
        Some(user),
        if EmailKey in datas then datas[EmailKey] else None,
        if PwdKey in datas then datas[PwdKey] else None,
        if BranchKey in datas then datas[BranchKey] else Some("")))
  }

  /** `new GitConfiguration(payload)`. */
  function FromPayload(cc: CharClasses, payload: Option<string>): (r: Result<GitConfiguration, GitError>)
    ensures IsNullOrEmpty(payload) ==> r == Failure(EmptyPayload)
    ensures !IsNullOrEmpty(payload) && GetKeyValues(cc, payload).Failure? ==>
              r == Failure(Parse(GetKeyValues(cc, payload).error))
    ensures !IsNullOrEmpty(payload) && GetKeyValues(cc, payload).Success? ==>
              r == FromTable(cc, GetKeyValues(cc, payload).value)
  {
    if IsNullOrEmpty(payload) then Failure(EmptyPayload)
    else
      match GetKeyValues(cc, payload)
      case Failure(e) => Failure(Parse(e))
      case Success(datas) => FromTable(cc, datas)
  }

  /** `new GitConfiguration(remoteUrl, userName, email, password)`: the four values
      stored as given; the branch keeps its "main" default, unlike a payload without
      one. */
  function FromValues(remoteUrl: Option<string>, userName: Option<string>, email: Option<string>,
                      password: Option<string>): (r: GitConfiguration)
    ensures r.remoteUrl == remoteUrl && r.userName == userName && r.email == email && r.password == password
    ensures r.branch == Blank.branch
    ensures HasPassword(r) <==> !IsNullOrEmpty(password)
  {
    Blank.(remoteUrl := remoteUrl, userName := userName, email := email, password := password)
  }

  /** A payload sets a password exactly when it names `pwd` with a non-empty value;
      without one the property stays null. */
  lemma HasPasswordIff(cc: CharClasses, datas: map<string, Option<string>>)
    requires FromTable(cc, datas).Success?
    ensures HasPassword(FromTable(cc, datas).value) <==>
              PwdKey in datas && datas[PwdKey].Some? && datas[PwdKey].value != ""
    ensures PwdKey !in datas ==> FromTable(cc, datas).value.password.None?
  {
  }

  /** A payload without a branch does not keep the "main" default: the branch is "". */
  lemma MissingBranchIsEmpty(cc: CharClasses, datas: map<string, Option<string>>)
    requires FromTable(cc, datas).Success? && BranchKey !in datas
    ensures FromTable(cc, datas).value.branch != Blank.branch
    ensures FromTable(cc, datas).value.branch == Some("")
  {
  }

  /** The five settings of a configuration, in the order a payload lists them. */
  function Settings(url: string, user: string, email: string, pwd: string, branch: string): (r: seq<(string, string)>)
    ensures |r| == 5
  {
    [(UrlKey, url), (UserKey, user), (EmailKey, email), (PwdKey, pwd), (BranchKey, branch)]
  }

  /** The five keys are plain lower-case ASCII, so the parser reads them back as
      written. */
  lemma KeysReadBack(cc: CharClasses, url: string, user: string, email: string, pwd: string, branch: string)
    requires Sane(cc)
    ensures var s := Settings(url, user, email, pwd, branch);
            forall i :: 0 <= i < 5 ==> Lower(cc, s[i].0) == s[i].0 && PlainKey(s[i].0)
  {
    LowerOfLowerAscii(cc, UrlKey);
    LowerOfLowerAscii(cc, UserKey);
    LowerOfLowerAscii(cc, EmailKey);
    LowerOfLowerAscii(cc, PwdKey);
    LowerOfLowerAscii(cc, BranchKey);
  }

  /** The five settings as the parser reads them: keys as written, values present. */
  predicate ReadsAs(chain: seq<NameValuePair>, url: string, user: string, email: string, pwd: string, branch: string) {
    && |chain| == 5
    && chain[0].name == UrlKey && chain[0].value == Some(url)
    && chain[1].name == UserKey && chain[1].value == Some(user)
    && chain[2].name == EmailKey && chain[2].value == Some(email)
    && chain[3].name == PwdKey && chain[3].value == Some(pwd)
    && chain[4].name == BranchKey && chain[4].value == Some(branch)
  }

  lemma DecodedSettings(cc: CharClasses, url: string, user: string, email: string, pwd: string, branch: string)
    requires Sane(cc)
    ensures ReadsAs(Decoded(cc, Settings(url, user, email, pwd, branch)), url, user, email, pwd, branch)
  {
    KeysReadBack(cc, url, user, email, pwd, branch);
  }

  /** The table the five settings load into holds each of them under its key. */
  lemma SettingsTable(chain: seq<NameValuePair>, url: string, user: string, email: string, pwd: string, branch: string)
    requires ReadsAs(chain, url, user, email, pwd, branch)
    ensures var t := Load(false, map[], chain);
            && UrlKey in t && t[UrlKey] == Some(url)
            && UserKey in t && t[UserKey] == Some(user)
            && EmailKey in t && t[EmailKey] == Some(email)
            && PwdKey in t && t[PwdKey] == Some(pwd)
            && BranchKey in t && t[BranchKey] == Some(branch)
  {
    LastWins(map[], chain, 0);
    LastWins(map[], chain, 1);
    LastWins(map[], chain, 2);
    LastWins(map[], chain, 3);
    LastWins(map[], chain, 4);
  }

  /** Writing the five settings as a quoted payload and constructing from it gives
      them back, url and user trimmed. */
  lemma PayloadRoundTrip(cc: CharClasses, url: string, user: string, email: string, pwd: string, branch: string)
    requires Sane(cc)
    requires '\0' !in url && '\0' !in user && '\0' !in email && '\0' !in pwd && '\0' !in branch
    ensures FromPayload(cc, Some(Encode(Settings(url, user, email, pwd, branch))))
            == Success(GitConfiguration(Some(Trim(cc, url)), Some(Trim(cc, user)), Some(email), Some(pwd), Some(branch)))
  {
    var t := Load(false, map[], Decoded(cc, Settings(url, user, email, pwd, branch)));
    SettingsParse(cc, url, user, email, pwd, branch, t);
    SettingsConfiguration(cc, url, user, email, pwd, branch, t);
    FromParsed(cc, Some(Encode(Settings(url, user, email, pwd, branch))), t);
  }

  /** The written payload reads back as the table of its settings. */
  lemma SettingsParse(cc: CharClasses, url: string, user: string, email: string, pwd: string, branch: string,
                      t: map<string, Option<string>>)
    requires Sane(cc)
    requires '\0' !in url && '\0' !in user && '\0' !in email && '\0' !in pwd && '\0' !in branch
    requires t == Load(false, map[], Decoded(cc, Settings(url, user, email, pwd, branch)))
    ensures GetKeyValues(cc, Some(Encode(Settings(url, user, email, pwd, branch)))) == Success(t)
  {
    SettingsQuotable(cc, url, user, email, pwd, branch);
    EncodedParses(cc, Settings(url, user, email, pwd, branch));
  }

  /** The five settings can be written and read back. */
  lemma SettingsQuotable(cc: CharClasses, url: string, user: string, email: string, pwd: string, branch: string)
    requires Sane(cc)
    requires '\0' !in url && '\0' !in user && '\0' !in email && '\0' !in pwd && '\0' !in branch
    ensures var s := Settings(url, user, email, pwd, branch);
            forall i :: 0 <= i < |s| ==> Quotable(s[i])
  {
    var s := Settings(url, user, email, pwd, branch);
    KeysReadBack(cc, url, user, email, pwd, branch);
    forall i | 0 <= i < |s| ensures Quotable(s[i]) {
      assert PlainKey(s[i].0);
    }
  }

  /** The table of the five settings constructs the configuration holding them. */
  lemma SettingsConfiguration(cc: CharClasses, url: string, user: string, email: string, pwd: string, branch: string,
                              t: map<string, Option<string>>)
    requires Sane(cc)
    requires t == Load(false, map[], Decoded(cc, Settings(url, user, email, pwd, branch)))
    ensures FromTable(cc, t) == Success(GitConfiguration(Some(Trim(cc, url)), Some(Trim(cc, user)), Some(email), Some(pwd), Some(branch)))
  {
    var chain := Decoded(cc, Settings(url, user, email, pwd, branch));
    DecodedSettings(cc, url, user, email, pwd, branch);
    SettingsTable(chain, url, user, email, pwd, branch);
  }

  /** A payload read into `t` constructs what `t` does. */
  lemma FromParsed(cc: CharClasses, payload: Option<string>, t: map<string, Option<string>>)
    requires !IsNullOrEmpty(payload) && GetKeyValues(cc, payload) == Success(t)
    ensures FromPayload(cc, payload) == FromTable(cc, t)
  {
  }

  /** A payload that never names `url` is refused, whatever else it sets. */
  lemma PayloadWithoutUrl(cc: CharClasses, settings: seq<(string, string)>)
    requires Sane(cc) && |settings| > 0 && forall i :: 0 <= i < |settings| ==> Quotable(settings[i])
    requires forall i :: 0 <= i < |settings| ==> Lower(cc, settings[i].0) != UrlKey
    ensures FromPayload(cc, Some(Encode(settings))) == Failure(UrlRequired)
  {
    GetKeyValuesKeys(cc, settings);
  }

  /** `IsValid()`: false without a url; otherwise what `Uri` says of its original
      string, `uri` returning `None` where the `Uri` constructor throws. */
  function IsValid(uri: string -> Option<bool>, g: GitConfiguration): (r: Result<bool, GitError>)
    ensures IsNullOrEmpty(g.remoteUrl) ==> r == Success(false)
    ensures r == Success(true) ==> g.remoteUrl.Some? && uri(g.remoteUrl.value) == Some(true)
    ensures r.Failure? ==> r.error == UriFormat
  {
    if IsNullOrEmpty(g.remoteUrl) then Success(false)
    else
      match uri(g.remoteUrl.value)
      case None => Failure(UriFormat)
      case Some(wellFormed) => Success(wellFormed)
  }

  /** The implicit conversion from a string: null or "" gives a blank configuration;
      any other payload must construct and be valid. */
  function Convert(cc: CharClasses, uri: string -> Option<bool>, payload: Option<string>): (r: Result<GitConfiguration, GitError>)
    ensures IsNullOrEmpty(payload) ==> r == Success(Blank)
    ensures !IsNullOrEmpty(payload) && FromPayload(cc, payload).Failure? ==> r == FromPayload(cc, payload)
    ensures !IsNullOrEmpty(payload) && r.Success? ==>
              r == FromPayload(cc, payload) && IsValid(uri, r.value) == Success(true)
    ensures var git := FromPayload(cc, payload);
            !IsNullOrEmpty(payload) && git.Success? && IsValid(uri, git.value) == Success(false) ==>
              r == Failure(InvalidConfiguration)
  {
    if IsNullOrEmpty(payload) then Success(Blank)
    else
      var git :- FromPayload(cc, payload);
      var valid :- IsValid(uri, git);
      if !valid then Failure(InvalidConfiguration) else Success(git)
  }

  /** The configuration an empty string converts to has no url and no password, and
      would itself be judged invalid. */
  lemma BlankIsInvalid(cc: CharClasses, uri: string -> Option<bool>, payload: Option<string>)
    requires IsNullOrEmpty(payload)
    ensures Convert(cc, uri, payload).Success?
    ensures var g := Convert(cc, uri, payload).value;
            && g.branch == Some(DefaultBranch) && !HasPassword(g)
            && IsValid(uri, g) == Success(false)
  {
  }

  /** The status `Initialized` reports for a local folder. */
  datatype GitStatus = FolderNotCreated | FolderNotEmpty | Initialized | NotInitialized

  /** What `Initialized` asks of the file system: whether a directory exists, and how
      many files and subdirectories it holds. */
  datatype Folders = Folders(dirExists: string -> bool, fileCount: string -> nat, dirCount: string -> nat)

  const GitFolder: string := ".git"

  /** `GitConfiguration.Initialized(localRoot)`. */
  function Status(fs: Folders, localRoot: string): (r: GitStatus)
    ensures r == FolderNotCreated <==> !fs.dirExists(localRoot)
    ensures r == Initialized <==> fs.dirExists(localRoot) && fs.dirExists(Combine(localRoot, GitFolder))
    ensures r == FolderNotEmpty <==>
              && fs.dirExists(localRoot) && !fs.dirExists(Combine(localRoot, GitFolder))
              && (fs.fileCount(localRoot) > 0 || fs.dirCount(localRoot) > 1)
  {
    if !fs.dirExists(localRoot) then FolderNotCreated
    else
      var notEmpty := fs.fileCount(localRoot) > 0 || fs.dirCount(localRoot) > 1;
      var e := fs.dirExists(Combine(localRoot, GitFolder));
      if !e && notEmpty then FolderNotEmpty
      else if e then Initialized
      else NotInitialized
  }

  /** `NotInitialized` is left for an existing folder without `.git` that holds no file
      and at most one subdirectory. */
  lemma NotInitializedIff(fs: Folders, localRoot: string)
    ensures Status(fs, localRoot) == NotInitialized <==>
              && fs.dirExists(localRoot) && !fs.dirExists(Combine(localRoot, GitFolder))
              && fs.fileCount(localRoot) == 0 && fs.dirCount(localRoot) <= 1
  {
  }
}

=== FILE: hashing.dfy ===
/** Payload fingerprints: a part hashes to the CRC-32 of its text, else of its image
    bytes, else 0; content and message lists hash to the XOR of their members' hashes
    (`ChatMessageContentPartExtension.GetHash`, `ChatMessages.GetHash`). The CRC-32
    routine itself is not modelled: it is the `Crc` parameter. */
module Checksum {
  import opened Wrappers
  import opened Chat

  /** `CalculateCrc32` on a string and on a byte array. */
  datatype Crc = Crc(ofText: string -> bv32, ofBytes: Bytes -> bv32)

  /** The value of `hash` after the first `n` rounds of a `foreach` over `s` with
      `hash ^= f(item)`, starting from 0. */
  function XorFoldTo<T>(f: T -> bv32, s: seq<T>, n: nat): bv32
    requires n <= |s|
  {
    if n == 0 then 0 else XorFoldTo(f, s, n - 1) ^ f(s[n - 1])
  }

  /** The left XOR fold of the whole sequence. */
  function XorFold<T>(f: T -> bv32, s: seq<T>): (r: bv32)
    ensures |s| == 0 ==> r == 0
    ensures |s| == 1 ==> r == f(s[0])
  {
    XorFoldOne(f, s);
    XorFoldTo(f, s, |s|)
  }

  lemma XorFoldOne<T>(f: T -> bv32, s: seq<T>)
    ensures |s| == 1 ==> XorFoldTo(f, s, |s|) == f(s[0])
  {
    if |s| == 1 {
      XorZero(f(s[0]));
    }
  }

  lemma XorZero(a: bv32)
    ensures 0 ^ a == a && a ^ 0 == a
  {
  }

  lemma XorAssoc(a: bv32, b: bv32, c: bv32)
    ensures (a ^ b) ^ c == a ^ (b ^ c)
  {
  }

  lemma XorSwap(a: bv32, b: bv32, c: bv32)
    ensures (a ^ b) ^ c == (a ^ c) ^ b
  {
  }

  lemma XorReplace(p: bv32, q: bv32, old_: bv32, new_: bv32)
    ensures (p ^ new_) ^ q == ((p ^ old_) ^ q) ^ old_ ^ new_
  {
  }

  /** The first `n` rounds only see the hashes of the first `n` items. */
  lemma {:induction false} XorFoldToAgree<T>(f: T -> bv32, s: seq<T>, t: seq<T>, n: nat)
    requires n <= |s| && n <= |t|
    requires forall i :: 0 <= i < n ==> f(s[i]) == f(t[i])
    ensures XorFoldTo(f, s, n) == XorFoldTo(f, t, n)
  {
    if n > 0 {
      XorFoldToAgree(f, s, t, n - 1);
    }
  }

  /** Running on into `b` after all of `a` XORs the rounds over `b` onto the fold of `a`. */
  lemma {:induction false} XorFoldToAppend<T>(f: T -> bv32, a: seq<T>, b: seq<T>, k: nat)
    requires k <= |b|
    ensures XorFoldTo(f, a + b, |a| + k) == XorFold(f, a) ^ XorFoldTo(f, b, k)
  {
    if k == 0 {
      assert forall i :: 0 <= i < |a| ==> (a + b)[i] == a[i];
      XorFoldToAgree(f, a + b, a, |a|);
      XorZero(XorFold(f, a));
    } else {
      XorFoldToAppend(f, a, b, k - 1);
      assert (a + b)[|a| + k - 1] == b[k - 1];
      XorAssoc(XorFold(f, a), XorFoldTo(f, b, k - 1), f(b[k - 1]));
    }
  }

  /** The fold of a concatenation is the XOR of the folds. */
  lemma XorFoldAppend<T>(f: T -> bv32, a: seq<T>, b: seq<T>)
    ensures XorFold(f, a + b) == XorFold(f, a) ^ XorFold(f, b)
  {
    XorFoldToAppend(f, a, b, |b|);
  }

  /** The fold does not depend on the order of the items. */
  lemma {:induction false} XorFoldPermutation<T>(f: T -> bv32, a: seq<T>, b: seq<T>)
    requires multiset(a) == multiset(b)
    ensures XorFold(f, a) == XorFold(f, b)
    decreases |a|
  {
    if |a| > 0 {
      var a' := a[..|a| - 1];
      var x := a[|a| - 1];
      assert x in multiset(b) by {
        assert x in multiset(a);
      }
      var k :| 0 <= k < |b| && b[k] == x;
      var b1, b2 := b[..k], b[k + 1..];
      RemoveLast(a, b, k);
      XorFoldPermutation(f, a', b1 + b2);
      assert XorFold(f, a) == XorFold(f, a') ^ f(x) by {
        assert forall i :: 0 <= i < |a| - 1 ==> a[i] == a'[i];
        XorFoldToAgree(f, a, a', |a| - 1);
      }
      assert XorFold(f, b) == (XorFold(f, b1) ^ f(x)) ^ XorFold(f, b2) by {
        assert b == b1 + [x] + b2;
        FoldAround(f, b1, x, b2);
      }
      XorFoldAppend(f, b1, b2);
      XorSwap(XorFold(f, b1), f(x), XorFold(f, b2));
    } else {
      assert |multiset(b)| == 0;
    }
  }

  /** Taking the last item of `a` out of `a`, and the same item at `k` out of `b`,
      keeps two permutations permutations. */
  lemma RemoveLast<T>(a: seq<T>, b: seq<T>, k: nat)
    requires multiset(a) == multiset(b) && |a| > 0
    requires k < |b| && b[k] == a[|a| - 1]
    ensures multiset(a[..|a| - 1]) == multiset(b[..k] + b[k + 1..])
  {
    var a', x := a[..|a| - 1], a[|a| - 1];
    var b1, b2 := b[..k], b[k + 1..];
    assert a == a' + [x];
    assert b == b1 + [x] + b2;
    assert multiset(b) == multiset(b1) + multiset{x} + multiset(b2);
    assert multiset(b1 + b2) == multiset(b1) + multiset(b2);
    assert multiset(a) == multiset(a') + multiset{x};
    assert multiset(a') == multiset(a) - multiset{x};
  }

  /** The fold of a sequence around one item. */
  lemma FoldAround<T>(f: T -> bv32, pre: seq<T>, y: T, post: seq<T>)
    ensures XorFold(f, pre + [y] + post) == (XorFold(f, pre) ^ f(y)) ^ XorFold(f, post)
  {
    XorFoldAppend(f, pre + [y], post);
    XorFoldAppend(f, pre, [y]);
  }

  /** Replacing one item changes the fold by exactly the XOR of the old and the new
      item's hashes: nothing else contributes. */
  lemma XorFoldUpdate<T>(f: T -> bv32, s: seq<T>, i: nat, x: T)
    requires i < |s|
    ensures XorFold(f, s[i := x]) == XorFold(f, s) ^ f(s[i]) ^ f(x)
  {
    var pre, post := s[..i], s[i + 1..];
    assert s == pre + [s[i]] + post;
    assert s[i := x] == pre + [x] + post;
    FoldAround(f, pre, s[i], post);
    FoldAround(f, pre, x, post);
    XorReplace(XorFold(f, pre), XorFold(f, post), f(s[i]), f(x));
  }

  /** Hash of one content part: text first, image bytes second, 0 when it has neither. */
  function PartHash(crc: Crc, p: ContentPart): (r: bv32)
    ensures p.text.Some? && p.text.value != "" ==> r == crc.ofText(p.text.value)
    ensures (p.text.None? || p.text.value == "") && p.imageBytes.Some? ==> r == crc.ofBytes(p.imageBytes.value)
  {
    if p.text.Some? && p.text.value != "" then crc.ofText(p.text.value)
    else if p.imageBytes.Some? then crc.ofBytes(p.imageBytes.value)
    else 0
  }

  /** A part with non-empty text hashes by its text alone: its image fields do not matter. */
  lemma PartHashTextOnly(crc: Crc, p: ContentPart, q: ContentPart)
    requires p.text == q.text && p.text.Some? && p.text.value != ""
    ensures PartHash(crc, p) == PartHash(crc, q)
  {
  }

  /** A part with neither text nor image bytes hashes to 0, whatever the CRC is. */
  lemma PartHashBlank(crc: Crc, p: ContentPart)
    requires p.text.None? || p.text.value == ""
    requires p.imageBytes.None?
    ensures PartHash(crc, p) == 0
  {
  }

  function PartHashes(crc: Crc): ContentPart -> bv32 {
    p => PartHash(crc, p)
  }

  function ContentHash(crc: Crc, content: seq<ContentPart>): (r: bv32)
    ensures |content| == 0 ==> r == 0
    ensures |content| == 1 ==> r == PartHash(crc, content[0])
  {
    XorFold(PartHashes(crc), content)
  }

  function MessageHashes(crc: Crc): ChatMessage -> bv32 {
    (m: ChatMessage) => ContentHash(crc, m.content)
  }

  function MessagesHash(crc: Crc, messages: seq<ChatMessage>): (r: bv32)
    ensures |messages| == 0 ==> r == 0
    ensures |messages| == 1 ==> r == ContentHash(crc, messages[0].content)
  {
    XorFold(MessageHashes(crc), messages)
  }

  /** `ChatMessageContentPartExtension.GetHash(ChatMessageContent)`, loop as written. */
  method GetContentHash(crc: Crc, content: seq<ContentPart>) returns (hash: bv32)
    ensures hash == ContentHash(crc, content)
  {
    hash := 0;
    var i := 0;
    while i < |content|
      invariant 0 <= i <= |content|
      invariant hash == XorFoldTo(PartHashes(crc), content, i)
    {
      hash := hash ^ PartHash(crc, content[i]);
      i := i + 1;
    }
  }

  /** `ChatMessages.GetHash`, loop as written. */
  method GetMessagesHash(crc: Crc, messages: seq<ChatMessage>) returns (hash: bv32)
    ensures hash == MessagesHash(crc, messages)
  {
    hash := 0;
    var i := 0;
    while i < |messages|
      invariant 0 <= i <= |messages|
      invariant hash == XorFoldTo(MessageHashes(crc), messages, i)
    {
      var h := GetContentHash(crc, messages[i].content);
      MessagesStep(crc, messages, i, hash, h);
      hash := hash ^ h;
      i := i + 1;
    }
  }

  /** One round of `ChatMessages.GetHash`. */
  lemma MessagesStep(crc: Crc, messages: seq<ChatMessage>, i: nat, hash: bv32, h: bv32)
    requires i < |messages|
    requires hash == XorFoldTo(MessageHashes(crc), messages, i)
    requires h == ContentHash(crc, messages[i].content)
    ensures hash ^ h == XorFoldTo(MessageHashes(crc), messages, i + 1)
  {
  }

  /** Reordering the messages leaves the payload hash unchanged. */
  lemma MessagesHashReorder(crc: Crc, a: seq<ChatMessage>, b: seq<ChatMessage>)
    requires multiset(a) == multiset(b)
    ensures MessagesHash(crc, a) == MessagesHash(crc, b)
  {
    XorFoldPermutation(MessageHashes(crc), a, b);
  }

  /** The hash of two message lists put together is the XOR of their hashes. */
  lemma MessagesHashConcat(crc: Crc, a: seq<ChatMessage>, b: seq<ChatMessage>)
    ensures MessagesHash(crc, a + b) == MessagesHash(crc, a) ^ MessagesHash(crc, b)
  {
    XorFoldAppend(MessageHashes(crc), a, b);
  }

  /** Reordering the parts of one content leaves its hash unchanged. */
  lemma ContentHashReorder(crc: Crc, a: seq<ContentPart>, b: seq<ContentPart>)
    requires multiset(a) == multiset(b)
    ensures ContentHash(crc, a) == ContentHash(crc, b)
  {
    XorFoldPermutation(PartHashes(crc), a, b);
  }

  /** The hash of two contents put together is the XOR of their hashes. */
  lemma ContentHashConcat(crc: Crc, a: seq<ContentPart>, b: seq<ContentPart>)
    ensures ContentHash(crc, a + b) == ContentHash(crc, a) ^ ContentHash(crc, b)
  {
    XorFoldAppend(PartHashes(crc), a, b);
  }

  /** The role of a message plays no part: lists with the same contents in the same
      order hash alike. */
  lemma MessagesHashIgnoresRoles(crc: Crc, a: seq<ChatMessage>, b: seq<ChatMessage>)
    requires |a| == |b|
    requires forall i :: 0 <= i < |a| ==> a[i].content == b[i].content
    ensures MessagesHash(crc, a) == MessagesHash(crc, b)
  {
    XorFoldToAgree(MessageHashes(crc), a, b, |a|);
  }

  /** A message that occurs twice cancels out: the fingerprint cannot tell a payload
      from the same payload with a repeated message added. */
  lemma MessagesHashDuplicateCancels(crc: Crc, s: seq<ChatMessage>, m: ChatMessage)
    ensures MessagesHash(crc, s + [m, m]) == MessagesHash(crc, s)
  {
    MessagesHashConcat(crc, s, [m, m]);
    MessagesHashConcat(crc, [m], [m]);
    assert [m] + [m] == [m, m];
  }

  /** Changing one message changes the payload hash by the XOR of the old and the new
      content hashes, and nothing else. */
  lemma MessagesHashUpdate(crc: Crc, s: seq<ChatMessage>, i: nat, m: ChatMessage)
    requires i < |s|
    ensures MessagesHash(crc, s[i := m])
         == MessagesHash(crc, s) ^ ContentHash(crc, s[i].content) ^ ContentHash(crc, m.content)
  {
    XorFoldUpdate(MessageHashes(crc), s, i, m);
  }
}

=== FILE: images.dfy ===
/** `ImageExtensions`: the five supported image formats, mapped between file
    extensions and media types case-insensitively, and the image loader. */
module Images {
  import opened Wrappers
  import opened Text
  import opened Paths

  datatype ImageError = NotSupported | FileNotFound

  const SupportedMediaTypes: seq<string> := ["image/jpeg", "image/png", "image/gif", "image/bmp", "image/webp"]
  const SupportedExtensions: seq<string> := [".jpg", ".jpeg", ".png", ".gif", ".bmp", ".webp"]

  /** `ResolveMediaTypeFromExtension`: the media type of a lower-cased extension. */
  function MediaTypeOfExtension(cc: CharClasses, ext: string): (r: Result<string, ImageError>)
    ensures r.Success? <==> Lower(cc, ext) in SupportedExtensions
    ensures r.Success? ==> r.value in SupportedMediaTypes
    ensures r.Failure? ==> r.error == NotSupported
  {
    var e := Lower(cc, ext);
    if e == ".jpg" || e == ".jpeg" then Success("image/jpeg")
    else if e == ".png" then Success("image/png")
    else if e == ".gif" then Success("image/gif")
    else if e == ".bmp" then Success("image/bmp")
    else if e == ".webp" then Success("image/webp")
    else Failure(NotSupported)
  }

  /** `ResolveExtensionFromMediaType`: the extension of a lower-cased media type. */
  function ExtensionOfMediaType(cc: CharClasses, mediaType: string): (r: Result<string, ImageError>)
    ensures r.Success? <==> Lower(cc, mediaType) in SupportedMediaTypes
    ensures r.Success? ==> r.value in SupportedExtensions && r.value != ".jpeg"
    ensures r.Failure? ==> r.error == NotSupported
  {
    var m := Lower(cc, mediaType);
    if m == "image/jpeg" then Success(".jpg")
    else if m == "image/png" then Success(".png")
    else if m == "image/gif" then Success(".gif")
    else if m == "image/bmp" then Success(".bmp")
    else if m == "image/webp" then Success(".webp")
    else Failure(NotSupported)
  }

  /** The supported names are lower-case ASCII, so lower-casing keeps them. */
  lemma SupportedAreLower(cc: CharClasses, s: string)
    requires Sane(cc)
    requires s in SupportedMediaTypes || s in SupportedExtensions
    ensures Lower(cc, s) == s
  {
    LowerOfLowerAscii(cc, s);
  }

  /** media type -> extension -> media type is the identity on the supported types. */
  lemma MediaTypeRoundTrip(cc: CharClasses, m: string)
    requires Sane(cc)
    requires m in SupportedMediaTypes
    ensures ExtensionOfMediaType(cc, m).Success?
    ensures MediaTypeOfExtension(cc, ExtensionOfMediaType(cc, m).value) == Success(m)
  {
    SupportedAreLower(cc, m);
    SupportedAreLower(cc, ExtensionOfMediaType(cc, m).value);
  }

  /** extension -> media type -> extension is the identity on the lower-case supported
      extensions, except that ".jpeg" comes back as ".jpg". */
  lemma ExtensionRoundTrip(cc: CharClasses, e: string)
    requires Sane(cc)
    requires e in SupportedExtensions
    ensures MediaTypeOfExtension(cc, e).Success?
    ensures ExtensionOfMediaType(cc, MediaTypeOfExtension(cc, e).value)
            == Success(if e == ".jpeg" then ".jpg" else e)
  {
    SupportedAreLower(cc, e);
    SupportedAreLower(cc, MediaTypeOfExtension(cc, e).value);
  }

  /** Both lookups ignore case: inputs with the same lower-casing resolve alike. */
  lemma LookupsIgnoreCase(cc: CharClasses, a: string, b: string)
    requires Lower(cc, a) == Lower(cc, b)
    ensures MediaTypeOfExtension(cc, a) == MediaTypeOfExtension(cc, b)
    ensures ExtensionOfMediaType(cc, a) == ExtensionOfMediaType(cc, b)
  {
  }

  /** `LoadImageAndDetectMediaType`: the bytes of an existing file and the media type
      of its extension. `fileExists` and `readBytes` stand for the filesystem. */
  function LoadImage(cc: CharClasses, fileExists: string -> bool, readBytes: string -> seq<bv8>, path: string)
    : (r: Result<(seq<bv8>, string), ImageError>)
    ensures !fileExists(path) ==> r == Failure(FileNotFound)
    ensures fileExists(path) ==> (r.Success? <==> MediaTypeOfExtension(cc, Extension(path)).Success?)
    ensures r.Success? ==> r.value.0 == readBytes(path) && r.value.1 in SupportedMediaTypes
  {
    if !fileExists(path) then Failure(FileNotFound)
    else
      var media :- MediaTypeOfExtension(cc, Extension(path));
      Success((readBytes(path), media))
  }
}

=== FILE: ioextension.dfy ===
/** `IOExtension.EvaluateDocument`: classifies a command-line path as a file, a folder
    or nothing, from what the filesystem says about it and from its shape. */
module IoClassification {
  import opened Wrappers
  import opened Text
  import opened Paths

  datatype IOType = NoKind | FileKind | FolderKind

  /** `File.Exists` and `Directory.Exists`; `None` stands for a call that threw. */
  datatype Probe = Probe(fileExists: string -> Option<bool>, dirExists: string -> Option<bool>)

  /** Whether a path ends with the directory or the alternative directory separator. */
  predicate EndsWithSeparator(path: string) {
    |path| > 0 && IsSeparator(path[|path| - 1])
  }

  function EvaluateDocument(probe: Probe, path: Option<string>): (r: IOType)
    ensures IsNullOrEmpty(path) ==> r == NoKind
    ensures !IsNullOrEmpty(path) && probe.fileExists(path.value) == Some(true) ==> r == FileKind
    ensures r == FileKind <==>
              && !IsNullOrEmpty(path)
              && (|| probe.fileExists(path.value) == Some(true)
                  || (&& probe.fileExists(path.value) == Some(false) && probe.dirExists(path.value) == Some(false)
                      && !EndsWithSeparator(path.value) && Extension(path.value) != ""))
    ensures r == FolderKind <==>
              && !IsNullOrEmpty(path)
              && probe.fileExists(path.value) == Some(false)
              && (|| probe.dirExists(path.value) == Some(true)
                  || (probe.dirExists(path.value) == Some(false) && EndsWithSeparator(path.value)))
    ensures !IsNullOrEmpty(path) && probe.fileExists(path.value).None? ==> r == NoKind
    ensures !IsNullOrEmpty(path) && probe.fileExists(path.value) == Some(false) ==>
              (probe.dirExists(path.value).None? ==> r == NoKind)
  {
    if IsNullOrEmpty(path) then NoKind
    else
      var p := path.value;
      match probe.fileExists(p)
      case None => NoKind
      case Some(true) => FileKind
      case Some(false) =>
        match probe.dirExists(p)
        case None => NoKind
        case Some(true) => FolderKind
        case Some(false) =>
          if EndsWithSeparator(p) then FolderKind
          else if Extension(p) != "" then FileKind
          else NoKind
  }

  /** A path that is neither an existing file nor an existing folder is classified by
      its shape alone: trailing separator, then extension. */
  lemma ClassifyByShape(probe: Probe, p: string)
    requires p != ""
    requires probe.fileExists(p) == Some(false) && probe.dirExists(p) == Some(false)
    ensures EvaluateDocument(probe, Some(p)) ==
              if EndsWithSeparator(p) then FolderKind
              else if Extension(p) != "" then FileKind
              else NoKind
  {
  }

  /** Only the path itself is probed: two filesystems that answer alike for it give
      the same classification. */
  lemma SameAnswersSameKind(probe1: Probe, probe2: Probe, path: Option<string>)
    requires !IsNullOrEmpty(path) ==>
               && probe1.fileExists(path.value) == probe2.fileExists(path.value)
               && probe1.dirExists(path.value) == probe2.dirExists(path.value)
    ensures EvaluateDocument(probe1, path) == EvaluateDocument(probe2, path)
  {
  }

  /** A path ending in a separator has no extension, so the two shape rules never
      compete. */
  lemma SeparatorMeansNoExtension(p: string)
    requires EndsWithSeparator(p)
    ensures Extension(p) == ""
  {
    assert NameStart(p) == |p|;
  }
}

=== FILE: ledger.dfy ===
/** The per-folder ledger: `FolderIndexDocument` entries (what was processed and the
    payload hash it was processed with) in a `FolderIndex` list with a dirty flag and
    the sidecar file it is saved to. Entries are addressed by position: `Get` returns
    the position of the entry the C# code hands out by reference. */
module Ledger {
  import opened Wrappers
  import opened Paths
  import opened Documents

  /** One ledger entry; `length` is the nullable 64-bit `Length`. */
  datatype Entry = Entry(name: Option<string>, hash: bv32, length: Option<int>)

  /** A new `FolderIndexDocument`. */
  const Fresh: Entry := Entry(None, 0, None)

  /** `Document.GetName()` and `Document.GetLength()`, whose bodies are not part of
      this model. */
  datatype Identity = Identity(getName: Document -> Option<string>, getLength: Document -> Option<int>)

  /** `FolderIndexDocument.Map`: records the document's identity and keeps the hash. */
  function Map(id: Identity, e: Entry, d: Document): (r: Entry)
    ensures r.name == id.getName(d) && r.length == id.getLength(d)
    ensures r.hash == e.hash
  {
    e.(name := id.getName(d), length := id.getLength(d))
  }

  /** Mapping twice from the same document is mapping once. */
  lemma MapIdempotent(id: Identity, e: Entry, d: Document)
    ensures Map(id, Map(id, e, d), d) == Map(id, e, d)
  {
  }

  /** The result of `Map` depends on the entry only through its hash. */
  lemma MapForgetsIdentity(id: Identity, e1: Entry, e2: Entry, d: Document)
    requires e1.hash == e2.hash
    ensures Map(id, e1, d) == Map(id, e2, d)
  {
  }

  /** Assigning `Hash`: the identity fields are kept. */
  function SetHash(e: Entry, h: bv32): (r: Entry)
    ensures r.hash == h
    ensures r.name == e.name && r.length == e.length
  {
    e.(hash := h)
  }

  /** `Map` and assigning `Hash` touch disjoint fields, so their order does not matter. */
  lemma MapSetHashCommute(id: Identity, e: Entry, d: Document, h: bv32)
    ensures Map(id, SetHash(e, h), d) == SetHash(Map(id, e, d), h)
  {
  }

  /** A fresh entry has no name, no length and hash 0, and mapping it keeps hash 0. */
  lemma FreshIsBlank(id: Identity, d: Document)
    ensures Fresh.name.None? && Fresh.hash == 0 && Fresh.length.None?
    ensures Map(id, Fresh, d).hash == 0
  {
  }

  datatype Index = Index(entries: seq<Entry>, changed: bool, file: Option<string>)

  /** `FolderIndex.Empty`. */
  const EmptyIndex: Index := Index([], false, None)

  datatype LedgerError =
    | InvalidSourceName  // ArgumentException from Get
    | UnboundFile        // NullReferenceException from Save: File is null

  /** The key `Get` looks entries up by: the source file's short name, or null. */
  function SourceKey(d: Document): Option<string> {
    if d.source.Some? then Some(Name(d.source.value)) else None
  }

  /** Position of the first entry from `i` on named `name`, or `|entries|` when there
      is none. */
  function FirstNamed(entries: seq<Entry>, name: string, i: nat): (k: nat)
    requires i <= |entries|
    ensures i <= k <= |entries|
    ensures k < |entries| ==> entries[k].name == Some(name)
    ensures forall j :: i <= j < k ==> entries[j].name != Some(name)
    decreases |entries| - i
  {
    if i == |entries| then i
    else if entries[i].name == Some(name) then i
    else FirstNamed(entries, name, i + 1)
  }

  /** `FolderIndex.Get`: the first entry named after the document's source file, or a
      new entry appended at the end. Fails when the source name is null or empty. */
  function Get(ix: Index, d: Document): (r: Result<(Index, nat), LedgerError>)
    ensures r.Failure? <==> SourceKey(d).None? || SourceKey(d).value == ""
    ensures r.Success? ==>
              var (ix', k) := r.value;
              var name := SourceKey(d).value;
              && ix'.changed == ix.changed && ix'.file == ix.file
              && k <= |ix.entries| && k < |ix'.entries|
              && (forall j :: 0 <= j < k ==> ix.entries[j].name != Some(name))
              && (k < |ix.entries| ==> ix' == ix && ix.entries[k].name == Some(name))
              && (k == |ix.entries| ==> ix'.entries == ix.entries + [Fresh])
  {
    var key := SourceKey(d);
    if key.None? || key.value == "" then Failure(InvalidSourceName)
    else
      var k := FirstNamed(ix.entries, key.value, 0);
      if k < |ix.entries| then Success((ix, k))
      else Success((ix.(entries := ix.entries + [Fresh]), |ix.entries|))
  }

  /** No entry carries the name `key`. */
  predicate Unnamed(entries: seq<Entry>, key: Option<string>) {
    forall j :: 0 <= j < |entries| ==> entries[j].name != key
  }

  /** A fresh entry carries no name. */
  lemma UnnamedFresh(entries: seq<Entry>, key: Option<string>)
    requires Unnamed(entries, key) && key.Some?
    ensures Unnamed(entries + [Fresh], key)
  {
    assert forall j :: 0 <= j < |entries| ==> (entries + [Fresh])[j] == entries[j];
  }

  /** A new entry keeps a null name, so asking twice for an unknown document before
      any `Map` appends two distinct entries. */
  lemma GetTwiceAppendsTwice(ix: Index, d: Document)
    requires Get(ix, d).Success? && Unnamed(ix.entries, SourceKey(d))
    ensures var ix1 := Get(ix, d).value.0;
            && Get(ix1, d).Success?
            && Get(ix1, d).value.0.entries == ix.entries + [Fresh, Fresh]
            && Get(ix1, d).value.1 == |ix.entries| + 1
  {
    var ix1 := ix.(entries := ix.entries + [Fresh]);
    var ix2 := ix1.(entries := ix1.entries + [Fresh]);
    GetAbsent(ix, d, ix1);
    UnnamedFresh(ix.entries, SourceKey(d));
    GetAbsent(ix1, d, ix2);
    assert ix2.entries == ix.entries + [Fresh, Fresh];
  }

  /** For a document no entry is named after, `Get` appends a fresh entry. */
  lemma GetAbsent(ix: Index, d: Document, ix': Index)
    requires SourceKey(d).Some? && SourceKey(d).value != ""
    requires Unnamed(ix.entries, SourceKey(d))
    requires ix' == ix.(entries := ix.entries + [Fresh])
    ensures Get(ix, d) == Success((ix', |ix.entries|))
  {
    assert FirstNamed(ix.entries, SourceKey(d).value, 0) == |ix.entries|;
  }

  /** Once the entry handed out is mapped to a name equal to the source key, and no
      earlier entry has that name, `Get` finds the same position again and changes
      nothing. */
  lemma GetFindsMapped(ix: Index, d: Document, k: nat, e: Entry)
    requires SourceKey(d).Some? && SourceKey(d).value != ""
    requires k < |ix.entries|
    requires e.name == SourceKey(d)
    requires forall j :: 0 <= j < k ==> ix.entries[j].name != SourceKey(d)
    ensures Get(ix.(entries := ix.entries[k := e]), d) == Success((ix.(entries := ix.entries[k := e]), k))
  {
    var ix' := ix.(entries := ix.entries[k := e]);
    assert ix'.entries[k].name == SourceKey(d);
  }

  /** `FolderIndex.SetChanged`: raises the flag on `true`, never lowers it. */
  function SetChanged(ix: Index, c: bool): (r: Index)
    ensures r.changed <==> ix.changed || c
    ensures r.entries == ix.entries && r.file == ix.file
  {
    if c then ix.(changed := true) else ix
  }

  /** The dirty flag only moves one way under any sequence of `SetChanged` calls. */
  lemma {:induction false} SetChangedMonotone(ix: Index, cs: seq<bool>)
    ensures ix.changed ==> SetChangedAll(ix, cs).changed
    ensures SetChangedAll(ix, cs).changed <==> ix.changed || true in cs
    decreases |cs|
  {
    if |cs| > 0 {
      SetChangedMonotone(SetChanged(ix, cs[0]), cs[1..]);
      assert cs == [cs[0]] + cs[1..];
    }
  }

  function SetChangedAll(ix: Index, cs: seq<bool>): Index
    decreases |cs|
  {
    if |cs| == 0 then ix else SetChangedAll(SetChanged(ix, cs[0]), cs[1..])
  }

  /** `FolderIndex.Save`, by its effect on the ledger: writes the entries to the bound
      file and clears the flag; fails when no file is bound. */
  function Save(ix: Index): (r: Result<Index, LedgerError>)
    ensures r.Failure? <==> ix.file.None?
    ensures r.Success? ==> !r.value.changed && r.value.entries == ix.entries && r.value.file == ix.file
  {
    if ix.file.None? then Failure(UnboundFile) else Success(ix.(changed := false))
  }

  /** Saving twice is saving once. */
  lemma SaveIdempotent(ix: Index)
    requires ix.file.Some?
    ensures Save(Save(ix).value) == Save(ix)
  {
  }

  /** `FolderIndex.Empty` has no entries, is clean and is bound to no file. */
  lemma EmptyIndexIsClean()
    ensures |EmptyIndex.entries| == 0 && !EmptyIndex.changed && EmptyIndex.file.None?
  {
  }
}

=== FILE: messages.dfy ===
/** `Message`: one configured chat message (its position around the user's request,
    its kind and its lines of text) and the static builders that frame prompts and
    documents as user messages. The text of a configured message is memoised on first
    read, so it is threaded explicitly: reading it returns the message with its memo
    set. */
module Messages {
  import opened Wrappers
  import opened Text
  import opened Chat
  import Images

  /** Whether a configured message goes before or after the request. */
  datatype Position = Pre | Post

  /** The SDK message class a configured message becomes. */
  datatype MessageType =
    | SystemChatMessage
    | UserChatMessage
    | AssistantChatMessage
    | ToolChatMessage
    | FunctionChatMessage

  /** A configured message. `memo` is the private `StringBuilder` caching `Text`. */
  datatype Message = Message(position: Position, kind: MessageType, texts: seq<string>, memo: Option<string>)

  /** `new Message()`. */
  const NewMessage: Message := Message(Pre, SystemChatMessage, [], None)

  /** A new message goes before the request, is a system message and has no lines. */
  lemma NewMessageDefaults()
    ensures NewMessage.position == Pre && NewMessage.kind == SystemChatMessage
    ensures NewMessage.texts == [] && TextOf(NewMessage) == ""
  {
  }

  /** The `Texts` setter: the memo is not reset. */
  function SetTexts(m: Message, texts: seq<string>): (r: Message)
    ensures r.texts == texts
    ensures r.position == m.position && r.kind == m.kind && r.memo == m.memo
  {
    m.(texts := texts)
  }

  /** `Message.Text`: the lines joined with the newline separator, computed on the first
      read and cached. The message after the read is returned with the result. */
  function ReadText(m: Message): (r: (string, Message))
    ensures r.1.memo == Some(r.0)
    ensures r.1.position == m.position && r.1.kind == m.kind && r.1.texts == m.texts
    ensures m.memo.Some? ==> r.0 == m.memo.value && r.1 == m
    ensures m.memo.None? ==> r.0 == Join(NewLine, m.texts)
  {
    match m.memo
    case Some(t) => (t, m)
    case None =>
      var t := Join(NewLine, m.texts);
      (t, m.(memo := Some(t)))
  }

  /** The text a read of `m` returns. */
  function TextOf(m: Message): string {
    ReadText(m).0
  }

  /** A second read returns what the first returned and changes nothing. */
  lemma ReadTextStable(m: Message)
    ensures var (t, m1) := ReadText(m);
            ReadText(m1) == (t, m1)
  {
  }

  /** A fresh message's text is its lines joined by the newline separator; a single
      line is its own text. */
  lemma FreshText(texts: seq<string>)
    ensures TextOf(SetTexts(NewMessage, texts)) == Join(NewLine, texts)
    ensures |texts| == 1 ==> TextOf(SetTexts(NewMessage, texts)) == texts[0]
  {
  }

  /** Once read, the text no longer follows `Texts`: replacing the lines after a read
      leaves the text as it was. */
  lemma TextIsStale(m: Message, texts: seq<string>)
    ensures var m1 := ReadText(m).1;
            TextOf(SetTexts(m1, texts)) == TextOf(m)
  {
  }

  /** A concrete instance: a message read with lines ["a"] still reads "a" after its
      lines become ["b"]. */
  lemma StaleExample()
    ensures var m1 := ReadText(SetTexts(NewMessage, ["a"])).1;
            TextOf(SetTexts(m1, ["b"])) == "a" && Join(NewLine, ["b"]) == "b"
  {
    TextIsStale(SetTexts(NewMessage, ["a"]), ["b"]);
  }

  /** `Message.CreateUserMessage`. */
  function CreateUserMessage(text: string): (r: ChatMessage)
    ensures r.role == UserRole && |r.content| == 1 && r.content[0].text == Some(text)
  {
    TextMessage(UserRole, text)
  }

  /** `Message.CreateSystemMessage`. */
  function CreateSystemMessage(text: string): (r: ChatMessage)
    ensures r.role == SystemRole && |r.content| == 1 && r.content[0].text == Some(text)
  {
    TextMessage(SystemRole, text)
  }

  /** `Message.CreateUserImage(Uri)`: a user message whose single part refers to
      the image by its URI. */
  function CreateUserImageFromUri(uri: string): (r: ChatMessage)
    ensures r.role == UserRole && |r.content| == 1
    ensures r.content[0].imageUri == Some(uri) && r.content[0].text.None? && r.content[0].imageBytes.None?
  {
    ChatMessage(UserRole, [ContentPart(None, None, None, Some(uri))])
  }

  /** The file `CreateUserImage(string, ...)` loads. */
  const DiagramPath: string := "images/diagramme.png"

  /** `Message.CreateUserImage(string, detailLevel)`: loads "images/diagramme.png",
      whatever path it is given, and sends its bytes with the detected media type. */
  function CreateUserImage(cc: CharClasses, fileExists: string -> bool, readBytes: string -> seq<bv8>, path: string)
    : (r: Result<ChatMessage, Images.ImageError>)
    ensures r.Failure? <==> Images.LoadImage(cc, fileExists, readBytes, DiagramPath).Failure?
    ensures r.Success? ==>
              && r.value.role == UserRole && |r.value.content| == 1
              && r.value.content[0].imageBytes == Some(readBytes(DiagramPath))
              && r.value.content[0].imageMediaType.Some?
              && r.value.content[0].imageMediaType.value in Images.SupportedMediaTypes
  {
    var (bytes, media) :- Images.LoadImage(cc, fileExists, readBytes, DiagramPath);
    Success(ChatMessage(UserRole, [ContentPart(None, Some(bytes), Some(media), None)]))
  }

  /** The path argument plays no part: every path gives the same message. */
  lemma CreateUserImageIgnoresPath(cc: CharClasses, fileExists: string -> bool, readBytes: string -> seq<bv8>,
                                   p1: string, p2: string)
    ensures CreateUserImage(cc, fileExists, readBytes, p1) == CreateUserImage(cc, fileExists, readBytes, p2)
  {
  }

  /** The role of the SDK message each kind becomes: tool and function messages are
      sent as system messages. */
  function RoleOf(kind: MessageType): (r: Role)
    ensures r == UserRole <==> kind == UserChatMessage
    ensures r == AssistantRole <==> kind == AssistantChatMessage
    ensures r != ToolRole && r != FunctionRole
  {
    match kind
    case UserChatMessage => UserRole
    case AssistantChatMessage => AssistantRole
    case _ => SystemRole
  }

  /** `Message.GetMessage`: the SDK message holding the text as its single part, with
      the message after the text was read. */
  function GetMessage(m: Message): (r: (ChatMessage, Message))
    ensures r.1 == ReadText(m).1
    ensures r.0.content == [TextPart(TextOf(m))]
    ensures r.0.role == UserRole <==> m.kind == UserChatMessage
    ensures r.0.role == AssistantRole <==> m.kind == AssistantChatMessage
    ensures m.kind !in {UserChatMessage, AssistantChatMessage} ==> r.0.role == SystemRole
  {
    var (t, m1) := ReadText(m);
    match m.kind
    case UserChatMessage => (CreateUserMessage(t), m1)
    case AssistantChatMessage => (TextMessage(AssistantRole, t), m1)
    case _ => (CreateSystemMessage(t), m1)
  }

  /** The content of a converted message does not depend on its kind. */
  lemma GetMessageContentIgnoresKind(m: Message, kind: MessageType)
    ensures GetMessage(m.(kind := kind)).0.content == GetMessage(m).0.content
  {
  }

  /** What the builders read from the filesystem: whether a path names an existing
      file, the file's full name, and its text. */
  datatype Files = Files(fileExists: string -> bool, fullName: string -> string, load: string -> string)

  datatype MessageError =
    | ArgumentNull     // ArgumentNullException
    | FileNotFound     // FileNotFoundException

  /** `Message.CreateUserMessageFromFile(string)`: the file's text as a user message. */
  function CreateUserMessageFromFile(files: Files, path: Option<string>): (r: Result<ChatMessage, MessageError>)
    ensures IsNullOrEmpty(path) ==> r == Failure(ArgumentNull)
    ensures !IsNullOrEmpty(path) && !files.fileExists(path.value) ==> r == Failure(FileNotFound)
    ensures r.Success? <==> !IsNullOrEmpty(path) && files.fileExists(path.value)
    ensures r.Success? ==> r.value == CreateUserMessage(files.load(path.value))
  {
    if IsNullOrEmpty(path) then Failure(ArgumentNull)
    else if !files.fileExists(path.value) then Failure(FileNotFound)
    else Success(CreateUserMessage(files.load(path.value)))
  }

  const FenceHeader: string := "```  -- file : "
  const Fence: string := "```"
  const FileHeader: string := "-- file : "
  const EndFileHeader: string := "-- end file : "

  /** The framing `CreateUserTextAttachedDocument` puts before the content. */
  function AttachedHead(name: string): string {
    Line(FenceHeader + name)
  }

  /** ... and after it: the end of the content's line, the closing fence, a blank line. */
  const AttachedTail: string := NewLine + Line(Fence) + NewLine

  /** The text of an attached document: fenced header line with the file name, the
      content on its own line, the closing fence, then a blank line. */
  function AttachedText(name: string, content: string): (r: string)
    ensures |r| == |AttachedHead(name)| + |content| + |AttachedTail|
  {
    Line(FenceHeader + name) + Line(content) + Line(Fence) + Line("")
  }

  /** The framing is transparent: the header names the file and the content is
      recovered between the header and the tail. */
  lemma AttachedTextFrames(name: string, content: string)
    ensures var r := AttachedText(name, content);
            && StartsWith(r, FenceHeader + name)
            && r[|AttachedHead(name)|..|r| - |AttachedTail|] == content
            && EndsWith(r, AttachedTail)
  {
    var r := AttachedText(name, content);
    var h := AttachedHead(name);
    assert r == h + content + AttachedTail;
    assert r[..|FenceHeader + name|] == FenceHeader + name;
    assert r[|h|..|r| - |AttachedTail|] == content;
    assert r[|r| - |AttachedTail|..] == AttachedTail;
  }

  /** `Message.CreateUserTextAttachedDocument`: the file framed by fences as a user
      message; a missing file fails. */
  function CreateUserTextAttachedDocument(files: Files, path: string): (r: Result<ChatMessage, MessageError>)
    ensures r.Failure? <==> !files.fileExists(path)
    ensures r.Failure? ==> r.error == FileNotFound
    ensures r.Success? ==> r.value == CreateUserMessage(AttachedText(files.fullName(path), files.load(path)))
  {
    if !files.fileExists(path) then Failure(FileNotFound)
    else Success(CreateUserMessage(AttachedText(files.fullName(path), files.load(path))))
  }

  /** The framing `CreateUserTextDocument` puts before the content. */
  function DocumentHead(name: string): string {
    Line(FileHeader + name)
  }

  /** ... and after it. */
  function DocumentTail(name: string): string {
    NewLine + Line(EndFileHeader + name) + NewLine
  }

  /** The text of a document: a header line with the file name, the content on its
      own line, an end line with the file name again, then a blank line. */
  function DocumentText(name: string, content: string): (r: string)
    ensures |r| == |DocumentHead(name)| + |content| + |DocumentTail(name)|
  {
    Line(FileHeader + name) + Line(content) + Line(EndFileHeader + name) + Line("")
  }

  /** The document framing is transparent in the same way. */
  lemma DocumentTextFrames(name: string, content: string)
    ensures var r := DocumentText(name, content);
            && StartsWith(r, FileHeader + name)
            && r[|DocumentHead(name)|..|r| - |DocumentTail(name)|] == content
            && EndsWith(r, DocumentTail(name))
  {
    var r := DocumentText(name, content);
    var h := DocumentHead(name);
    var t := DocumentTail(name);
    assert r == h + content + t;
    assert r[..|FileHeader + name|] == FileHeader + name;
    assert r[|h|..|r| - |t|] == content;
    assert r[|r| - |t|..] == t;
  }

  /** `Message.CreateUserTextDocument`. */
  function CreateUserTextDocument(files: Files, path: string): (r: Result<ChatMessage, MessageError>)
    ensures r.Failure? <==> !files.fileExists(path)
    ensures r.Failure? ==> r.error == FileNotFound
    ensures r.Success? ==> r.value == CreateUserMessage(DocumentText(files.fullName(path), files.load(path)))
  {
    if !files.fileExists(path) then Failure(FileNotFound)
    else Success(CreateUserMessage(DocumentText(files.fullName(path), files.load(path))))
  }

  /** The prefix of the i-th extracted item: "Slide {i+1}:" and a line feed. */
  function SlideHead(i: nat): string {
    "Slide " + NatToString(i + 1) + ":\n"
  }

  function SlideText(i: nat, item: string): string {
    SlideHead(i) + item
  }

  /** The item is what follows the first line feed of its slide text. */
  lemma SlideTextSplits(i: nat, item: string)
    ensures var t := SlideText(i, item);
            && IndexOf(t, '\n') == |SlideHead(i)| - 1
            && t[IndexOf(t, '\n') + 1..] == item
  {
    var head := "Slide " + NatToString(i + 1) + ":";
    assert '\n' !in head by {
      assert forall j :: 0 <= j < |head| ==> head[j] != '\n' by {
        forall j | 0 <= j < |head| ensures head[j] != '\n' {
          var d := NatToString(i + 1);
          if 6 <= j < 6 + |d| {
            assert head[j] == d[j - 6];
          }
        }
      }
    }
    assert SlideText(i, item) == head + ['\n'] + item;
    IndexOfAfter(head, item, '\n');
  }

  /** The messages `CreatePptx` and `CreateWord` build from the extracted items: one
      user message per item, in order, each prefixed with its 1-based slide number. */
  method Slides(items: seq<string>) returns (messages: seq<ChatMessage>)
    ensures |messages| == |items|
    ensures forall i :: 0 <= i < |items| ==> messages[i] == CreateUserMessage(SlideText(i, items[i]))
  {
    messages := [];
    var i := 0;
    while i < |items|
      invariant 0 <= i <= |items|
      invariant |messages| == i
      invariant forall j :: 0 <= j < i ==> messages[j] == CreateUserMessage(SlideText(j, items[j]))
    {
      messages := messages + [CreateUserMessage(SlideText(i, items[i]))];
      i := i + 1;
    }
  }

  /** `Message.CreatePptx`: `extract` stands for the slide-text extraction. */
  method CreatePptx(extract: string -> seq<string>, filePath: string) returns (messages: seq<ChatMessage>)
    ensures |messages| == |extract(filePath)|
    ensures forall i :: 0 <= i < |messages| ==>
              messages[i] == CreateUserMessage(SlideText(i, extract(filePath)[i]))
  {
    messages := Slides(extract(filePath));
  }

  /** `Message.CreateWord`: `extract` stands for the Word text extraction. */
  method CreateWord(extract: string -> seq<string>, filePath: string) returns (messages: seq<ChatMessage>)
    ensures |messages| == |extract(filePath)|
    ensures forall i :: 0 <= i < |messages| ==>
              messages[i] == CreateUserMessage(SlideText(i, extract(filePath)[i]))
  {
    messages := Slides(extract(filePath));
  }
}

=== FILE: options.dfy ===
/** `OpenAIOption` (one configured OpenAI service and the messages configured for it)
    and `OpenAIOptions` (the list of services with a by-name indexer). Only the fields
    the core reads are kept; client construction is not part of this model. */
module Options {
  import opened Wrappers
  import opened Text
  import opened Chat
  import opened Messages

  datatype OpenAIOption = OpenAIOption(name: string, endpoint: string, model: string, messages: seq<Message>)

  const DefaultModel: string := "gpt-4o"

  /** `new OpenAIOption()`. */
  const NewOption: OpenAIOption := OpenAIOption("", "", DefaultModel, [])

  /** A new option has an empty name and endpoint, model "gpt-4o" and no messages, so
      it sends nothing of its own. */
  lemma NewOptionDefaults()
    ensures NewOption.name == "" && NewOption.endpoint == "" && NewOption.model == "gpt-4o"
    ensures NewOption.messages == []
  {
  }

  /** A configured message is sent when it is at `pos` and its text is not blank. */
  predicate Sends(cc: CharClasses, m: Message, pos: Position) {
    m.position == pos && !IsNullOrWhiteSpace(cc, Some(TextOf(m)))
  }

  /** One pass of `GetChatMessages` over the configured messages: the SDK messages of
      those at `pos` whose text is not blank, in order, and the configured messages
      afterwards (the text of every message at `pos` has been read, the others are
      untouched). */
  function Collect(cc: CharClasses, ms: seq<Message>, pos: Position): (r: (seq<ChatMessage>, seq<Message>))
    ensures |r.0| <= |ms| && |r.1| == |ms|
    ensures forall i :: 0 <= i < |ms| && ms[i].position == pos ==> r.1[i] == ReadText(ms[i]).1
    ensures forall i :: 0 <= i < |ms| && ms[i].position != pos ==> r.1[i] == ms[i]
  {
    if |ms| == 0 then ([], [])
    else
      var rest := Collect(cc, ms[1..], pos);
      var m := ms[0];
      var head := if m.position != pos then m else GetMessage(m).1;
      var after := [head] + rest.1;
      assert forall i :: 0 < i < |ms| ==> after[i] == rest.1[i - 1] && ms[i] == ms[1..][i - 1];
      (SentOf(cc, m, pos) + rest.0, after)
  }

  /** What one configured message contributes to a pass. */
  function SentOf(cc: CharClasses, m: Message, pos: Position): (r: seq<ChatMessage>)
    ensures Sends(cc, m, pos) ==> r == [GetMessage(m).0]
    ensures !Sends(cc, m, pos) ==> r == []
  {
    if Sends(cc, m, pos) then [GetMessage(m).0] else []
  }

  /** A pass is the first message's contribution, then the pass over the rest. */
  lemma CollectCons(cc: CharClasses, ms: seq<Message>, pos: Position)
    requires |ms| > 0
    ensures Collect(cc, ms, pos).0 == SentOf(cc, ms[0], pos) + Collect(cc, ms[1..], pos).0
  {
  }

  /** A single configured message is sent, as its SDK message, exactly when it is at
      `pos` with a non-blank text. */
  lemma CollectOne(cc: CharClasses, m: Message, pos: Position)
    ensures Sends(cc, m, pos) ==> Collect(cc, [m], pos).0 == [GetMessage(m).0]
    ensures !Sends(cc, m, pos) ==> Collect(cc, [m], pos).0 == []
  {
    assert [m][1..] == [];
    CollectCons(cc, [m], pos);
  }

  /** The pass keeps configuration order: collecting a concatenation concatenates. */
  lemma {:induction false} CollectConcat(cc: CharClasses, a: seq<Message>, b: seq<Message>, pos: Position)
    ensures Collect(cc, a + b, pos).0 == Collect(cc, a, pos).0 + Collect(cc, b, pos).0
    decreases |a|
  {
    if |a| == 0 {
      assert a + b == b;
    } else {
      var ab := a + b;
      assert ab[0] == a[0];
      assert ab[1..] == a[1..] + b;
      CollectConcat(cc, a[1..], b, pos);
      CollectCons(cc, ab, pos);
      CollectCons(cc, a, pos);
    }
  }

  /** Reading a text never changes what is read: the pass sends the same messages
      again afterwards. */
  lemma {:induction false} CollectRepeat(cc: CharClasses, ms: seq<Message>, pos: Position, other: Position)
    ensures var r := Collect(cc, ms, pos);
            Collect(cc, r.1, other).0 == Collect(cc, ms, other).0
    decreases |ms|
  {
    if |ms| > 0 {
      var r := Collect(cc, ms, pos);
      assert r.1[1..] == Collect(cc, ms[1..], pos).1;
      CollectRepeat(cc, ms[1..], pos, other);
      ReadTextStable(ms[0]);
    }
  }

  /** The number of configured messages that are sent at `pos`. */
  function Sent(cc: CharClasses, ms: seq<Message>, pos: Position): (n: nat)
    ensures n <= |ms|
  {
    if |ms| == 0 then 0 else (if Sends(cc, ms[0], pos) then 1 else 0) + Sent(cc, ms[1..], pos)
  }

  /** Every configured message that is sent is sent exactly once. */
  lemma {:induction false} CollectCount(cc: CharClasses, ms: seq<Message>, pos: Position)
    ensures |Collect(cc, ms, pos).0| == Sent(cc, ms, pos)
    decreases |ms|
  {
    if |ms| > 0 {
      CollectCount(cc, ms[1..], pos);
    }
  }

  /** `OpenAIOption.GetChatMessages(action)`: the pre messages, then the list after
      `action` ran on it, then the post messages; and the option afterwards, with the
      texts of its messages read. `action` returns the list it leaves behind. */
  function GetChatMessages(cc: CharClasses, o: OpenAIOption, action: Option<seq<ChatMessage> -> seq<ChatMessage>>)
    : (r: (seq<ChatMessage>, OpenAIOption))
    ensures var pre := Collect(cc, o.messages, Pre).0;
            var post := Collect(cc, o.messages, Post).0;
            && (action.None? ==> r.0 == pre + post)
            && (action.Some? ==> r.0 == action.value(pre) + post)
    ensures r.1.name == o.name && r.1.endpoint == o.endpoint && r.1.model == o.model
    ensures |r.1.messages| == |o.messages|
  {
    var (pre, ms1) := Collect(cc, o.messages, Pre);
    var acted := if action.Some? then action.value(pre) else pre;
    var (post, ms2) := Collect(cc, ms1, Post);
    CollectRepeat(cc, o.messages, Pre, Post);
    (acted + post, o.(messages := ms2))
  }

  /** An action that appends its messages puts them between the pre and post
      messages. */
  lemma AppendingAction(cc: CharClasses, o: OpenAIOption, action: seq<ChatMessage> -> seq<ChatMessage>, extra: seq<ChatMessage>)
    requires forall l :: action(l) == l + extra
    ensures GetChatMessages(cc, o, Some(action)).0
            == Collect(cc, o.messages, Pre).0 + extra + Collect(cc, o.messages, Post).0
  {
  }

  /** Without an action every configured message with a non-blank text is sent once:
      the output holds as many messages as there are such messages. */
  lemma NoActionSendsConfigured(cc: CharClasses, o: OpenAIOption)
    ensures |GetChatMessages(cc, o, None).0| == Sent(cc, o.messages, Pre) + Sent(cc, o.messages, Post)
  {
    CollectCount(cc, o.messages, Pre);
    CollectCount(cc, o.messages, Post);
  }

  /** Building the messages twice gives the same list: the memoised texts are stable. */
  lemma GetChatMessagesRepeat(cc: CharClasses, o: OpenAIOption, action: Option<seq<ChatMessage> -> seq<ChatMessage>>)
    ensures var (_, o1) := GetChatMessages(cc, o, action);
            GetChatMessages(cc, o1, action).0 == GetChatMessages(cc, o, action).0
  {
    var ms1 := Collect(cc, o.messages, Pre).1;
    CollectRepeat(cc, o.messages, Pre, Post);
    CollectRepeat(cc, ms1, Post, Pre);
    CollectRepeat(cc, o.messages, Pre, Pre);
    CollectRepeat(cc, ms1, Post, Post);
  }

  /** The position of the first option named `key`, or `|options|` when none is. */
  function FirstNamed(options: seq<OpenAIOption>, key: string): (k: nat)
    ensures k <= |options|
    ensures k < |options| ==> options[k].name == key
    ensures forall j :: 0 <= j < k ==> options[j].name != key
  {
    if |options| == 0 then 0
    else if options[0].name == key then 0
    else 1 + FirstNamed(options[1..], key)
  }

  /** The indexer's getter: the first option named `key`, or null. */
  function Get(options: seq<OpenAIOption>, key: string): (r: Option<OpenAIOption>)
    ensures r.Some? ==> r.value in options && r.value.name == key
    ensures r.None? <==> forall j :: 0 <= j < |options| ==> options[j].name != key
  {
    var k := FirstNamed(options, key);
    if k < |options| then Some(options[k]) else None
  }

  /** The indexer's setter as written: for an absent key a null value is ignored and
      any other value appended (whatever its name); for a present key a null value
      removes the first match and any other value is ignored. */
  function SetAsWritten(options: seq<OpenAIOption>, key: string, value: Option<OpenAIOption>)
    : (r: seq<OpenAIOption>)
    ensures Get(options, key).None? && value.None? ==> r == options
    ensures Get(options, key).None? && value.Some? ==> r == options + [value.value]
    ensures Get(options, key).Some? && value.None? ==>
              var k := FirstNamed(options, key);
              r == options[..k] + options[k + 1..]
    ensures Get(options, key).Some? && value.Some? ==> r == options
  {
    var k := FirstNamed(options, key);
    if k == |options| then
      if value.None? then options else options + [value.value]
    else if value.None? then options[..k] + options[k + 1..]
    else options
  }

  /** The setter as its dead branch intends: a non-null value for a present key
      replaces the first match. */
  function Set(options: seq<OpenAIOption>, key: string, value: Option<OpenAIOption>)
    : (r: seq<OpenAIOption>)
    ensures value.None? ==> r == SetAsWritten(options, key, value)
    ensures Get(options, key).None? ==> r == SetAsWritten(options, key, value)
    ensures Get(options, key).Some? && value.Some? ==>
              r == options[FirstNamed(options, key) := value.value]
  {
    var k := FirstNamed(options, key);
    if k < |options| && value.Some? then options[k := value.value]
    else SetAsWritten(options, key, value)
  }

  /** An option stored under its own name is read back. */
  lemma SetThenGet(options: seq<OpenAIOption>, v: OpenAIOption)
    ensures Get(Set(options, v.name, Some(v)), v.name) == Some(v)
  {
    var key := v.name;
    var k := FirstNamed(options, key);
    var r := Set(options, key, Some(v));
    if k < |options| {
      assert r[k] == v;
      assert forall j :: 0 <= j < k ==> r[j] == options[j];
    } else {
      assert r[|options|] == v;
      assert forall j :: 0 <= j < |options| ==> r[j] == options[j];
    }
  }

  /** Removing a key from a list that names it once leaves no option of that name. */
  lemma RemoveUnique(options: seq<OpenAIOption>, key: string)
    requires Get(options, key).Some?
    requires forall j :: FirstNamed(options, key) < j < |options| ==> options[j].name != key
    ensures Get(SetAsWritten(options, key, None), key).None?
  {
    var k := FirstNamed(options, key);
    var r := SetAsWritten(options, key, None);
    forall j | 0 <= j < |r| ensures r[j].name != key {
      if j < k { assert r[j] == options[j]; } else { assert r[j] == options[j + 1]; }
    }
  }

  /** As written, setting another option under a present key is lost: the getter still
      returns the old one. */
  lemma SetDoesNotReplace(options: seq<OpenAIOption>, v: OpenAIOption)
    requires Get(options, v.name).Some? && Get(options, v.name).value != v
    ensures Get(SetAsWritten(options, v.name, Some(v)), v.name) != Some(v)
  {
  }

  /** As written, an appended option whose name is not the key is not found under it. */
  lemma SetUnderOtherName(options: seq<OpenAIOption>, key: string, v: OpenAIOption)
    requires Get(options, key).None? && v.name != key
    ensures Get(SetAsWritten(options, key, Some(v)), key).None?
  {
    var r := SetAsWritten(options, key, Some(v));
    assert forall j :: 0 <= j < |options| ==> r[j] == options[j];
  }
}

=== FILE: paths.dfy ===
/** The `System.IO.Path` operations the repository uses, on Windows separators:
    `GetFileName`, `GetExtension`, `GetFileNameWithoutExtension` and `Combine`. Paths
    are plain strings; no normalisation (`FileInfo.FullName`) is modelled. */
module Paths {
  import opened Wrappers
  import opened Text

  const DirectorySeparator: char := '\\'
  const AltDirectorySeparator: char := '/'

  predicate IsSeparator(c: char) {
    c == DirectorySeparator || c == AltDirectorySeparator
  }

  /** Position just after the last separator of `path` (0 when it has none). */
  function NameStart(path: string): (k: nat)
    ensures k <= |path|
    ensures k > 0 ==> IsSeparator(path[k - 1])
    ensures forall j :: k <= j < |path| ==> !IsSeparator(path[j])
  {
    SkipBackward(c => !IsSeparator(c), path, 0, |path|)
  }

  /** `Path.GetFileName`: the part after the last separator. */
  function FileName(path: string): (r: string)
    ensures |r| <= |path| && r == path[|path| - |r|..]
    ensures forall j :: 0 <= j < |r| ==> !IsSeparator(r[j])
    ensures |r| < |path| ==> IsSeparator(path[|path| - |r| - 1])
  {
    path[NameStart(path)..]
  }

  /** The parent directory (`FileInfo.Directory`, `Path.GetDirectoryName`): the part
      before the last separator, or null when the path has none. */
  function DirectoryName(path: string): (r: Option<string>)
    ensures r.None? ==> FileName(path) == path
    ensures r.Some? ==> |r.value| < |path| && IsSeparator(path[|r.value|])
  {
    var k := NameStart(path);
    if k == 0 then None else Some(path[..k - 1])
  }

  /** A path is its directory, one separator and its file name. */
  lemma DirectoryNameSplit(path: string)
    requires DirectoryName(path).Some?
    ensures var d := DirectoryName(path).value;
            d + [path[|d|]] + FileName(path) == path
  {
    var k := NameStart(path);
    assert path[..k - 1] + [path[k - 1]] + path[k..] == path;
  }

  /** `Path.GetExtension`: from the last '.' of the file name to its end, or ""
      when the name has no '.' or ends with it. */
  function Extension(path: string): (r: string)
    ensures r == "" || (|r| >= 2 && r[0] == '.' && EndsWith(FileName(path), r))
  {
    var name := FileName(path);
    var i := LastIndexOf(name, '.');
    if i < 0 || i == |name| - 1 then "" else name[i..]
  }

  /** `Path.GetFileNameWithoutExtension`: the file name up to its last '.'. */
  function NameWithoutExtension(path: string): (r: string)
    ensures r <= FileName(path)
    ensures r == FileName(path) <==> '.' !in FileName(path)
  {
    var name := FileName(path);
    var i := LastIndexOf(name, '.');
    if i < 0 then name else name[..i]
  }

  /** Splitting a file name at its extension loses nothing when the extension is not empty. */
  lemma NameAndExtension(path: string)
    requires Extension(path) != ""
    ensures NameWithoutExtension(path) + Extension(path) == FileName(path)
  {
    var name := FileName(path);
    var i := LastIndexOf(name, '.');
    assert Extension(path) == name[i..];
    assert NameWithoutExtension(path) == name[..i];
    SplitAt(name, i);
  }

  /** A non-empty extension holds exactly one '.', its first character. */
  lemma ExtensionSingleDot(path: string)
    requires Extension(path) != ""
    ensures forall j :: 1 <= j < |Extension(path)| ==> Extension(path)[j] != '.'
  {
    var name := FileName(path);
    var i := LastIndexOf(name, '.');
    var e := name[i..];
    assert Extension(path) == e;
    forall j | 1 <= j < |e| ensures e[j] != '.' {
      assert e[j] == name[i + j];
    }
  }

  /** A name with a trailing '.' has an empty extension but still loses the '.'. */
  lemma TrailingDot(name: string)
    requires |name| > 0 && name[|name| - 1] == '.'
    requires forall j :: 0 <= j < |name| ==> !IsSeparator(name[j])
    ensures Extension(name) == ""
    ensures NameWithoutExtension(name) != FileName(name)
  {
    assert NameStart(name) == 0;
    assert FileName(name) == name;
    assert '.' in name;
  }

  /** `Path.IsPathRooted` on Windows: a leading separator or a drive prefix "X:". */
  predicate IsRooted(path: string) {
    (|path| > 0 && IsSeparator(path[0])) || (|path| >= 2 && path[1] == ':')
  }

  /** `Path.Combine(first, second)`. */
  function Combine(first: string, second: string): (r: string)
    ensures second != "" && !IsRooted(second) && first != "" ==> EndsWith(r, second) && StartsWith(r, first)
  {
    if second == "" then first
    else if first == "" then second
    else if IsRooted(second) then second
    else if IsSeparator(first[|first| - 1]) then first + second
    else first + [DirectorySeparator] + second
  }

  /** A path combined twice from a non-empty root, with relative parts, starts with
      that root. */
  lemma CombineUnder(root: string, folder: string, name: string)
    requires root != "" && name != "" && !IsRooted(name)
    requires folder == "" || !IsRooted(folder)
    ensures StartsWith(Combine(Combine(root, folder), name), root)
  {
    var inner := Combine(root, folder);
    assert StartsWith(inner, root);
    var r := Combine(inner, name);
    assert StartsWith(r, inner);
    assert forall j :: 0 <= j < |root| ==> r[j] == inner[j] == root[j];
  }

  /** Combining a directory with a plain file name gives a path whose file name is that name. */
  lemma FileNameOfCombine(dir: string, name: string)
    requires name != ""
    requires forall j :: 0 <= j < |name| ==> !IsSeparator(name[j])
    requires !IsRooted(name)
    ensures FileName(Combine(dir, name)) == name
  {
    var p := Combine(dir, name);
    if dir == "" {
      assert p == name;
      assert NameStart(p) == 0;
    } else {
      var k := |p| - |name|;
      assert p[k..] == name;
      assert IsSeparator(p[k - 1]);
      assert forall j :: k <= j < |p| ==> p[j] == name[j - k];
      assert forall j :: k <= j < |p| ==> !IsSeparator(p[j]);
    }
  }
}

=== FILE: registry.dfy ===
/** `IndexStore`: the registry that hands out one ledger per sidecar file
    (".index.json" beside the target file), keyed case-insensitively, flushes the
    dirty ledgers on `Save` and once on `Dispose`. Keys are stored folded
    (`Text.Fold`), which is how an `OrdinalIgnoreCase` dictionary compares them. */
module Registry {
  import opened Wrappers
  import opened Text
  import opened Paths
  import opened Documents
  import opened Ledger

  const SidecarName: string := ".index.json"

  /** Whether a sidecar exists, and the entries deserialized from it. JSON reading is
      not part of this model. */
  datatype Disk = Disk(sidecarExists: string -> bool, load: string -> seq<Entry>)

  /** The dictionary of ledgers, with its keys in enumeration order (the order they
      were added in), and the disposed flag. */
  datatype Store = Store(ledgers: map<string, Index>, order: seq<string>, disposed: bool)

  /** A new `IndexStore`. */
  const NewStore: Store := Store(map[], [], false)

  /** The enumeration order lists every registered key exactly once. */
  ghost predicate Wf(st: Store) {
    && (forall k :: k in st.ledgers <==> k in st.order)
    && (forall i, j :: 0 <= i < j < |st.order| ==> st.order[i] != st.order[j])
  }

  datatype RegistryError =
    | NoDirectory        // NullReferenceException: the target file has no directory
    | Ledger(e: LedgerError)

  /** ".index.json" is a plain, relative file name. */
  lemma SidecarNamePlain()
    ensures SidecarName != "" && !IsRooted(SidecarName)
    ensures forall j :: 0 <= j < |SidecarName| ==> !IsSeparator(SidecarName[j])
  {
    assert SidecarName[0] == '.' && SidecarName[1] == 'i';
  }

  /** The sidecar path of a target file: its directory combined with ".index.json". */
  function SidecarPath(target: FileRef): (r: Option<string>)
    ensures r.None? <==> DirectoryName(target.fullName).None?
  {
    match DirectoryName(target.fullName)
    case None => None
    case Some(dir) =>
      Some(Combine(dir, SidecarName))
  }

  /** The sidecar sits in the target's directory and is named ".index.json". */
  lemma SidecarInTargetDirectory(target: FileRef)
    requires SidecarPath(target).Some?
    ensures FileName(SidecarPath(target).value) == SidecarName
    ensures DirectoryName(target.fullName).value != "" ==>
              StartsWith(SidecarPath(target).value, DirectoryName(target.fullName).value)
  {
    SidecarNamePlain();
    FileNameOfCombine(DirectoryName(target.fullName).value, SidecarName);
  }

  /** The registry key of a sidecar path: the path with every character upper-cased,
      so that an ordinal comparison of keys ignores case. */
  function Key(cc: CharClasses, sidecar: string): (r: string)
    ensures |r| == |sidecar|
    ensures forall i :: 0 <= i < |sidecar| ==> r[i] == cc.toUpper(sidecar[i])
  {
    Fold(cc, sidecar)
  }

  /** Two sidecar paths share a key exactly when they have the same length and agree
      character by character after upper-casing. */
  lemma SameKeyIff(cc: CharClasses, a: string, b: string)
    ensures Key(cc, a) == Key(cc, b) <==>
              |a| == |b| && forall i :: 0 <= i < |a| ==> cc.toUpper(a[i]) == cc.toUpper(b[i])
  {
  }

  /** The ledger created for a sidecar that is not registered yet. `bindLoaded` says
      whether a ledger read from an existing sidecar is bound to that file. */
  function Open(disk: Disk, sidecar: string, bindLoaded: bool): (ix: Index)
    ensures !ix.changed
    ensures !disk.sidecarExists(sidecar) ==> ix == Index([], false, Some(sidecar))
    ensures disk.sidecarExists(sidecar) ==>
              ix.entries == disk.load(sidecar) && (ix.file.Some? <==> bindLoaded)
  {
    if disk.sidecarExists(sidecar) then
      Index(disk.load(sidecar), false, if bindLoaded then Some(sidecar) else None)
    else Index([], false, Some(sidecar))
  }

  /** The lookup-or-register step of `IndexStore.GetOrCreate` for a sidecar path: the
      store afterwards and the key of the ledger handed out. `bindLoaded` false is the
      code as written (see `GetOrCreateAsWritten`). */
  function Register(cc: CharClasses, disk: Disk, st: Store, sidecar: string, bindLoaded: bool)
    : (r: (Store, string))
    ensures r.1 == Key(cc, sidecar)
    ensures r.0.ledgers.Keys == st.ledgers.Keys + {r.1}
    ensures forall k :: k in st.ledgers ==> r.0.ledgers[k] == st.ledgers[k]
    ensures r.0.disposed == st.disposed
    ensures r.1 in st.ledgers ==> r.0 == st
    ensures r.1 !in st.ledgers ==> r.0.ledgers[r.1] == Open(disk, sidecar, bindLoaded) && r.0.order == st.order + [r.1]
  {
    var key := Key(cc, sidecar);
    if key in st.ledgers then (st, key)
    else (st.(ledgers := st.ledgers[key := Open(disk, sidecar, bindLoaded)], order := st.order + [key]), key)
  }

  /** Registering keeps the enumeration order listing every key once. */
  lemma RegisterWf(cc: CharClasses, disk: Disk, st: Store, sidecar: string, bindLoaded: bool)
    requires Wf(st)
    ensures Wf(Register(cc, disk, st, sidecar, bindLoaded).0)
  {
    var (st1, key) := Register(cc, disk, st, sidecar, bindLoaded);
    if key !in st.ledgers {
      assert forall i :: 0 <= i < |st.order| ==> st1.order[i] == st.order[i];
      assert st1.order[|st.order|] == key;
    }
  }

  /** The store grew only by registrations: earlier ledgers keep their keys, the
      enumeration order is extended, and the disposed flag is kept. */
  ghost predicate Grows(st: Store, st': Store) {
    && st.ledgers.Keys <= st'.ledgers.Keys
    && st.order <= st'.order
    && st'.disposed == st.disposed
    && (Wf(st) ==> Wf(st'))
  }

  /** Registering only grows the store. */
  lemma RegisterGrows(cc: CharClasses, disk: Disk, st: Store, sidecar: string, bindLoaded: bool)
    ensures Grows(st, Register(cc, disk, st, sidecar, bindLoaded).0)
  {
    if Wf(st) {
      RegisterWf(cc, disk, st, sidecar, bindLoaded);
    }
  }

  /** A change that keeps keys, order and the disposed flag grows the store. */
  lemma ReshapeGrows(st: Store, st': Store)
    requires st'.ledgers.Keys == st.ledgers.Keys && st'.order == st.order && st'.disposed == st.disposed
    ensures Grows(st, st')
  {
  }

  lemma GrowsTrans(a: Store, b: Store, c: Store)
    requires Grows(a, b) && Grows(b, c)
    ensures Grows(a, c)
  {
  }

  /** `IndexStore.GetOrCreate`: fails when the target has no directory, otherwise
      registers its sidecar. */
  function Resolve(cc: CharClasses, disk: Disk, st: Store, target: FileRef, bindLoaded: bool)
    : (r: Result<(Store, string), RegistryError>)
    ensures r.Failure? <==> SidecarPath(target).None?
    ensures r.Success? ==> r.value == Register(cc, disk, st, SidecarPath(target).value, bindLoaded)
  {
    match SidecarPath(target)
    case None => Failure(NoDirectory)
    case Some(sidecar) => Success(Register(cc, disk, st, sidecar, bindLoaded))
  }

  /** `IndexStore.GetOrCreate` as written: a ledger loaded from an existing sidecar is
      left with `File` unset. */
  function GetOrCreateAsWritten(cc: CharClasses, disk: Disk, st: Store, target: FileRef)
    : (r: Result<(Store, string), RegistryError>)
    ensures r.Success? ==> SidecarPath(target).Some? && r.value.1 in r.value.0.ledgers
    ensures r.Success? && r.value.1 !in st.ledgers && disk.sidecarExists(SidecarPath(target).value) ==>
              r.value.0.ledgers[r.value.1].file.None?
  {
    Resolve(cc, disk, st, target, false)
  }

  /** `IndexStore.GetOrCreate` with the ledger bound to its sidecar in both branches. */
  function GetOrCreate(cc: CharClasses, disk: Disk, st: Store, target: FileRef)
    : (r: Result<(Store, string), RegistryError>)
    ensures r.Success? ==> r.value.1 in r.value.0.ledgers
    ensures r.Success? && r.value.1 !in st.ledgers ==> r.value.0.ledgers[r.value.1].file.Some?
    ensures r.Success? ==> r.value.0.disposed == st.disposed
  {
    Resolve(cc, disk, st, target, true)
  }

  /** Every registered ledger knows the file it is saved to. */
  ghost predicate AllBound(st: Store) {
    forall k :: k in st.ledgers ==> st.ledgers[k].file.Some?
  }

  /** Asking again for the same target gives the same ledger and changes nothing. */
  lemma ResolveRepeat(cc: CharClasses, disk: Disk, st: Store, target: FileRef, bindLoaded: bool)
    requires Resolve(cc, disk, st, target, bindLoaded).Success?
    ensures var (st1, key) := Resolve(cc, disk, st, target, bindLoaded).value;
            Resolve(cc, disk, st1, target, bindLoaded) == Success((st1, key))
  {
  }

  /** Targets whose sidecar paths differ only in case share one ledger. */
  lemma ResolveIgnoresCase(cc: CharClasses, disk: Disk, st: Store, t1: FileRef, t2: FileRef, bindLoaded: bool)
    requires SidecarPath(t1).Some? && SidecarPath(t2).Some?
    requires Key(cc, SidecarPath(t1).value) == Key(cc, SidecarPath(t2).value)
    ensures var (st1, key) := Resolve(cc, disk, st, t1, bindLoaded).value;
            Resolve(cc, disk, st1, t2, bindLoaded) == Success((st1, key))
  {
  }

  /** The corrected `GetOrCreate` keeps every ledger bound to its file. */
  lemma GetOrCreateKeepsBound(cc: CharClasses, disk: Disk, st: Store, target: FileRef)
    requires AllBound(st)
    requires GetOrCreate(cc, disk, st, target).Success?
    ensures AllBound(GetOrCreate(cc, disk, st, target).value.0)
  {
  }

  /** A ledger after a flush: dirty ledgers are saved, clean ones are untouched. */
  function Flushed(ix: Index): (r: Index)
    requires ix.changed ==> ix.file.Some?
    ensures !r.changed && r.entries == ix.entries && r.file == ix.file
  {
    if ix.changed then Save(ix).value else ix
  }

  /** A registered ledger that `Save` writes: it is dirty. */
  predicate Pending(st: Store, k: string) {
    k in st.ledgers && st.ledgers[k].changed
  }

  /** A registered ledger `Save` throws on: dirty, with no file. */
  predicate Stuck(st: Store, k: string) {
    Pending(st, k) && st.ledgers[k].file.None?
  }

  /** No registered ledger would make a flush throw. */
  predicate Flushable(st: Store) {
    forall k :: k in st.ledgers ==> !Stuck(st, k)
  }

  /** Every registered ledger is clean. */
  predicate Clean(st: Store) {
    forall k :: k in st.ledgers ==> !st.ledgers[k].changed
  }

  /** The position, in enumeration order from `i` on, of the first ledger a flush
      throws on, or the end of the order. */
  function FailAt(st: Store, i: nat): (n: nat)
    requires i <= |st.order|
    ensures i <= n <= |st.order|
    ensures n < |st.order| ==> Stuck(st, st.order[n])
    ensures forall j :: i <= j < n ==> !Stuck(st, st.order[j])
    decreases |st.order| - i
  {
    if i == |st.order| || Stuck(st, st.order[i]) then i else FailAt(st, i + 1)
  }

  /** The dirty keys at positions `i` to `n` of the enumeration order, in order. */
  function DirtyKeys(st: Store, i: nat, n: nat): (r: seq<string>)
    requires i <= n <= |st.order|
    ensures forall x :: x in r ==> Pending(st, x) && x in st.order[i..n]
    ensures forall j :: i <= j < n && Pending(st, st.order[j]) ==> st.order[j] in r
    decreases n - i
  {
    if i == n then []
    else
      var rest := DirtyKeys(st, i + 1, n);
      assert forall x :: x in st.order[i + 1..n] ==> x in st.order[i..n] by {
        assert st.order[i + 1..n] == st.order[i..n][1..];
      }
      (if Pending(st, st.order[i]) then [st.order[i]] else []) + rest
  }

  /** No key written before the first stuck position is itself stuck. */
  lemma DirtyNotStuck(st: Store, n: nat)
    requires n == FailAt(st, 0)
    ensures forall k :: k in DirtyKeys(st, 0, n) ==> !Stuck(st, k)
  {
    forall k | k in DirtyKeys(st, 0, n) ensures !Stuck(st, k) {
      var j :| 0 <= j < n - 0 && st.order[0..n][j] == k;
      assert st.order[j] == k;
    }
  }

  /** What a flush did: the store afterwards, the keys written in order, and the
      exception that stopped it, if any. */
  datatype Flush = Flush(store: Store, saved: seq<string>, error: Option<RegistryError>)

  /** `IndexStore.Save`: walks the ledgers in enumeration order and saves the dirty
      ones; the first dirty ledger without a file throws, and the ledgers saved
      before it stay saved. */
  function SaveAll(st: Store): (r: Flush)
    ensures r.store.order == st.order && r.store.ledgers.Keys == st.ledgers.Keys && r.store.disposed == st.disposed
    ensures r.error.Some? <==> exists j :: 0 <= j < |st.order| && Stuck(st, st.order[j])
    ensures r.error.Some? ==> r.error.value == Ledger(UnboundFile)
    ensures forall k :: k in st.ledgers ==>
              && r.store.ledgers[k].entries == st.ledgers[k].entries
              && r.store.ledgers[k].file == st.ledgers[k].file
              && (r.store.ledgers[k].changed <==> st.ledgers[k].changed && k !in r.saved)
    ensures forall k :: k in r.saved ==> Pending(st, k) && !Stuck(st, k)
  {
    var n := FailAt(st, 0);
    var saved := DirtyKeys(st, 0, n);
    DirtyNotStuck(st, n);
    Flush(st.(ledgers := map k | k in st.ledgers :: if k in saved then Flushed(st.ledgers[k]) else st.ledgers[k]),
          saved,
          if n < |st.order| then Some(Ledger(UnboundFile)) else None)
  }

  /** The flush stops at the first stuck ledger: a dirty ledger before it in
      enumeration order is saved, one after it is not. */
  lemma SaveAllStopsAtFailure(st: Store, j: nat)
    requires Wf(st) && j < |st.order| && Pending(st, st.order[j])
    ensures var n := FailAt(st, 0);
            (st.order[j] in SaveAll(st).saved <==> j < n)
            && (!SaveAll(st).store.ledgers[st.order[j]].changed <==> j < n)
  {
    var n := FailAt(st, 0);
    var saved := DirtyKeys(st, 0, n);
    if st.order[j] in saved {
      var i :| 0 <= i < n && st.order[0..n][i] == st.order[j];
      assert st.order[i] == st.order[j];
    }
  }

  /** Saving succeeds exactly when no registered ledger is stuck, and then leaves every
      ledger clean, having written exactly the dirty ones. */
  lemma SaveAllSucceeds(st: Store)
    requires Wf(st)
    ensures SaveAll(st).error.None? <==> Flushable(st)
    ensures Flushable(st) ==> Clean(SaveAll(st).store)
    ensures Flushable(st) ==> forall k :: k in SaveAll(st).saved <==> Pending(st, k)
  {
    if Flushable(st) {
      var n := FailAt(st, 0);
      assert n == |st.order|;
      forall k | Pending(st, k) ensures k in SaveAll(st).saved {
        var j :| 0 <= j < |st.order| && st.order[j] == k;
      }
    } else {
      var k :| k in st.ledgers && Stuck(st, k);
      var j :| 0 <= j < |st.order| && st.order[j] == k;
    }
  }

  /** A store whose ledgers are all bound always saves. */
  lemma SaveAllBound(st: Store)
    requires AllBound(st)
    ensures SaveAll(st).error.None?
  {
  }

  /** After a save nothing that was saved is dirty, so saving again writes nothing. */
  lemma SaveAllTwice(st: Store)
    requires Wf(st) && SaveAll(st).error.None?
    ensures var st1 := SaveAll(st).store;
            SaveAll(st1) == Flush(st1, [], None)
  {
    SaveAllSucceeds(st);
    var st1 := SaveAll(st).store;
    CleanSavesNothing(st1);
  }

  /** Saving a clean store writes nothing and changes nothing. */
  lemma CleanSavesNothing(st: Store)
    requires Clean(st)
    ensures SaveAll(st) == Flush(st, [], None)
  {
    var n := FailAt(st, 0);
    assert n == |st.order|;
    var d := DirtyKeys(st, 0, n);
    assert !(0 < |d|) || Pending(st, d[0]);
    assert st.ledgers == map k | k in st.ledgers :: st.ledgers[k];
  }

  /** `IndexStore.Dispose`: the first call flushes and marks the store disposed (a
      throwing flush leaves it undisposed, with the saves made before the throw);
      later calls do nothing. */
  function Dispose(st: Store): (r: Flush)
    ensures st.disposed ==> r == Flush(st, [], None)
    ensures !st.disposed ==> (r.store.disposed <==> r.error.None?)
    ensures !st.disposed ==> r.error == SaveAll(st).error && r.saved == SaveAll(st).saved
    ensures r.store.ledgers == SaveAll(st).store.ledgers || st.disposed
    ensures r.store.order == st.order
  {
    if st.disposed then Flush(st, [], None)
    else
      var f := SaveAll(st);
      if f.error.None? then f.(store := f.store.(disposed := true)) else f
  }

  /** Disposing twice is disposing once. */
  lemma DisposeIdempotent(st: Store)
    requires Dispose(st).error.None?
    ensures Dispose(Dispose(st).store) == Flush(Dispose(st).store, [], None)
  {
  }

  /** As written, a ledger read from an existing sidecar cannot be saved once it is
      dirty: the store's flush fails. */
  lemma LoadedLedgerCannotBeSaved(cc: CharClasses, disk: Disk, target: FileRef)
    requires SidecarPath(target).Some? && disk.sidecarExists(SidecarPath(target).value)
    ensures var (st, key) := GetOrCreateAsWritten(cc, disk, NewStore, target).value;
            SaveAll(st.(ledgers := st.ledgers[key := SetChanged(st.ledgers[key], true)])).error == Some(Ledger(UnboundFile))
  {
    var (st, key) := GetOrCreateAsWritten(cc, disk, NewStore, target).value;
    var st2 := st.(ledgers := st.ledgers[key := SetChanged(st.ledgers[key], true)]);
    assert st2.order == [key] && Stuck(st2, st2.order[0]);
  }

  /** With the ledger bound, the same sequence of calls saves. */
  lemma LoadedLedgerSaves(cc: CharClasses, disk: Disk, target: FileRef)
    requires SidecarPath(target).Some?
    ensures var (st, key) := GetOrCreate(cc, disk, NewStore, target).value;
            SaveAll(st.(ledgers := st.ledgers[key := SetChanged(st.ledgers[key], true)])).error.None?
  {
    var (st, key) := GetOrCreate(cc, disk, NewStore, target).value;
    var st2 := st.(ledgers := st.ledgers[key := SetChanged(st.ledgers[key], true)]);
    assert AllBound(st2);
  }
}

=== FILE: taskia.dfy ===
/** `TaskIA`: a prompt assembled from pre-prompt lines, attached documents and
    post-prompt lines. Each prompt section caches its rendered text until the section
    changes; the prompt length is cached as well, with 0 meaning "not computed". The
    content of a document's source is read through a parameter. */
module Tasks {
  import opened Wrappers
  import opened Text
  import opened Documents

  datatype TaskError =
    | NullOrEmpty        // ArgumentNullException: a null or empty argument array
    | NegativeCapacity   // ArgumentOutOfRangeException: `new StringBuilder(l)` with l < 0

  /** Each string appended as a line, in order. */
  function Lines(xs: seq<string>): (r: string)
    decreases |xs|
  {
    if xs == [] then "" else Line(xs[0]) + Lines(xs[1..])
  }

  lemma {:induction false} LinesAppend(a: seq<string>, b: seq<string>)
    ensures Lines(a + b) == Lines(a) + Lines(b)
    decreases |a|
  {
    if a != [] {
      assert (a + b)[1..] == a[1..] + b;
      LinesAppend(a[1..], b);
    } else {
      assert a + b == b;
    }
  }

  /** The length the prompt-length loop adds up for a section: each string's length
      plus the newline's. */
  function Width(xs: seq<string>): (r: nat)
    ensures |xs| > 0 ==> r >= |NewLine| * |xs|
    decreases |xs|
  {
    if xs == [] then 0 else |xs[0]| + |NewLine| + Width(xs[1..])
  }

  /** The counted width is the rendered section's length. */
  lemma {:induction false} WidthIsLength(xs: seq<string>)
    ensures Width(xs) == |Lines(xs)|
    decreases |xs|
  {
    if xs != [] {
      WidthIsLength(xs[1..]);
    }
  }

  /** The strings `WithPrePrompt` and `WithPostPrompt` keep: the non-blank ones, trimmed,
      in order. A null string counts as blank. */
  function Kept(cc: CharClasses, strings: seq<Option<string>>): (r: seq<string>)
    ensures |r| <= |strings|
    decreases |strings|
  {
    if strings == [] then []
    else (if IsNullOrWhiteSpace(cc, strings[0]) then [] else [Trim(cc, strings[0].value)]) + Kept(cc, strings[1..])
  }

  /** Every kept string is a non-blank argument, trimmed. */
  lemma {:induction false} KeptSound(cc: CharClasses, strings: seq<Option<string>>, j: nat)
    requires j < |Kept(cc, strings)|
    ensures exists i :: 0 <= i < |strings| && strings[i].Some? && !AllWhiteSpace(cc, strings[i].value)
                        && Kept(cc, strings)[j] == Trim(cc, strings[i].value)
    decreases |strings|
  {
    var rest := Kept(cc, strings[1..]);
    if IsNullOrWhiteSpace(cc, strings[0]) {
      assert Kept(cc, strings) == rest;
      KeptSound(cc, strings[1..], j);
      var i :| 0 <= i < |strings[1..]| && strings[1..][i].Some? && !AllWhiteSpace(cc, strings[1..][i].value)
               && rest[j] == Trim(cc, strings[1..][i].value);
      assert strings[i + 1] == strings[1..][i];
    } else if j > 0 {
      assert Kept(cc, strings) == [Trim(cc, strings[0].value)] + rest;
      KeptSound(cc, strings[1..], j - 1);
      var i :| 0 <= i < |strings[1..]| && strings[1..][i].Some? && !AllWhiteSpace(cc, strings[1..][i].value)
               && rest[j - 1] == Trim(cc, strings[1..][i].value);
      assert strings[i + 1] == strings[1..][i];
    }
  }

  /** No kept string is empty. */
  lemma KeptNonEmpty(cc: CharClasses, strings: seq<Option<string>>, j: nat)
    requires j < |Kept(cc, strings)|
    ensures Kept(cc, strings)[j] != ""
  {
    KeptSound(cc, strings, j);
    var i :| 0 <= i < |strings| && strings[i].Some? && !AllWhiteSpace(cc, strings[i].value)
             && Kept(cc, strings)[j] == Trim(cc, strings[i].value);
    TrimEmpty(cc, strings[i].value);
  }

  /** Every non-blank argument is kept, trimmed. */
  lemma {:induction false} KeptComplete(cc: CharClasses, strings: seq<Option<string>>, i: nat)
    requires i < |strings| && !IsNullOrWhiteSpace(cc, strings[i])
    ensures Trim(cc, strings[i].value) in Kept(cc, strings)
    decreases |strings|
  {
    var head := if IsNullOrWhiteSpace(cc, strings[0]) then [] else [Trim(cc, strings[0].value)];
    assert Kept(cc, strings) == head + Kept(cc, strings[1..]);
    if i > 0 {
      assert strings[1..][i - 1] == strings[i];
      KeptComplete(cc, strings[1..], i - 1);
    }
  }

  /** Keeping is done string by string: two argument lists give the kept strings of
      the first followed by those of the second. */
  lemma {:induction false} KeptAppend(cc: CharClasses, a: seq<Option<string>>, b: seq<Option<string>>)
    ensures Kept(cc, a + b) == Kept(cc, a) + Kept(cc, b)
    decreases |a|
  {
    if a == [] {
      assert a + b == b;
    } else {
      assert (a + b)[1..] == a[1..] + b;
      KeptAppend(cc, a[1..], b);
    }
  }

  /** One prompt section: its strings and the cached text, null until asked for. */
  datatype Section = Section(lines: seq<string>, cache: Option<string>)

  const EmptySection: Section := Section([], None)

  /** A cached text is the rendering of the section's current strings. */
  predicate Coherent(s: Section) {
    s.cache.Some? ==> s.cache.value == Lines(s.lines)
  }

  /** The body of `WithPrePrompt`/`WithPostPrompt` on a section: a null or empty
      argument list throws; otherwise the cache is dropped and the kept strings are
      appended. */
  function Extend(cc: CharClasses, s: Section, strings: Option<seq<Option<string>>>): (r: Result<Section, TaskError>)
    ensures r.Failure? <==> strings.None? || |strings.value| == 0
    ensures r.Success? ==> r.value.cache.None? && s.lines <= r.value.lines
    ensures r.Success? ==> |r.value.lines| <= |s.lines| + |strings.value|
  {
    if strings.None? || |strings.value| == 0 then Failure(NullOrEmpty)
    else Success(Section(s.lines + Kept(cc, strings.value), None))
  }

  /** Two calls append what one call with both argument lists appends. */
  lemma ExtendTwice(cc: CharClasses, s: Section, a: seq<Option<string>>, b: seq<Option<string>>)
    requires |a| > 0 && |b| > 0
    ensures Extend(cc, s, Some(a)).Success?
    ensures Extend(cc, Extend(cc, s, Some(a)).value, Some(b)) == Extend(cc, s, Some(a + b))
  {
    KeptAppend(cc, a, b);
    assert s.lines + Kept(cc, a) + Kept(cc, b) == s.lines + (Kept(cc, a) + Kept(cc, b));
  }

  /** The body of `GetPrePrompt`/`GetPostPrompt` on a section: the cached text, built
      from the strings and remembered when there is none. */
  function Render(s: Section): (r: (Section, string))
    ensures r.0.lines == s.lines && r.0.cache == Some(r.1)
    ensures s.cache.Some? ==> r == (s, s.cache.value)
    ensures Coherent(s) ==> r.1 == Lines(s.lines) && Coherent(r.0)
  {
    match s.cache
    case Some(text) => (s, text)
    case None =>
      var text := Lines(s.lines);
      (s.(cache := Some(text)), text)
  }

  /** Asking twice gives the same text and leaves the section as the first call left it. */
  lemma RenderTwice(s: Section)
    ensures Render(Render(s).0) == Render(s)
  {
  }

  /** The state of a `TaskIA`: both sections, the documents, and the cached prompt
      length (0 when it is to be computed). */
  datatype TaskIA = TaskIA(pre: Section, post: Section, documents: seq<Document>, length: int)

  /** `new TaskIA()`. */
  const NewTask: TaskIA := TaskIA(EmptySection, EmptySection, [], 0)

  /** The length `ComputeDocumentLenght` counts: the pre and post strings, each with
      its newline. The documents do not count. */
  function PromptLength(t: TaskIA): nat {
    Width(t.pre.lines) + Width(t.post.lines)
  }

  /** Both section caches are current, and the length cache is either unset or right. */
  predicate Fresh(t: TaskIA) {
    Coherent(t.pre) && Coherent(t.post) && (t.length == 0 || t.length == PromptLength(t))
  }

  function ClearPrePrompt(t: TaskIA): (r: TaskIA)
    ensures r.pre.lines == [] && r.length == 0
    ensures r.post == t.post && r.documents == t.documents
    ensures Fresh(t) ==> Fresh(r)
  {
    t.(pre := EmptySection, length := 0)
  }

  function ClearPostPrompt(t: TaskIA): (r: TaskIA)
    ensures r.post.lines == [] && r.length == 0
    ensures r.pre == t.pre && r.documents == t.documents
    ensures Fresh(t) ==> Fresh(r)
  {
    t.(post := EmptySection, length := 0)
  }

  /** `WithPrePrompt` as written: the pre section grows, but the prompt length cache is
      left as it was. */
  function WithPrePromptAsWritten(cc: CharClasses, t: TaskIA, strings: Option<seq<Option<string>>>)
    : (r: Result<TaskIA, TaskError>)
    ensures r.Failure? <==> strings.None? || |strings.value| == 0
    ensures r.Success? ==> r.value.pre == Extend(cc, t.pre, strings).value
    ensures r.Success? ==> r.value.post == t.post && r.value.documents == t.documents && r.value.length == t.length
  {
    var pre :- Extend(cc, t.pre, strings);
    Success(t.(pre := pre))
  }

  /** `WithPostPrompt` as written: the post section grows, but the prompt length cache is
      left as it was. */
  function WithPostPromptAsWritten(cc: CharClasses, t: TaskIA, strings: Option<seq<Option<string>>>)
    : (r: Result<TaskIA, TaskError>)
    ensures r.Failure? <==> strings.None? || |strings.value| == 0
    ensures r.Success? ==> r.value.post == Extend(cc, t.post, strings).value
    ensures r.Success? ==> r.value.pre == t.pre && r.value.documents == t.documents && r.value.length == t.length
  {
    var post :- Extend(cc, t.post, strings);
    Success(t.(post := post))
  }

  /** `WithPrePrompt` resetting the prompt length cache, as `ClearPrePrompt` and the
      document operations do. */
  function WithPrePrompt(cc: CharClasses, t: TaskIA, strings: Option<seq<Option<string>>>)
    : (r: Result<TaskIA, TaskError>)
    ensures r.Failure? <==> strings.None? || |strings.value| == 0
    ensures r.Success? ==> r.value.pre == Extend(cc, t.pre, strings).value && r.value.length == 0
    ensures r.Success? ==> r.value.post == t.post && r.value.documents == t.documents
    ensures r.Success? && Fresh(t) ==> Fresh(r.value)
  {
    var pre :- Extend(cc, t.pre, strings);
    Success(t.(pre := pre, length := 0))
  }

  /** `WithPostPrompt` resetting the prompt length cache. */
  function WithPostPrompt(cc: CharClasses, t: TaskIA, strings: Option<seq<Option<string>>>)
    : (r: Result<TaskIA, TaskError>)
    ensures r.Failure? <==> strings.None? || |strings.value| == 0
    ensures r.Success? ==> r.value.post == Extend(cc, t.post, strings).value && r.value.length == 0
    ensures r.Success? ==> r.value.pre == t.pre && r.value.documents == t.documents
    ensures r.Success? && Fresh(t) ==> Fresh(r.value)
  {
    var post :- Extend(cc, t.post, strings);
    Success(t.(post := post, length := 0))
  }

  function GetPrePrompt(t: TaskIA): (r: (TaskIA, string))
    ensures r.0 == t.(pre := Render(t.pre).0) && r.1 == Render(t.pre).1
    ensures Fresh(t) ==> r.1 == Lines(t.pre.lines) && Fresh(r.0)
  {
    var (pre, text) := Render(t.pre);
    (t.(pre := pre), text)
  }

  function GetPostPrompt(t: TaskIA): (r: (TaskIA, string))
    ensures r.0 == t.(post := Render(t.post).0) && r.1 == Render(t.post).1
    ensures Fresh(t) ==> r.1 == Lines(t.post.lines) && Fresh(r.0)
  {
    var (post, text) := Render(t.post);
    (t.(post := post), text)
  }

  function ClearDocuments(t: TaskIA): (r: TaskIA)
    ensures r.documents == [] && r.length == 0 && r.pre == t.pre && r.post == t.post
    ensures Fresh(t) ==> Fresh(r)
  {
    t.(documents := [], length := 0)
  }

  /** `AddDocument`: a null or empty argument list throws; otherwise the documents are
      appended and the length cache is reset. */
  function AddDocument(t: TaskIA, items: Option<seq<Document>>): (r: Result<TaskIA, TaskError>)
    ensures r.Failure? <==> items.None? || |items.value| == 0
    ensures r.Success? ==> |r.value.documents| == |t.documents| + |items.value|
    ensures r.Success? ==> r.value.documents[..|t.documents|] == t.documents
    ensures r.Success? ==> r.value.documents[|t.documents|..] == items.value
    ensures r.Success? ==> r.value.length == 0 && r.value.pre == t.pre && r.value.post == t.post
    ensures r.Success? && Fresh(t) ==> Fresh(r.value)
  {
    if items.None? || |items.value| == 0 then Failure(NullOrEmpty)
    else Success(t.(documents := t.documents + items.value, length := 0))
  }

  /** `ComputeDocumentLenght`: an unset cache is filled from the prompt strings; a set
      one is returned as it is. */
  function ComputeDocumentLenght(t: TaskIA): (r: (TaskIA, int))
    ensures r.0.pre == t.pre && r.0.post == t.post && r.0.documents == t.documents
    ensures r.0.length == r.1
    ensures t.length != 0 ==> r.1 == t.length
    ensures Fresh(t) ==> r.1 == PromptLength(t) && Fresh(r.0)
  {
    if t.length == 0 then
      var n := Width(t.pre.lines) + Width(t.post.lines);
      (t.(length := n), n)
    else (t, t.length)
  }

  /** On a task whose caches are current, the computed length is the length of the two
      prompt texts, and the documents play no part in it. */
  lemma LengthOfPromptTexts(t: TaskIA)
    requires Fresh(t)
    ensures ComputeDocumentLenght(t).1 == |GetPrePrompt(t).1| + |GetPostPrompt(t).1|
  {
    WidthIsLength(t.pre.lines);
    WidthIsLength(t.post.lines);
  }

  /** A single non-blank one-character string is kept as it is. */
  lemma KeptPlain(cc: CharClasses, c: char)
    requires !cc.isWhiteSpace(c)
    ensures Kept(cc, [Some([c])]) == [[c]]
  {
    assert !AllWhiteSpace(cc, [c]) by {
      assert [c][0] == c;
    }
    TrimUntouched(cc, [c]);
    assert [Some([c])][1..] == [];
  }

  /** As written, the length cache survives a later `WithPrePrompt`: once computed, it no
      longer counts the strings added afterwards. */
  lemma PrePromptLeavesLengthStale(cc: CharClasses)
    requires !cc.isWhiteSpace('a') && !cc.isWhiteSpace('b')
    ensures var t1 := ComputeDocumentLenght(WithPrePromptAsWritten(cc, NewTask, Some([Some("a")])).value).0;
            var t2 := WithPrePromptAsWritten(cc, t1, Some([Some("b")])).value;
            ComputeDocumentLenght(t2).1 == 3 && PromptLength(t2) == 6
  {
    KeptPlain(cc, 'a');
    KeptPlain(cc, 'b');
    var t0 := WithPrePromptAsWritten(cc, NewTask, Some([Some("a")])).value;
    assert t0.pre.lines == ["a"];
    var t1 := ComputeDocumentLenght(t0).0;
    assert t1.length == 3;
    var t2 := WithPrePromptAsWritten(cc, t1, Some([Some("b")])).value;
    assert t2.pre.lines == ["a", "b"];
    assert Width(t2.pre.lines) == 6 by {
      assert t2.pre.lines[1..] == ["b"];
    }
  }

  const StartDocument: string := "> item : "
  const EndDocument: string := "> eof"

  /** The fixed part of a document block: its header, its end marker and three newlines. */
  const DocumentOverhead: nat := |StartDocument| + |EndDocument| + 3 * |NewLine|

  /** One document in the prompt: "> item : " and the source name, the source content,
      then "> eof", each on its own line. */
  function Block(read: string -> string, d: Document): (r: string)
    ensures |r| == DocumentOverhead + SourceNameLength(d) + |SourceContent(read, d)|
    ensures StartsWith(r, StartDocument + SourceName(d) + NewLine)
    ensures EndsWith(r, Line(EndDocument))
  {
    StartDocument + Line(SourceName(d)) + Line(SourceContent(read, d)) + Line(EndDocument)
  }

  /** The documents' blocks one after another: at least the fixed overhead for each
      document and, when there is a document, a text that opens with a block header
      and closes with the "> eof" line. */
  function Blocks(read: string -> string, ds: seq<Document>): (r: string)
    ensures |r| >= |ds| * DocumentOverhead
    ensures ds != [] ==> StartsWith(r, StartDocument) && EndsWith(r, Line(EndDocument))
    decreases |ds|
  {
    if ds == [] then ""
    else
      var b := Block(read, ds[0]);
      var rest := Blocks(read, ds[1..]);
      AppendKeepsEnds(b, rest, StartDocument, Line(EndDocument));
      assert ds[1..] == [] ==> b + rest == b;
      assert |ds| * DocumentOverhead == DocumentOverhead + |ds[1..]| * DocumentOverhead;
      b + rest
  }

  lemma {:induction false} BlocksAppend(read: string -> string, a: seq<Document>, b: seq<Document>)
    ensures Blocks(read, a + b) == Blocks(read, a) + Blocks(read, b)
    decreases |a|
  {
    if a != [] {
      assert (a + b)[1..] == a[1..] + b;
      BlocksAppend(read, a[1..], b);
    } else {
      assert a + b == b;
    }
  }

  /** The text `CreatePrompt` builds: the pre strings, one block per document, an
      empty line, the post strings. The sections' caches are not consulted. */
  function PromptText(read: string -> string, t: TaskIA): (r: string)
    ensures StartsWith(r, Lines(t.pre.lines) + Blocks(read, t.documents) + NewLine)
    ensures EndsWith(r, Lines(t.post.lines))
    ensures t.documents == [] ==> r == Lines(t.pre.lines) + NewLine + Lines(t.post.lines)
  {
    Lines(t.pre.lines) + Blocks(read, t.documents) + NewLine + Lines(t.post.lines)
  }

  /** `CreatePrompt`: the builder is allocated with the capacity summed in a 32-bit
      `int`, which throws when that sum is negative; otherwise it receives the prompt
      text. */
  function CreatePrompt(read: string -> string, t: TaskIA): (r: Result<string, TaskError>)
    ensures r.Failure? <==> ToInt32(Capacity(t)) < 0
    ensures r.Failure? ==> r.error == NegativeCapacity
    ensures r.Success? ==> StartsWith(r.value, Lines(t.pre.lines) + Blocks(read, t.documents) + NewLine)
    ensures r.Success? ==> EndsWith(r.value, Lines(t.post.lines))
  {
    if ToInt32(Capacity(t)) < 0 then Failure(NegativeCapacity) else Success(PromptText(read, t))
  }

  /** A capacity that fits in an `int` lets `CreatePrompt` return its text. */
  lemma CreatePromptSucceeds(read: string -> string, t: TaskIA)
    requires 0 <= Capacity(t) < TwoTo31
    ensures CreatePrompt(read, t) == Success(PromptText(read, t))
  {
  }

  /** One document whose source is 2 GiB or more, but small enough that the sum stays
      above -2^31, added to a new task makes `CreatePrompt` throw: its `SourceLength`
      is negative and so is the capacity. */
  lemma LargeSourceFailsPrompt(read: string -> string, d: Document)
    requires d.source.Some? && TwoTo31 <= d.source.value.length
    requires d.source.value.length + SourceNameLength(d) + DocumentOverhead + |NewLine| < TwoTo32
    ensures AddDocument(NewTask, Some([d])).Success?
    ensures CreatePrompt(read, AddDocument(NewTask, Some([d])).value) == Failure(NegativeCapacity)
  {
    var t := AddDocument(NewTask, Some([d])).value;
    assert t.documents == [d] && t.length == 0;
    assert SourceLength(d) == d.source.value.length - TwoTo32;
    assert DocumentsCapacity(t.documents) == SourceNameLength(d) + SourceLength(d) + DocumentOverhead + DocumentsCapacity([]);
  }

  /** With current caches, the prompt is the pre-prompt text, the blocks, an empty line
      and the post-prompt text. */
  lemma PromptFromSectionTexts(read: string -> string, t: TaskIA)
    requires Coherent(t.pre) && Coherent(t.post)
    ensures PromptText(read, t) == GetPrePrompt(t).1 + Blocks(read, t.documents) + NewLine + GetPostPrompt(t).1
  {
  }

  /** Adding documents adds their blocks after the existing ones, before the empty line. */
  lemma AddDocumentAppendsBlocks(read: string -> string, t: TaskIA, items: seq<Document>)
    requires |items| > 0
    ensures AddDocument(t, Some(items)).Success?
    ensures PromptText(read, AddDocument(t, Some(items)).value)
            == Lines(t.pre.lines) + (Blocks(read, t.documents) + Blocks(read, items)) + NewLine + Lines(t.post.lines)
  {
    var t' := AddDocument(t, Some(items)).value;
    assert t'.documents == t.documents + items;
    BlocksAppend(read, t.documents, items);
  }

  /** The capacity of the builder `CreatePrompt` allocates: the cached length, one
      newline, and for each document its name length, its `SourceLength` and the block
      overhead. */
  function Capacity(t: TaskIA): (r: int)
    ensures t.documents == [] ==> r == t.length + |NewLine|
    ensures (forall i :: 0 <= i < |t.documents| ==> SourceLength(t.documents[i]) >= 0) ==>
              r >= t.length + |NewLine| + |t.documents| * DocumentOverhead
  {
    t.length + |NewLine| + DocumentsCapacity(t.documents)
  }

  /** The documents' part of the capacity: at least the fixed overhead for each
      document unless some `SourceLength` wrapped negative. */
  function DocumentsCapacity(ds: seq<Document>): (r: int)
    ensures (forall i :: 0 <= i < |ds| ==> SourceLength(ds[i]) >= 0) ==> r >= |ds| * DocumentOverhead
    decreases |ds|
  {
    if ds == [] then 0
    else
      assert forall i :: 0 <= i < |ds| - 1 ==> ds[1..][i] == ds[i + 1];
      SourceNameLength(ds[0]) + SourceLength(ds[0]) + DocumentOverhead + DocumentsCapacity(ds[1..])
  }

  /** The capacity is exactly the prompt's length when the length cache is right and
      every document's `SourceLength` is the length of the content read for it. */
  lemma CapacityIsPromptLength(read: string -> string, t: TaskIA)
    requires t.length == PromptLength(t)
    requires forall i :: 0 <= i < |t.documents| ==> SourceLength(t.documents[i]) == |SourceContent(read, t.documents[i])|
    ensures Capacity(t) == |PromptText(read, t)|
  {
    WidthIsLength(t.pre.lines);
    WidthIsLength(t.post.lines);
    BlocksCapacity(read, t.documents);
  }

  lemma {:induction false} BlocksCapacity(read: string -> string, ds: seq<Document>)
    requires forall i :: 0 <= i < |ds| ==> SourceLength(ds[i]) == |SourceContent(read, ds[i])|
    ensures DocumentsCapacity(ds) == |Blocks(read, ds)|
    decreases |ds|
  {
    if ds != [] {
      assert forall i :: 0 <= i < |ds[1..]| ==> ds[1..][i] == ds[i + 1];
      BlocksCapacity(read, ds[1..]);
    }
  }
}

=== FILE: text.dfy ===
/** String helpers shared by the model: the .NET string operations the repository
    relies on (Trim, ToLowerInvariant, Split, Join, IsNullOrWhiteSpace, ...), stated
    over `seq<char>`. Character classification and case mapping are not Unicode
    tables: they are carried by a `CharClasses` value, so every property proved here
    holds for whatever classification the runtime uses. */
module Text {
  import opened Wrappers

  /** The runtime's character classes: `char.IsWhiteSpace`, `char.IsControl`,
      `char.ToLowerInvariant`, and the upper-case fold that
      `StringComparer.OrdinalIgnoreCase` compares with. */
  datatype CharClasses = CharClasses(
    isWhiteSpace: char -> bool,
    isControl: char -> bool,
    toLower: char -> char,
    toUpper: char -> char)

  /** The facts about the ASCII delimiters that .NET guarantees and that some
      proofs need: printable ASCII is neither white space nor control, ' ' is white
      space, NUL is a control character, and lower-casing maps 'A'..'Z' to 'a'..'z'
      and leaves every other ASCII character alone. */
  ghost predicate Sane(cc: CharClasses) {
    && (forall c: char :: '!' <= c <= '~' ==> !cc.isWhiteSpace(c) && !cc.isControl(c))
    && cc.isWhiteSpace(' ') && !cc.isControl(' ')
    && cc.isControl('\0') && !cc.isWhiteSpace('\0')
    && (forall c: char :: 'A' <= c <= 'Z' ==> cc.toLower(c) == (c as int + 32) as char)
    && (forall c: char :: '\0' <= c <= '~' && !('A' <= c <= 'Z') ==> cc.toLower(c) == c)
  }

  const NewLine: string := "\r\n"

  /** `StringBuilder.AppendLine(s)`: the text followed by the newline separator. */
  function Line(s: string): string {
    s + NewLine
  }

  /** `string.IsNullOrEmpty`. */
  predicate IsNullOrEmpty(s: Option<string>) {
    s.None? || s.value == ""
  }

  /** Every character of `s` is white space (vacuously true for ""). */
  predicate AllWhiteSpace(cc: CharClasses, s: string) {
    forall i :: 0 <= i < |s| ==> cc.isWhiteSpace(s[i])
  }

  /** `string.IsNullOrWhiteSpace`. */
  predicate IsNullOrWhiteSpace(cc: CharClasses, s: Option<string>) {
    s.None? || AllWhiteSpace(cc, s.value)
  }

  /** The first index at or after `i` whose character `drop` does not remove. */
  function SkipForward(drop: char -> bool, s: string, i: nat): (r: nat)
    requires i <= |s|
    ensures i <= r <= |s|
    ensures forall j :: i <= j < r ==> drop(s[j])
    ensures r < |s| ==> !drop(s[r])
    decreases |s| - i
  {
    if i < |s| && drop(s[i]) then SkipForward(drop, s, i + 1) else i
  }

  /** The least index `r`, not below `lo`, such that `drop` removes all of `s[r..n]`. */
  function SkipBackward(drop: char -> bool, s: string, lo: nat, n: nat): (r: nat)
    requires lo <= n <= |s|
    ensures lo <= r <= n
    ensures forall j :: r <= j < n ==> drop(s[j])
    ensures r > lo ==> !drop(s[r - 1])
    decreases n
  {
    if n > lo && drop(s[n - 1]) then SkipBackward(drop, s, lo, n - 1) else n
  }

  /** `r` is `s` with the characters `drop` removes taken off both ends: a slice of
      `s` whose surroundings are all removable and whose ends are not. */
  predicate IsTrimmed(drop: char -> bool, s: string, r: string) {
    var a := SkipForward(drop, s, 0);
    && a + |r| <= |s| && r == s[a..a + |r|]
    && (forall i :: 0 <= i < a ==> drop(s[i]))
    && (forall i :: a + |r| <= i < |s| ==> drop(s[i]))
    && (|r| > 0 ==> !drop(r[0]) && !drop(r[|r| - 1]))
  }

  /** Both ends of `s` trimmed by `drop`. */
  function TrimBy(drop: char -> bool, s: string): (r: string)
    ensures IsTrimmed(drop, s, r)
  {
    var a := SkipForward(drop, s, 0);
    var b := SkipBackward(drop, s, a, |s|);
    assert b > a ==> s[a..b][0] == s[a];
    s[a..b]
  }

  /** `string.TrimEnd()`: drops the trailing white space and nothing else. */
  function TrimEnd(cc: CharClasses, s: string): (r: string)
    ensures r <= s
    ensures forall i :: |r| <= i < |s| ==> cc.isWhiteSpace(s[i])
    ensures |r| > 0 ==> !cc.isWhiteSpace(r[|r| - 1])
  {
    s[..SkipBackward(cc.isWhiteSpace, s, 0, |s|)]
  }

  /** `string.Trim()`: the slice of `s` between its leading and trailing white space. */
  function Trim(cc: CharClasses, s: string): (r: string)
    ensures IsTrimmed(cc.isWhiteSpace, s, r)
  {
    TrimBy(cc.isWhiteSpace, s)
  }

  /** Trimming gives "" exactly for white-space-only strings. */
  lemma TrimEmpty(cc: CharClasses, s: string)
    ensures Trim(cc, s) == "" <==> AllWhiteSpace(cc, s)
  {
    var a := SkipForward(cc.isWhiteSpace, s, 0);
    if Trim(cc, s) != "" {
      assert !cc.isWhiteSpace(s[a]);
    }
  }

  /** Trimming takes off white space that follows a string whose ends are not white
      space, and nothing else. */
  lemma TrimTrailing(cc: CharClasses, u: string, w: string)
    requires |u| > 0 && !cc.isWhiteSpace(u[0]) && !cc.isWhiteSpace(u[|u| - 1]) && AllWhiteSpace(cc, w)
    ensures Trim(cc, u + w) == u
  {
    var s := u + w;
    var r := Trim(cc, s);
    assert SkipForward(cc.isWhiteSpace, s, 0) == 0 by {
      assert s[0] == u[0];
    }
    assert !AllWhiteSpace(cc, s) by {
      assert s[0] == u[0];
    }
    TrimEmpty(cc, s);
    assert r == s[..|u|];
  }

  /** Trimming leaves a string alone when neither end is white space. */
  lemma TrimUntouched(cc: CharClasses, s: string)
    requires |s| > 0 ==> !cc.isWhiteSpace(s[0]) && !cc.isWhiteSpace(s[|s| - 1])
    ensures Trim(cc, s) == s
  {
    if |s| > 0 {
      assert SkipForward(cc.isWhiteSpace, s, 0) == 0;
      assert s[0..|s|] == s;
    }
  }

  /** The character test of `string.Trim(c)`. */
  function Is(c: char): char -> bool {
    x => x == c
  }

  /** `string.Trim(c)`: the slice of `s` between its leading and trailing runs of `c`. */
  function TrimChar(s: string, c: char): (r: string)
    ensures IsTrimmed(Is(c), s, r)
    ensures |r| > 0 ==> r[0] != c && r[|r| - 1] != c
  {
    TrimBy(Is(c), s)
  }

  /** `string.ToLowerInvariant()`: character-wise lower-casing. */
  function Lower(cc: CharClasses, s: string): (r: string)
    ensures |r| == |s|
    ensures forall i :: 0 <= i < |s| ==> r[i] == cc.toLower(s[i])
  {
    seq(|s|, i requires 0 <= i < |s| => cc.toLower(s[i]))
  }

  /** The ordinal upper-case fold: two strings are equal under
      `StringComparer.OrdinalIgnoreCase` exactly when their folds are equal. */
  function Fold(cc: CharClasses, s: string): (r: string)
    ensures |r| == |s|
    ensures forall i :: 0 <= i < |s| ==> r[i] == cc.toUpper(s[i])
  {
    seq(|s|, i requires 0 <= i < |s| => cc.toUpper(s[i]))
  }

  /** Lower-casing leaves a string made of lower-case-stable ASCII unchanged. */
  lemma LowerOfLowerAscii(cc: CharClasses, s: string)
    requires Sane(cc)
    requires forall i :: 0 <= i < |s| ==> '\0' <= s[i] <= '~' && !('A' <= s[i] <= 'Z')
    ensures Lower(cc, s) == s
  {
  }

  predicate StartsWith(s: string, prefix: string) {
    prefix <= s
  }

  predicate EndsWith(s: string, suffix: string) {
    |suffix| <= |s| && s[|s| - |suffix|..] == suffix
  }

  /** Appending text keeps a prefix; prepending text keeps a suffix. */
  lemma AppendKeepsEnds(a: string, b: string, prefix: string, suffix: string)
    ensures StartsWith(a, prefix) ==> StartsWith(a + b, prefix)
    ensures EndsWith(b, suffix) ==> EndsWith(a + b, suffix)
  {
    if EndsWith(b, suffix) {
      assert (a + b)[|a + b| - |suffix|..] == b[|b| - |suffix|..];
    }
  }

  /** Index of the first occurrence of `c`, or -1 (`string.IndexOf(char)`). */
  function IndexOf(s: string, c: char): (r: int)
    ensures -1 <= r < |s|
    ensures r == -1 <==> c !in s
    ensures r >= 0 ==> s[r] == c && forall j :: 0 <= j < r ==> s[j] != c
  {
    var k := SkipForward(x => x != c, s, 0);
    if k == |s| then -1 else k
  }

  /** Index of the last occurrence of `c`, or -1 (`string.LastIndexOf(char)`). */
  function LastIndexOf(s: string, c: char): (r: int)
    ensures -1 <= r < |s|
    ensures r == -1 <==> c !in s
    ensures r >= 0 ==> s[r] == c && forall j :: r < j < |s| ==> s[j] != c
  {
    SkipBackward(x => x != c, s, 0, |s|) - 1
  }

  /** `string.Split(char)`: every segment between separators, empty ones included. */
  function Split(s: string, sep: char): (r: seq<string>)
    ensures |r| >= 1
    ensures forall i :: 0 <= i < |r| ==> sep !in r[i]
    decreases |s|
  {
    var k := IndexOf(s, sep);
    if k < 0 then [s]
    else
      var head := s[..k];
      assert forall j :: 0 <= j < |head| ==> head[j] != sep;
      [head] + Split(s[k + 1..], sep)
  }

  /** `string.Join(sep, parts)`. */
  function Join(sep: string, parts: seq<string>): string {
    if |parts| == 0 then ""
    else if |parts| == 1 then parts[0]
    else parts[0] + sep + Join(sep, parts[1..])
  }

  /** Splitting and joining back with the same separator gives the original string. */
  lemma {:induction false} JoinSplit(s: string, sep: char)
    ensures Join([sep], Split(s, sep)) == s
    decreases |s|
  {
    var k := IndexOf(s, sep);
    if k < 0 {
      assert Split(s, sep) == [s];
    } else {
      var tail := s[k + 1..];
      JoinSplit(tail, sep);
      var rest := Split(tail, sep);
      assert Split(s, sep) == [s[..k]] + rest;
      JoinCons(sep, s[..k], rest);
      CutAt(s, k);
    }
  }

  lemma JoinCons(sep: char, head: string, rest: seq<string>)
    requires |rest| >= 1
    ensures Join([sep], [head] + rest) == head + [sep] + Join([sep], rest)
  {
    assert ([head] + rest)[1..] == rest;
  }

  /** A string is its part before position `k`, the character there, and the rest. */
  lemma CutAt(s: string, k: nat)
    requires k < |s|
    ensures s == s[..k] + [s[k]] + s[k + 1..]
  {
  }

  /** A string is its part before position `k` followed by the rest. */
  lemma SplitAt(s: string, k: nat)
    requires k <= |s|
    ensures s[..k] + s[k..] == s
  {
  }

  lemma IndexOfAfter(head: string, tail: string, sep: char)
    requires sep !in head
    ensures IndexOf(head + [sep] + tail, sep) == |head|
  {
    var s := head + [sep] + tail;
    var k := IndexOf(s, sep);
    assert s[|head|] == sep;
    assert forall j :: 0 <= j < |head| ==> s[j] == head[j];
  }

  /** Joining separator-free parts and splitting gives the parts back. */
  lemma {:induction false} SplitJoin(parts: seq<string>, sep: char)
    requires |parts| >= 1
    requires forall i :: 0 <= i < |parts| ==> sep !in parts[i]
    ensures Split(Join([sep], parts), sep) == parts
    decreases |parts|
  {
    if |parts| == 1 {
      assert IndexOf(parts[0], sep) == -1;
    } else {
      var head := parts[0];
      var tail := Join([sep], parts[1..]);
      var s := head + [sep] + tail;
      assert Join([sep], parts) == s;
      IndexOfAfter(head, tail, sep);
      assert s[..|head|] == head;
      assert s[|head| + 1..] == tail;
      assert Split(s, sep) == [head] + Split(tail, sep);
      SplitJoin(parts[1..], sep);
      assert parts == [head] + parts[1..];
    }
  }

  /** The decimal rendering of a natural number, as `int.ToString()` prints it. */
  function NatToString(n: nat): (r: string)
    ensures |r| >= 1
    ensures forall i :: 0 <= i < |r| ==> '0' <= r[i] <= '9'
  {
    var d := ['0' + (n % 10) as char];
    if n < 10 then d else NatToString(n / 10) + d
  }
}

=== FILE: traversal.dfy ===
/** `FolderParser.Parse`: walks the files under a source folder, derives each one's
    target path under the target folder, resolves the ledger of the target's folder,
    saves the previous ledger when the walk moves to another one, and hands every
    document it could build to the consumer. The C# method is a lazy iterator; here the
    consumer is a parameter `visit` that acts on the store and says whether it wants
    the next document, so stopping early is visible. */
module Traversal {
  import opened Wrappers
  import opened Text
  import opened Paths
  import opened Documents
  import opened Ledger
  import opened Registry

  /** What the walk reads from the filesystem: the recursive enumeration of the source
      folder for a pattern, a refreshed `FileInfo` for a target path, the source
      fingerprint routine and the sidecar files. */
  datatype FileSystem = FileSystem(
    enumerate: string -> seq<FileRef>,
    stat: string -> FileRef,
    hasher: FileHasher,
    disk: Disk)

  /** The settled arguments of a walk. `rootLength` is the length of the source
      folder's full name, `targetRoot` the target folder's. */
  datatype Walker = Walker(
    cc: CharClasses,
    fs: FileSystem,
    rootLength: nat,
    targetRoot: string,
    generator: string -> string)

  /** A yielded document together with the key of the ledger it was resolved to (the
      third argument of the document constructor `FolderParser` calls). */
  datatype Item = Item(doc: Document, key: string)

  datatype TraversalError =
    | NullTarget                   // ArgumentNullException: no target folder
    | RootLongerThanDirectory      // ArgumentOutOfRangeException from Substring
    | InStore(e: RegistryError)

  const DefaultPattern: string := "*.*"

  /** The pattern actually used: "*.*" for a null or empty one. */
  function EffectivePattern(pattern: Option<string>): (r: string)
    ensures r != ""
    ensures pattern.Some? && pattern.value != "" ==> r == pattern.value
  {
    if IsNullOrEmpty(pattern) then DefaultPattern else pattern.value
  }

  /** The target-name generator actually used: appending ".txt" for a null one. */
  function EffectiveGenerator(generator: Option<string -> string>): (r: string -> string)
    ensures generator.Some? ==> r == generator.value
    ensures generator.None? ==> forall name :: r(name) == name + ".txt"
  {
    if generator.Some? then generator.value else name => name + ".txt"
  }

  /** Only files that still exist and are not hidden are processed. */
  predicate Accepted(f: FileRef) {
    f.present && !f.hidden
  }

  /** The source file's folder relative to the source root, with '\\' trimmed, or ""
      when the file has no folder (`dir` is `FileInfo.Directory`). Fails when the root
      is longer than the folder. */
  function RelativeFolder(w: Walker, dir: Option<string>): (r: Result<string, TraversalError>)
    ensures dir.None? ==> r == Success("")
    ensures dir.Some? ==> (r.Failure? <==> w.rootLength > |dir.value|)
    ensures r.Success? && r.value != "" ==> r.value[0] != '\\' && r.value[|r.value| - 1] != '\\'
    ensures r.Success? && dir.Some? ==> r.value == TrimChar(dir.value[w.rootLength..], '\\')
  {
    match dir
    case None => Success("")
    case Some(d) =>
      if w.rootLength > |d| then Failure(RootLongerThanDirectory)
      else Success(TrimChar(d[w.rootLength..], '\\'))
  }

  /** The target path of a source file: target root / relative folder / generated name. */
  function TargetPath(w: Walker, f: FileRef): (r: Result<string, TraversalError>)
    ensures r.Failure? <==> RelativeFolder(w, DirectoryName(f.fullName)).Failure?
  {
    var folder :- RelativeFolder(w, DirectoryName(f.fullName));
    Success(Combine(Combine(w.targetRoot, folder), w.generator(NameWithoutExtension(f.fullName))))
  }

  /** The generated name is the file name of the target path when it is a plain name. */
  lemma TargetPathName(w: Walker, f: FileRef)
    requires TargetPath(w, f).Success?
    requires var n := w.generator(NameWithoutExtension(f.fullName));
             n != "" && !IsRooted(n) && forall j :: 0 <= j < |n| ==> !IsSeparator(n[j])
    ensures FileName(TargetPath(w, f).value) == w.generator(NameWithoutExtension(f.fullName))
  {
    TargetPathShape(w, f);
    FileNameOfCombine(Combine(w.targetRoot, RelativeFolder(w, DirectoryName(f.fullName)).value),
                      w.generator(NameWithoutExtension(f.fullName)));
  }

  /** The target path lies under the target root. */
  lemma TargetPathUnderRoot(w: Walker, f: FileRef)
    requires TargetPath(w, f).Success?
    requires w.targetRoot != ""
    requires var n := w.generator(NameWithoutExtension(f.fullName)); n != "" && !IsRooted(n)
    requires RelativeFolder(w, DirectoryName(f.fullName)).value == "" || !IsRooted(RelativeFolder(w, DirectoryName(f.fullName)).value)
    ensures StartsWith(TargetPath(w, f).value, w.targetRoot)
  {
    TargetPathShape(w, f);
    CombineUnder(w.targetRoot, RelativeFolder(w, DirectoryName(f.fullName)).value,
                 w.generator(NameWithoutExtension(f.fullName)));
  }

  lemma TargetPathShape(w: Walker, f: FileRef)
    requires TargetPath(w, f).Success?
    ensures RelativeFolder(w, DirectoryName(f.fullName)).Success?
    ensures TargetPath(w, f).value
            == Combine(Combine(w.targetRoot, RelativeFolder(w, DirectoryName(f.fullName)).value),
                       w.generator(NameWithoutExtension(f.fullName)))
  {
  }

  /** The target `FileInfo`: the filesystem's view of the target path. */
  function TargetFile(w: Walker, f: FileRef): (r: Result<FileRef, TraversalError>)
    ensures r.Success? ==> TargetPath(w, f).Success? && r.value.fullName == TargetPath(w, f).value
    ensures r.Failure? <==> TargetPath(w, f).Failure?
  {
    var p :- TargetPath(w, f);
    Success(w.fs.stat(p).(fullName := p))
  }

  /** The document built for a source file and its target: `Document.Empty` when the
      constructor threw. */
  function Build(hasher: FileHasher, f: FileRef, target: FileRef): (d: Document)
    ensures d == Empty || (d.source == Some(f) && d.target == Some(target))
    ensures !IsEmpty(d) ==> d.source == Some(f) && d.target == Some(target)
  {
    Create(hasher, Some(f), Some(target)).GetOr(Empty)
  }

  /** What an accepted source file with the given target contributes: nothing when its
      document cannot be built, otherwise the document and the key of its ledger. */
  function Contribution(w: Walker, f: FileRef, target: FileRef): (r: Result<Option<Item>, TraversalError>)
    ensures r.Failure? <==> SidecarPath(target).None?
    ensures r.Success? && r.value.Some? ==>
              && r.value.value.doc.source == Some(f)
              && r.value.value.doc.target == Some(target)
              && r.value.value.key == Key(w.cc, SidecarPath(target).value)
              && !IsEmpty(r.value.value.doc)
  {
    match SidecarPath(target)
    case None => Failure(InStore(NoDirectory))
    case Some(sidecar) =>
      var doc := Build(w.fs.hasher, f, target);
      if IsEmpty(doc) then Success(None) else Success(Some(Item(doc, Key(w.cc, sidecar))))
  }

  /** What one source file contributes, independent of the store: nothing when it is
      skipped or its document cannot be built, otherwise the document and the key of
      its ledger. */
  function Plan(w: Walker, f: FileRef): (r: Result<Option<Item>, TraversalError>)
    ensures !Accepted(f) ==> r == Success(None)
    ensures r.Success? && r.value.Some? ==>
              && Accepted(f)
              && TargetFile(w, f).Success?
              && r == Contribution(w, f, TargetFile(w, f).value)
  {
    if !Accepted(f) then Success(None)
    else
      var target :- TargetFile(w, f);
      Contribution(w, f, target)
  }

  /** A yielded document comes from the source file, points at the derived target
      path, and is not empty. */
  lemma PlannedDocument(w: Walker, f: FileRef)
    requires Plan(w, f).Success? && Plan(w, f).value.Some?
    ensures var it := Plan(w, f).value.value;
            && it.doc.source == Some(f)
            && it.doc.target.Some?
            && TargetPath(w, f).Success?
            && it.doc.target.value.fullName == TargetPath(w, f).value
            && !IsEmpty(it.doc)
  {
  }

  /** A file whose document cannot be built (an `IOException` while fingerprinting) is
      dropped. */
  lemma FingerprintFailureDrops(w: Walker, f: FileRef)
    requires Accepted(f) && f.fullName != "" && w.fs.hasher(f.fullName).None?
    requires Plan(w, f).Success?
    ensures Plan(w, f) == Success(None)
  {
  }

  /** The documents a complete walk over `files` yields, and whether no file made it
      fail. Each file contributes at most one document, in order. */
  function Expected(w: Walker, files: seq<FileRef>): (r: (seq<Item>, bool))
    ensures |r.0| <= |files|
    decreases |files|
  {
    if |files| == 0 then ([], true)
    else match Plan(w, files[0])
      case Failure(_) => ([], false)
      case Success(None) => Expected(w, files[1..])
      case Success(Some(it)) =>
        var rest := Expected(w, files[1..]);
        ([it] + rest.0, rest.1)
  }

  /** Saves the previous ledger when the walk has moved to another one and the previous
      one is dirty. */
  function FlushPrevious(st: Store, last: Option<string>, key: string): (r: Result<Store, TraversalError>)
    ensures r.Success? ==> r.value.ledgers.Keys == st.ledgers.Keys && r.value.order == st.order && r.value.disposed == st.disposed
    ensures r.Success? ==> forall k :: k in st.ledgers && Some(k) != last ==> r.value.ledgers[k] == st.ledgers[k]
    ensures r.Success? && last.Some? && last.value in st.ledgers ==>
              var before := st.ledgers[last.value];
              var after := r.value.ledgers[last.value];
              && after.entries == before.entries && after.file == before.file
              && (after.changed <==> before.changed && last.value == key)
    ensures r.Failure? <==> last.Some? && last.value != key && last.value in st.ledgers
                            && st.ledgers[last.value].changed && st.ledgers[last.value].file.None?
  {
    if last.Some? && last.value != key && last.value in st.ledgers && st.ledgers[last.value].changed then
      match Save(st.ledgers[last.value])
      case Failure(e) => Failure(InStore(Ledger(e)))
      case Success(ix) => Success(st.(ledgers := st.ledgers[last.value := ix]))
    else Success(st)
  }

  /** Where the loop body leaves the walk: the store, the ledger last used, the item
      built, and the exception raised, if any (the store is as the exception found
      it). */
  datatype Advanced = Advanced(store: Store, last: Option<string>, item: Option<Item>, error: Option<TraversalError>)

  /** The loop body for an accepted file once its target is known: resolve the ledger
      (as written: a ledger read from an existing sidecar is left unbound), save the
      previous one if the walk has moved on, build the document. */
  function Step(w: Walker, st: Store, last: Option<string>, f: FileRef, target: FileRef): (r: Advanced)
    ensures r.error.None? ==> Contribution(w, f, target).Success? && r.item == Contribution(w, f, target).value
    ensures r.error.None? ==> r.last.Some? && r.last.value in r.store.ledgers
    ensures r.error.Some? ==> r.item.None?
    ensures Grows(st, r.store)
  {
    match GetOrCreateAsWritten(w.cc, w.fs.disk, st, target)
    case Failure(e) => Advanced(st, last, None, Some(InStore(e)))
    case Success((st1, key)) =>
      RegisterGrows(w.cc, w.fs.disk, st, SidecarPath(target).value, false);
      match FlushPrevious(st1, last, key)
      case Failure(e) => Advanced(st1, last, None, Some(e))
      case Success(st2) =>
        ReshapeGrows(st1, st2);
        GrowsTrans(st, st1, st2);
        var doc := Build(w.fs.hasher, f, target);
        Advanced(st2, Some(key), if IsEmpty(doc) then None else Some(Item(doc, key)), None)
  }

  /** Moving to another ledger saves the previous one when it is dirty (entries kept,
      flag cleared); staying on the same ledger leaves its flag as it was. */
  lemma StepFlush(w: Walker, st: Store, last: string, f: FileRef, target: FileRef)
    requires Step(w, st, Some(last), f, target).error.None?
    requires last in st.ledgers
    ensures SidecarPath(target).Some?
    ensures var key := Key(w.cc, SidecarPath(target).value);
            var after := Step(w, st, Some(last), f, target).store.ledgers[last];
            && after.entries == st.ledgers[last].entries
            && (after.changed <==> st.ledgers[last].changed && key == last)
  {
    var (st1, key) := GetOrCreateAsWritten(w.cc, w.fs.disk, st, target).value;
    assert st1.ledgers[last] == st.ledgers[last];
  }

  /** Moving on from a dirty ledger read from an existing sidecar throws, as written:
      it has no file to be saved to. */
  lemma StepStuck(w: Walker, st: Store, last: string, f: FileRef, target: FileRef)
    requires Stuck(st, last)
    requires SidecarPath(target).Some? && Key(w.cc, SidecarPath(target).value) != last
    ensures Step(w, st, Some(last), f, target).error == Some(InStore(Ledger(UnboundFile)))
  {
    var (st1, key) := GetOrCreateAsWritten(w.cc, w.fs.disk, st, target).value;
    assert st1.ledgers[last] == st.ledgers[last];
  }

  /** Everything the loop body does for one enumerated file before yielding. */
  function Advance(w: Walker, st: Store, last: Option<string>, f: FileRef): (r: Advanced)
    ensures !Accepted(f) ==> r == Advanced(st, last, None, None)
    ensures r.error.None? ==> Plan(w, f).Success? && r.item == Plan(w, f).value
    ensures r.error.Some? ==> r.item.None?
    ensures Grows(st, r.store)
  {
    if !Accepted(f) then Advanced(st, last, None, None)
    else
      match TargetFile(w, f)
      case Failure(e) => Advanced(st, last, None, Some(e))
      case Success(target) => Step(w, st, last, f, target)
  }

  /** The result of a walk: the store and consumer state afterwards, the documents
      yielded, whether the enumeration ran to its end, the ledgers the final
      `store.Save()` wrote, in order, and the exception that ended the walk, if any. */
  datatype Outcome<A> = Outcome(store: Store, acc: A, yielded: seq<Item>, exhausted: bool,
                                finalSave: seq<string>, error: Option<TraversalError>)

  /** The consumer: acts on the store with the document it receives and says whether it
      asks for the next one. */
  type Visitor<!A> = (Store, A, Item) -> (Store, A, bool)

  /** The consumer only updates registered ledgers: keys, enumeration order and the
      disposed flag are left alone. */
  ghost predicate Keeps<A(!new)>(visit: Visitor<A>) {
    forall s: Store, a: A, i: Item ::
      var s' := visit(s, a, i).0;
      s'.ledgers.Keys == s.ledgers.Keys && s'.order == s.order && s'.disposed == s.disposed
  }

  /** The loop of `Parse` over the remaining enumerated files. */
  function Walk<A(!new)>(w: Walker, visit: Visitor<A>, files: seq<FileRef>, st: Store, last: Option<string>, acc: A)
    : (r: Outcome<A>)
    ensures r.yielded <= Expected(w, files).0
    ensures r.exhausted && r.error.None? ==> r.yielded == Expected(w, files).0 && Expected(w, files).1
    ensures !r.exhausted && r.error.None? ==> |r.yielded| > 0 && r.finalSave == []
    decreases |files|
  {
    if |files| == 0 then
      var f := SaveAll(st);
      Outcome(f.store, acc, [], true, f.saved, if f.error.Some? then Some(InStore(f.error.value)) else None)
    else
      var s := Advance(w, st, last, files[0]);
      if s.error.Some? then Outcome(s.store, acc, [], false, [], s.error)
      else
        match s.item
        case None => Walk(w, visit, files[1..], s.store, s.last, acc)
        case Some(item) =>
          var (st2, acc2, goOn) := visit(s.store, acc, item);
          if !goOn then Outcome(st2, acc2, [item], false, [], None)
          else
            var rest := Walk(w, visit, files[1..], st2, s.last, acc2);
            rest.(yielded := [item] + rest.yielded)
  }

  /** What a walk does to the store: it only registers ledgers, and when it runs to
      the end without an exception every ledger is clean; an exception raised by the
      final save is a dirty ledger without a file. */
  lemma {:induction false} WalkStore<A(!new)>(w: Walker, visit: Visitor<A>, files: seq<FileRef>, st: Store, last: Option<string>, acc: A)
    requires Keeps(visit) && Wf(st)
    ensures var r := Walk(w, visit, files, st, last, acc);
            && Grows(st, r.store)
            && (r.exhausted && r.error.None? ==> Clean(r.store))
            && (r.exhausted && r.error.Some? ==> r.error.value == InStore(Ledger(UnboundFile)))
    decreases |files|
  {
    var r := Walk(w, visit, files, st, last, acc);
    if |files| == 0 {
      SaveAllSucceeds(st);
      ReshapeGrows(st, r.store);
    } else {
      var s := Advance(w, st, last, files[0]);
      if s.error.None? {
        match s.item
        case None =>
          WalkStore(w, visit, files[1..], s.store, s.last, acc);
          GrowsTrans(st, s.store, r.store);
        case Some(item) =>
          var (st2, acc2, goOn) := visit(s.store, acc, item);
          ReshapeGrows(s.store, st2);
          GrowsTrans(st, s.store, st2);
          if goOn {
            WalkStore(w, visit, files[1..], st2, s.last, acc2);
            GrowsTrans(st, st2, r.store);
          }
      }
    }
  }

  /** As written, a walk that reaches its end with a dirty ledger read from an
      existing sidecar throws from the final save, after saving the ledgers before it. */
  lemma WalkEndStuck<A(!new)>(w: Walker, visit: Visitor<A>, st: Store, last: Option<string>, acc: A, j: nat)
    requires Wf(st) && j < |st.order| && Stuck(st, st.order[j])
    ensures var r := Walk(w, visit, [], st, last, acc);
            && r.exhausted && r.error == Some(InStore(Ledger(UnboundFile)))
            && st.order[j] in r.store.ledgers && r.store.ledgers[st.order[j]].changed
  {
    SaveAllStopsAtFailure(st, j);
  }

  /** `FolderParser.Parse(store, source, target, generator, pattern)`. `rootLength` is
      the length of the source folder's full name. */
  function Parse<A(!new)>(cc: CharClasses, fs: FileSystem, st: Store, rootLength: nat, targetRoot: Option<string>,
                    generator: Option<string -> string>, pattern: Option<string>, visit: Visitor<A>, acc: A)
    : (r: Outcome<A>)
    ensures targetRoot.None? ==> r == Outcome(st, acc, [], false, [], Some(NullTarget))
    ensures targetRoot.Some? ==>
              var w := Walker(cc, fs, rootLength, targetRoot.value, EffectiveGenerator(generator));
              var files := fs.enumerate(EffectivePattern(pattern));
              && r.yielded <= Expected(w, files).0
              && (r.exhausted && r.error.None? ==> r.yielded == Expected(w, files).0)
  {
    match targetRoot
    case None => Outcome(st, acc, [], false, [], Some(NullTarget))
    case Some(root) =>
      var w := Walker(cc, fs, rootLength, root, EffectiveGenerator(generator));
      Walk(w, visit, fs.enumerate(EffectivePattern(pattern)), st, None, acc)
  }

  /** A parse only registers ledgers; one that runs to the end without an exception
      leaves every ledger clean, and one that reaches the end and then throws was
      stopped by a dirty ledger without a file. */
  lemma ParseStore<A(!new)>(cc: CharClasses, fs: FileSystem, st: Store, rootLength: nat, targetRoot: Option<string>,
                            generator: Option<string -> string>, pattern: Option<string>, visit: Visitor<A>, acc: A)
    requires Keeps(visit) && Wf(st)
    ensures var r := Parse(cc, fs, st, rootLength, targetRoot, generator, pattern, visit, acc);
            && Grows(st, r.store)
            && (r.exhausted && r.error.None? ==> Clean(r.store))
            && (r.exhausted && r.error.Some? ==> r.error.value == InStore(Ledger(UnboundFile)))
  {
    if targetRoot.Some? {
      var w := Walker(cc, fs, rootLength, targetRoot.value, EffectiveGenerator(generator));
      WalkStore(w, visit, fs.enumerate(EffectivePattern(pattern)), st, None, acc);
    }
  }
}

=== FILE: wrappers.dfy ===
/** Failure-compatible carriers used by every module of the model: `Option` stands
    for a .NET reference that may be null, `Result` for a call that either returns
    a value or throws. */
module Wrappers {

  /** A nullable reference: `None` is `null`. */
  datatype Option<+T> = None | Some(value: T) {

    /** The value, or `default` when this is `None` (the C# `??` operator). */
    function GetOr(default: T): T {
      match this
      case Some(v) => v
      case None => default
    }
  }

  /** The outcome of a call that can throw: `Failure` carries the exception kind. */
  datatype Result<+R, +E> = Success(value: R) | Failure(error: E) {

    predicate IsFailure() {
      Failure?
    }

    function PropagateFailure<U>(): Result<U, E>
      requires Failure?
    {
      Failure(error)
    }

    function Extract(): R
      requires Success?
    {
      value
    }
  }
}
